=== FILE: README.md ===
# Two parsing engines, modelled in Dafny

This project models the two parsing engines of a small compilers course
project and proves properties about them.

1. **The table-driven LL(1) predictive parser of `parser.py`.** The model covers:
   - the `tokens` kinds (plus the `error` kind of the lexer's error rule);
   - the production table `tabla`;
   - the first-match lookup `buscar_en_tabla`;
   - the stack push `agregar_pila`;
   - the driver loop `miParser`, which keeps an explicit symbol stack that starts as `['eof', 'S']` and uses one token of lookahead.

   The parser reads the sequence of token kinds the lexer would produce.
2. **The natural-language front end of `parser_natural.py`.** The model covers:
   - the vocabulary `VOCABULARIO`;
   - the word tokenizer `tokenizar`, which lower-cases the text, splits it on whitespace, strips trailing `.,!?` and looks each word up;
   - the recursive-descent parser `ParserNatural` (`consumir`, `es_tipo`, `parse`, `parse_oracion`, `parse_sujeto`, `parse_verbo`, `parse_objeto`);
   - `parsear_oracion`.

Modules, one per file:

| file | module | contents |
|---|---|---|
| wrappers.dfy | `Wrappers` | `Option` |
| ll1_table.dfy | `LL1Table` | token kinds, grammar symbols, the 38 rows of `tabla`, the lookup, determinism and closure of the table |
| ll1_parser.dfy | `LL1Parser` | the stack, `agregar_pila`, one iteration of the driver (`Step`), the fuel-bounded loop (`Run`), `Parse` |
| ll1_properties.dfy | `LL1Properties` | properties that relate runs: fuel, trailing input, a removed end marker, unmatchable kinds |
| ll1_scenarios.dfy | `LL1Scenarios` | the eight programs of pruebas.py, proved step by step |
| natural_tokenizer.dfy | `NaturalTokenizer` | categories, tokens, the vocabulary, lower-casing, splitting, stripping, `tokenizar` |
| natural_parser.dfy | `NaturalParser` | parse-tree nodes, `ParseError` kinds, the parsing procedures, `parse`, `parsear_oracion` |
| natural_language.dfy | `NaturalLanguage` | the accepted language on category sequences, and the proof that the greedy parser accepts exactly it |
| natural_scenarios.dfy | `NaturalScenarios` | the eleven sentences of pruebas_fase2.py, from text to outcome |

Modelling choices:

- **LL(1) outcomes.** A run of `miParser` ends in one of:
  - `Accept` (the source returns 1);
  - `EmptyInput`;
  - `UnexpectedEnd(stack)`;
  - `Mismatch(expected, found, pos)`;
  - `NoRule(top, found, pos)`.

  Every outcome except `Accept` returns 0. Positions are indices into the token sequence.
- **Fuel.** The source loop has no iteration bound, so the driver takes a `fuel` argument. `OutOfFuel` is an artefact of the model. Fuel is shown not to matter once a run stops on its own.
- **Split iterations.** In the source, the terminal-match branch falls through into the mismatch and expansion checks of the same iteration. The model splits this into separate steps. The steps take the same decisions in the same order, because the next step first tests for acceptance and then for another match.
- **Natural-language results.** Each parsing procedure returns one of:
  - a value and the cursor after it;
  - a `ParseError` kind carrying what its message names;
  - `NoneAttributeCrash`, for the one failure that is not a `ParseError`. `parse_sujeto` reads `.tipo` of `None` when no tokens are left.

  `parse` returns the verdict together with the `errores` list.
- **Rejecting `if(5+3) x=;$`.** After `=` the lookahead is `finInstruccion` with `E` on top of the stack. `tabla` has no row for that pair (parser.py:121-168), so the driver stops on the missing rule and not on a terminal mismatch (`LL1Scenarios.IfMissingValueRejected`).

## Model

| member | source | states |
|---|---|---|
| LL1Table.TableDeterministic | parser.py:121-168 | no two rows of `tabla` share a (nonterminal, lookahead) pair |
| LL1Table.KeysStrictlyAscend | parser.py:121-168 | rows are grouped by nonterminal with distinct lookaheads: their keys strictly ascend in table order |
| LL1Table.FindRowFirst | parser.py:225-228 | the scan returns the index of a matching row, and no earlier row matches |
| LL1Table.FindRowNone | parser.py:225-229 | the scan returns nothing only when no row from the start index on matches |
| LL1Table.FindRowUnique | parser.py:225-228 | in a deterministic table the scan returns the one matching row, whichever it is |
| LL1Table.LookupSpec | parser.py:225-229 | `buscar_en_tabla` returns None exactly when no row matches; otherwise it returns the right-hand side of every matching row, and that right-hand side is well formed |
| LL1Table.TableClosed | parser.py:121-168 | every right-hand side is non-empty; `'vacia'` appears only alone; every terminal is in `tokens`; every nonterminal has rows; every lookahead is a kind some row pushes |
| LL1Table.FirstRowOf | parser.py:121-168 | every nonterminal is the left-hand side of some row |
| LL1Table.PushableExact | parser.py:13-40 | a kind is pushed by some row exactly when it is one of the 16 pushable kinds; the unmatchable kinds are exactly keyword, inicioBloque, finBloque, comentario, comentario_bloque, cadena and error |
| LL1Parser.InitialStack | parser.py:179 | the start stack `['eof', 'S']` satisfies the stack invariant (never empty, `eof` only at the bottom, no epsilon marker) |
| LL1Parser.WithoutVacia | parser.py:231-232 | the symbols pushed never include the epsilon marker and all come from the right-hand side; `WithoutVaciaSpec` and `WithoutVaciaAppend` show that all the others are pushed, in order |
| LL1Parser.WithoutVaciaSpec | parser.py:231-232 | every symbol of the right-hand side other than the epsilon marker is pushed; a right-hand side without the marker is pushed whole, and `[vacia]` pushes nothing |
| LL1Parser.WithoutVaciaAppend | parser.py:231-232 | dropping the marker commutes with concatenation, so the pushed symbols keep their order in the right-hand side |
| LL1Parser.PushRhs | parser.py:230-233 | `agregar_pila` leaves the old stack below and puts the right-hand side, without `'vacia'`, on top in reverse |
| LL1Parser.ExpansionFrame | parser.py:216-218 | expansion keeps everything below the old top; the first right-hand-side symbol ends on top; `['vacia']` just pops |
| LL1Parser.PushKeepsWellFormed | parser.py:216-217 | pushing a table right-hand side keeps the stack invariant |
| LL1Parser.Step | parser.py:188-218 | one iteration: accepts exactly on `eof` against `eof`; a matching terminal is popped and consumed, or ends the input unexpectedly when it was the last token; a different terminal gives the mismatch; a nonterminal is replaced by its table row pushed as `agregar_pila` does, or stops with the missing rule; a continuing step keeps the stack invariant |
| LL1Parser.Run | parser.py:189-218 | acceptance needs an `eof` in the remaining input; a mismatch or missing rule names the token at its position; an unexpected end leaves a well-formed stack |
| LL1Parser.Parse | parser.py:177-218 | an empty token stream, and only that, is `EmptyInput`; an accepted input contains `eof`; diagnostics refer to real positions |
| LL1Properties.RunFuelMonotone | parser.py:189-218 | a run that stops on its own has the same outcome with any larger bound |
| LL1Properties.ParseFuelMonotone | parser.py:177-218 | the same for a whole parse |
| LL1Properties.StepExtend | parser.py:190-218 | a step reads only the lookahead and whether another token follows |
| LL1Properties.RunExtend | parser.py:189-218 | tokens appended after a run that did not run out of input are never read |
| LL1Properties.AcceptIgnoresTrailing | parser.py:190-192 | tokens after the accepting `eof` do not change acceptance |
| LL1Properties.ParseReturnCode | parser.py:184-214 | `miParser` returns 1 only for an input that holds the end marker, always returns 0 without one, and a 1 survives any tokens appended after the input |
| LL1Properties.RunTruncated | parser.py:197-202 | for an input whose only `eof` is its last token, removing that `eof` turns an accepting run into an unexpected end |
| LL1Properties.TruncatedInputEndsUnexpectedly | parser.py:197-202 | an accepted input with its only `eof` removed ends with unexpected end |
| LL1Properties.UnmatchableRejectsAtOnce | parser.py:204-214 | an unmatchable lookahead stops the run at once, with a mismatch or missing rule at its own position |
| LL1Properties.RunUnmatchable | parser.py:204-214 | a run that reaches an unmatchable kind before any `eof` is never accepted |
| LL1Properties.UnmatchableNeverAccepted | parser.py:204-214 | an input with an unmatchable kind before its first `eof` is never accepted |
| LL1Scenarios.MatchStep | parser.py:194-197 | a terminal on top equal to the lookahead is popped and the input advances |
| LL1Scenarios.ExpandStep | parser.py:208-218 | a nonterminal with a keyed row is replaced by that row's right-hand side |
| LL1Scenarios.AcceptStep | parser.py:190-192 | `eof` on top against `eof` accepts |
| LL1Scenarios.MismatchStep | parser.py:204-206 | a different terminal on top is a mismatch at the current position |
| LL1Scenarios.NoRuleStep | parser.py:208-214 | a nonterminal without a row for the lookahead is a missing rule |
| LL1Scenarios.NoRuleForExpressionOnEnd | parser.py:149-151 | `E` has no row for `finInstruccion` |
| LL1Scenarios.DeclarationAccepted | pruebas.py:47-51 | `int variable = 5;$` is accepted |
| LL1Scenarios.NaturalSentenceRejected | pruebas.py:54-58 | `el perro come;$` is rejected: `asignacion` expected, identifier found at token 1 |
| LL1Scenarios.ListDeclarationAccepted | pruebas.py:61-65 | `float a, b, c = 9;$` is accepted |
| LL1Scenarios.ArithmeticAccepted | pruebas.py:69-73 | `int x = (5 + 3) * 2;$` is accepted |
| LL1Scenarios.IfStatementAccepted | pruebas.py:76-80 | `if(5+3) x=1;$` is accepted |
| LL1Scenarios.IfMissingValueRejected | pruebas.py:83-87 | `if(5+3) x=;$` is rejected: no rule for `E` on `finInstruccion` at token 8 |
| LL1Scenarios.ForStatementAccepted | pruebas.py:90-94 | `for(x=0; x; x=1) x=3;$` is accepted |
| LL1Scenarios.ForMissingValueRejected | pruebas.py:97-101 | `for(x=0; x; x=1) x=;$` is rejected: no rule for `E` on `finInstruccion` at token 14 |
| NaturalTokenizer.EntryShapes | parser_natural.py:26-72 | the vocabulary has 36 entries, none `DESCONOCIDO`; 33 words start with a letter, then `.`, `?`, `!` |
| NaturalTokenizer.KeysDistinct | parser_natural.py:26-72 | no two vocabulary entries share a key, so the dictionary keeps every entry as written |
| NaturalTokenizer.LookupFromSpec | parser_natural.py:89-90 | the lookup from an entry on fails exactly when no later key matches; on success it returns a matching entry's category |
| NaturalTokenizer.LookupAt | parser_natural.py:26-72 | looking up any entry's key returns that entry's category |
| NaturalTokenizer.LookupSpec | parser_natural.py:89-90 | `palabra in VOCABULARIO` holds exactly when some entry has that key; the category found belongs to an entry and is never `DESCONOCIDO` |
| NaturalTokenizer.Classify | parser_natural.py:89-94 | a word is `DESCONOCIDO` exactly when it is not in the vocabulary; otherwise it gets its entry's category |
| NaturalTokenizer.MarkLookups | parser_natural.py:69-71 | `.`, `?` and `!` map to PUNTO, INTERROGACION and EXCLAMACION |
| NaturalTokenizer.PunctuationEntries | parser_natural.py:97-99 | a suffix of trailing marks is in the vocabulary exactly when it is `.`, `?` or `!`, and the category found is the matching sentence mark |
| NaturalTokenizer.Lower | parser_natural.py:81 | lower-casing keeps the length and maps each ASCII capital to its small letter |
| NaturalTokenizer.Words | parser_natural.py:81 | `split()` yields non-empty words without whitespace which, written together, are the text without its whitespace |
| NaturalTokenizer.WordsLayout | parser_natural.py:81 | every text is its words laid out between runs of whitespace, non-empty between two words: the words are the maximal runs of other characters, in order |
| NaturalTokenizer.LayoutWords | parser_natural.py:81 | conversely, words laid out between runs of whitespace split back into exactly those words |
| NaturalTokenizer.WordsUnwords | parser_natural.py:81 | splitting words joined by single spaces gives back the same words |
| NaturalTokenizer.StripTrailing | parser_natural.py:85 | `rstrip('.,!?')` gives the longest prefix not ending in a mark; everything removed is a mark |
| NaturalTokenizer.Suffix | parser_natural.py:86 | the stripped part completes the word and consists of marks only |
| NaturalTokenizer.WordTokens | parser_natural.py:83-99 | a word yields its word token (category or `DESCONOCIDO`, stripped text, word index), then a mark token at the same index exactly when the suffix is `.`, `?` or `!`, carrying the suffix as text and `PUNTO`, `INTERROGACION` or `EXCLAMACION` as category |
| NaturalTokenizer.MarkTokenEntry | parser_natural.py:96-99 | a word's mark token is exactly the token built from the suffix's own vocabulary entry, at the word's index |
| NaturalTokenizer.WordGroups | parser_natural.py:83-99 | one token group per word, each the tokens that word yields at its index |
| NaturalTokenizer.WordListTokens | parser_natural.py:83-99 | the concatenated groups have non-decreasing positions, each naming a word, and at index `i` hold exactly word `i`'s tokens |
| NaturalTokenizer.TokenizeSpec | parser_natural.py:75-101 | `tokenizar` is fixed word by word: ordered positions, each naming a word, and word `i`'s tokens are exactly what that word yields |
| NaturalTokenizer.UnknownWordToken | parser_natural.py:91-94 | a word outside the vocabulary becomes a `DESCONOCIDO` token carrying its stripped text and index |
| NaturalParser.Consume | parser_natural.py:128-142 | `consumir` fails without position at the end, fails at the token's position on a category mismatch, and otherwise returns that token and advances by one |
| NaturalParser.NounPhrase | parser_natural.py:192-229 | Det Noun [Adj], Adj Noun, Noun [Adj]: what the node keeps, that the cursor ends just past the noun or past the adjective taken after it, and the error when no noun follows |
| NaturalParser.ParseSujeto | parser_natural.py:187-234 | a subject starts on a determiner, adjective or noun; any other token fails at its position; no token crashes |
| NaturalParser.ParseVerbo | parser_natural.py:236-242 | the verb is taken exactly when the current token is a verb |
| NaturalParser.ParseObjeto | parser_natural.py:244-296 | the object is read only when the current token can start a phrase; otherwise it is absent and nothing is consumed |
| NaturalParser.ParseOracion | parser_natural.py:167-185 | `parse_oracion` crashes exactly on an empty token list; the tree holds the subject, verb and object the three procedures read one after the other, and the token after the object as punctuation exactly when it is a sentence mark; a failure is the error of the first procedure that fails |
| NaturalParser.Parse | parser_natural.py:149-165 | `parse` succeeds exactly when the sentence uses every token, with the tree `parse_oracion` built; leftover tokens are reported by their first token; an error of `parse_oracion` is passed on unchanged; a `ParseError` is recorded exactly once in `errores` |
| NaturalParser.RejectionPosition | parser_natural.py:128-233 | a rejection carries no position only when the input ran out; otherwise its position is the word index of an input token that its message describes |
| NaturalLanguage.PhraseEnd | parser_natural.py:108-110 | on categories, the greedy phrase is a phrase shape that no longer shape extends; there is none exactly when no prefix is a shape |
| NaturalLanguage.PhraseEndUnique | parser_natural.py:192-229 | a phrase shape not followed by an adjective is exactly what the greedy reading takes |
| NaturalLanguage.ObjectEnd | parser_natural.py:244-252 | an object reads nothing exactly when the current category cannot start a phrase |
| NaturalLanguage.SentenceEndLanguage | parser_natural.py:107-110 | the greedy reading covers all categories exactly when they form Subj VERBO Obj? Punct? |
| NaturalLanguage.NounPhraseReads | parser_natural.py:192-229 | a successful phrase ends where the greedy reading on categories ends |
| NaturalLanguage.NounPhraseFails | parser_natural.py:193-194 | a failed phrase has no greedy reading |
| NaturalLanguage.SujetoReads | parser_natural.py:187-229 | a parsed subject ends where the greedy reading ends |
| NaturalLanguage.SujetoFails | parser_natural.py:230-234 | a failed subject has no greedy reading |
| NaturalLanguage.ObjetoReads | parser_natural.py:244-296 | a parsed object ends where the object reading ends |
| NaturalLanguage.ObjetoFails | parser_natural.py:256-280 | a failed object has no reading |
| NaturalLanguage.OracionReads | parser_natural.py:167-185 | a parsed sentence ends where the category reading ends |
| NaturalLanguage.OracionFails | parser_natural.py:167-185 | a failed sentence has no category reading |
| NaturalLanguage.ParseAcceptsLanguage | parser_natural.py:149-185 | `parse` accepts a token list exactly when its categories are Subj VERBO Obj? Punct? |
| NaturalLanguage.LanguageKnownWords | parser_natural.py:107-110 | no sentence of the language contains `DESCONOCIDO` |
| NaturalLanguage.UnknownTokenRejected | parser_natural.py:128-142 | a token list holding a `DESCONOCIDO` token is never parsed |
| NaturalLanguage.UnknownWordRejected | parser_natural.py:299-311 | `parsear_oracion` never accepts a text with a word outside the vocabulary |
| NaturalScenarios.BasicAccepted | pruebas_fase2.py:96-100 | `El perro come carne.` gives subject {el, perro}, verb come, object {carne}, mark `.` |
| NaturalScenarios.NoDeterminerAccepted | pruebas_fase2.py:103-107 | `Perro come carne.` gives subject {perro} |
| NaturalScenarios.SubjectAdjectiveAccepted | pruebas_fase2.py:110-114 | `El perro grande come carne.` keeps adjective grande in the subject |
| NaturalScenarios.ObjectAdjectiveAccepted | pruebas_fase2.py:117-121 | `El niño lee libro nuevo.` keeps adjective nuevo in the object |
| NaturalScenarios.NoObjectAccepted | pruebas_fase2.py:124-128 | `El niño corre.` has no object |
| NaturalScenarios.ObjectDeterminerAccepted | pruebas_fase2.py:131-135 | `La niña bebe el agua.` gives object {el, agua} |
| NaturalScenarios.QuestionAccepted | pruebas_fase2.py:138-142 | `El gato duerme?` has no object and mark `?` |
| NaturalScenarios.VerbFirstRejected | pruebas_fase2.py:149-154 | `Come el perro carne.` fails at word 0: no subject, a verb found |
| NaturalScenarios.MissingVerbRejected | pruebas_fase2.py:157-162 | `El perro carne.` fails at word 2: verb expected, noun carne found |
| NaturalScenarios.UnknownWordRejected | pruebas_fase2.py:165-170 | `El elefante come hierba.` fails at word 1: noun expected, `DESCONOCIDO` elefante found |
| NaturalScenarios.IncompleteRejected | pruebas_fase2.py:173-178 | `El perro.` fails at word 1: verb expected, PUNTO found |

## Left out

- The PLY lexer (the `t_*` rules and `lex.lex()`) is not modelled. Its matching priority comes from PLY's regular-expression engine. The LL(1) parser takes token kinds directly, and the scenario inputs are written out as the kinds the lexer yields for them.
- Printed diagnostics, `tok.value` and `tok.lexpos` are left out. Each diagnostic becomes an outcome whose fields carry the token kinds and the token index instead of a character offset.
- The global mutable `stack` is modelled as a value threaded through the steps. The reset at the start of each call makes the two equivalent.
- LL1Parser.Run: bounded by `fuel`; on a run longer than its bound it returns `OutOfFuel`, which the source has no counterpart for. With the shipped `tabla` the source loop stops on every input: no row is left-recursive, so only finitely many expansions can happen before the next terminal is matched, and each match consumes a token. The model does not prove this termination.
- NaturalTokenizer.Lower: lower-cases ASCII capitals only, because full Unicode case mapping is out of reach; the non-ASCII vocabulary words are already lower case.
- NaturalTokenizer.Words: treats only the ASCII whitespace characters as separators, not the other Unicode spaces `str.split()` accepts.
- The vocabulary dictionary is an ordered list of its entries. The keys are distinct (`NaturalTokenizer.KeysDistinct`), so looking up the first match is the same as the dictionary lookup.
- Error messages are modelled by their kind and the values they name, not as formatted strings. `errores` holds those kinds.
- The natural-language scenarios are built from their words joined by single spaces. That is exactly how the test texts are written.
- The `Term(Error)` symbol can never appear on the stack, because no row pushes it. The mismatch check therefore never meets a terminal outside `tokens`.
- `mostrar_estructura` is left out: it only prints. So is generar_pdf.py, which renders a document to files.
- pruebas.py and pruebas_fase2.py are print-only harnesses, and pruebas_fase2.py's comparison against spaCy is an external library. Only their inputs and the outcomes they expect appear, as scenario lemmas.

=== FILE: ll1_parser.dfy ===
/**
 * The stack-driven predictive parser `miParser` of parser.py: an explicit
 * symbol stack that starts as [eof, S] (bottom first), one token of
 * lookahead, and the production table of module LL1Table.
 *
 * The input is the token-kind sequence the lexer would produce. The source
 * loop has no iteration guard, so the driver takes a `fuel` bound;
 * `OutOfFuel` is an artefact of the model, not an outcome of the source.
 */
module LL1Parser {
  import opened Wrappers
  import opened LL1Table

  /** What one call of `miParser` ends with. Only `Accept` corresponds to
      the source returning 1; every other outcome returns 0. Positions are
      indices into the token sequence. */
  datatype Outcome =
    | Accept
    | EmptyInput
    | UnexpectedEnd(stack: seq<Symbol>)
    | Mismatch(expected: Kind, found: Kind, pos: nat)
    | NoRule(top: Symbol, found: Kind, pos: nat)
    | OutOfFuel

  /** A symbol that can sit above the end marker: the start symbol or any
      symbol some right-hand side pushes. */
  predicate StackSymbol(s: Symbol) {
    match s
    case NonTerm(_) => true
    case Term(k) => Pushable(k)
    case Vacia => false
  }

  /** The stack invariant: never empty, the end marker at the bottom and
      nowhere else, and no epsilon marker anywhere. */
  predicate WellFormedStack(stack: seq<Symbol>) {
    && |stack| >= 1
    && stack[0] == Term(Eof)
    && forall i | 1 <= i < |stack| :: StackSymbol(stack[i])
  }

  function InitialStack(): (stack: seq<Symbol>)
    ensures WellFormedStack(stack)
  {
    [Term(Eof), NonTerm(S)]
  }

  function Top(stack: seq<Symbol>): Symbol
    requires |stack| >= 1
  {
    stack[|stack| - 1]
  }

  function Pop(stack: seq<Symbol>): seq<Symbol>
    requires |stack| >= 1
  {
    stack[..|stack| - 1]
  }

  /** The right-hand side with the epsilon marker removed, in order. */
  function WithoutVacia(rhs: seq<Symbol>): (r: seq<Symbol>)
    ensures Vacia !in r
    ensures forall s | s in r :: s in rhs
  {
    if rhs == [] then []
    else (if rhs[0] == Vacia then [] else [rhs[0]]) + WithoutVacia(rhs[1..])
  }

  function Reverse<X>(s: seq<X>): (r: seq<X>)
    ensures |r| == |s|
    ensures forall i | 0 <= i < |s| :: r[i] == s[|s| - 1 - i]
  {
    if s == [] then [] else Reverse(s[1..]) + [s[0]]
  }

  lemma {:induction false} ReverseSnoc<X>(s: seq<X>, x: X)
    ensures Reverse(s + [x]) == [x] + Reverse(s)
  {
    if s != [] {
      assert (s + [x])[1..] == s[1..] + [x];
      ReverseSnoc(s[1..], x);
    }
  }

  lemma {:induction false} WithoutVaciaSnoc(rhs: seq<Symbol>, x: Symbol)
    ensures WithoutVacia(rhs + [x]) == WithoutVacia(rhs) + (if x == Vacia then [] else [x])
  {
    if rhs == [] {
      assert rhs + [x] == [x];
    } else {
      assert (rhs + [x])[1..] == rhs[1..] + [x];
      WithoutVaciaSnoc(rhs[1..], x);
    }
  }

  /** Every symbol of the right-hand side other than the marker is kept:
      a right-hand side without the marker is pushed whole, and `[vacia]`
      pushes nothing. */
  lemma {:induction false} WithoutVaciaSpec(rhs: seq<Symbol>)
    ensures forall i | 0 <= i < |rhs| && rhs[i] != Vacia :: rhs[i] in WithoutVacia(rhs)
    ensures Vacia !in rhs ==> WithoutVacia(rhs) == rhs
    ensures rhs == [Vacia] ==> WithoutVacia(rhs) == []
  {
    if rhs != [] {
      WithoutVaciaSpec(rhs[1..]);
      forall i | 0 <= i < |rhs| && rhs[i] != Vacia
        ensures rhs[i] in WithoutVacia(rhs)
      {
        if i > 0 {
          assert rhs[i] == rhs[1..][i - 1];
        }
      }
      if Vacia !in rhs {
        assert Vacia !in rhs[1..];
        assert rhs == [rhs[0]] + rhs[1..];
      }
    }
  }

  /** Removing the marker commutes with concatenation, so the symbols that
      stay keep their order. */
  lemma {:induction false} WithoutVaciaAppend(a: seq<Symbol>, b: seq<Symbol>)
    ensures WithoutVacia(a + b) == WithoutVacia(a) + WithoutVacia(b)
  {
    if a == [] {
      assert a + b == b;
    } else {
      assert (a + b)[1..] == a[1..] + b;
      WithoutVaciaAppend(a[1..], b);
    }
  }

  /** `agregar_pila`: walks the right-hand side from its last symbol to its
      first, pushing every symbol except the epsilon marker. The result is
      the old stack with the marker-free right-hand side on top, reversed,
      so that its first symbol ends up on top. */
  function PushRhs(stack: seq<Symbol>, rhs: seq<Symbol>): (r: seq<Symbol>)
    ensures r == stack + Reverse(WithoutVacia(rhs))
    decreases |rhs|
  {
    if rhs == [] then stack
    else
      var last := rhs[|rhs| - 1];
      var front := rhs[..|rhs| - 1];
      assert rhs == front + [last];
      WithoutVaciaSnoc(front, last);
      ReverseSnoc(WithoutVacia(front), last);
      PushRhs(if last == Vacia then stack else stack + [last], front)
  }

  /** The expansion frame: replacing the top by a right-hand side leaves
      everything below untouched and puts the first non-marker symbol of the
      right-hand side on top. */
  lemma ExpansionFrame(stack: seq<Symbol>, rhs: seq<Symbol>)
    requires |stack| >= 1
    ensures var r := PushRhs(Pop(stack), rhs);
      && |r| == |stack| - 1 + |WithoutVacia(rhs)|
      && r[..|stack| - 1] == Pop(stack)
      && (WithoutVacia(rhs) != [] ==> Top(r) == WithoutVacia(rhs)[0])
      && (rhs == [Vacia] ==> r == Pop(stack))
  {
    var r := PushRhs(Pop(stack), rhs);
    assert r[..|stack| - 1] == Pop(stack);
    if rhs == [Vacia] {
      assert WithoutVacia(rhs) == [];
    }
  }

  /** Pushing a right-hand side of the table keeps the stack invariant. */
  lemma PushKeepsWellFormed(stack: seq<Symbol>, rhs: seq<Symbol>)
    requires |stack| >= 1 && stack[0] == Term(Eof)
    requires forall i | 1 <= i < |stack| :: StackSymbol(stack[i])
    requires WellFormedRhs(rhs)
    ensures WellFormedStack(PushRhs(stack, rhs))
  {
    var r := PushRhs(stack, rhs);
    WithoutVaciaSpec(rhs);
    if Vacia in rhs {
      assert r == stack + Reverse([]);
    } else {
      var pushed := Reverse(rhs);
      assert r == stack + pushed;
      forall i | 1 <= i < |r|
        ensures StackSymbol(r[i])
      {
        if i >= |stack| {
          assert r[i] == pushed[i - |stack|] == rhs[|rhs| - 1 - (i - |stack|)];
          assert r[i] in rhs;
        } else {
          assert r[i] == stack[i];
        }
      }
    }
  }

  /** One iteration of the `while True` loop, with the terminal-match branch
      and the checks that follow it in the source split into separate steps. */
  datatype StepResult = Done(outcome: Outcome) | Continue(stack: seq<Symbol>, pos: nat)

  function Step(input: seq<Kind>, stack: seq<Symbol>, pos: nat): (r: StepResult)
    requires WellFormedStack(stack) && pos < |input|
    // acceptance needs the end marker both on top and as lookahead
    ensures r == Done(Accept) <==> Top(stack) == Term(Eof) && input[pos] == Eof
    // a step either stops with a diagnostic or keeps the stack invariant
    ensures r.Done? ==> r.outcome.Accept? || r.outcome.UnexpectedEnd? || r.outcome.Mismatch? || r.outcome.NoRule?
    ensures r.Continue? ==> WellFormedStack(r.stack) && r.pos < |input|
    // input is consumed exactly when the top terminal equals the lookahead
    ensures r.Continue? ==>
      || (r.pos == pos + 1 && r.stack == Pop(stack) && Top(stack) == Term(input[pos]))
      || (r.pos == pos && Top(stack).NonTerm?)
    ensures r.Done? && r.outcome.UnexpectedEnd? ==>
      pos + 1 == |input| && Top(stack) == Term(input[pos]) && r.outcome.stack == Pop(stack)
    ensures r.Done? && r.outcome.Mismatch? ==>
      Top(stack).Term? && r.outcome == Mismatch(Top(stack).k, input[pos], pos) && Top(stack).k != input[pos]
    ensures r.Done? && r.outcome.NoRule? ==>
      && r.outcome == NoRule(Top(stack), input[pos], pos)
      && Top(stack).NonTerm?
      && Lookup(Top(stack).n, input[pos]).None?
    // a nonterminal on top is expanded by its table row, or stops the run
    ensures Top(stack).NonTerm? ==>
      var rule := Lookup(Top(stack).n, input[pos]);
      && (rule.None? ==> r == Done(NoRule(Top(stack), input[pos], pos)))
      && (rule.Some? ==> r == Continue(PushRhs(Pop(stack), rule.value), pos))
    // a terminal on top that differs from the lookahead is a mismatch
    ensures Top(stack).Term? && Top(stack).k != input[pos] ==>
      r == Done(Mismatch(Top(stack).k, input[pos], pos))
    // a matching terminal other than the end marker is consumed
    ensures Top(stack) == Term(input[pos]) && input[pos] != Eof ==>
      r == (if pos + 1 == |input| then Done(UnexpectedEnd(Pop(stack))) else Continue(Pop(stack), pos + 1))
  {
    var x := Top(stack);
    var tok := input[pos];
    if x == Term(Eof) && tok == Eof then
      Done(Accept)
    else if x == Term(tok) then
      if pos + 1 == |input| then Done(UnexpectedEnd(Pop(stack)))
      else Continue(Pop(stack), pos + 1)
    else
      match x
      case Term(k) =>
        // every terminal on a well-formed stack is a member of `tokens`
        Done(Mismatch(k, tok, pos))
      case NonTerm(n) =>
        match Lookup(n, tok)
        case None => Done(NoRule(x, tok, pos))
        case Some(rhs) =>
          LookupSpec(n, tok);
          PushKeepsWellFormed(Pop(stack), rhs);
          Continue(PushRhs(Pop(stack), rhs), pos)
  }

  /** The driver loop, bounded by `fuel` steps. */
  function Run(input: seq<Kind>, stack: seq<Symbol>, pos: nat, fuel: nat): (r: Outcome)
    requires WellFormedStack(stack) && pos < |input|
    ensures !r.EmptyInput?
    ensures r.Accept? ==> Eof in input[pos..]
    ensures r.UnexpectedEnd? ==> WellFormedStack(r.stack)
    ensures r.Mismatch? ==> pos <= r.pos < |input| && input[r.pos] == r.found && r.expected != r.found
    ensures r.NoRule? ==>
      && pos <= r.pos < |input| && input[r.pos] == r.found && r.top.NonTerm?
      && Lookup(r.top.n, r.found).None?
    decreases fuel
  {
    if fuel == 0 then OutOfFuel
    else
      match Step(input, stack, pos)
      case Done(o) => o
      case Continue(stack', pos') => Run(input, stack', pos', fuel - 1)
  }

  /** `miParser` on a token-kind sequence. */
  function Parse(input: seq<Kind>, fuel: nat): (r: Outcome)
    ensures r.EmptyInput? <==> input == []
    ensures r.Accept? ==> Eof in input
    ensures r.UnexpectedEnd? ==> WellFormedStack(r.stack)
    ensures r.Mismatch? ==> r.pos < |input| && input[r.pos] == r.found && r.expected != r.found
    ensures r.NoRule? ==> r.pos < |input| && input[r.pos] == r.found && r.top.NonTerm? && Lookup(r.top.n, r.found).None?
  {
    if input == [] then EmptyInput
    else Run(input, InitialStack(), 0, fuel)
  }

  /** What `miParser` returns: 1 on acceptance, 0 on every rejection. */
  function ReturnCode(o: Outcome): int {
    if o.Accept? then 1 else 0
  }
}

=== FILE: ll1_properties.dfy ===
/**
 * Properties of the predictive parser that relate several runs: fuel,
 * extra input after acceptance, a removed end marker, and lookahead kinds
 * the table never mentions.
 */
module LL1Properties {
  import opened LL1Table
  import opened LL1Parser

  /** Fuel only matters when it runs out: a run that stops on its own gives
      the same outcome with any larger bound. */
  lemma {:induction false} RunFuelMonotone(input: seq<Kind>, stack: seq<Symbol>, pos: nat, fuel: nat, more: nat)
    requires WellFormedStack(stack) && pos < |input|
    requires Run(input, stack, pos, fuel) != OutOfFuel && fuel <= more
    ensures Run(input, stack, pos, more) == Run(input, stack, pos, fuel)
    decreases fuel
  {
    match Step(input, stack, pos)
    case Done(_) =>
    case Continue(stack', pos') =>
      RunFuelMonotone(input, stack', pos', fuel - 1, more - 1);
  }

  lemma ParseFuelMonotone(input: seq<Kind>, fuel: nat, more: nat)
    requires Parse(input, fuel) != OutOfFuel && fuel <= more
    ensures Parse(input, more) == Parse(input, fuel)
  {
    if input != [] {
      RunFuelMonotone(input, InitialStack(), 0, fuel, more);
    }
  }

  /** A step only reads the lookahead and whether another token follows. */
  lemma StepExtend(input: seq<Kind>, extra: seq<Kind>, stack: seq<Symbol>, pos: nat)
    requires WellFormedStack(stack) && pos < |input|
    requires !(Step(input, stack, pos).Done? && Step(input, stack, pos).outcome.UnexpectedEnd?)
    ensures Step(input + extra, stack, pos) == Step(input, stack, pos)
  {
    assert (input + extra)[pos] == input[pos];
  }

  /** Tokens beyond the point where a run stops are never read: unless the
      run ran out of input, appending tokens does not change its outcome. */
  lemma {:induction false} RunExtend(input: seq<Kind>, extra: seq<Kind>, stack: seq<Symbol>, pos: nat, fuel: nat)
    requires WellFormedStack(stack) && pos < |input|
    requires !Run(input, stack, pos, fuel).UnexpectedEnd?
    ensures Run(input + extra, stack, pos, fuel) == Run(input, stack, pos, fuel)
    decreases fuel
  {
    if fuel > 0 {
      StepExtend(input, extra, stack, pos);
      match Step(input, stack, pos)
      case Done(_) =>
      case Continue(stack', pos') =>
        RunExtend(input, extra, stack', pos', fuel - 1);
    }
  }

  /** Acceptance happens on the first accepting end marker: anything after
      it is never read. */
  lemma AcceptIgnoresTrailing(input: seq<Kind>, extra: seq<Kind>, fuel: nat)
    requires Parse(input, fuel) == Accept
    ensures Parse(input + extra, fuel) == Accept
  {
    RunExtend(input, extra, InitialStack(), 0, fuel);
  }

  /** What the 1 that `miParser` returns tells its caller: the input held
      an end marker, an input without one always gets 0, and a 1 survives
      any tokens appended to the input. */
  lemma ParseReturnCode(input: seq<Kind>, extra: seq<Kind>, fuel: nat)
    ensures ReturnCode(Parse(input, fuel)) == 1 ==> input != [] && Eof in input
    ensures Eof !in input ==> ReturnCode(Parse(input, fuel)) == 0
    ensures ReturnCode(Parse(input, fuel)) == 1 ==> ReturnCode(Parse(input + extra, fuel)) == 1
  {
    if Parse(input, fuel) == Accept {
      AcceptIgnoresTrailing(input, extra, fuel);
    }
  }

  lemma {:induction false} RunTruncated(w: seq<Kind>, stack: seq<Symbol>, pos: nat, fuel: nat)
    requires WellFormedStack(stack) && pos < |w|
    requires Eof !in w
    requires Run(w + [Eof], stack, pos, fuel) == Accept
    ensures Run(w, stack, pos, fuel).UnexpectedEnd?
    decreases fuel
  {
    var input := w + [Eof];
    assert input[pos] == w[pos];
    assert w[pos] in w;
    var long := Step(input, stack, pos);
    var short := Step(w, stack, pos);
    match long
    case Done(_) =>
    case Continue(stack', pos') =>
      if pos' == |w| {
        assert short.Done? && short.outcome.UnexpectedEnd?;
      } else {
        assert short == long;
        RunTruncated(w, stack', pos', fuel - 1);
      }
  }

  /** An accepted input ending in its only end marker: removing that marker
      leaves an input that runs out while the stack still expects symbols. */
  lemma TruncatedInputEndsUnexpectedly(w: seq<Kind>, fuel: nat)
    requires Eof !in w && w != []
    requires Parse(w + [Eof], fuel) == Accept
    ensures Parse(w, fuel).UnexpectedEnd?
  {
    RunTruncated(w, InitialStack(), 0, fuel);
  }

  /** A lookahead kind the table never mentions is rejected at once, by a
      mismatch or a missing rule, at its own position. */
  lemma UnmatchableRejectsAtOnce(input: seq<Kind>, stack: seq<Symbol>, pos: nat)
    requires WellFormedStack(stack) && pos < |input|
    requires Unmatchable(input[pos])
    ensures var r := Step(input, stack, pos);
      r.Done? && (r.outcome.Mismatch? || r.outcome.NoRule?) && r.outcome.pos == pos
  {
    if Top(stack).NonTerm? {
      TableClosed();
      LookupSpec(Top(stack).n, input[pos]);
    }
  }

  lemma {:induction false} RunUnmatchable(input: seq<Kind>, stack: seq<Symbol>, pos: nat, i: nat, fuel: nat)
    requires WellFormedStack(stack) && pos <= i < |input|
    requires Unmatchable(input[i])
    requires forall j | pos <= j < i :: input[j] != Eof
    ensures Run(input, stack, pos, fuel) != Accept
    decreases fuel
  {
    if fuel > 0 {
      if pos == i {
        UnmatchableRejectsAtOnce(input, stack, pos);
      } else {
        assert input[pos] != Eof;
        match Step(input, stack, pos)
        case Done(_) =>
        case Continue(stack', pos') =>
          RunUnmatchable(input, stack', pos', i, fuel - 1);
      }
    }
  }

  /** Reaching keyword, inicioBloque, finBloque, comentario,
      comentario_bloque, cadena or error as lookahead before any end marker
      makes acceptance impossible. */
  lemma UnmatchableNeverAccepted(input: seq<Kind>, i: nat, fuel: nat)
    requires i < |input| && Unmatchable(input[i])
    requires Eof !in input[..i]
    ensures Parse(input, fuel) != Accept
  {
    forall j | 0 <= j < i
      ensures input[j] != Eof
    {
      assert input[j] == input[..i][j];
    }
    RunUnmatchable(input, InitialStack(), 0, i, fuel);
  }
}

=== FILE: ll1_scenarios.dfy ===
/**
 * The scenarios of pruebas.py, run through the model on hand-lexed token
 * kinds. Each run is proved step by step: `MatchStep` and `ExpandStep` state
 * what one iteration of the driver does to a stack written as a base plus the
 * symbols above it, so that the concrete runs below are chains of such steps.
 *
 * Reading guide. For a scenario `X`, `XTokens` fixes its token kinds, and
 * `XStep<k>` is iteration k of the driver: one call of a step lemma on the
 * concrete stack. `XStage<a>_<b>` chains at most four consecutive steps. The
 * scenario's verdict, the only lemma with a property of its own, is
 * `XAccepted` or `XRejected`. Every link is kept this small on purpose: a
 * run with a literal fuel argument proved in one piece is more than the
 * solver can unfold within its resource bound.
 */
module LL1Scenarios {
  import opened Wrappers
  import opened LL1Table
  import opened LL1Parser
  import opened LL1Properties

  /** A terminal on top that equals the lookahead is popped and the input
      advances by one token. */
  lemma MatchStep(input: seq<Kind>, base: seq<Symbol>, pos: nat, k: Kind, fuel: nat)
    requires pos + 1 < |input| && input[pos] == k && k != Eof
    requires WellFormedStack(base + [Term(k)]) && fuel > 0
    ensures WellFormedStack(base)
    ensures Run(input, base + [Term(k)], pos, fuel) == Run(input, base, pos + 1, fuel - 1)
  {
    assert Pop(base + [Term(k)]) == base;
  }

  /** A nonterminal on top whose row `i` is keyed by the lookahead is replaced
      by that row's right-hand side, without consuming input. */
  lemma ExpandStep(input: seq<Kind>, base: seq<Symbol>, pos: nat, k: Kind, fuel: nat, i: nat, n: NonTerminal, rhs: seq<Symbol>)
    requires pos < |input| && input[pos] == k
    requires i < |Table()| && Table()[i] == Row(n, k, rhs)
    requires WellFormedStack(base + [NonTerm(n)]) && fuel > 0
    ensures WellFormedStack(PushRhs(base, rhs))
    ensures Run(input, base + [NonTerm(n)], pos, fuel) == Run(input, PushRhs(base, rhs), pos, fuel - 1)
  {
    var stack := base + [NonTerm(n)];
    assert Pop(stack) == base;
    LookupSpec(n, k);
    assert Keyed(Table()[i], n, k);
    assert Step(input, stack, pos) == Continue(PushRhs(base, rhs), pos);
  }

  /** The end marker alone on the stack meets the end marker as lookahead. */
  lemma AcceptStep(input: seq<Kind>, pos: nat, fuel: nat)
    requires pos < |input| && input[pos] == Eof && fuel > 0
    ensures Run(input, [Term(Eof)], pos, fuel) == Accept
  {
  }

  lemma MismatchStep(input: seq<Kind>, base: seq<Symbol>, pos: nat, k: Kind, fuel: nat, expected: Kind)
    requires pos < |input| && input[pos] == k && k != expected
    requires WellFormedStack(base + [Term(expected)]) && fuel > 0
    ensures Run(input, base + [Term(expected)], pos, fuel) == Mismatch(expected, k, pos)
  {
  }

  lemma NoRuleStep(input: seq<Kind>, base: seq<Symbol>, pos: nat, k: Kind, fuel: nat, n: NonTerminal)
    requires pos < |input| && input[pos] == k && Lookup(n, k).None?
    requires WellFormedStack(base + [NonTerm(n)]) && fuel > 0
    ensures Run(input, base + [NonTerm(n)], pos, fuel) == NoRule(NonTerm(n), k, pos)
  {
  }

  /** Expression `E` has rows for identifiers, numbers and `(` only. */
  lemma NoRuleForExpressionOnEnd()
    ensures Lookup(E, FinInstruccion) == None
  {
    if Lookup(E, FinInstruccion).Some? {
      FindRowFirst(Table(), E, FinInstruccion, 0);
    }
  }

  /* Pushing a right-hand side of each length that occurs in the table, with
     the result written as the base followed by one symbol at a time. */

  lemma PushVacia(base: seq<Symbol>)
    ensures PushRhs(base, [Vacia]) == base
  {
  }

  lemma Push1(base: seq<Symbol>, a: Symbol)
    requires a != Vacia
    ensures PushRhs(base, [a]) == base + [a]
  {
  }

  lemma Push2(base: seq<Symbol>, a: Symbol, b: Symbol)
    requires a != Vacia && b != Vacia
    ensures PushRhs(base, [a, b]) == base + [b] + [a]
  {
    assert [a, b][..1] == [a];
    Push1(base + [b], a);
  }

  lemma Push3(base: seq<Symbol>, a: Symbol, b: Symbol, c: Symbol)
    requires a != Vacia && b != Vacia && c != Vacia
    ensures PushRhs(base, [a, b, c]) == base + [c] + [b] + [a]
  {
    assert [a, b, c][..2] == [a, b];
    Push2(base + [c], a, b);
  }

  lemma Push4(base: seq<Symbol>, a: Symbol, b: Symbol, c: Symbol, d: Symbol)
    requires a != Vacia && b != Vacia && c != Vacia && d != Vacia
    ensures PushRhs(base, [a, b, c, d]) == base + [d] + [c] + [b] + [a]
  {
    assert [a, b, c, d][..3] == [a, b, c];
    Push3(base + [d], a, b, c);
  }

  lemma Push5(base: seq<Symbol>, a: Symbol, b: Symbol, c: Symbol, d: Symbol, e: Symbol)
    requires a != Vacia && b != Vacia && c != Vacia && d != Vacia && e != Vacia
    ensures PushRhs(base, [a, b, c, d, e]) == base + [e] + [d] + [c] + [b] + [a]
  {
    assert [a, b, c, d, e][..4] == [a, b, c, d];
    Push4(base + [e], a, b, c, d);
  }

  lemma Push6(base: seq<Symbol>, a: Symbol, b: Symbol, c: Symbol, d: Symbol, e: Symbol, f: Symbol)
    requires a != Vacia && b != Vacia && c != Vacia && d != Vacia && e != Vacia && f != Vacia
    ensures PushRhs(base, [a, b, c, d, e, f]) == base + [f] + [e] + [d] + [c] + [b] + [a]
  {
    assert [a, b, c, d, e, f][..5] == [a, b, c, d, e];
    Push5(base + [f], a, b, c, d, e);
  }

  lemma Push7(base: seq<Symbol>, a: Symbol, b: Symbol, c: Symbol, d: Symbol, e: Symbol, f: Symbol, g: Symbol)
    requires a != Vacia && b != Vacia && c != Vacia && d != Vacia && e != Vacia && f != Vacia && g != Vacia
    ensures PushRhs(base, [a, b, c, d, e, f, g]) == base + [g] + [f] + [e] + [d] + [c] + [b] + [a]
  {
    assert [a, b, c, d, e, f, g][..6] == [a, b, c, d, e, f];
    Push6(base + [g], a, b, c, d, e, f);
  }

  lemma Push8(base: seq<Symbol>, a: Symbol, b: Symbol, c: Symbol, d: Symbol, e: Symbol, f: Symbol, g: Symbol, h: Symbol)
    requires a != Vacia && b != Vacia && c != Vacia && d != Vacia && e != Vacia && f != Vacia && g != Vacia && h != Vacia
    ensures PushRhs(base, [a, b, c, d, e, f, g, h]) == base + [h] + [g] + [f] + [e] + [d] + [c] + [b] + [a]
  {
    assert [a, b, c, d, e, f, g, h][..7] == [a, b, c, d, e, f, g];
    Push7(base + [h], a, b, c, d, e, f, g);
  }

  /** The rows of `tabla`, as literal facts for the concrete runs. */
  lemma TableRows0To9()
    ensures Table()[0] == Row(S, Int, [NonTerm(DCL)])
    ensures Table()[1] == Row(S, Float, [NonTerm(DCL)])
    ensures Table()[2] == Row(S, String, [NonTerm(DCL)])
    ensures Table()[3] == Row(S, Identificador, [NonTerm(INST)])
    ensures Table()[4] == Row(S, If, [NonTerm(IF)])
    ensures Table()[5] == Row(S, For, [NonTerm(FOR)])
    ensures Table()[6] == Row(DCL, Int, [NonTerm(TIPO), Term(Identificador), NonTerm(D)])
    ensures Table()[7] == Row(DCL, Float, [NonTerm(TIPO), Term(Identificador), NonTerm(D)])
    ensures Table()[8] == Row(DCL, String, [NonTerm(TIPO), Term(Identificador), NonTerm(D)])
    ensures Table()[9] == Row(TIPO, Int, [Term(Int)])
  {
  }

  lemma TableRows10To19()
    ensures Table()[10] == Row(TIPO, Float, [Term(Float)])
    ensures Table()[11] == Row(TIPO, String, [Term(String)])
    ensures Table()[12] == Row(D, Coma, [Term(Coma), Term(Identificador), NonTerm(D)])
    ensures Table()[13] == Row(D, Asignacion, [Term(Asignacion), NonTerm(E), Term(FinInstruccion)])
    ensures Table()[14] == Row(D, FinInstruccion, [Term(FinInstruccion)])
    ensures Table()[15] == Row(INST, Identificador, [Term(Identificador), Term(Asignacion), NonTerm(E), Term(FinInstruccion)])
    ensures Table()[16] == Row(INST0, Identificador, [Term(Identificador), Term(Asignacion), NonTerm(E)])
    ensures Table()[17] == Row(IF, If, [Term(If), Term(LParen), NonTerm(E), Term(RParen), NonTerm(INST)])
    ensures Table()[18] == Row(FOR, For, [Term(For), Term(LParen), NonTerm(INST), NonTerm(E), Term(FinInstruccion), NonTerm(INST0), Term(RParen), NonTerm(INST)])
    ensures Table()[19] == Row(E, Identificador, [NonTerm(T), NonTerm(E')])
  {
  }

  lemma TableRows20To24()
    ensures Table()[20] == Row(E, Number, [NonTerm(T), NonTerm(E')])
    ensures Table()[21] == Row(E, LParen, [NonTerm(T), NonTerm(E')])
    ensures Table()[22] == Row(E', Plus, [Term(Plus), NonTerm(T), NonTerm(E')])
    ensures Table()[23] == Row(E', Minus, [Term(Minus), NonTerm(T), NonTerm(E')])
    ensures Table()[24] == Row(E', RParen, [Vacia])
  {
  }

  lemma TableRows25To29()
    ensures Table()[25] == Row(E', FinInstruccion, [Vacia])
    ensures Table()[26] == Row(T, Identificador, [NonTerm(F), NonTerm(T')])
    ensures Table()[27] == Row(T, Number, [NonTerm(F), NonTerm(T')])
    ensures Table()[28] == Row(T, LParen, [NonTerm(F), NonTerm(T')])
    ensures Table()[29] == Row(T', Times, [Term(Times), NonTerm(F), NonTerm(T')])
  {
  }

  lemma TableRows30To33()
    ensures Table()[30] == Row(T', Divide, [Term(Divide), NonTerm(F), NonTerm(T')])
    ensures Table()[31] == Row(T', Plus, [Vacia])
    ensures Table()[32] == Row(T', Minus, [Vacia])
    ensures Table()[33] == Row(T', RParen, [Vacia])
  {
  }

  lemma TableRows34To37()
    ensures Table()[34] == Row(T', FinInstruccion, [Vacia])
    ensures Table()[35] == Row(F, Identificador, [Term(Identificador)])
    ensures Table()[36] == Row(F, Number, [Term(Number)])
    ensures Table()[37] == Row(F, LParen, [Term(LParen), NonTerm(E), Term(RParen)])
  {
  }

  /** The programs of pruebas.py. */
  datatype Example =
    | Declaration
    | ListDeclaration
    | Arithmetic
    | IfStatement
    | ForStatement
    | IfMissingValue
    | ForMissingValue
    | NaturalSentence

  /** Each program as the lexer would tokenise it. */
  function Input(e: Example): seq<Kind> {
    match e
    case Declaration => [Int, Identificador, Asignacion, Number, FinInstruccion, Eof]  // int variable = 5;$
    case ListDeclaration => [Float, Identificador, Coma, Identificador, Coma, Identificador, Asignacion, Number, FinInstruccion, Eof]  // float a, b, c = 9;$
    case Arithmetic => [Int, Identificador, Asignacion, LParen, Number, Plus, Number, RParen, Times, Number, FinInstruccion, Eof]  // int x = (5 + 3) * 2;$
    case IfStatement => [If, LParen, Number, Plus, Number, RParen, Identificador, Asignacion, Number, FinInstruccion, Eof]  // if(5+3) x=1;$
    case ForStatement => [For, LParen, Identificador, Asignacion, Number, FinInstruccion, Identificador, FinInstruccion, Identificador, Asignacion, Number, RParen, Identificador, Asignacion, Number, FinInstruccion, Eof]  // for(x=0; x; x=1) x=3;$
    case IfMissingValue => [If, LParen, Number, Plus, Number, RParen, Identificador, Asignacion, FinInstruccion, Eof]  // if(5+3) x=;$
    case ForMissingValue => [For, LParen, Identificador, Asignacion, Number, FinInstruccion, Identificador, FinInstruccion, Identificador, Asignacion, Number, RParen, Identificador, Asignacion, FinInstruccion, Eof]  // for(x=0; x; x=1) x=;$
    case NaturalSentence => [Identificador, Identificador, Identificador, FinInstruccion, Eof]  // el perro come;$
  }

  lemma DeclarationTokens()
    ensures |Input(Declaration)| == 6
    ensures Input(Declaration)[0] == Int && Input(Declaration)[1] == Identificador && Input(Declaration)[2] == Asignacion && Input(Declaration)[3] == Number && Input(Declaration)[4] == FinInstruccion && Input(Declaration)[5] == Eof
  {
  }

  lemma DeclarationStep1(input: seq<Kind>, fuel: nat, fuel': nat)
    requires input == Input(Declaration) && fuel == 15 && fuel' == 14
    requires WellFormedStack([Term(Eof)] + [NonTerm(S)])
    ensures WellFormedStack([Term(Eof)] + [NonTerm(DCL)])
    ensures Run(input, [Term(Eof)] + [NonTerm(S)], 0, fuel) == Run(input, [Term(Eof)] + [NonTerm(DCL)], 0, fuel')
  {
    DeclarationTokens();
    TableRows0To9();
    ExpandStep(input, [Term(Eof)], 0, Int, fuel, 0, S, [NonTerm(DCL)]);
    Push1([Term(Eof)], NonTerm(DCL));
  }

  lemma DeclarationStep2(input: seq<Kind>, fuel: nat, fuel': nat)
    requires input == Input(Declaration) && fuel == 14 && fuel' == 13
    requires WellFormedStack([Term(Eof)] + [NonTerm(DCL)])
    ensures WellFormedStack([Term(Eof)] + [NonTerm(D)] + [Term(Identificador)] + [NonTerm(TIPO)])
    ensures Run(input, [Term(Eof)] + [NonTerm(DCL)], 0, fuel) == Run(input, [Term(Eof)] + [NonTerm(D)] + [Term(Identificador)] + [NonTerm(TIPO)], 0, fuel')
  {
    DeclarationTokens();
    TableRows0To9();
    ExpandStep(input, [Term(Eof)], 0, Int, fuel, 6, DCL, [NonTerm(TIPO), Term(Identificador), NonTerm(D)]);
    Push3([Term(Eof)], NonTerm(TIPO), Term(Identificador), NonTerm(D));
  }

  lemma DeclarationStep3(input: seq<Kind>, fuel: nat, fuel': nat)
    requires input == Input(Declaration) && fuel == 13 && fuel' == 12
    requires WellFormedStack([Term(Eof)] + [NonTerm(D)] + [Term(Identificador)] + [NonTerm(TIPO)])
    ensures WellFormedStack([Term(Eof)] + [NonTerm(D)] + [Term(Identificador)] + [Term(Int)])
    ensures Run(input, [Term(Eof)] + [NonTerm(D)] + [Term(Identificador)] + [NonTerm(TIPO)], 0, fuel) == Run(input, [Term(Eof)] + [NonTerm(D)] + [Term(Identificador)] + [Term(Int)], 0, fuel')
  {
    DeclarationTokens();
    TableRows0To9();
    ExpandStep(input, [Term(Eof)] + [NonTerm(D)] + [Term(Identificador)], 0, Int, fuel, 9, TIPO, [Term(Int)]);
    Push1([Term(Eof)] + [NonTerm(D)] + [Term(Identificador)], Term(Int));
  }

  lemma DeclarationStep4(input: seq<Kind>, fuel: nat, fuel': nat)
    requires input == Input(Declaration) && fuel == 12 && fuel' == 11
    requires WellFormedStack([Term(Eof)] + [NonTerm(D)] + [Term(Identificador)] + [Term(Int)])
    ensures WellFormedStack([Term(Eof)] + [NonTerm(D)] + [Term(Identificador)])
    ensures Run(input, [Term(Eof)] + [NonTerm(D)] + [Term(Identificador)] + [Term(Int)], 0, fuel) == Run(input, [Term(Eof)] + [NonTerm(D)] + [Term(Identificador)], 1, fuel')
  {
    DeclarationTokens();
    MatchStep(input, [Term(Eof)] + [NonTerm(D)] + [Term(Identificador)], 0, Int, fuel);
  }

  lemma DeclarationStep5(input: seq<Kind>, fuel: nat, fuel': nat)
    requires input == Input(Declaration) && fuel == 11 && fuel' == 10
    requires WellFormedStack([Term(Eof)] + [NonTerm(D)] + [Term(Identificador)])
    ensures WellFormedStack([Term(Eof)] + [NonTerm(D)])
    ensures Run(input, [Term(Eof)] + [NonTerm(D)] + [Term(Identificador)], 1, fuel) == Run(input, [Term(Eof)] + [NonTerm(D)], 2, fuel')
  {
    DeclarationTokens();
    MatchStep(input, [Term(Eof)] + [NonTerm(D)], 1, Identificador, fuel);
  }

  lemma DeclarationStep6(input: seq<Kind>, fuel: nat, fuel': nat)
    requires input == Input(Declaration) && fuel == 10 && fuel' == 9
    requires WellFormedStack([Term(Eof)] + [NonTerm(D)])
    ensures WellFormedStack([Term(Eof)] + [Term(FinInstruccion)] + [NonTerm(E)] + [Term(Asignacion)])
    ensures Run(input, [Term(Eof)] + [NonTerm(D)], 2, fuel) == Run(input, [Term(Eof)] + [Term(FinInstruccion)] + [NonTerm(E)] + [Term(Asignacion)], 2, fuel')
  {
    DeclarationTokens();
    TableRows10To19();
    ExpandStep(input, [Term(Eof)], 2, Asignacion, fuel, 13, D, [Term(Asignacion), NonTerm(E), Term(FinInstruccion)]);
    Push3([Term(Eof)], Term(Asignacion), NonTerm(E), Term(FinInstruccion));
  }

  lemma DeclarationStep7(input: seq<Kind>, fuel: nat, fuel': nat)
    requires input == Input(Declaration) && fuel == 9 && fuel' == 8
    requires WellFormedStack([Term(Eof)] + [Term(FinInstruccion)] + [NonTerm(E)] + [Term(Asignacion)])
    ensures WellFormedStack([Term(Eof)] + [Term(FinInstruccion)] + [NonTerm(E)])
    ensures Run(input, [Term(Eof)] + [Term(FinInstruccion)] + [NonTerm(E)] + [Term(Asignacion)], 2, fuel) == Run(input, [Term(Eof)] + [Term(FinInstruccion)] + [NonTerm(E)], 3, fuel')
  {
    DeclarationTokens();
    MatchStep(input, [Term(Eof)] + [Term(FinInstruccion)] + [NonTerm(E)], 2, Asignacion, fuel);
  }

  lemma DeclarationStep8(input: seq<Kind>, fuel: nat, fuel': nat)
    requires input == Input(Declaration) && fuel == 8 && fuel' == 7
    requires WellFormedStack([Term(Eof)] + [Term(FinInstruccion)] + [NonTerm(E)])
    ensures WellFormedStack([Term(Eof)] + [Term(FinInstruccion)] + [NonTerm(E')] + [NonTerm(T)])
    ensures Run(input, [Term(Eof)] + [Term(FinInstruccion)] + [NonTerm(E)], 3, fuel) == Run(input, [Term(Eof)] + [Term(FinInstruccion)] + [NonTerm(E')] + [NonTerm(T)], 3, fuel')
  {
    DeclarationTokens();
    TableRows20To24();
    TableRows25To29();
    ExpandStep(input, [Term(Eof)] + [Term(FinInstruccion)], 3, Number, fuel, 20, E, [NonTerm(T), NonTerm(E')]);
    Push2([Term(Eof)] + [Term(FinInstruccion)], NonTerm(T), NonTerm(E'));
  }

  lemma DeclarationStep9(input: seq<Kind>, fuel: nat, fuel': nat)
    requires input == Input(Declaration) && fuel == 7 && fuel' == 6
    requires WellFormedStack([Term(Eof)] + [Term(FinInstruccion)] + [NonTerm(E')] + [NonTerm(T)])
    ensures WellFormedStack([Term(Eof)] + [Term(FinInstruccion)] + [NonTerm(E')] + [NonTerm(T')] + [NonTerm(F)])
    ensures Run(input, [Term(Eof)] + [Term(FinInstruccion)] + [NonTerm(E')] + [NonTerm(T)], 3, fuel) == Run(input, [Term(Eof)] + [Term(FinInstruccion)] + [NonTerm(E')] + [NonTerm(T')] + [NonTerm(F)], 3, fuel')
  {
    DeclarationTokens();
    TableRows20To24();
    TableRows25To29();
    ExpandStep(input, [Term(Eof)] + [Term(FinInstruccion)] + [NonTerm(E')], 3, Number, fuel, 27, T, [NonTerm(F), NonTerm(T')]);
    Push2([Term(Eof)] + [Term(FinInstruccion)] + [NonTerm(E')], NonTerm(F), NonTerm(T'));
  }

  lemma DeclarationStep10(input: seq<Kind>, fuel: nat, fuel': nat)
    requires input == Input(Declaration) && fuel == 6 && fuel' == 5
    requires WellFormedStack([Term(Eof)] + [Term(FinInstruccion)] + [NonTerm(E')] + [NonTerm(T')] + [NonTerm(F)])
    ensures WellFormedStack([Term(Eof)] + [Term(FinInstruccion)] + [NonTerm(E')] + [NonTerm(T')] + [Term(Number)])
    ensures Run(input, [Term(Eof)] + [Term(FinInstruccion)] + [NonTerm(E')] + [NonTerm(T')] + [NonTerm(F)], 3, fuel) == Run(input, [Term(Eof)] + [Term(FinInstruccion)] + [NonTerm(E')] + [NonTerm(T')] + [Term(Number)], 3, fuel')
  {
    DeclarationTokens();
    TableRows30To33();
    TableRows34To37();
    ExpandStep(input, [Term(Eof)] + [Term(FinInstruccion)] + [NonTerm(E')] + [NonTerm(T')], 3, Number, fuel, 36, F, [Term(Number)]);
    Push1([Term(Eof)] + [Term(FinInstruccion)] + [NonTerm(E')] + [NonTerm(T')], Term(Number));
  }

  lemma DeclarationStep11(input: seq<Kind>, fuel: nat, fuel': nat)
    requires input == Input(Declaration) && fuel == 5 && fuel' == 4
    requires WellFormedStack([Term(Eof)] + [Term(FinInstruccion)] + [NonTerm(E')] + [NonTerm(T')] + [Term(Number)])
    ensures WellFormedStack([Term(Eof)] + [Term(FinInstruccion)] + [NonTerm(E')] + [NonTerm(T')])
    ensures Run(input, [Term(Eof)] + [Term(FinInstruccion)] + [NonTerm(E')] + [NonTerm(T')] + [Term(Number)], 3, fuel) == Run(input, [Term(Eof)] + [Term(FinInstruccion)] + [NonTerm(E')] + [NonTerm(T')], 4, fuel')
  {
    DeclarationTokens();
    MatchStep(input, [Term(Eof)] + [Term(FinInstruccion)] + [NonTerm(E')] + [NonTerm(T')], 3, Number, fuel);
  }

  lemma DeclarationStep12(input: seq<Kind>, fuel: nat, fuel': nat)
    requires input == Input(Declaration) && fuel == 4 && fuel' == 3
    requires WellFormedStack([Term(Eof)] + [Term(FinInstruccion)] + [NonTerm(E')] + [NonTerm(T')])
    ensures WellFormedStack([Term(Eof)] + [Term(FinInstruccion)] + [NonTerm(E')])
    ensures Run(input, [Term(Eof)] + [Term(FinInstruccion)] + [NonTerm(E')] + [NonTerm(T')], 4, fuel) == Run(input, [Term(Eof)] + [Term(FinInstruccion)] + [NonTerm(E')], 4, fuel')
  {
    DeclarationTokens();
    TableRows30To33();
    TableRows34To37();
    ExpandStep(input, [Term(Eof)] + [Term(FinInstruccion)] + [NonTerm(E')], 4, FinInstruccion, fuel, 34, T', [Vacia]);
    PushVacia([Term(Eof)] + [Term(FinInstruccion)] + [NonTerm(E')]);
  }

  lemma DeclarationStep13(input: seq<Kind>, fuel: nat, fuel': nat)
    requires input == Input(Declaration) && fuel == 3 && fuel' == 2
    requires WellFormedStack([Term(Eof)] + [Term(FinInstruccion)] + [NonTerm(E')])
    ensures WellFormedStack([Term(Eof)] + [Term(FinInstruccion)])
    ensures Run(input, [Term(Eof)] + [Term(FinInstruccion)] + [NonTerm(E')], 4, fuel) == Run(input, [Term(Eof)] + [Term(FinInstruccion)], 4, fuel')
  {
    DeclarationTokens();
    TableRows20To24();
    TableRows25To29();
    ExpandStep(input, [Term(Eof)] + [Term(FinInstruccion)], 4, FinInstruccion, fuel, 25, E', [Vacia]);
    PushVacia([Term(Eof)] + [Term(FinInstruccion)]);
  }

  lemma DeclarationStep14(input: seq<Kind>, fuel: nat, fuel': nat)
    requires input == Input(Declaration) && fuel == 2 && fuel' == 1
    requires WellFormedStack([Term(Eof)] + [Term(FinInstruccion)])
    ensures WellFormedStack([Term(Eof)])
    ensures Run(input, [Term(Eof)] + [Term(FinInstruccion)], 4, fuel) == Run(input, [Term(Eof)], 5, fuel')
  {
    DeclarationTokens();
    MatchStep(input, [Term(Eof)], 4, FinInstruccion, fuel);
  }

  lemma DeclarationStage1_1(input: seq<Kind>, fuel: nat, fuel': nat)
    requires input == Input(Declaration) && fuel == 15 && fuel' == 11
    requires WellFormedStack([Term(Eof)] + [NonTerm(S)])
    ensures WellFormedStack([Term(Eof)] + [NonTerm(D)] + [Term(Identificador)])
    ensures Run(input, [Term(Eof)] + [NonTerm(S)], 0, fuel) == Run(input, [Term(Eof)] + [NonTerm(D)] + [Term(Identificador)], 1, fuel')
  {
    DeclarationStep1(input, fuel, fuel - 1);
    DeclarationStep2(input, fuel - 1, fuel - 2);
    DeclarationStep3(input, fuel - 2, fuel - 3);
    DeclarationStep4(input, fuel - 3, fuel');
  }

  lemma DeclarationStage1_2(input: seq<Kind>, fuel: nat, fuel': nat)
    requires input == Input(Declaration) && fuel == 11 && fuel' == 7
    requires WellFormedStack([Term(Eof)] + [NonTerm(D)] + [Term(Identificador)])
    ensures WellFormedStack([Term(Eof)] + [Term(FinInstruccion)] + [NonTerm(E')] + [NonTerm(T)])
    ensures Run(input, [Term(Eof)] + [NonTerm(D)] + [Term(Identificador)], 1, fuel) == Run(input, [Term(Eof)] + [Term(FinInstruccion)] + [NonTerm(E')] + [NonTerm(T)], 3, fuel')
  {
    DeclarationStep5(input, fuel, fuel - 1);
    DeclarationStep6(input, fuel - 1, fuel - 2);
    DeclarationStep7(input, fuel - 2, fuel - 3);
    DeclarationStep8(input, fuel - 3, fuel');
  }

  lemma DeclarationStage1_3(input: seq<Kind>, fuel: nat, fuel': nat)
    requires input == Input(Declaration) && fuel == 7 && fuel' == 3
    requires WellFormedStack([Term(Eof)] + [Term(FinInstruccion)] + [NonTerm(E')] + [NonTerm(T)])
    ensures WellFormedStack([Term(Eof)] + [Term(FinInstruccion)] + [NonTerm(E')])
    ensures Run(input, [Term(Eof)] + [Term(FinInstruccion)] + [NonTerm(E')] + [NonTerm(T)], 3, fuel) == Run(input, [Term(Eof)] + [Term(FinInstruccion)] + [NonTerm(E')], 4, fuel')
  {
    DeclarationStep9(input, fuel, fuel - 1);
    DeclarationStep10(input, fuel - 1, fuel - 2);
    DeclarationStep11(input, fuel - 2, fuel - 3);
    DeclarationStep12(input, fuel - 3, fuel');
  }

  lemma DeclarationStage1_4(input: seq<Kind>, fuel: nat, fuel': nat)
    requires input == Input(Declaration) && fuel == 3 && fuel' == 1
    requires WellFormedStack([Term(Eof)] + [Term(FinInstruccion)] + [NonTerm(E')])
    ensures WellFormedStack([Term(Eof)])
    ensures Run(input, [Term(Eof)] + [Term(FinInstruccion)] + [NonTerm(E')], 4, fuel) == Run(input, [Term(Eof)], 5, fuel')
  {
    DeclarationStep13(input, fuel, fuel - 1);
    DeclarationStep14(input, fuel - 1, fuel');
  }

  /** A declaration with an initialiser is accepted. */
  lemma DeclarationAccepted(fuel: nat)
    requires fuel >= 15
    ensures Parse(Input(Declaration), fuel) == Accept
  {
    DeclarationTokens();
    var n: nat := 15;
    assert InitialStack() == [Term(Eof)] + [NonTerm(S)];
    DeclarationStage1_1(Input(Declaration), n, n - 4);
    DeclarationStage1_2(Input(Declaration), n - 4, n - 8);
    DeclarationStage1_3(Input(Declaration), n - 8, n - 12);
    DeclarationStage1_4(Input(Declaration), n - 12, n - 14);
    AcceptStep(Input(Declaration), 5, n - 14);
    ParseFuelMonotone(Input(Declaration), n, fuel);
  }

  lemma ListDeclarationTokens()
    ensures |Input(ListDeclaration)| == 10
    ensures Input(ListDeclaration)[0] == Float && Input(ListDeclaration)[1] == Identificador && Input(ListDeclaration)[2] == Coma && Input(ListDeclaration)[3] == Identificador && Input(ListDeclaration)[4] == Coma && Input(ListDeclaration)[5] == Identificador && Input(ListDeclaration)[6] == Asignacion && Input(ListDeclaration)[7] == Number && Input(ListDeclaration)[8] == FinInstruccion && Input(ListDeclaration)[9] == Eof
  {
  }

  lemma ListDeclarationStep1(input: seq<Kind>, fuel: nat, fuel': nat)
    requires input == Input(ListDeclaration) && fuel == 21 && fuel' == 20
    requires WellFormedStack([Term(Eof)] + [NonTerm(S)])
    ensures WellFormedStack([Term(Eof)] + [NonTerm(DCL)])
    ensures Run(input, [Term(Eof)] + [NonTerm(S)], 0, fuel) == Run(input, [Term(Eof)] + [NonTerm(DCL)], 0, fuel')
  {
    ListDeclarationTokens();
    TableRows0To9();
    ExpandStep(input, [Term(Eof)], 0, Float, fuel, 1, S, [NonTerm(DCL)]);
    Push1([Term(Eof)], NonTerm(DCL));
  }

  lemma ListDeclarationStep2(input: seq<Kind>, fuel: nat, fuel': nat)
    requires input == Input(ListDeclaration) && fuel == 20 && fuel' == 19
    requires WellFormedStack([Term(Eof)] + [NonTerm(DCL)])
    ensures WellFormedStack([Term(Eof)] + [NonTerm(D)] + [Term(Identificador)] + [NonTerm(TIPO)])
    ensures Run(input, [Term(Eof)] + [NonTerm(DCL)], 0, fuel) == Run(input, [Term(Eof)] + [NonTerm(D)] + [Term(Identificador)] + [NonTerm(TIPO)], 0, fuel')
  {
    ListDeclarationTokens();
    TableRows0To9();
    ExpandStep(input, [Term(Eof)], 0, Float, fuel, 7, DCL, [NonTerm(TIPO), Term(Identificador), NonTerm(D)]);
    Push3([Term(Eof)], NonTerm(TIPO), Term(Identificador), NonTerm(D));
  }

  lemma ListDeclarationStep3(input: seq<Kind>, fuel: nat, fuel': nat)
    requires input == Input(ListDeclaration) && fuel == 19 && fuel' == 18
    requires WellFormedStack([Term(Eof)] + [NonTerm(D)] + [Term(Identificador)] + [NonTerm(TIPO)])
    ensures WellFormedStack([Term(Eof)] + [NonTerm(D)] + [Term(Identificador)] + [Term(Float)])
    ensures Run(input, [Term(Eof)] + [NonTerm(D)] + [Term(Identificador)] + [NonTerm(TIPO)], 0, fuel) == Run(input, [Term(Eof)] + [NonTerm(D)] + [Term(Identificador)] + [Term(Float)], 0, fuel')
  {
    ListDeclarationTokens();
    TableRows10To19();
    ExpandStep(input, [Term(Eof)] + [NonTerm(D)] + [Term(Identificador)], 0, Float, fuel, 10, TIPO, [Term(Float)]);
    Push1([Term(Eof)] + [NonTerm(D)] + [Term(Identificador)], Term(Float));
  }

  lemma ListDeclarationStep4(input: seq<Kind>, fuel: nat, fuel': nat)
    requires input == Input(ListDeclaration) && fuel == 18 && fuel' == 17
    requires WellFormedStack([Term(Eof)] + [NonTerm(D)] + [Term(Identificador)] + [Term(Float)])
    ensures WellFormedStack([Term(Eof)] + [NonTerm(D)] + [Term(Identificador)])
    ensures Run(input, [Term(Eof)] + [NonTerm(D)] + [Term(Identificador)] + [Term(Float)], 0, fuel) == Run(input, [Term(Eof)] + [NonTerm(D)] + [Term(Identificador)], 1, fuel')
  {
    ListDeclarationTokens();
    MatchStep(input, [Term(Eof)] + [NonTerm(D)] + [Term(Identificador)], 0, Float, fuel);
  }

  lemma ListDeclarationStep5(input: seq<Kind>, fuel: nat, fuel': nat)
    requires input == Input(ListDeclaration) && fuel == 17 && fuel' == 16
    requires WellFormedStack([Term(Eof)] + [NonTerm(D)] + [Term(Identificador)])
    ensures WellFormedStack([Term(Eof)] + [NonTerm(D)])
    ensures Run(input, [Term(Eof)] + [NonTerm(D)] + [Term(Identificador)], 1, fuel) == Run(input, [Term(Eof)] + [NonTerm(D)], 2, fuel')
  {
    ListDeclarationTokens();
    MatchStep(input, [Term(Eof)] + [NonTerm(D)], 1, Identificador, fuel);
  }

  lemma ListDeclarationStep6(input: seq<Kind>, fuel: nat, fuel': nat)
    requires input == Input(ListDeclaration) && fuel == 16 && fuel' == 15
    requires WellFormedStack([Term(Eof)] + [NonTerm(D)])
    ensures WellFormedStack([Term(Eof)] + [NonTerm(D)] + [Term(Identificador)] + [Term(Coma)])
    ensures Run(input, [Term(Eof)] + [NonTerm(D)], 2, fuel) == Run(input, [Term(Eof)] + [NonTerm(D)] + [Term(Identificador)] + [Term(Coma)], 2, fuel')
  {
    ListDeclarationTokens();
    TableRows10To19();
    ExpandStep(input, [Term(Eof)], 2, Coma, fuel, 12, D, [Term(Coma), Term(Identificador), NonTerm(D)]);
    Push3([Term(Eof)], Term(Coma), Term(Identificador), NonTerm(D));
  }

  lemma ListDeclarationStep7(input: seq<Kind>, fuel: nat, fuel': nat)
    requires input == Input(ListDeclaration) && fuel == 15 && fuel' == 14
    requires WellFormedStack([Term(Eof)] + [NonTerm(D)] + [Term(Identificador)] + [Term(Coma)])
    ensures WellFormedStack([Term(Eof)] + [NonTerm(D)] + [Term(Identificador)])
    ensures Run(input, [Term(Eof)] + [NonTerm(D)] + [Term(Identificador)] + [Term(Coma)], 2, fuel) == Run(input, [Term(Eof)] + [NonTerm(D)] + [Term(Identificador)], 3, fuel')
  {
    ListDeclarationTokens();
    MatchStep(input, [Term(Eof)] + [NonTerm(D)] + [Term(Identificador)], 2, Coma, fuel);
  }

  lemma ListDeclarationStep8(input: seq<Kind>, fuel: nat, fuel': nat)
    requires input == Input(ListDeclaration) && fuel == 14 && fuel' == 13
    requires WellFormedStack([Term(Eof)] + [NonTerm(D)] + [Term(Identificador)])
    ensures WellFormedStack([Term(Eof)] + [NonTerm(D)])
    ensures Run(input, [Term(Eof)] + [NonTerm(D)] + [Term(Identificador)], 3, fuel) == Run(input, [Term(Eof)] + [NonTerm(D)], 4, fuel')
  {
    ListDeclarationTokens();
    MatchStep(input, [Term(Eof)] + [NonTerm(D)], 3, Identificador, fuel);
  }

  lemma ListDeclarationStep9(input: seq<Kind>, fuel: nat, fuel': nat)
    requires input == Input(ListDeclaration) && fuel == 13 && fuel' == 12
    requires WellFormedStack([Term(Eof)] + [NonTerm(D)])
    ensures WellFormedStack([Term(Eof)] + [NonTerm(D)] + [Term(Identificador)] + [Term(Coma)])
    ensures Run(input, [Term(Eof)] + [NonTerm(D)], 4, fuel) == Run(input, [Term(Eof)] + [NonTerm(D)] + [Term(Identificador)] + [Term(Coma)], 4, fuel')
  {
    ListDeclarationTokens();
    TableRows10To19();
    ExpandStep(input, [Term(Eof)], 4, Coma, fuel, 12, D, [Term(Coma), Term(Identificador), NonTerm(D)]);
    Push3([Term(Eof)], Term(Coma), Term(Identificador), NonTerm(D));
  }

  lemma ListDeclarationStep10(input: seq<Kind>, fuel: nat, fuel': nat)
    requires input == Input(ListDeclaration) && fuel == 12 && fuel' == 11
    requires WellFormedStack([Term(Eof)] + [NonTerm(D)] + [Term(Identificador)] + [Term(Coma)])
    ensures WellFormedStack([Term(Eof)] + [NonTerm(D)] + [Term(Identificador)])
    ensures Run(input, [Term(Eof)] + [NonTerm(D)] + [Term(Identificador)] + [Term(Coma)], 4, fuel) == Run(input, [Term(Eof)] + [NonTerm(D)] + [Term(Identificador)], 5, fuel')
  {
    ListDeclarationTokens();
    MatchStep(input, [Term(Eof)] + [NonTerm(D)] + [Term(Identificador)], 4, Coma, fuel);
  }

  lemma ListDeclarationStep11(input: seq<Kind>, fuel: nat, fuel': nat)
    requires input == Input(ListDeclaration) && fuel == 11 && fuel' == 10
    requires WellFormedStack([Term(Eof)] + [NonTerm(D)] + [Term(Identificador)])
    ensures WellFormedStack([Term(Eof)] + [NonTerm(D)])
    ensures Run(input, [Term(Eof)] + [NonTerm(D)] + [Term(Identificador)], 5, fuel) == Run(input, [Term(Eof)] + [NonTerm(D)], 6, fuel')
  {
    ListDeclarationTokens();
    MatchStep(input, [Term(Eof)] + [NonTerm(D)], 5, Identificador, fuel);
  }

  lemma ListDeclarationStep12(input: seq<Kind>, fuel: nat, fuel': nat)
    requires input == Input(ListDeclaration) && fuel == 10 && fuel' == 9
    requires WellFormedStack([Term(Eof)] + [NonTerm(D)])
    ensures WellFormedStack([Term(Eof)] + [Term(FinInstruccion)] + [NonTerm(E)] + [Term(Asignacion)])
    ensures Run(input, [Term(Eof)] + [NonTerm(D)], 6, fuel) == Run(input, [Term(Eof)] + [Term(FinInstruccion)] + [NonTerm(E)] + [Term(Asignacion)], 6, fuel')
  {
    ListDeclarationTokens();
    TableRows10To19();
    ExpandStep(input, [Term(Eof)], 6, Asignacion, fuel, 13, D, [Term(Asignacion), NonTerm(E), Term(FinInstruccion)]);
    Push3([Term(Eof)], Term(Asignacion), NonTerm(E), Term(FinInstruccion));
  }

  lemma ListDeclarationStep13(input: seq<Kind>, fuel: nat, fuel': nat)
    requires input == Input(ListDeclaration) && fuel == 9 && fuel' == 8
    requires WellFormedStack([Term(Eof)] + [Term(FinInstruccion)] + [NonTerm(E)] + [Term(Asignacion)])
    ensures WellFormedStack([Term(Eof)] + [Term(FinInstruccion)] + [NonTerm(E)])
    ensures Run(input, [Term(Eof)] + [Term(FinInstruccion)] + [NonTerm(E)] + [Term(Asignacion)], 6, fuel) == Run(input, [Term(Eof)] + [Term(FinInstruccion)] + [NonTerm(E)], 7, fuel')
  {
    ListDeclarationTokens();
    MatchStep(input, [Term(Eof)] + [Term(FinInstruccion)] + [NonTerm(E)], 6, Asignacion, fuel);
  }

  lemma ListDeclarationStep14(input: seq<Kind>, fuel: nat, fuel': nat)
    requires input == Input(ListDeclaration) && fuel == 8 && fuel' == 7
    requires WellFormedStack([Term(Eof)] + [Term(FinInstruccion)] + [NonTerm(E)])
    ensures WellFormedStack([Term(Eof)] + [Term(FinInstruccion)] + [NonTerm(E')] + [NonTerm(T)])
    ensures Run(input, [Term(Eof)] + [Term(FinInstruccion)] + [NonTerm(E)], 7, fuel) == Run(input, [Term(Eof)] + [Term(FinInstruccion)] + [NonTerm(E')] + [NonTerm(T)], 7, fuel')
  {
    ListDeclarationTokens();
    TableRows20To24();
    TableRows25To29();
    ExpandStep(input, [Term(Eof)] + [Term(FinInstruccion)], 7, Number, fuel, 20, E, [NonTerm(T), NonTerm(E')]);
    Push2([Term(Eof)] + [Term(FinInstruccion)], NonTerm(T), NonTerm(E'));
  }

  lemma ListDeclarationStep15(input: seq<Kind>, fuel: nat, fuel': nat)
    requires input == Input(ListDeclaration) && fuel == 7 && fuel' == 6
    requires WellFormedStack([Term(Eof)] + [Term(FinInstruccion)] + [NonTerm(E')] + [NonTerm(T)])
    ensures WellFormedStack([Term(Eof)] + [Term(FinInstruccion)] + [NonTerm(E')] + [NonTerm(T')] + [NonTerm(F)])
    ensures Run(input, [Term(Eof)] + [Term(FinInstruccion)] + [NonTerm(E')] + [NonTerm(T)], 7, fuel) == Run(input, [Term(Eof)] + [Term(FinInstruccion)] + [NonTerm(E')] + [NonTerm(T')] + [NonTerm(F)], 7, fuel')
  {
    ListDeclarationTokens();
    TableRows20To24();
    TableRows25To29();
    ExpandStep(input, [Term(Eof)] + [Term(FinInstruccion)] + [NonTerm(E')], 7, Number, fuel, 27, T, [NonTerm(F), NonTerm(T')]);
    Push2([Term(Eof)] + [Term(FinInstruccion)] + [NonTerm(E')], NonTerm(F), NonTerm(T'));
  }

  lemma ListDeclarationStep16(input: seq<Kind>, fuel: nat, fuel': nat)
    requires input == Input(ListDeclaration) && fuel == 6 && fuel' == 5
    requires WellFormedStack([Term(Eof)] + [Term(FinInstruccion)] + [NonTerm(E')] + [NonTerm(T')] + [NonTerm(F)])
    ensures WellFormedStack([Term(Eof)] + [Term(FinInstruccion)] + [NonTerm(E')] + [NonTerm(T')] + [Term(Number)])
    ensures Run(input, [Term(Eof)] + [Term(FinInstruccion)] + [NonTerm(E')] + [NonTerm(T')] + [NonTerm(F)], 7, fuel) == Run(input, [Term(Eof)] + [Term(FinInstruccion)] + [NonTerm(E')] + [NonTerm(T')] + [Term(Number)], 7, fuel')
  {
    ListDeclarationTokens();
    TableRows30To33();
    TableRows34To37();
    ExpandStep(input, [Term(Eof)] + [Term(FinInstruccion)] + [NonTerm(E')] + [NonTerm(T')], 7, Number, fuel, 36, F, [Term(Number)]);
    Push1([Term(Eof)] + [Term(FinInstruccion)] + [NonTerm(E')] + [NonTerm(T')], Term(Number));
  }

  lemma ListDeclarationStep17(input: seq<Kind>, fuel: nat, fuel': nat)
    requires input == Input(ListDeclaration) && fuel == 5 && fuel' == 4
    requires WellFormedStack([Term(Eof)] + [Term(FinInstruccion)] + [NonTerm(E')] + [NonTerm(T')] + [Term(Number)])
    ensures WellFormedStack([Term(Eof)] + [Term(FinInstruccion)] + [NonTerm(E')] + [NonTerm(T')])
    ensures Run(input, [Term(Eof)] + [Term(FinInstruccion)] + [NonTerm(E')] + [NonTerm(T')] + [Term(Number)], 7, fuel) == Run(input, [Term(Eof)] + [Term(FinInstruccion)] + [NonTerm(E')] + [NonTerm(T')], 8, fuel')
  {
    ListDeclarationTokens();
    MatchStep(input, [Term(Eof)] + [Term(FinInstruccion)] + [NonTerm(E')] + [NonTerm(T')], 7, Number, fuel);
  }

  lemma ListDeclarationStep18(input: seq<Kind>, fuel: nat, fuel': nat)
    requires input == Input(ListDeclaration) && fuel == 4 && fuel' == 3
    requires WellFormedStack([Term(Eof)] + [Term(FinInstruccion)] + [NonTerm(E')] + [NonTerm(T')])
    ensures WellFormedStack([Term(Eof)] + [Term(FinInstruccion)] + [NonTerm(E')])
    ensures Run(input, [Term(Eof)] + [Term(FinInstruccion)] + [NonTerm(E')] + [NonTerm(T')], 8, fuel) == Run(input, [Term(Eof)] + [Term(FinInstruccion)] + [NonTerm(E')], 8, fuel')
  {
    ListDeclarationTokens();
    TableRows30To33();
    TableRows34To37();
    ExpandStep(input, [Term(Eof)] + [Term(FinInstruccion)] + [NonTerm(E')], 8, FinInstruccion, fuel, 34, T', [Vacia]);
    PushVacia([Term(Eof)] + [Term(FinInstruccion)] + [NonTerm(E')]);
  }

  lemma ListDeclarationStep19(input: seq<Kind>, fuel: nat, fuel': nat)
    requires input == Input(ListDeclaration) && fuel == 3 && fuel' == 2
    requires WellFormedStack([Term(Eof)] + [Term(FinInstruccion)] + [NonTerm(E')])
    ensures WellFormedStack([Term(Eof)] + [Term(FinInstruccion)])
    ensures Run(input, [Term(Eof)] + [Term(FinInstruccion)] + [NonTerm(E')], 8, fuel) == Run(input, [Term(Eof)] + [Term(FinInstruccion)], 8, fuel')
  {
    ListDeclarationTokens();
    TableRows20To24();
    TableRows25To29();
    ExpandStep(input, [Term(Eof)] + [Term(FinInstruccion)], 8, FinInstruccion, fuel, 25, E', [Vacia]);
    PushVacia([Term(Eof)] + [Term(FinInstruccion)]);
  }

  lemma ListDeclarationStep20(input: seq<Kind>, fuel: nat, fuel': nat)
    requires input == Input(ListDeclaration) && fuel == 2 && fuel' == 1
    requires WellFormedStack([Term(Eof)] + [Term(FinInstruccion)])
    ensures WellFormedStack([Term(Eof)])
    ensures Run(input, [Term(Eof)] + [Term(FinInstruccion)], 8, fuel) == Run(input, [Term(Eof)], 9, fuel')
  {
    ListDeclarationTokens();
    MatchStep(input, [Term(Eof)], 8, FinInstruccion, fuel);
  }

  lemma ListDeclarationStage1_1(input: seq<Kind>, fuel: nat, fuel': nat)
    requires input == Input(ListDeclaration) && fuel == 21 && fuel' == 17
    requires WellFormedStack([Term(Eof)] + [NonTerm(S)])
    ensures WellFormedStack([Term(Eof)] + [NonTerm(D)] + [Term(Identificador)])
    ensures Run(input, [Term(Eof)] + [NonTerm(S)], 0, fuel) == Run(input, [Term(Eof)] + [NonTerm(D)] + [Term(Identificador)], 1, fuel')
  {
    ListDeclarationStep1(input, fuel, fuel - 1);
    ListDeclarationStep2(input, fuel - 1, fuel - 2);
    ListDeclarationStep3(input, fuel - 2, fuel - 3);
    ListDeclarationStep4(input, fuel - 3, fuel');
  }

  lemma ListDeclarationStage1_2(input: seq<Kind>, fuel: nat, fuel': nat)
    requires input == Input(ListDeclaration) && fuel == 17 && fuel' == 13
    requires WellFormedStack([Term(Eof)] + [NonTerm(D)] + [Term(Identificador)])
    ensures WellFormedStack([Term(Eof)] + [NonTerm(D)])
    ensures Run(input, [Term(Eof)] + [NonTerm(D)] + [Term(Identificador)], 1, fuel) == Run(input, [Term(Eof)] + [NonTerm(D)], 4, fuel')
  {
    ListDeclarationStep5(input, fuel, fuel - 1);
    ListDeclarationStep6(input, fuel - 1, fuel - 2);
    ListDeclarationStep7(input, fuel - 2, fuel - 3);
    ListDeclarationStep8(input, fuel - 3, fuel');
  }

  lemma ListDeclarationStage1_3(input: seq<Kind>, fuel: nat, fuel': nat)
    requires input == Input(ListDeclaration) && fuel == 13 && fuel' == 9
    requires WellFormedStack([Term(Eof)] + [NonTerm(D)])
    ensures WellFormedStack([Term(Eof)] + [Term(FinInstruccion)] + [NonTerm(E)] + [Term(Asignacion)])
    ensures Run(input, [Term(Eof)] + [NonTerm(D)], 4, fuel) == Run(input, [Term(Eof)] + [Term(FinInstruccion)] + [NonTerm(E)] + [Term(Asignacion)], 6, fuel')
  {
    ListDeclarationStep9(input, fuel, fuel - 1);
    ListDeclarationStep10(input, fuel - 1, fuel - 2);
    ListDeclarationStep11(input, fuel - 2, fuel - 3);
    ListDeclarationStep12(input, fuel - 3, fuel');
  }

  lemma ListDeclarationStage1_4(input: seq<Kind>, fuel: nat, fuel': nat)
    requires input == Input(ListDeclaration) && fuel == 9 && fuel' == 5
    requires WellFormedStack([Term(Eof)] + [Term(FinInstruccion)] + [NonTerm(E)] + [Term(Asignacion)])
    ensures WellFormedStack([Term(Eof)] + [Term(FinInstruccion)] + [NonTerm(E')] + [NonTerm(T')] + [Term(Number)])
    ensures Run(input, [Term(Eof)] + [Term(FinInstruccion)] + [NonTerm(E)] + [Term(Asignacion)], 6, fuel) == Run(input, [Term(Eof)] + [Term(FinInstruccion)] + [NonTerm(E')] + [NonTerm(T')] + [Term(Number)], 7, fuel')
  {
    ListDeclarationStep13(input, fuel, fuel - 1);
    ListDeclarationStep14(input, fuel - 1, fuel - 2);
    ListDeclarationStep15(input, fuel - 2, fuel - 3);
    ListDeclarationStep16(input, fuel - 3, fuel');
  }

  lemma ListDeclarationStage1_5(input: seq<Kind>, fuel: nat, fuel': nat)
    requires input == Input(ListDeclaration) && fuel == 5 && fuel' == 1
    requires WellFormedStack([Term(Eof)] + [Term(FinInstruccion)] + [NonTerm(E')] + [NonTerm(T')] + [Term(Number)])
    ensures WellFormedStack([Term(Eof)])
    ensures Run(input, [Term(Eof)] + [Term(FinInstruccion)] + [NonTerm(E')] + [NonTerm(T')] + [Term(Number)], 7, fuel) == Run(input, [Term(Eof)], 9, fuel')
  {
    ListDeclarationStep17(input, fuel, fuel - 1);
    ListDeclarationStep18(input, fuel - 1, fuel - 2);
    ListDeclarationStep19(input, fuel - 2, fuel - 3);
    ListDeclarationStep20(input, fuel - 3, fuel');
  }

  lemma ListDeclarationStage2_1(input: seq<Kind>, fuel: nat, fuel': nat)
    requires input == Input(ListDeclaration) && fuel == 21 && fuel' == 5
    requires WellFormedStack([Term(Eof)] + [NonTerm(S)])
    ensures WellFormedStack([Term(Eof)] + [Term(FinInstruccion)] + [NonTerm(E')] + [NonTerm(T')] + [Term(Number)])
    ensures Run(input, [Term(Eof)] + [NonTerm(S)], 0, fuel) == Run(input, [Term(Eof)] + [Term(FinInstruccion)] + [NonTerm(E')] + [NonTerm(T')] + [Term(Number)], 7, fuel')
  {
    ListDeclarationStage1_1(input, fuel, fuel - 4);
    ListDeclarationStage1_2(input, fuel - 4, fuel - 8);
    ListDeclarationStage1_3(input, fuel - 8, fuel - 12);
    ListDeclarationStage1_4(input, fuel - 12, fuel');
  }

  /** A declaration of several names, the last one initialised, is accepted. */
  lemma ListDeclarationAccepted(fuel: nat)
    requires fuel >= 21
    ensures Parse(Input(ListDeclaration), fuel) == Accept
  {
    ListDeclarationTokens();
    var n: nat := 21;
    assert InitialStack() == [Term(Eof)] + [NonTerm(S)];
    ListDeclarationStage2_1(Input(ListDeclaration), n, n - 16);
    ListDeclarationStage1_5(Input(ListDeclaration), n - 16, n - 20);
    AcceptStep(Input(ListDeclaration), 9, n - 20);
    ParseFuelMonotone(Input(ListDeclaration), n, fuel);
  }

  lemma ArithmeticTokens()
    ensures |Input(Arithmetic)| == 12
    ensures Input(Arithmetic)[0] == Int && Input(Arithmetic)[1] == Identificador && Input(Arithmetic)[2] == Asignacion && Input(Arithmetic)[3] == LParen && Input(Arithmetic)[4] == Number && Input(Arithmetic)[5] == Plus && Input(Arithmetic)[6] == Number && Input(Arithmetic)[7] == RParen && Input(Arithmetic)[8] == Times && Input(Arithmetic)[9] == Number && Input(Arithmetic)[10] == FinInstruccion && Input(Arithmetic)[11] == Eof
  {
  }

  lemma ArithmeticStep1(input: seq<Kind>, fuel: nat, fuel': nat)
    requires input == Input(Arithmetic) && fuel == 32 && fuel' == 31
    requires WellFormedStack([Term(Eof)] + [NonTerm(S)])
    ensures WellFormedStack([Term(Eof)] + [NonTerm(DCL)])
    ensures Run(input, [Term(Eof)] + [NonTerm(S)], 0, fuel) == Run(input, [Term(Eof)] + [NonTerm(DCL)], 0, fuel')
  {
    ArithmeticTokens();
    TableRows0To9();
    ExpandStep(input, [Term(Eof)], 0, Int, fuel, 0, S, [NonTerm(DCL)]);
    Push1([Term(Eof)], NonTerm(DCL));
  }

  lemma ArithmeticStep2(input: seq<Kind>, fuel: nat, fuel': nat)
    requires input == Input(Arithmetic) && fuel == 31 && fuel' == 30
    requires WellFormedStack([Term(Eof)] + [NonTerm(DCL)])
    ensures WellFormedStack([Term(Eof)] + [NonTerm(D)] + [Term(Identificador)] + [NonTerm(TIPO)])
    ensures Run(input, [Term(Eof)] + [NonTerm(DCL)], 0, fuel) == Run(input, [Term(Eof)] + [NonTerm(D)] + [Term(Identificador)] + [NonTerm(TIPO)], 0, fuel')
  {
    ArithmeticTokens();
    TableRows0To9();
    ExpandStep(input, [Term(Eof)], 0, Int, fuel, 6, DCL, [NonTerm(TIPO), Term(Identificador), NonTerm(D)]);
    Push3([Term(Eof)], NonTerm(TIPO), Term(Identificador), NonTerm(D));
  }

  lemma ArithmeticStep3(input: seq<Kind>, fuel: nat, fuel': nat)
    requires input == Input(Arithmetic) && fuel == 30 && fuel' == 29
    requires WellFormedStack([Term(Eof)] + [NonTerm(D)] + [Term(Identificador)] + [NonTerm(TIPO)])
    ensures WellFormedStack([Term(Eof)] + [NonTerm(D)] + [Term(Identificador)] + [Term(Int)])
    ensures Run(input, [Term(Eof)] + [NonTerm(D)] + [Term(Identificador)] + [NonTerm(TIPO)], 0, fuel) == Run(input, [Term(Eof)] + [NonTerm(D)] + [Term(Identificador)] + [Term(Int)], 0, fuel')
  {
    ArithmeticTokens();
    TableRows0To9();
    ExpandStep(input, [Term(Eof)] + [NonTerm(D)] + [Term(Identificador)], 0, Int, fuel, 9, TIPO, [Term(Int)]);
    Push1([Term(Eof)] + [NonTerm(D)] + [Term(Identificador)], Term(Int));
  }

  lemma ArithmeticStep4(input: seq<Kind>, fuel: nat, fuel': nat)
    requires input == Input(Arithmetic) && fuel == 29 && fuel' == 28
    requires WellFormedStack([Term(Eof)] + [NonTerm(D)] + [Term(Identificador)] + [Term(Int)])
    ensures WellFormedStack([Term(Eof)] + [NonTerm(D)] + [Term(Identificador)])
    ensures Run(input, [Term(Eof)] + [NonTerm(D)] + [Term(Identificador)] + [Term(Int)], 0, fuel) == Run(input, [Term(Eof)] + [NonTerm(D)] + [Term(Identificador)], 1, fuel')
  {
    ArithmeticTokens();
    MatchStep(input, [Term(Eof)] + [NonTerm(D)] + [Term(Identificador)], 0, Int, fuel);
  }

  lemma ArithmeticStep5(input: seq<Kind>, fuel: nat, fuel': nat)
    requires input == Input(Arithmetic) && fuel == 28 && fuel' == 27
    requires WellFormedStack([Term(Eof)] + [NonTerm(D)] + [Term(Identificador)])
    ensures WellFormedStack([Term(Eof)] + [NonTerm(D)])
    ensures Run(input, [Term(Eof)] + [NonTerm(D)] + [Term(Identificador)], 1, fuel) == Run(input, [Term(Eof)] + [NonTerm(D)], 2, fuel')
  {
    ArithmeticTokens();
    MatchStep(input, [Term(Eof)] + [NonTerm(D)], 1, Identificador, fuel);
  }

  lemma ArithmeticStep6(input: seq<Kind>, fuel: nat, fuel': nat)
    requires input == Input(Arithmetic) && fuel == 27 && fuel' == 26
    requires WellFormedStack([Term(Eof)] + [NonTerm(D)])
    ensures WellFormedStack([Term(Eof)] + [Term(FinInstruccion)] + [NonTerm(E)] + [Term(Asignacion)])
    ensures Run(input, [Term(Eof)] + [NonTerm(D)], 2, fuel) == Run(input, [Term(Eof)] + [Term(FinInstruccion)] + [NonTerm(E)] + [Term(Asignacion)], 2, fuel')
  {
    ArithmeticTokens();
    TableRows10To19();
    ExpandStep(input, [Term(Eof)], 2, Asignacion, fuel, 13, D, [Term(Asignacion), NonTerm(E), Term(FinInstruccion)]);
    Push3([Term(Eof)], Term(Asignacion), NonTerm(E), Term(FinInstruccion));
  }

  lemma ArithmeticStep7(input: seq<Kind>, fuel: nat, fuel': nat)
    requires input == Input(Arithmetic) && fuel == 26 && fuel' == 25
    requires WellFormedStack([Term(Eof)] + [Term(FinInstruccion)] + [NonTerm(E)] + [Term(Asignacion)])
    ensures WellFormedStack([Term(Eof)] + [Term(FinInstruccion)] + [NonTerm(E)])
    ensures Run(input, [Term(Eof)] + [Term(FinInstruccion)] + [NonTerm(E)] + [Term(Asignacion)], 2, fuel) == Run(input, [Term(Eof)] + [Term(FinInstruccion)] + [NonTerm(E)], 3, fuel')
  {
    ArithmeticTokens();
    MatchStep(input, [Term(Eof)] + [Term(FinInstruccion)] + [NonTerm(E)], 2, Asignacion, fuel);
  }

  lemma ArithmeticStep8(input: seq<Kind>, fuel: nat, fuel': nat)
    requires input == Input(Arithmetic) && fuel == 25 && fuel' == 24
    requires WellFormedStack([Term(Eof)] + [Term(FinInstruccion)] + [NonTerm(E)])
    ensures WellFormedStack([Term(Eof)] + [Term(FinInstruccion)] + [NonTerm(E')] + [NonTerm(T)])
    ensures Run(input, [Term(Eof)] + [Term(FinInstruccion)] + [NonTerm(E)], 3, fuel) == Run(input, [Term(Eof)] + [Term(FinInstruccion)] + [NonTerm(E')] + [NonTerm(T)], 3, fuel')
  {
    ArithmeticTokens();
    TableRows20To24();
    TableRows25To29();
    ExpandStep(input, [Term(Eof)] + [Term(FinInstruccion)], 3, LParen, fuel, 21, E, [NonTerm(T), NonTerm(E')]);
    Push2([Term(Eof)] + [Term(FinInstruccion)], NonTerm(T), NonTerm(E'));
  }

  lemma ArithmeticStep9(input: seq<Kind>, fuel: nat, fuel': nat)
    requires input == Input(Arithmetic) && fuel == 24 && fuel' == 23
    requires WellFormedStack([Term(Eof)] + [Term(FinInstruccion)] + [NonTerm(E')] + [NonTerm(T)])
    ensures WellFormedStack([Term(Eof)] + [Term(FinInstruccion)] + [NonTerm(E')] + [NonTerm(T')] + [NonTerm(F)])
    ensures Run(input, [Term(Eof)] + [Term(FinInstruccion)] + [NonTerm(E')] + [NonTerm(T)], 3, fuel) == Run(input, [Term(Eof)] + [Term(FinInstruccion)] + [NonTerm(E')] + [NonTerm(T')] + [NonTerm(F)], 3, fuel')
  {
    ArithmeticTokens();
    TableRows20To24();
    TableRows25To29();
    ExpandStep(input, [Term(Eof)] + [Term(FinInstruccion)] + [NonTerm(E')], 3, LParen, fuel, 28, T, [NonTerm(F), NonTerm(T')]);
    Push2([Term(Eof)] + [Term(FinInstruccion)] + [NonTerm(E')], NonTerm(F), NonTerm(T'));
  }

  lemma ArithmeticStep10(input: seq<Kind>, fuel: nat, fuel': nat)
    requires input == Input(Arithmetic) && fuel == 23 && fuel' == 22
    requires WellFormedStack([Term(Eof)] + [Term(FinInstruccion)] + [NonTerm(E')] + [NonTerm(T')] + [NonTerm(F)])
    ensures WellFormedStack([Term(Eof)] + [Term(FinInstruccion)] + [NonTerm(E')] + [NonTerm(T')] + [Term(RParen)] + [NonTerm(E)] + [Term(LParen)])
    ensures Run(input, [Term(Eof)] + [Term(FinInstruccion)] + [NonTerm(E')] + [NonTerm(T')] + [NonTerm(F)], 3, fuel) == Run(input, [Term(Eof)] + [Term(FinInstruccion)] + [NonTerm(E')] + [NonTerm(T')] + [Term(RParen)] + [NonTerm(E)] + [Term(LParen)], 3, fuel')
  {
    ArithmeticTokens();
    TableRows30To33();
    TableRows34To37();
    ExpandStep(input, [Term(Eof)] + [Term(FinInstruccion)] + [NonTerm(E')] + [NonTerm(T')], 3, LParen, fuel, 37, F, [Term(LParen), NonTerm(E), Term(RParen)]);
    Push3([Term(Eof)] + [Term(FinInstruccion)] + [NonTerm(E')] + [NonTerm(T')], Term(LParen), NonTerm(E), Term(RParen));
  }

  lemma ArithmeticStep11(input: seq<Kind>, fuel: nat, fuel': nat)
    requires input == Input(Arithmetic) && fuel == 22 && fuel' == 21
    requires WellFormedStack([Term(Eof)] + [Term(FinInstruccion)] + [NonTerm(E')] + [NonTerm(T')] + [Term(RParen)] + [NonTerm(E)] + [Term(LParen)])
    ensures WellFormedStack([Term(Eof)] + [Term(FinInstruccion)] + [NonTerm(E')] + [NonTerm(T')] + [Term(RParen)] + [NonTerm(E)])
    ensures Run(input, [Term(Eof)] + [Term(FinInstruccion)] + [NonTerm(E')] + [NonTerm(T')] + [Term(RParen)] + [NonTerm(E)] + [Term(LParen)], 3, fuel) == Run(input, [Term(Eof)] + [Term(FinInstruccion)] + [NonTerm(E')] + [NonTerm(T')] + [Term(RParen)] + [NonTerm(E)], 4, fuel')
  {
    ArithmeticTokens();
    MatchStep(input, [Term(Eof)] + [Term(FinInstruccion)] + [NonTerm(E')] + [NonTerm(T')] + [Term(RParen)] + [NonTerm(E)], 3, LParen, fuel);
  }

  lemma ArithmeticStep12(input: seq<Kind>, fuel: nat, fuel': nat)
    requires input == Input(Arithmetic) && fuel == 21 && fuel' == 20
    requires WellFormedStack([Term(Eof)] + [Term(FinInstruccion)] + [NonTerm(E')] + [NonTerm(T')] + [Term(RParen)] + [NonTerm(E)])
    ensures WellFormedStack([Term(Eof)] + [Term(FinInstruccion)] + [NonTerm(E')] + [NonTerm(T')] + [Term(RParen)] + [NonTerm(E')] + [NonTerm(T)])
    ensures Run(input, [Term(Eof)] + [Term(FinInstruccion)] + [NonTerm(E')] + [NonTerm(T')] + [Term(RParen)] + [NonTerm(E)], 4, fuel) == Run(input, [Term(Eof)] + [Term(FinInstruccion)] + [NonTerm(E')] + [NonTerm(T')] + [Term(RParen)] + [NonTerm(E')] + [NonTerm(T)], 4, fuel')
  {
    ArithmeticTokens();
    TableRows20To24();
    TableRows25To29();
    ExpandStep(input, [Term(Eof)] + [Term(FinInstruccion)] + [NonTerm(E')] + [NonTerm(T')] + [Term(RParen)], 4, Number, fuel, 20, E, [NonTerm(T), NonTerm(E')]);
    Push2([Term(Eof)] + [Term(FinInstruccion)] + [NonTerm(E')] + [NonTerm(T')] + [Term(RParen)], NonTerm(T), NonTerm(E'));
  }

  lemma ArithmeticStep13(input: seq<Kind>, fuel: nat, fuel': nat)
    requires input == Input(Arithmetic) && fuel == 20 && fuel' == 19
    requires WellFormedStack([Term(Eof)] + [Term(FinInstruccion)] + [NonTerm(E')] + [NonTerm(T')] + [Term(RParen)] + [NonTerm(E')] + [NonTerm(T)])
    ensures WellFormedStack([Term(Eof)] + [Term(FinInstruccion)] + [NonTerm(E')] + [NonTerm(T')] + [Term(RParen)] + [NonTerm(E')] + [NonTerm(T')] + [NonTerm(F)])
    ensures Run(input, [Term(Eof)] + [Term(FinInstruccion)] + [NonTerm(E')] + [NonTerm(T')] + [Term(RParen)] + [NonTerm(E')] + [NonTerm(T)], 4, fuel) == Run(input, [Term(Eof)] + [Term(FinInstruccion)] + [NonTerm(E')] + [NonTerm(T')] + [Term(RParen)] + [NonTerm(E')] + [NonTerm(T')] + [NonTerm(F)], 4, fuel')
  {
    ArithmeticTokens();
    TableRows20To24();
    TableRows25To29();
    ExpandStep(input, [Term(Eof)] + [Term(FinInstruccion)] + [NonTerm(E')] + [NonTerm(T')] + [Term(RParen)] + [NonTerm(E')], 4, Number, fuel, 27, T, [NonTerm(F), NonTerm(T')]);
    Push2([Term(Eof)] + [Term(FinInstruccion)] + [NonTerm(E')] + [NonTerm(T')] + [Term(RParen)] + [NonTerm(E')], NonTerm(F), NonTerm(T'));
  }

  lemma ArithmeticStep14(input: seq<Kind>, fuel: nat, fuel': nat)
    requires input == Input(Arithmetic) && fuel == 19 && fuel' == 18
    requires WellFormedStack([Term(Eof)] + [Term(FinInstruccion)] + [NonTerm(E')] + [NonTerm(T')] + [Term(RParen)] + [NonTerm(E')] + [NonTerm(T')] + [NonTerm(F)])
    ensures WellFormedStack([Term(Eof)] + [Term(FinInstruccion)] + [NonTerm(E')] + [NonTerm(T')] + [Term(RParen)] + [NonTerm(E')] + [NonTerm(T')] + [Term(Number)])
    ensures Run(input, [Term(Eof)] + [Term(FinInstruccion)] + [NonTerm(E')] + [NonTerm(T')] + [Term(RParen)] + [NonTerm(E')] + [NonTerm(T')] + [NonTerm(F)], 4, fuel) == Run(input, [Term(Eof)] + [Term(FinInstruccion)] + [NonTerm(E')] + [NonTerm(T')] + [Term(RParen)] + [NonTerm(E')] + [NonTerm(T')] + [Term(Number)], 4, fuel')
  {
    ArithmeticTokens();
    TableRows30To33();
    TableRows34To37();
    ExpandStep(input, [Term(Eof)] + [Term(FinInstruccion)] + [NonTerm(E')] + [NonTerm(T')] + [Term(RParen)] + [NonTerm(E')] + [NonTerm(T')], 4, Number, fuel, 36, F, [Term(Number)]);
    Push1([Term(Eof)] + [Term(FinInstruccion)] + [NonTerm(E')] + [NonTerm(T')] + [Term(RParen)] + [NonTerm(E')] + [NonTerm(T')], Term(Number));
  }

  lemma ArithmeticStep15(input: seq<Kind>, fuel: nat, fuel': nat)
    requires input == Input(Arithmetic) && fuel == 18 && fuel' == 17
    requires WellFormedStack([Term(Eof)] + [Term(FinInstruccion)] + [NonTerm(E')] + [NonTerm(T')] + [Term(RParen)] + [NonTerm(E')] + [NonTerm(T')] + [Term(Number)])
    ensures WellFormedStack([Term(Eof)] + [Term(FinInstruccion)] + [NonTerm(E')] + [NonTerm(T')] + [Term(RParen)] + [NonTerm(E')] + [NonTerm(T')])
    ensures Run(input, [Term(Eof)] + [Term(FinInstruccion)] + [NonTerm(E')] + [NonTerm(T')] + [Term(RParen)] + [NonTerm(E')] + [NonTerm(T')] + [Term(Number)], 4, fuel) == Run(input, [Term(Eof)] + [Term(FinInstruccion)] + [NonTerm(E')] + [NonTerm(T')] + [Term(RParen)] + [NonTerm(E')] + [NonTerm(T')], 5, fuel')
  {
    ArithmeticTokens();
    MatchStep(input, [Term(Eof)] + [Term(FinInstruccion)] + [NonTerm(E')] + [NonTerm(T')] + [Term(RParen)] + [NonTerm(E')] + [NonTerm(T')], 4, Number, fuel);
  }

  lemma ArithmeticStep16(input: seq<Kind>, fuel: nat, fuel': nat)
    requires input == Input(Arithmetic) && fuel == 17 && fuel' == 16
    requires WellFormedStack([Term(Eof)] + [Term(FinInstruccion)] + [NonTerm(E')] + [NonTerm(T')] + [Term(RParen)] + [NonTerm(E')] + [NonTerm(T')])
    ensures WellFormedStack([Term(Eof)] + [Term(FinInstruccion)] + [NonTerm(E')] + [NonTerm(T')] + [Term(RParen)] + [NonTerm(E')])
    ensures Run(input, [Term(Eof)] + [Term(FinInstruccion)] + [NonTerm(E')] + [NonTerm(T')] + [Term(RParen)] + [NonTerm(E')] + [NonTerm(T')], 5, fuel) == Run(input, [Term(Eof)] + [Term(FinInstruccion)] + [NonTerm(E')] + [NonTerm(T')] + [Term(RParen)] + [NonTerm(E')], 5, fuel')
  {
    ArithmeticTokens();
    TableRows30To33();
    TableRows34To37();
    ExpandStep(input, [Term(Eof)] + [Term(FinInstruccion)] + [NonTerm(E')] + [NonTerm(T')] + [Term(RParen)] + [NonTerm(E')], 5, Plus, fuel, 31, T', [Vacia]);
    PushVacia([Term(Eof)] + [Term(FinInstruccion)] + [NonTerm(E')] + [NonTerm(T')] + [Term(RParen)] + [NonTerm(E')]);
  }

  lemma ArithmeticStep17(input: seq<Kind>, fuel: nat, fuel': nat)
    requires input == Input(Arithmetic) && fuel == 16 && fuel' == 15
    requires WellFormedStack([Term(Eof)] + [Term(FinInstruccion)] + [NonTerm(E')] + [NonTerm(T')] + [Term(RParen)] + [NonTerm(E')])
    ensures WellFormedStack([Term(Eof)] + [Term(FinInstruccion)] + [NonTerm(E')] + [NonTerm(T')] + [Term(RParen)] + [NonTerm(E')] + [NonTerm(T)] + [Term(Plus)])
    ensures Run(input, [Term(Eof)] + [Term(FinInstruccion)] + [NonTerm(E')] + [NonTerm(T')] + [Term(RParen)] + [NonTerm(E')], 5, fuel) == Run(input, [Term(Eof)] + [Term(FinInstruccion)] + [NonTerm(E')] + [NonTerm(T')] + [Term(RParen)] + [NonTerm(E')] + [NonTerm(T)] + [Term(Plus)], 5, fuel')
  {
    ArithmeticTokens();
    TableRows20To24();
    TableRows25To29();
    ExpandStep(input, [Term(Eof)] + [Term(FinInstruccion)] + [NonTerm(E')] + [NonTerm(T')] + [Term(RParen)], 5, Plus, fuel, 22, E', [Term(Plus), NonTerm(T), NonTerm(E')]);
    Push3([Term(Eof)] + [Term(FinInstruccion)] + [NonTerm(E')] + [NonTerm(T')] + [Term(RParen)], Term(Plus), NonTerm(T), NonTerm(E'));
  }

  lemma ArithmeticStep18(input: seq<Kind>, fuel: nat, fuel': nat)
    requires input == Input(Arithmetic) && fuel == 15 && fuel' == 14
    requires WellFormedStack([Term(Eof)] + [Term(FinInstruccion)] + [NonTerm(E')] + [NonTerm(T')] + [Term(RParen)] + [NonTerm(E')] + [NonTerm(T)] + [Term(Plus)])
    ensures WellFormedStack([Term(Eof)] + [Term(FinInstruccion)] + [NonTerm(E')] + [NonTerm(T')] + [Term(RParen)] + [NonTerm(E')] + [NonTerm(T)])
    ensures Run(input, [Term(Eof)] + [Term(FinInstruccion)] + [NonTerm(E')] + [NonTerm(T')] + [Term(RParen)] + [NonTerm(E')] + [NonTerm(T)] + [Term(Plus)], 5, fuel) == Run(input, [Term(Eof)] + [Term(FinInstruccion)] + [NonTerm(E')] + [NonTerm(T')] + [Term(RParen)] + [NonTerm(E')] + [NonTerm(T)], 6, fuel')
  {
    ArithmeticTokens();
    MatchStep(input, [Term(Eof)] + [Term(FinInstruccion)] + [NonTerm(E')] + [NonTerm(T')] + [Term(RParen)] + [NonTerm(E')] + [NonTerm(T)], 5, Plus, fuel);
  }

  lemma ArithmeticStep19(input: seq<Kind>, fuel: nat, fuel': nat)
    requires input == Input(Arithmetic) && fuel == 14 && fuel' == 13
    requires WellFormedStack([Term(Eof)] + [Term(FinInstruccion)] + [NonTerm(E')] + [NonTerm(T')] + [Term(RParen)] + [NonTerm(E')] + [NonTerm(T)])
    ensures WellFormedStack([Term(Eof)] + [Term(FinInstruccion)] + [NonTerm(E')] + [NonTerm(T')] + [Term(RParen)] + [NonTerm(E')] + [NonTerm(T')] + [NonTerm(F)])
    ensures Run(input, [Term(Eof)] + [Term(FinInstruccion)] + [NonTerm(E')] + [NonTerm(T')] + [Term(RParen)] + [NonTerm(E')] + [NonTerm(T)], 6, fuel) == Run(input, [Term(Eof)] + [Term(FinInstruccion)] + [NonTerm(E')] + [NonTerm(T')] + [Term(RParen)] + [NonTerm(E')] + [NonTerm(T')] + [NonTerm(F)], 6, fuel')
  {
    ArithmeticTokens();
    TableRows20To24();
    TableRows25To29();
    ExpandStep(input, [Term(Eof)] + [Term(FinInstruccion)] + [NonTerm(E')] + [NonTerm(T')] + [Term(RParen)] + [NonTerm(E')], 6, Number, fuel, 27, T, [NonTerm(F), NonTerm(T')]);
    Push2([Term(Eof)] + [Term(FinInstruccion)] + [NonTerm(E')] + [NonTerm(T')] + [Term(RParen)] + [NonTerm(E')], NonTerm(F), NonTerm(T'));
  }

  lemma ArithmeticStep20(input: seq<Kind>, fuel: nat, fuel': nat)
    requires input == Input(Arithmetic) && fuel == 13 && fuel' == 12
    requires WellFormedStack([Term(Eof)] + [Term(FinInstruccion)] + [NonTerm(E')] + [NonTerm(T')] + [Term(RParen)] + [NonTerm(E')] + [NonTerm(T')] + [NonTerm(F)])
    ensures WellFormedStack([Term(Eof)] + [Term(FinInstruccion)] + [NonTerm(E')] + [NonTerm(T')] + [Term(RParen)] + [NonTerm(E')] + [NonTerm(T')] + [Term(Number)])
    ensures Run(input, [Term(Eof)] + [Term(FinInstruccion)] + [NonTerm(E')] + [NonTerm(T')] + [Term(RParen)] + [NonTerm(E')] + [NonTerm(T')] + [NonTerm(F)], 6, fuel) == Run(input, [Term(Eof)] + [Term(FinInstruccion)] + [NonTerm(E')] + [NonTerm(T')] + [Term(RParen)] + [NonTerm(E')] + [NonTerm(T')] + [Term(Number)], 6, fuel')
  {
    ArithmeticTokens();
    TableRows30To33();
    TableRows34To37();
    ExpandStep(input, [Term(Eof)] + [Term(FinInstruccion)] + [NonTerm(E')] + [NonTerm(T')] + [Term(RParen)] + [NonTerm(E')] + [NonTerm(T')], 6, Number, fuel, 36, F, [Term(Number)]);
    Push1([Term(Eof)] + [Term(FinInstruccion)] + [NonTerm(E')] + [NonTerm(T')] + [Term(RParen)] + [NonTerm(E')] + [NonTerm(T')], Term(Number));
  }

  lemma ArithmeticStep21(input: seq<Kind>, fuel: nat, fuel': nat)
    requires input == Input(Arithmetic) && fuel == 12 && fuel' == 11
    requires WellFormedStack([Term(Eof)] + [Term(FinInstruccion)] + [NonTerm(E')] + [NonTerm(T')] + [Term(RParen)] + [NonTerm(E')] + [NonTerm(T')] + [Term(Number)])
    ensures WellFormedStack([Term(Eof)] + [Term(FinInstruccion)] + [NonTerm(E')] + [NonTerm(T')] + [Term(RParen)] + [NonTerm(E')] + [NonTerm(T')])
    ensures Run(input, [Term(Eof)] + [Term(FinInstruccion)] + [NonTerm(E')] + [NonTerm(T')] + [Term(RParen)] + [NonTerm(E')] + [NonTerm(T')] + [Term(Number)], 6, fuel) == Run(input, [Term(Eof)] + [Term(FinInstruccion)] + [NonTerm(E')] + [NonTerm(T')] + [Term(RParen)] + [NonTerm(E')] + [NonTerm(T')], 7, fuel')
  {
    ArithmeticTokens();
    MatchStep(input, [Term(Eof)] + [Term(FinInstruccion)] + [NonTerm(E')] + [NonTerm(T')] + [Term(RParen)] + [NonTerm(E')] + [NonTerm(T')], 6, Number, fuel);
  }

  lemma ArithmeticStep22(input: seq<Kind>, fuel: nat, fuel': nat)
    requires input == Input(Arithmetic) && fuel == 11 && fuel' == 10
    requires WellFormedStack([Term(Eof)] + [Term(FinInstruccion)] + [NonTerm(E')] + [NonTerm(T')] + [Term(RParen)] + [NonTerm(E')] + [NonTerm(T')])
    ensures WellFormedStack([Term(Eof)] + [Term(FinInstruccion)] + [NonTerm(E')] + [NonTerm(T')] + [Term(RParen)] + [NonTerm(E')])
    ensures Run(input, [Term(Eof)] + [Term(FinInstruccion)] + [NonTerm(E')] + [NonTerm(T')] + [Term(RParen)] + [NonTerm(E')] + [NonTerm(T')], 7, fuel) == Run(input, [Term(Eof)] + [Term(FinInstruccion)] + [NonTerm(E')] + [NonTerm(T')] + [Term(RParen)] + [NonTerm(E')], 7, fuel')
  {
    ArithmeticTokens();
    TableRows30To33();
    TableRows34To37();
    ExpandStep(input, [Term(Eof)] + [Term(FinInstruccion)] + [NonTerm(E')] + [NonTerm(T')] + [Term(RParen)] + [NonTerm(E')], 7, RParen, fuel, 33, T', [Vacia]);
    PushVacia([Term(Eof)] + [Term(FinInstruccion)] + [NonTerm(E')] + [NonTerm(T')] + [Term(RParen)] + [NonTerm(E')]);
  }

  lemma ArithmeticStep23(input: seq<Kind>, fuel: nat, fuel': nat)
    requires input == Input(Arithmetic) && fuel == 10 && fuel' == 9
    requires WellFormedStack([Term(Eof)] + [Term(FinInstruccion)] + [NonTerm(E')] + [NonTerm(T')] + [Term(RParen)] + [NonTerm(E')])
    ensures WellFormedStack([Term(Eof)] + [Term(FinInstruccion)] + [NonTerm(E')] + [NonTerm(T')] + [Term(RParen)])
    ensures Run(input, [Term(Eof)] + [Term(FinInstruccion)] + [NonTerm(E')] + [NonTerm(T')] + [Term(RParen)] + [NonTerm(E')], 7, fuel) == Run(input, [Term(Eof)] + [Term(FinInstruccion)] + [NonTerm(E')] + [NonTerm(T')] + [Term(RParen)], 7, fuel')
  {
    ArithmeticTokens();
    TableRows20To24();
    TableRows25To29();
    ExpandStep(input, [Term(Eof)] + [Term(FinInstruccion)] + [NonTerm(E')] + [NonTerm(T')] + [Term(RParen)], 7, RParen, fuel, 24, E', [Vacia]);
    PushVacia([Term(Eof)] + [Term(FinInstruccion)] + [NonTerm(E')] + [NonTerm(T')] + [Term(RParen)]);
  }

  lemma ArithmeticStep24(input: seq<Kind>, fuel: nat, fuel': nat)
    requires input == Input(Arithmetic) && fuel == 9 && fuel' == 8
    requires WellFormedStack([Term(Eof)] + [Term(FinInstruccion)] + [NonTerm(E')] + [NonTerm(T')] + [Term(RParen)])
    ensures WellFormedStack([Term(Eof)] + [Term(FinInstruccion)] + [NonTerm(E')] + [NonTerm(T')])
    ensures Run(input, [Term(Eof)] + [Term(FinInstruccion)] + [NonTerm(E')] + [NonTerm(T')] + [Term(RParen)], 7, fuel) == Run(input, [Term(Eof)] + [Term(FinInstruccion)] + [NonTerm(E')] + [NonTerm(T')], 8, fuel')
  {
    ArithmeticTokens();
    MatchStep(input, [Term(Eof)] + [Term(FinInstruccion)] + [NonTerm(E')] + [NonTerm(T')], 7, RParen, fuel);
  }

  lemma ArithmeticStep25(input: seq<Kind>, fuel: nat, fuel': nat)
    requires input == Input(Arithmetic) && fuel == 8 && fuel' == 7
    requires WellFormedStack([Term(Eof)] + [Term(FinInstruccion)] + [NonTerm(E')] + [NonTerm(T')])
    ensures WellFormedStack([Term(Eof)] + [Term(FinInstruccion)] + [NonTerm(E')] + [NonTerm(T')] + [NonTerm(F)] + [Term(Times)])
    ensures Run(input, [Term(Eof)] + [Term(FinInstruccion)] + [NonTerm(E')] + [NonTerm(T')], 8, fuel) == Run(input, [Term(Eof)] + [Term(FinInstruccion)] + [NonTerm(E')] + [NonTerm(T')] + [NonTerm(F)] + [Term(Times)], 8, fuel')
  {
    ArithmeticTokens();
    TableRows20To24();
    TableRows25To29();
    ExpandStep(input, [Term(Eof)] + [Term(FinInstruccion)] + [NonTerm(E')], 8, Times, fuel, 29, T', [Term(Times), NonTerm(F), NonTerm(T')]);
    Push3([Term(Eof)] + [Term(FinInstruccion)] + [NonTerm(E')], Term(Times), NonTerm(F), NonTerm(T'));
  }

  lemma ArithmeticStep26(input: seq<Kind>, fuel: nat, fuel': nat)
    requires input == Input(Arithmetic) && fuel == 7 && fuel' == 6
    requires WellFormedStack([Term(Eof)] + [Term(FinInstruccion)] + [NonTerm(E')] + [NonTerm(T')] + [NonTerm(F)] + [Term(Times)])
    ensures WellFormedStack([Term(Eof)] + [Term(FinInstruccion)] + [NonTerm(E')] + [NonTerm(T')] + [NonTerm(F)])
    ensures Run(input, [Term(Eof)] + [Term(FinInstruccion)] + [NonTerm(E')] + [NonTerm(T')] + [NonTerm(F)] + [Term(Times)], 8, fuel) == Run(input, [Term(Eof)] + [Term(FinInstruccion)] + [NonTerm(E')] + [NonTerm(T')] + [NonTerm(F)], 9, fuel')
  {
    ArithmeticTokens();
    MatchStep(input, [Term(Eof)] + [Term(FinInstruccion)] + [NonTerm(E')] + [NonTerm(T')] + [NonTerm(F)], 8, Times, fuel);
  }

  lemma ArithmeticStep27(input: seq<Kind>, fuel: nat, fuel': nat)
    requires input == Input(Arithmetic) && fuel == 6 && fuel' == 5
    requires WellFormedStack([Term(Eof)] + [Term(FinInstruccion)] + [NonTerm(E')] + [NonTerm(T')] + [NonTerm(F)])
    ensures WellFormedStack([Term(Eof)] + [Term(FinInstruccion)] + [NonTerm(E')] + [NonTerm(T')] + [Term(Number)])
    ensures Run(input, [Term(Eof)] + [Term(FinInstruccion)] + [NonTerm(E')] + [NonTerm(T')] + [NonTerm(F)], 9, fuel) == Run(input, [Term(Eof)] + [Term(FinInstruccion)] + [NonTerm(E')] + [NonTerm(T')] + [Term(Number)], 9, fuel')
  {
    ArithmeticTokens();
    TableRows30To33();
    TableRows34To37();
    ExpandStep(input, [Term(Eof)] + [Term(FinInstruccion)] + [NonTerm(E')] + [NonTerm(T')], 9, Number, fuel, 36, F, [Term(Number)]);
    Push1([Term(Eof)] + [Term(FinInstruccion)] + [NonTerm(E')] + [NonTerm(T')], Term(Number));
  }

  lemma ArithmeticStep28(input: seq<Kind>, fuel: nat, fuel': nat)
    requires input == Input(Arithmetic) && fuel == 5 && fuel' == 4
    requires WellFormedStack([Term(Eof)] + [Term(FinInstruccion)] + [NonTerm(E')] + [NonTerm(T')] + [Term(Number)])
    ensures WellFormedStack([Term(Eof)] + [Term(FinInstruccion)] + [NonTerm(E')] + [NonTerm(T')])
    ensures Run(input, [Term(Eof)] + [Term(FinInstruccion)] + [NonTerm(E')] + [NonTerm(T')] + [Term(Number)], 9, fuel) == Run(input, [Term(Eof)] + [Term(FinInstruccion)] + [NonTerm(E')] + [NonTerm(T')], 10, fuel')
  {
    ArithmeticTokens();
    MatchStep(input, [Term(Eof)] + [Term(FinInstruccion)] + [NonTerm(E')] + [NonTerm(T')], 9, Number, fuel);
  }

  lemma ArithmeticStep29(input: seq<Kind>, fuel: nat, fuel': nat)
    requires input == Input(Arithmetic) && fuel == 4 && fuel' == 3
    requires WellFormedStack([Term(Eof)] + [Term(FinInstruccion)] + [NonTerm(E')] + [NonTerm(T')])
    ensures WellFormedStack([Term(Eof)] + [Term(FinInstruccion)] + [NonTerm(E')])
    ensures Run(input, [Term(Eof)] + [Term(FinInstruccion)] + [NonTerm(E')] + [NonTerm(T')], 10, fuel) == Run(input, [Term(Eof)] + [Term(FinInstruccion)] + [NonTerm(E')], 10, fuel')
  {
    ArithmeticTokens();
    TableRows30To33();
    TableRows34To37();
    ExpandStep(input, [Term(Eof)] + [Term(FinInstruccion)] + [NonTerm(E')], 10, FinInstruccion, fuel, 34, T', [Vacia]);
    PushVacia([Term(Eof)] + [Term(FinInstruccion)] + [NonTerm(E')]);
  }

  lemma ArithmeticStep30(input: seq<Kind>, fuel: nat, fuel': nat)
    requires input == Input(Arithmetic) && fuel == 3 && fuel' == 2
    requires WellFormedStack([Term(Eof)] + [Term(FinInstruccion)] + [NonTerm(E')])
    ensures WellFormedStack([Term(Eof)] + [Term(FinInstruccion)])
    ensures Run(input, [Term(Eof)] + [Term(FinInstruccion)] + [NonTerm(E')], 10, fuel) == Run(input, [Term(Eof)] + [Term(FinInstruccion)], 10, fuel')
  {
    ArithmeticTokens();
    TableRows20To24();
    TableRows25To29();
    ExpandStep(input, [Term(Eof)] + [Term(FinInstruccion)], 10, FinInstruccion, fuel, 25, E', [Vacia]);
    PushVacia([Term(Eof)] + [Term(FinInstruccion)]);
  }

  lemma ArithmeticStep31(input: seq<Kind>, fuel: nat, fuel': nat)
    requires input == Input(Arithmetic) && fuel == 2 && fuel' == 1
    requires WellFormedStack([Term(Eof)] + [Term(FinInstruccion)])
    ensures WellFormedStack([Term(Eof)])
    ensures Run(input, [Term(Eof)] + [Term(FinInstruccion)], 10, fuel) == Run(input, [Term(Eof)], 11, fuel')
  {
    ArithmeticTokens();
    MatchStep(input, [Term(Eof)], 10, FinInstruccion, fuel);
  }

  lemma ArithmeticStage1_1(input: seq<Kind>, fuel: nat, fuel': nat)
    requires input == Input(Arithmetic) && fuel == 32 && fuel' == 28
    requires WellFormedStack([Term(Eof)] + [NonTerm(S)])
    ensures WellFormedStack([Term(Eof)] + [NonTerm(D)] + [Term(Identificador)])
    ensures Run(input, [Term(Eof)] + [NonTerm(S)], 0, fuel) == Run(input, [Term(Eof)] + [NonTerm(D)] + [Term(Identificador)], 1, fuel')
  {
    ArithmeticStep1(input, fuel, fuel - 1);
    ArithmeticStep2(input, fuel - 1, fuel - 2);
    ArithmeticStep3(input, fuel - 2, fuel - 3);
    ArithmeticStep4(input, fuel - 3, fuel');
  }

  lemma ArithmeticStage1_2(input: seq<Kind>, fuel: nat, fuel': nat)
    requires input == Input(Arithmetic) && fuel == 28 && fuel' == 24
    requires WellFormedStack([Term(Eof)] + [NonTerm(D)] + [Term(Identificador)])
    ensures WellFormedStack([Term(Eof)] + [Term(FinInstruccion)] + [NonTerm(E')] + [NonTerm(T)])
    ensures Run(input, [Term(Eof)] + [NonTerm(D)] + [Term(Identificador)], 1, fuel) == Run(input, [Term(Eof)] + [Term(FinInstruccion)] + [NonTerm(E')] + [NonTerm(T)], 3, fuel')
  {
    ArithmeticStep5(input, fuel, fuel - 1);
    ArithmeticStep6(input, fuel - 1, fuel - 2);
    ArithmeticStep7(input, fuel - 2, fuel - 3);
    ArithmeticStep8(input, fuel - 3, fuel');
  }

  lemma ArithmeticStage1_3(input: seq<Kind>, fuel: nat, fuel': nat)
    requires input == Input(Arithmetic) && fuel == 24 && fuel' == 20
    requires WellFormedStack([Term(Eof)] + [Term(FinInstruccion)] + [NonTerm(E')] + [NonTerm(T)])
    ensures WellFormedStack([Term(Eof)] + [Term(FinInstruccion)] + [NonTerm(E')] + [NonTerm(T')] + [Term(RParen)] + [NonTerm(E')] + [NonTerm(T)])
    ensures Run(input, [Term(Eof)] + [Term(FinInstruccion)] + [NonTerm(E')] + [NonTerm(T)], 3, fuel) == Run(input, [Term(Eof)] + [Term(FinInstruccion)] + [NonTerm(E')] + [NonTerm(T')] + [Term(RParen)] + [NonTerm(E')] + [NonTerm(T)], 4, fuel')
  {
    ArithmeticStep9(input, fuel, fuel - 1);
    ArithmeticStep10(input, fuel - 1, fuel - 2);
    ArithmeticStep11(input, fuel - 2, fuel - 3);
    ArithmeticStep12(input, fuel - 3, fuel');
  }

  lemma ArithmeticStage1_4(input: seq<Kind>, fuel: nat, fuel': nat)
    requires input == Input(Arithmetic) && fuel == 20 && fuel' == 16
    requires WellFormedStack([Term(Eof)] + [Term(FinInstruccion)] + [NonTerm(E')] + [NonTerm(T')] + [Term(RParen)] + [NonTerm(E')] + [NonTerm(T)])
    ensures WellFormedStack([Term(Eof)] + [Term(FinInstruccion)] + [NonTerm(E')] + [NonTerm(T')] + [Term(RParen)] + [NonTerm(E')])
    ensures Run(input, [Term(Eof)] + [Term(FinInstruccion)] + [NonTerm(E')] + [NonTerm(T')] + [Term(RParen)] + [NonTerm(E')] + [NonTerm(T)], 4, fuel) == Run(input, [Term(Eof)] + [Term(FinInstruccion)] + [NonTerm(E')] + [NonTerm(T')] + [Term(RParen)] + [NonTerm(E')], 5, fuel')
  {
    ArithmeticStep13(input, fuel, fuel - 1);
    ArithmeticStep14(input, fuel - 1, fuel - 2);
    ArithmeticStep15(input, fuel - 2, fuel - 3);
    ArithmeticStep16(input, fuel - 3, fuel');
  }

  lemma ArithmeticStage1_5(input: seq<Kind>, fuel: nat, fuel': nat)
    requires input == Input(Arithmetic) && fuel == 16 && fuel' == 12
    requires WellFormedStack([Term(Eof)] + [Term(FinInstruccion)] + [NonTerm(E')] + [NonTerm(T')] + [Term(RParen)] + [NonTerm(E')])
    ensures WellFormedStack([Term(Eof)] + [Term(FinInstruccion)] + [NonTerm(E')] + [NonTerm(T')] + [Term(RParen)] + [NonTerm(E')] + [NonTerm(T')] + [Term(Number)])
    ensures Run(input, [Term(Eof)] + [Term(FinInstruccion)] + [NonTerm(E')] + [NonTerm(T')] + [Term(RParen)] + [NonTerm(E')], 5, fuel) == Run(input, [Term(Eof)] + [Term(FinInstruccion)] + [NonTerm(E')] + [NonTerm(T')] + [Term(RParen)] + [NonTerm(E')] + [NonTerm(T')] + [Term(Number)], 6, fuel')
  {
    ArithmeticStep17(input, fuel, fuel - 1);
    ArithmeticStep18(input, fuel - 1, fuel - 2);
    ArithmeticStep19(input, fuel - 2, fuel - 3);
    ArithmeticStep20(input, fuel - 3, fuel');
  }

  lemma ArithmeticStage1_6(input: seq<Kind>, fuel: nat, fuel': nat)
    requires input == Input(Arithmetic) && fuel == 12 && fuel' == 8
    requires WellFormedStack([Term(Eof)] + [Term(FinInstruccion)] + [NonTerm(E')] + [NonTerm(T')] + [Term(RParen)] + [NonTerm(E')] + [NonTerm(T')] + [Term(Number)])
    ensures WellFormedStack([Term(Eof)] + [Term(FinInstruccion)] + [NonTerm(E')] + [NonTerm(T')])
    ensures Run(input, [Term(Eof)] + [Term(FinInstruccion)] + [NonTerm(E')] + [NonTerm(T')] + [Term(RParen)] + [NonTerm(E')] + [NonTerm(T')] + [Term(Number)], 6, fuel) == Run(input, [Term(Eof)] + [Term(FinInstruccion)] + [NonTerm(E')] + [NonTerm(T')], 8, fuel')
  {
    ArithmeticStep21(input, fuel, fuel - 1);
    ArithmeticStep22(input, fuel - 1, fuel - 2);
    ArithmeticStep23(input, fuel - 2, fuel - 3);
    ArithmeticStep24(input, fuel - 3, fuel');
  }

  lemma ArithmeticStage1_7(input: seq<Kind>, fuel: nat, fuel': nat)
    requires input == Input(Arithmetic) && fuel == 8 && fuel' == 4
    requires WellFormedStack([Term(Eof)] + [Term(FinInstruccion)] + [NonTerm(E')] + [NonTerm(T')])
    ensures WellFormedStack([Term(Eof)] + [Term(FinInstruccion)] + [NonTerm(E')] + [NonTerm(T')])
    ensures Run(input, [Term(Eof)] + [Term(FinInstruccion)] + [NonTerm(E')] + [NonTerm(T')], 8, fuel) == Run(input, [Term(Eof)] + [Term(FinInstruccion)] + [NonTerm(E')] + [NonTerm(T')], 10, fuel')
  {
    ArithmeticStep25(input, fuel, fuel - 1);
    ArithmeticStep26(input, fuel - 1, fuel - 2);
    ArithmeticStep27(input, fuel - 2, fuel - 3);
    ArithmeticStep28(input, fuel - 3, fuel');
  }

  lemma ArithmeticStage1_8(input: seq<Kind>, fuel: nat, fuel': nat)
    requires input == Input(Arithmetic) && fuel == 4 && fuel' == 1
    requires WellFormedStack([Term(Eof)] + [Term(FinInstruccion)] + [NonTerm(E')] + [NonTerm(T')])
    ensures WellFormedStack([Term(Eof)])
    ensures Run(input, [Term(Eof)] + [Term(FinInstruccion)] + [NonTerm(E')] + [NonTerm(T')], 10, fuel) == Run(input, [Term(Eof)], 11, fuel')
  {
    ArithmeticStep29(input, fuel, fuel - 1);
    ArithmeticStep30(input, fuel - 1, fuel - 2);
    ArithmeticStep31(input, fuel - 2, fuel');
  }

  lemma ArithmeticStage2_1(input: seq<Kind>, fuel: nat, fuel': nat)
    requires input == Input(Arithmetic) && fuel == 32 && fuel' == 16
    requires WellFormedStack([Term(Eof)] + [NonTerm(S)])
    ensures WellFormedStack([Term(Eof)] + [Term(FinInstruccion)] + [NonTerm(E')] + [NonTerm(T')] + [Term(RParen)] + [NonTerm(E')])
    ensures Run(input, [Term(Eof)] + [NonTerm(S)], 0, fuel) == Run(input, [Term(Eof)] + [Term(FinInstruccion)] + [NonTerm(E')] + [NonTerm(T')] + [Term(RParen)] + [NonTerm(E')], 5, fuel')
  {
    ArithmeticStage1_1(input, fuel, fuel - 4);
    ArithmeticStage1_2(input, fuel - 4, fuel - 8);
    ArithmeticStage1_3(input, fuel - 8, fuel - 12);
    ArithmeticStage1_4(input, fuel - 12, fuel');
  }

  lemma ArithmeticStage2_2(input: seq<Kind>, fuel: nat, fuel': nat)
    requires input == Input(Arithmetic) && fuel == 16 && fuel' == 1
    requires WellFormedStack([Term(Eof)] + [Term(FinInstruccion)] + [NonTerm(E')] + [NonTerm(T')] + [Term(RParen)] + [NonTerm(E')])
    ensures WellFormedStack([Term(Eof)])
    ensures Run(input, [Term(Eof)] + [Term(FinInstruccion)] + [NonTerm(E')] + [NonTerm(T')] + [Term(RParen)] + [NonTerm(E')], 5, fuel) == Run(input, [Term(Eof)], 11, fuel')
  {
    ArithmeticStage1_5(input, fuel, fuel - 4);
    ArithmeticStage1_6(input, fuel - 4, fuel - 8);
    ArithmeticStage1_7(input, fuel - 8, fuel - 12);
    ArithmeticStage1_8(input, fuel - 12, fuel');
  }

  /** A parenthesised sum times a number is accepted as an initialiser. */
  lemma ArithmeticAccepted(fuel: nat)
    requires fuel >= 32
    ensures Parse(Input(Arithmetic), fuel) == Accept
  {
    ArithmeticTokens();
    var n: nat := 32;
    assert InitialStack() == [Term(Eof)] + [NonTerm(S)];
    ArithmeticStage2_1(Input(Arithmetic), n, n - 16);
    ArithmeticStage2_2(Input(Arithmetic), n - 16, n - 31);
    AcceptStep(Input(Arithmetic), 11, n - 31);
    ParseFuelMonotone(Input(Arithmetic), n, fuel);
  }

  lemma IfStatementTokens()
    ensures |Input(IfStatement)| == 11
    ensures Input(IfStatement)[0] == If && Input(IfStatement)[1] == LParen && Input(IfStatement)[2] == Number && Input(IfStatement)[3] == Plus && Input(IfStatement)[4] == Number && Input(IfStatement)[5] == RParen && Input(IfStatement)[6] == Identificador && Input(IfStatement)[7] == Asignacion && Input(IfStatement)[8] == Number && Input(IfStatement)[9] == FinInstruccion && Input(IfStatement)[10] == Eof
  {
  }

  lemma IfStatementStep1(input: seq<Kind>, fuel: nat, fuel': nat)
    requires input == Input(IfStatement) && fuel == 28 && fuel' == 27
    requires WellFormedStack([Term(Eof)] + [NonTerm(S)])
    ensures WellFormedStack([Term(Eof)] + [NonTerm(IF)])
    ensures Run(input, [Term(Eof)] + [NonTerm(S)], 0, fuel) == Run(input, [Term(Eof)] + [NonTerm(IF)], 0, fuel')
  {
    IfStatementTokens();
    TableRows0To9();
    ExpandStep(input, [Term(Eof)], 0, If, fuel, 4, S, [NonTerm(IF)]);
    Push1([Term(Eof)], NonTerm(IF));
  }

  lemma IfStatementStep2(input: seq<Kind>, fuel: nat, fuel': nat)
    requires input == Input(IfStatement) && fuel == 27 && fuel' == 26
    requires WellFormedStack([Term(Eof)] + [NonTerm(IF)])
    ensures WellFormedStack([Term(Eof)] + [NonTerm(INST)] + [Term(RParen)] + [NonTerm(E)] + [Term(LParen)] + [Term(If)])
    ensures Run(input, [Term(Eof)] + [NonTerm(IF)], 0, fuel) == Run(input, [Term(Eof)] + [NonTerm(INST)] + [Term(RParen)] + [NonTerm(E)] + [Term(LParen)] + [Term(If)], 0, fuel')
  {
    IfStatementTokens();
    TableRows10To19();
    ExpandStep(input, [Term(Eof)], 0, If, fuel, 17, IF, [Term(If), Term(LParen), NonTerm(E), Term(RParen), NonTerm(INST)]);
    Push5([Term(Eof)], Term(If), Term(LParen), NonTerm(E), Term(RParen), NonTerm(INST));
  }

  lemma IfStatementStep3(input: seq<Kind>, fuel: nat, fuel': nat)
    requires input == Input(IfStatement) && fuel == 26 && fuel' == 25
    requires WellFormedStack([Term(Eof)] + [NonTerm(INST)] + [Term(RParen)] + [NonTerm(E)] + [Term(LParen)] + [Term(If)])
    ensures WellFormedStack([Term(Eof)] + [NonTerm(INST)] + [Term(RParen)] + [NonTerm(E)] + [Term(LParen)])
    ensures Run(input, [Term(Eof)] + [NonTerm(INST)] + [Term(RParen)] + [NonTerm(E)] + [Term(LParen)] + [Term(If)], 0, fuel) == Run(input, [Term(Eof)] + [NonTerm(INST)] + [Term(RParen)] + [NonTerm(E)] + [Term(LParen)], 1, fuel')
  {
    IfStatementTokens();
    MatchStep(input, [Term(Eof)] + [NonTerm(INST)] + [Term(RParen)] + [NonTerm(E)] + [Term(LParen)], 0, If, fuel);
  }

  lemma IfStatementStep4(input: seq<Kind>, fuel: nat, fuel': nat)
    requires input == Input(IfStatement) && fuel == 25 && fuel' == 24
    requires WellFormedStack([Term(Eof)] + [NonTerm(INST)] + [Term(RParen)] + [NonTerm(E)] + [Term(LParen)])
    ensures WellFormedStack([Term(Eof)] + [NonTerm(INST)] + [Term(RParen)] + [NonTerm(E)])
    ensures Run(input, [Term(Eof)] + [NonTerm(INST)] + [Term(RParen)] + [NonTerm(E)] + [Term(LParen)], 1, fuel) == Run(input, [Term(Eof)] + [NonTerm(INST)] + [Term(RParen)] + [NonTerm(E)], 2, fuel')
  {
    IfStatementTokens();
    MatchStep(input, [Term(Eof)] + [NonTerm(INST)] + [Term(RParen)] + [NonTerm(E)], 1, LParen, fuel);
  }

  lemma IfStatementStep5(input: seq<Kind>, fuel: nat, fuel': nat)
    requires input == Input(IfStatement) && fuel == 24 && fuel' == 23
    requires WellFormedStack([Term(Eof)] + [NonTerm(INST)] + [Term(RParen)] + [NonTerm(E)])
    ensures WellFormedStack([Term(Eof)] + [NonTerm(INST)] + [Term(RParen)] + [NonTerm(E')] + [NonTerm(T)])
    ensures Run(input, [Term(Eof)] + [NonTerm(INST)] + [Term(RParen)] + [NonTerm(E)], 2, fuel) == Run(input, [Term(Eof)] + [NonTerm(INST)] + [Term(RParen)] + [NonTerm(E')] + [NonTerm(T)], 2, fuel')
  {
    IfStatementTokens();
    TableRows20To24();
    TableRows25To29();
    ExpandStep(input, [Term(Eof)] + [NonTerm(INST)] + [Term(RParen)], 2, Number, fuel, 20, E, [NonTerm(T), NonTerm(E')]);
    Push2([Term(Eof)] + [NonTerm(INST)] + [Term(RParen)], NonTerm(T), NonTerm(E'));
  }

  lemma IfStatementStep6(input: seq<Kind>, fuel: nat, fuel': nat)
    requires input == Input(IfStatement) && fuel == 23 && fuel' == 22
    requires WellFormedStack([Term(Eof)] + [NonTerm(INST)] + [Term(RParen)] + [NonTerm(E')] + [NonTerm(T)])
    ensures WellFormedStack([Term(Eof)] + [NonTerm(INST)] + [Term(RParen)] + [NonTerm(E')] + [NonTerm(T')] + [NonTerm(F)])
    ensures Run(input, [Term(Eof)] + [NonTerm(INST)] + [Term(RParen)] + [NonTerm(E')] + [NonTerm(T)], 2, fuel) == Run(input, [Term(Eof)] + [NonTerm(INST)] + [Term(RParen)] + [NonTerm(E')] + [NonTerm(T')] + [NonTerm(F)], 2, fuel')
  {
    IfStatementTokens();
    TableRows20To24();
    TableRows25To29();
    ExpandStep(input, [Term(Eof)] + [NonTerm(INST)] + [Term(RParen)] + [NonTerm(E')], 2, Number, fuel, 27, T, [NonTerm(F), NonTerm(T')]);
    Push2([Term(Eof)] + [NonTerm(INST)] + [Term(RParen)] + [NonTerm(E')], NonTerm(F), NonTerm(T'));
  }

  lemma IfStatementStep7(input: seq<Kind>, fuel: nat, fuel': nat)
    requires input == Input(IfStatement) && fuel == 22 && fuel' == 21
    requires WellFormedStack([Term(Eof)] + [NonTerm(INST)] + [Term(RParen)] + [NonTerm(E')] + [NonTerm(T')] + [NonTerm(F)])
    ensures WellFormedStack([Term(Eof)] + [NonTerm(INST)] + [Term(RParen)] + [NonTerm(E')] + [NonTerm(T')] + [Term(Number)])
    ensures Run(input, [Term(Eof)] + [NonTerm(INST)] + [Term(RParen)] + [NonTerm(E')] + [NonTerm(T')] + [NonTerm(F)], 2, fuel) == Run(input, [Term(Eof)] + [NonTerm(INST)] + [Term(RParen)] + [NonTerm(E')] + [NonTerm(T')] + [Term(Number)], 2, fuel')
  {
    IfStatementTokens();
    TableRows30To33();
    TableRows34To37();
    ExpandStep(input, [Term(Eof)] + [NonTerm(INST)] + [Term(RParen)] + [NonTerm(E')] + [NonTerm(T')], 2, Number, fuel, 36, F, [Term(Number)]);
    Push1([Term(Eof)] + [NonTerm(INST)] + [Term(RParen)] + [NonTerm(E')] + [NonTerm(T')], Term(Number));
  }

  lemma IfStatementStep8(input: seq<Kind>, fuel: nat, fuel': nat)
    requires input == Input(IfStatement) && fuel == 21 && fuel' == 20
    requires WellFormedStack([Term(Eof)] + [NonTerm(INST)] + [Term(RParen)] + [NonTerm(E')] + [NonTerm(T')] + [Term(Number)])
    ensures WellFormedStack([Term(Eof)] + [NonTerm(INST)] + [Term(RParen)] + [NonTerm(E')] + [NonTerm(T')])
    ensures Run(input, [Term(Eof)] + [NonTerm(INST)] + [Term(RParen)] + [NonTerm(E')] + [NonTerm(T')] + [Term(Number)], 2, fuel) == Run(input, [Term(Eof)] + [NonTerm(INST)] + [Term(RParen)] + [NonTerm(E')] + [NonTerm(T')], 3, fuel')
  {
    IfStatementTokens();
    MatchStep(input, [Term(Eof)] + [NonTerm(INST)] + [Term(RParen)] + [NonTerm(E')] + [NonTerm(T')], 2, Number, fuel);
  }

  lemma IfStatementStep9(input: seq<Kind>, fuel: nat, fuel': nat)
    requires input == Input(IfStatement) && fuel == 20 && fuel' == 19
    requires WellFormedStack([Term(Eof)] + [NonTerm(INST)] + [Term(RParen)] + [NonTerm(E')] + [NonTerm(T')])
    ensures WellFormedStack([Term(Eof)] + [NonTerm(INST)] + [Term(RParen)] + [NonTerm(E')])
    ensures Run(input, [Term(Eof)] + [NonTerm(INST)] + [Term(RParen)] + [NonTerm(E')] + [NonTerm(T')], 3, fuel) == Run(input, [Term(Eof)] + [NonTerm(INST)] + [Term(RParen)] + [NonTerm(E')], 3, fuel')
  {
    IfStatementTokens();
    TableRows30To33();
    TableRows34To37();
    ExpandStep(input, [Term(Eof)] + [NonTerm(INST)] + [Term(RParen)] + [NonTerm(E')], 3, Plus, fuel, 31, T', [Vacia]);
    PushVacia([Term(Eof)] + [NonTerm(INST)] + [Term(RParen)] + [NonTerm(E')]);
  }

  lemma IfStatementStep10(input: seq<Kind>, fuel: nat, fuel': nat)
    requires input == Input(IfStatement) && fuel == 19 && fuel' == 18
    requires WellFormedStack([Term(Eof)] + [NonTerm(INST)] + [Term(RParen)] + [NonTerm(E')])
    ensures WellFormedStack([Term(Eof)] + [NonTerm(INST)] + [Term(RParen)] + [NonTerm(E')] + [NonTerm(T)] + [Term(Plus)])
    ensures Run(input, [Term(Eof)] + [NonTerm(INST)] + [Term(RParen)] + [NonTerm(E')], 3, fuel) == Run(input, [Term(Eof)] + [NonTerm(INST)] + [Term(RParen)] + [NonTerm(E')] + [NonTerm(T)] + [Term(Plus)], 3, fuel')
  {
    IfStatementTokens();
    TableRows20To24();
    TableRows25To29();
    ExpandStep(input, [Term(Eof)] + [NonTerm(INST)] + [Term(RParen)], 3, Plus, fuel, 22, E', [Term(Plus), NonTerm(T), NonTerm(E')]);
    Push3([Term(Eof)] + [NonTerm(INST)] + [Term(RParen)], Term(Plus), NonTerm(T), NonTerm(E'));
  }

  lemma IfStatementStep11(input: seq<Kind>, fuel: nat, fuel': nat)
    requires input == Input(IfStatement) && fuel == 18 && fuel' == 17
    requires WellFormedStack([Term(Eof)] + [NonTerm(INST)] + [Term(RParen)] + [NonTerm(E')] + [NonTerm(T)] + [Term(Plus)])
    ensures WellFormedStack([Term(Eof)] + [NonTerm(INST)] + [Term(RParen)] + [NonTerm(E')] + [NonTerm(T)])
    ensures Run(input, [Term(Eof)] + [NonTerm(INST)] + [Term(RParen)] + [NonTerm(E')] + [NonTerm(T)] + [Term(Plus)], 3, fuel) == Run(input, [Term(Eof)] + [NonTerm(INST)] + [Term(RParen)] + [NonTerm(E')] + [NonTerm(T)], 4, fuel')
  {
    IfStatementTokens();
    MatchStep(input, [Term(Eof)] + [NonTerm(INST)] + [Term(RParen)] + [NonTerm(E')] + [NonTerm(T)], 3, Plus, fuel);
  }

  lemma IfStatementStep12(input: seq<Kind>, fuel: nat, fuel': nat)
    requires input == Input(IfStatement) && fuel == 17 && fuel' == 16
    requires WellFormedStack([Term(Eof)] + [NonTerm(INST)] + [Term(RParen)] + [NonTerm(E')] + [NonTerm(T)])
    ensures WellFormedStack([Term(Eof)] + [NonTerm(INST)] + [Term(RParen)] + [NonTerm(E')] + [NonTerm(T')] + [NonTerm(F)])
    ensures Run(input, [Term(Eof)] + [NonTerm(INST)] + [Term(RParen)] + [NonTerm(E')] + [NonTerm(T)], 4, fuel) == Run(input, [Term(Eof)] + [NonTerm(INST)] + [Term(RParen)] + [NonTerm(E')] + [NonTerm(T')] + [NonTerm(F)], 4, fuel')
  {
    IfStatementTokens();
    TableRows20To24();
    TableRows25To29();
    ExpandStep(input, [Term(Eof)] + [NonTerm(INST)] + [Term(RParen)] + [NonTerm(E')], 4, Number, fuel, 27, T, [NonTerm(F), NonTerm(T')]);
    Push2([Term(Eof)] + [NonTerm(INST)] + [Term(RParen)] + [NonTerm(E')], NonTerm(F), NonTerm(T'));
  }

  lemma IfStatementStep13(input: seq<Kind>, fuel: nat, fuel': nat)
    requires input == Input(IfStatement) && fuel == 16 && fuel' == 15
    requires WellFormedStack([Term(Eof)] + [NonTerm(INST)] + [Term(RParen)] + [NonTerm(E')] + [NonTerm(T')] + [NonTerm(F)])
    ensures WellFormedStack([Term(Eof)] + [NonTerm(INST)] + [Term(RParen)] + [NonTerm(E')] + [NonTerm(T')] + [Term(Number)])
    ensures Run(input, [Term(Eof)] + [NonTerm(INST)] + [Term(RParen)] + [NonTerm(E')] + [NonTerm(T')] + [NonTerm(F)], 4, fuel) == Run(input, [Term(Eof)] + [NonTerm(INST)] + [Term(RParen)] + [NonTerm(E')] + [NonTerm(T')] + [Term(Number)], 4, fuel')
  {
    IfStatementTokens();
    TableRows30To33();
    TableRows34To37();
    ExpandStep(input, [Term(Eof)] + [NonTerm(INST)] + [Term(RParen)] + [NonTerm(E')] + [NonTerm(T')], 4, Number, fuel, 36, F, [Term(Number)]);
    Push1([Term(Eof)] + [NonTerm(INST)] + [Term(RParen)] + [NonTerm(E')] + [NonTerm(T')], Term(Number));
  }

  lemma IfStatementStep14(input: seq<Kind>, fuel: nat, fuel': nat)
    requires input == Input(IfStatement) && fuel == 15 && fuel' == 14
    requires WellFormedStack([Term(Eof)] + [NonTerm(INST)] + [Term(RParen)] + [NonTerm(E')] + [NonTerm(T')] + [Term(Number)])
    ensures WellFormedStack([Term(Eof)] + [NonTerm(INST)] + [Term(RParen)] + [NonTerm(E')] + [NonTerm(T')])
    ensures Run(input, [Term(Eof)] + [NonTerm(INST)] + [Term(RParen)] + [NonTerm(E')] + [NonTerm(T')] + [Term(Number)], 4, fuel) == Run(input, [Term(Eof)] + [NonTerm(INST)] + [Term(RParen)] + [NonTerm(E')] + [NonTerm(T')], 5, fuel')
  {
    IfStatementTokens();
    MatchStep(input, [Term(Eof)] + [NonTerm(INST)] + [Term(RParen)] + [NonTerm(E')] + [NonTerm(T')], 4, Number, fuel);
  }

  lemma IfStatementStep15(input: seq<Kind>, fuel: nat, fuel': nat)
    requires input == Input(IfStatement) && fuel == 14 && fuel' == 13
    requires WellFormedStack([Term(Eof)] + [NonTerm(INST)] + [Term(RParen)] + [NonTerm(E')] + [NonTerm(T')])
    ensures WellFormedStack([Term(Eof)] + [NonTerm(INST)] + [Term(RParen)] + [NonTerm(E')])
    ensures Run(input, [Term(Eof)] + [NonTerm(INST)] + [Term(RParen)] + [NonTerm(E')] + [NonTerm(T')], 5, fuel) == Run(input, [Term(Eof)] + [NonTerm(INST)] + [Term(RParen)] + [NonTerm(E')], 5, fuel')
  {
    IfStatementTokens();
    TableRows30To33();
    TableRows34To37();
    ExpandStep(input, [Term(Eof)] + [NonTerm(INST)] + [Term(RParen)] + [NonTerm(E')], 5, RParen, fuel, 33, T', [Vacia]);
    PushVacia([Term(Eof)] + [NonTerm(INST)] + [Term(RParen)] + [NonTerm(E')]);
  }

  lemma IfStatementStep16(input: seq<Kind>, fuel: nat, fuel': nat)
    requires input == Input(IfStatement) && fuel == 13 && fuel' == 12
    requires WellFormedStack([Term(Eof)] + [NonTerm(INST)] + [Term(RParen)] + [NonTerm(E')])
    ensures WellFormedStack([Term(Eof)] + [NonTerm(INST)] + [Term(RParen)])
    ensures Run(input, [Term(Eof)] + [NonTerm(INST)] + [Term(RParen)] + [NonTerm(E')], 5, fuel) == Run(input, [Term(Eof)] + [NonTerm(INST)] + [Term(RParen)], 5, fuel')
  {
    IfStatementTokens();
    TableRows20To24();
    TableRows25To29();
    ExpandStep(input, [Term(Eof)] + [NonTerm(INST)] + [Term(RParen)], 5, RParen, fuel, 24, E', [Vacia]);
    PushVacia([Term(Eof)] + [NonTerm(INST)] + [Term(RParen)]);
  }

  lemma IfStatementStep17(input: seq<Kind>, fuel: nat, fuel': nat)
    requires input == Input(IfStatement) && fuel == 12 && fuel' == 11
    requires WellFormedStack([Term(Eof)] + [NonTerm(INST)] + [Term(RParen)])
    ensures WellFormedStack([Term(Eof)] + [NonTerm(INST)])
    ensures Run(input, [Term(Eof)] + [NonTerm(INST)] + [Term(RParen)], 5, fuel) == Run(input, [Term(Eof)] + [NonTerm(INST)], 6, fuel')
  {
    IfStatementTokens();
    MatchStep(input, [Term(Eof)] + [NonTerm(INST)], 5, RParen, fuel);
  }

  lemma IfStatementStep18(input: seq<Kind>, fuel: nat, fuel': nat)
    requires input == Input(IfStatement) && fuel == 11 && fuel' == 10
    requires WellFormedStack([Term(Eof)] + [NonTerm(INST)])
    ensures WellFormedStack([Term(Eof)] + [Term(FinInstruccion)] + [NonTerm(E)] + [Term(Asignacion)] + [Term(Identificador)])
    ensures Run(input, [Term(Eof)] + [NonTerm(INST)], 6, fuel) == Run(input, [Term(Eof)] + [Term(FinInstruccion)] + [NonTerm(E)] + [Term(Asignacion)] + [Term(Identificador)], 6, fuel')
  {
    IfStatementTokens();
    TableRows10To19();
    ExpandStep(input, [Term(Eof)], 6, Identificador, fuel, 15, INST, [Term(Identificador), Term(Asignacion), NonTerm(E), Term(FinInstruccion)]);
    Push4([Term(Eof)], Term(Identificador), Term(Asignacion), NonTerm(E), Term(FinInstruccion));
  }

  lemma IfStatementStep19(input: seq<Kind>, fuel: nat, fuel': nat)
    requires input == Input(IfStatement) && fuel == 10 && fuel' == 9
    requires WellFormedStack([Term(Eof)] + [Term(FinInstruccion)] + [NonTerm(E)] + [Term(Asignacion)] + [Term(Identificador)])
    ensures WellFormedStack([Term(Eof)] + [Term(FinInstruccion)] + [NonTerm(E)] + [Term(Asignacion)])
    ensures Run(input, [Term(Eof)] + [Term(FinInstruccion)] + [NonTerm(E)] + [Term(Asignacion)] + [Term(Identificador)], 6, fuel) == Run(input, [Term(Eof)] + [Term(FinInstruccion)] + [NonTerm(E)] + [Term(Asignacion)], 7, fuel')
  {
    IfStatementTokens();
    MatchStep(input, [Term(Eof)] + [Term(FinInstruccion)] + [NonTerm(E)] + [Term(Asignacion)], 6, Identificador, fuel);
  }

  lemma IfStatementStep20(input: seq<Kind>, fuel: nat, fuel': nat)
    requires input == Input(IfStatement) && fuel == 9 && fuel' == 8
    requires WellFormedStack([Term(Eof)] + [Term(FinInstruccion)] + [NonTerm(E)] + [Term(Asignacion)])
    ensures WellFormedStack([Term(Eof)] + [Term(FinInstruccion)] + [NonTerm(E)])
    ensures Run(input, [Term(Eof)] + [Term(FinInstruccion)] + [NonTerm(E)] + [Term(Asignacion)], 7, fuel) == Run(input, [Term(Eof)] + [Term(FinInstruccion)] + [NonTerm(E)], 8, fuel')
  {
    IfStatementTokens();
    MatchStep(input, [Term(Eof)] + [Term(FinInstruccion)] + [NonTerm(E)], 7, Asignacion, fuel);
  }

  lemma IfStatementStep21(input: seq<Kind>, fuel: nat, fuel': nat)
    requires input == Input(IfStatement) && fuel == 8 && fuel' == 7
    requires WellFormedStack([Term(Eof)] + [Term(FinInstruccion)] + [NonTerm(E)])
    ensures WellFormedStack([Term(Eof)] + [Term(FinInstruccion)] + [NonTerm(E')] + [NonTerm(T)])
    ensures Run(input, [Term(Eof)] + [Term(FinInstruccion)] + [NonTerm(E)], 8, fuel) == Run(input, [Term(Eof)] + [Term(FinInstruccion)] + [NonTerm(E')] + [NonTerm(T)], 8, fuel')
  {
    IfStatementTokens();
    TableRows20To24();
    TableRows25To29();
    ExpandStep(input, [Term(Eof)] + [Term(FinInstruccion)], 8, Number, fuel, 20, E, [NonTerm(T), NonTerm(E')]);
    Push2([Term(Eof)] + [Term(FinInstruccion)], NonTerm(T), NonTerm(E'));
  }

  lemma IfStatementStep22(input: seq<Kind>, fuel: nat, fuel': nat)
    requires input == Input(IfStatement) && fuel == 7 && fuel' == 6
    requires WellFormedStack([Term(Eof)] + [Term(FinInstruccion)] + [NonTerm(E')] + [NonTerm(T)])
    ensures WellFormedStack([Term(Eof)] + [Term(FinInstruccion)] + [NonTerm(E')] + [NonTerm(T')] + [NonTerm(F)])
    ensures Run(input, [Term(Eof)] + [Term(FinInstruccion)] + [NonTerm(E')] + [NonTerm(T)], 8, fuel) == Run(input, [Term(Eof)] + [Term(FinInstruccion)] + [NonTerm(E')] + [NonTerm(T')] + [NonTerm(F)], 8, fuel')
  {
    IfStatementTokens();
    TableRows20To24();
    TableRows25To29();
    ExpandStep(input, [Term(Eof)] + [Term(FinInstruccion)] + [NonTerm(E')], 8, Number, fuel, 27, T, [NonTerm(F), NonTerm(T')]);
    Push2([Term(Eof)] + [Term(FinInstruccion)] + [NonTerm(E')], NonTerm(F), NonTerm(T'));
  }

  lemma IfStatementStep23(input: seq<Kind>, fuel: nat, fuel': nat)
    requires input == Input(IfStatement) && fuel == 6 && fuel' == 5
    requires WellFormedStack([Term(Eof)] + [Term(FinInstruccion)] + [NonTerm(E')] + [NonTerm(T')] + [NonTerm(F)])
    ensures WellFormedStack([Term(Eof)] + [Term(FinInstruccion)] + [NonTerm(E')] + [NonTerm(T')] + [Term(Number)])
    ensures Run(input, [Term(Eof)] + [Term(FinInstruccion)] + [NonTerm(E')] + [NonTerm(T')] + [NonTerm(F)], 8, fuel) == Run(input, [Term(Eof)] + [Term(FinInstruccion)] + [NonTerm(E')] + [NonTerm(T')] + [Term(Number)], 8, fuel')
  {
    IfStatementTokens();
    TableRows30To33();
    TableRows34To37();
    ExpandStep(input, [Term(Eof)] + [Term(FinInstruccion)] + [NonTerm(E')] + [NonTerm(T')], 8, Number, fuel, 36, F, [Term(Number)]);
    Push1([Term(Eof)] + [Term(FinInstruccion)] + [NonTerm(E')] + [NonTerm(T')], Term(Number));
  }

  lemma IfStatementStep24(input: seq<Kind>, fuel: nat, fuel': nat)
    requires input == Input(IfStatement) && fuel == 5 && fuel' == 4
    requires WellFormedStack([Term(Eof)] + [Term(FinInstruccion)] + [NonTerm(E')] + [NonTerm(T')] + [Term(Number)])
    ensures WellFormedStack([Term(Eof)] + [Term(FinInstruccion)] + [NonTerm(E')] + [NonTerm(T')])
    ensures Run(input, [Term(Eof)] + [Term(FinInstruccion)] + [NonTerm(E')] + [NonTerm(T')] + [Term(Number)], 8, fuel) == Run(input, [Term(Eof)] + [Term(FinInstruccion)] + [NonTerm(E')] + [NonTerm(T')], 9, fuel')
  {
    IfStatementTokens();
    MatchStep(input, [Term(Eof)] + [Term(FinInstruccion)] + [NonTerm(E')] + [NonTerm(T')], 8, Number, fuel);
  }

  lemma IfStatementStep25(input: seq<Kind>, fuel: nat, fuel': nat)
    requires input == Input(IfStatement) && fuel == 4 && fuel' == 3
    requires WellFormedStack([Term(Eof)] + [Term(FinInstruccion)] + [NonTerm(E')] + [NonTerm(T')])
    ensures WellFormedStack([Term(Eof)] + [Term(FinInstruccion)] + [NonTerm(E')])
    ensures Run(input, [Term(Eof)] + [Term(FinInstruccion)] + [NonTerm(E')] + [NonTerm(T')], 9, fuel) == Run(input, [Term(Eof)] + [Term(FinInstruccion)] + [NonTerm(E')], 9, fuel')
  {
    IfStatementTokens();
    TableRows30To33();
    TableRows34To37();
    ExpandStep(input, [Term(Eof)] + [Term(FinInstruccion)] + [NonTerm(E')], 9, FinInstruccion, fuel, 34, T', [Vacia]);
    PushVacia([Term(Eof)] + [Term(FinInstruccion)] + [NonTerm(E')]);
  }

  lemma IfStatementStep26(input: seq<Kind>, fuel: nat, fuel': nat)
    requires input == Input(IfStatement) && fuel == 3 && fuel' == 2
    requires WellFormedStack([Term(Eof)] + [Term(FinInstruccion)] + [NonTerm(E')])
    ensures WellFormedStack([Term(Eof)] + [Term(FinInstruccion)])
    ensures Run(input, [Term(Eof)] + [Term(FinInstruccion)] + [NonTerm(E')], 9, fuel) == Run(input, [Term(Eof)] + [Term(FinInstruccion)], 9, fuel')
  {
    IfStatementTokens();
    TableRows20To24();
    TableRows25To29();
    ExpandStep(input, [Term(Eof)] + [Term(FinInstruccion)], 9, FinInstruccion, fuel, 25, E', [Vacia]);
    PushVacia([Term(Eof)] + [Term(FinInstruccion)]);
  }

  lemma IfStatementStep27(input: seq<Kind>, fuel: nat, fuel': nat)
    requires input == Input(IfStatement) && fuel == 2 && fuel' == 1
    requires WellFormedStack([Term(Eof)] + [Term(FinInstruccion)])
    ensures WellFormedStack([Term(Eof)])
    ensures Run(input, [Term(Eof)] + [Term(FinInstruccion)], 9, fuel) == Run(input, [Term(Eof)], 10, fuel')
  {
    IfStatementTokens();
    MatchStep(input, [Term(Eof)], 9, FinInstruccion, fuel);
  }

  lemma IfStatementStage1_1(input: seq<Kind>, fuel: nat, fuel': nat)
    requires input == Input(IfStatement) && fuel == 28 && fuel' == 24
    requires WellFormedStack([Term(Eof)] + [NonTerm(S)])
    ensures WellFormedStack([Term(Eof)] + [NonTerm(INST)] + [Term(RParen)] + [NonTerm(E)])
    ensures Run(input, [Term(Eof)] + [NonTerm(S)], 0, fuel) == Run(input, [Term(Eof)] + [NonTerm(INST)] + [Term(RParen)] + [NonTerm(E)], 2, fuel')
  {
    IfStatementStep1(input, fuel, fuel - 1);
    IfStatementStep2(input, fuel - 1, fuel - 2);
    IfStatementStep3(input, fuel - 2, fuel - 3);
    IfStatementStep4(input, fuel - 3, fuel');
  }

  lemma IfStatementStage1_2(input: seq<Kind>, fuel: nat, fuel': nat)
    requires input == Input(IfStatement) && fuel == 24 && fuel' == 20
    requires WellFormedStack([Term(Eof)] + [NonTerm(INST)] + [Term(RParen)] + [NonTerm(E)])
    ensures WellFormedStack([Term(Eof)] + [NonTerm(INST)] + [Term(RParen)] + [NonTerm(E')] + [NonTerm(T')])
    ensures Run(input, [Term(Eof)] + [NonTerm(INST)] + [Term(RParen)] + [NonTerm(E)], 2, fuel) == Run(input, [Term(Eof)] + [NonTerm(INST)] + [Term(RParen)] + [NonTerm(E')] + [NonTerm(T')], 3, fuel')
  {
    IfStatementStep5(input, fuel, fuel - 1);
    IfStatementStep6(input, fuel - 1, fuel - 2);
    IfStatementStep7(input, fuel - 2, fuel - 3);
    IfStatementStep8(input, fuel - 3, fuel');
  }

  lemma IfStatementStage1_3(input: seq<Kind>, fuel: nat, fuel': nat)
    requires input == Input(IfStatement) && fuel == 20 && fuel' == 16
    requires WellFormedStack([Term(Eof)] + [NonTerm(INST)] + [Term(RParen)] + [NonTerm(E')] + [NonTerm(T')])
    ensures WellFormedStack([Term(Eof)] + [NonTerm(INST)] + [Term(RParen)] + [NonTerm(E')] + [NonTerm(T')] + [NonTerm(F)])
    ensures Run(input, [Term(Eof)] + [NonTerm(INST)] + [Term(RParen)] + [NonTerm(E')] + [NonTerm(T')], 3, fuel) == Run(input, [Term(Eof)] + [NonTerm(INST)] + [Term(RParen)] + [NonTerm(E')] + [NonTerm(T')] + [NonTerm(F)], 4, fuel')
  {
    IfStatementStep9(input, fuel, fuel - 1);
    IfStatementStep10(input, fuel - 1, fuel - 2);
    IfStatementStep11(input, fuel - 2, fuel - 3);
    IfStatementStep12(input, fuel - 3, fuel');
  }

  lemma IfStatementStage1_4(input: seq<Kind>, fuel: nat, fuel': nat)
    requires input == Input(IfStatement) && fuel == 16 && fuel' == 12
    requires WellFormedStack([Term(Eof)] + [NonTerm(INST)] + [Term(RParen)] + [NonTerm(E')] + [NonTerm(T')] + [NonTerm(F)])
    ensures WellFormedStack([Term(Eof)] + [NonTerm(INST)] + [Term(RParen)])
    ensures Run(input, [Term(Eof)] + [NonTerm(INST)] + [Term(RParen)] + [NonTerm(E')] + [NonTerm(T')] + [NonTerm(F)], 4, fuel) == Run(input, [Term(Eof)] + [NonTerm(INST)] + [Term(RParen)], 5, fuel')
  {
    IfStatementStep13(input, fuel, fuel - 1);
    IfStatementStep14(input, fuel - 1, fuel - 2);
    IfStatementStep15(input, fuel - 2, fuel - 3);
    IfStatementStep16(input, fuel - 3, fuel');
  }

  lemma IfStatementStage1_5(input: seq<Kind>, fuel: nat, fuel': nat)
    requires input == Input(IfStatement) && fuel == 12 && fuel' == 8
    requires WellFormedStack([Term(Eof)] + [NonTerm(INST)] + [Term(RParen)])
    ensures WellFormedStack([Term(Eof)] + [Term(FinInstruccion)] + [NonTerm(E)])
    ensures Run(input, [Term(Eof)] + [NonTerm(INST)] + [Term(RParen)], 5, fuel) == Run(input, [Term(Eof)] + [Term(FinInstruccion)] + [NonTerm(E)], 8, fuel')
  {
    IfStatementStep17(input, fuel, fuel - 1);
    IfStatementStep18(input, fuel - 1, fuel - 2);
    IfStatementStep19(input, fuel - 2, fuel - 3);
    IfStatementStep20(input, fuel - 3, fuel');
  }

  lemma IfStatementStage1_6(input: seq<Kind>, fuel: nat, fuel': nat)
    requires input == Input(IfStatement) && fuel == 8 && fuel' == 4
    requires WellFormedStack([Term(Eof)] + [Term(FinInstruccion)] + [NonTerm(E)])
    ensures WellFormedStack([Term(Eof)] + [Term(FinInstruccion)] + [NonTerm(E')] + [NonTerm(T')])
    ensures Run(input, [Term(Eof)] + [Term(FinInstruccion)] + [NonTerm(E)], 8, fuel) == Run(input, [Term(Eof)] + [Term(FinInstruccion)] + [NonTerm(E')] + [NonTerm(T')], 9, fuel')
  {
    IfStatementStep21(input, fuel, fuel - 1);
    IfStatementStep22(input, fuel - 1, fuel - 2);
    IfStatementStep23(input, fuel - 2, fuel - 3);
    IfStatementStep24(input, fuel - 3, fuel');
  }

  lemma IfStatementStage1_7(input: seq<Kind>, fuel: nat, fuel': nat)
    requires input == Input(IfStatement) && fuel == 4 && fuel' == 1
    requires WellFormedStack([Term(Eof)] + [Term(FinInstruccion)] + [NonTerm(E')] + [NonTerm(T')])
    ensures WellFormedStack([Term(Eof)])
    ensures Run(input, [Term(Eof)] + [Term(FinInstruccion)] + [NonTerm(E')] + [NonTerm(T')], 9, fuel) == Run(input, [Term(Eof)], 10, fuel')
  {
    IfStatementStep25(input, fuel, fuel - 1);
    IfStatementStep26(input, fuel - 1, fuel - 2);
    IfStatementStep27(input, fuel - 2, fuel');
  }

  lemma IfStatementStage2_1(input: seq<Kind>, fuel: nat, fuel': nat)
    requires input == Input(IfStatement) && fuel == 28 && fuel' == 12
    requires WellFormedStack([Term(Eof)] + [NonTerm(S)])
    ensures WellFormedStack([Term(Eof)] + [NonTerm(INST)] + [Term(RParen)])
    ensures Run(input, [Term(Eof)] + [NonTerm(S)], 0, fuel) == Run(input, [Term(Eof)] + [NonTerm(INST)] + [Term(RParen)], 5, fuel')
  {
    IfStatementStage1_1(input, fuel, fuel - 4);
    IfStatementStage1_2(input, fuel - 4, fuel - 8);
    IfStatementStage1_3(input, fuel - 8, fuel - 12);
    IfStatementStage1_4(input, fuel - 12, fuel');
  }

  lemma IfStatementStage2_2(input: seq<Kind>, fuel: nat, fuel': nat)
    requires input == Input(IfStatement) && fuel == 12 && fuel' == 1
    requires WellFormedStack([Term(Eof)] + [NonTerm(INST)] + [Term(RParen)])
    ensures WellFormedStack([Term(Eof)])
    ensures Run(input, [Term(Eof)] + [NonTerm(INST)] + [Term(RParen)], 5, fuel) == Run(input, [Term(Eof)], 10, fuel')
  {
    IfStatementStage1_5(input, fuel, fuel - 4);
    IfStatementStage1_6(input, fuel - 4, fuel - 8);
    IfStatementStage1_7(input, fuel - 8, fuel');
  }

  /** A conditional whose body is an assignment is accepted. */
  lemma IfStatementAccepted(fuel: nat)
    requires fuel >= 28
    ensures Parse(Input(IfStatement), fuel) == Accept
  {
    IfStatementTokens();
    var n: nat := 28;
    assert InitialStack() == [Term(Eof)] + [NonTerm(S)];
    IfStatementStage2_1(Input(IfStatement), n, n - 16);
    IfStatementStage2_2(Input(IfStatement), n - 16, n - 27);
    AcceptStep(Input(IfStatement), 10, n - 27);
    ParseFuelMonotone(Input(IfStatement), n, fuel);
  }

  lemma ForStatementTokens()
    ensures |Input(ForStatement)| == 17
    ensures Input(ForStatement)[0] == For && Input(ForStatement)[1] == LParen && Input(ForStatement)[2] == Identificador && Input(ForStatement)[3] == Asignacion && Input(ForStatement)[4] == Number && Input(ForStatement)[5] == FinInstruccion && Input(ForStatement)[6] == Identificador && Input(ForStatement)[7] == FinInstruccion && Input(ForStatement)[8] == Identificador && Input(ForStatement)[9] == Asignacion && Input(ForStatement)[10] == Number && Input(ForStatement)[11] == RParen && Input(ForStatement)[12] == Identificador && Input(ForStatement)[13] == Asignacion && Input(ForStatement)[14] == Number && Input(ForStatement)[15] == FinInstruccion && Input(ForStatement)[16] == Eof
  {
  }

  lemma ForStatementStep1(input: seq<Kind>, fuel: nat, fuel': nat)
    requires input == Input(ForStatement) && fuel == 42 && fuel' == 41
    requires WellFormedStack([Term(Eof)] + [NonTerm(S)])
    ensures WellFormedStack([Term(Eof)] + [NonTerm(FOR)])
    ensures Run(input, [Term(Eof)] + [NonTerm(S)], 0, fuel) == Run(input, [Term(Eof)] + [NonTerm(FOR)], 0, fuel')
  {
    ForStatementTokens();
    TableRows0To9();
    ExpandStep(input, [Term(Eof)], 0, For, fuel, 5, S, [NonTerm(FOR)]);
    Push1([Term(Eof)], NonTerm(FOR));
  }

  lemma ForStatementStep2(input: seq<Kind>, fuel: nat, fuel': nat)
    requires input == Input(ForStatement) && fuel == 41 && fuel' == 40
    requires WellFormedStack([Term(Eof)] + [NonTerm(FOR)])
    ensures WellFormedStack([Term(Eof)] + [NonTerm(INST)] + [Term(RParen)] + [NonTerm(INST0)] + [Term(FinInstruccion)] + [NonTerm(E)] + [NonTerm(INST)] + [Term(LParen)] + [Term(For)])
    ensures Run(input, [Term(Eof)] + [NonTerm(FOR)], 0, fuel) == Run(input, [Term(Eof)] + [NonTerm(INST)] + [Term(RParen)] + [NonTerm(INST0)] + [Term(FinInstruccion)] + [NonTerm(E)] + [NonTerm(INST)] + [Term(LParen)] + [Term(For)], 0, fuel')
  {
    ForStatementTokens();
    TableRows10To19();
    ExpandStep(input, [Term(Eof)], 0, For, fuel, 18, FOR, [Term(For), Term(LParen), NonTerm(INST), NonTerm(E), Term(FinInstruccion), NonTerm(INST0), Term(RParen), NonTerm(INST)]);
    Push8([Term(Eof)], Term(For), Term(LParen), NonTerm(INST), NonTerm(E), Term(FinInstruccion), NonTerm(INST0), Term(RParen), NonTerm(INST));
  }

  lemma ForStatementStep3(input: seq<Kind>, fuel: nat, fuel': nat)
    requires input == Input(ForStatement) && fuel == 40 && fuel' == 39
    requires WellFormedStack([Term(Eof)] + [NonTerm(INST)] + [Term(RParen)] + [NonTerm(INST0)] + [Term(FinInstruccion)] + [NonTerm(E)] + [NonTerm(INST)] + [Term(LParen)] + [Term(For)])
    ensures WellFormedStack([Term(Eof)] + [NonTerm(INST)] + [Term(RParen)] + [NonTerm(INST0)] + [Term(FinInstruccion)] + [NonTerm(E)] + [NonTerm(INST)] + [Term(LParen)])
    ensures Run(input, [Term(Eof)] + [NonTerm(INST)] + [Term(RParen)] + [NonTerm(INST0)] + [Term(FinInstruccion)] + [NonTerm(E)] + [NonTerm(INST)] + [Term(LParen)] + [Term(For)], 0, fuel) == Run(input, [Term(Eof)] + [NonTerm(INST)] + [Term(RParen)] + [NonTerm(INST0)] + [Term(FinInstruccion)] + [NonTerm(E)] + [NonTerm(INST)] + [Term(LParen)], 1, fuel')
  {
    ForStatementTokens();
    MatchStep(input, [Term(Eof)] + [NonTerm(INST)] + [Term(RParen)] + [NonTerm(INST0)] + [Term(FinInstruccion)] + [NonTerm(E)] + [NonTerm(INST)] + [Term(LParen)], 0, For, fuel);
  }

  lemma ForStatementStep4(input: seq<Kind>, fuel: nat, fuel': nat)
    requires input == Input(ForStatement) && fuel == 39 && fuel' == 38
    requires WellFormedStack([Term(Eof)] + [NonTerm(INST)] + [Term(RParen)] + [NonTerm(INST0)] + [Term(FinInstruccion)] + [NonTerm(E)] + [NonTerm(INST)] + [Term(LParen)])
    ensures WellFormedStack([Term(Eof)] + [NonTerm(INST)] + [Term(RParen)] + [NonTerm(INST0)] + [Term(FinInstruccion)] + [NonTerm(E)] + [NonTerm(INST)])
    ensures Run(input, [Term(Eof)] + [NonTerm(INST)] + [Term(RParen)] + [NonTerm(INST0)] + [Term(FinInstruccion)] + [NonTerm(E)] + [NonTerm(INST)] + [Term(LParen)], 1, fuel) == Run(input, [Term(Eof)] + [NonTerm(INST)] + [Term(RParen)] + [NonTerm(INST0)] + [Term(FinInstruccion)] + [NonTerm(E)] + [NonTerm(INST)], 2, fuel')
  {
    ForStatementTokens();
    MatchStep(input, [Term(Eof)] + [NonTerm(INST)] + [Term(RParen)] + [NonTerm(INST0)] + [Term(FinInstruccion)] + [NonTerm(E)] + [NonTerm(INST)], 1, LParen, fuel);
  }

  lemma ForStatementStep5(input: seq<Kind>, fuel: nat, fuel': nat)
    requires input == Input(ForStatement) && fuel == 38 && fuel' == 37
    requires WellFormedStack([Term(Eof)] + [NonTerm(INST)] + [Term(RParen)] + [NonTerm(INST0)] + [Term(FinInstruccion)] + [NonTerm(E)] + [NonTerm(INST)])
    ensures WellFormedStack([Term(Eof)] + [NonTerm(INST)] + [Term(RParen)] + [NonTerm(INST0)] + [Term(FinInstruccion)] + [NonTerm(E)] + [Term(FinInstruccion)] + [NonTerm(E)] + [Term(Asignacion)] + [Term(Identificador)])
    ensures Run(input, [Term(Eof)] + [NonTerm(INST)] + [Term(RParen)] + [NonTerm(INST0)] + [Term(FinInstruccion)] + [NonTerm(E)] + [NonTerm(INST)], 2, fuel) == Run(input, [Term(Eof)] + [NonTerm(INST)] + [Term(RParen)] + [NonTerm(INST0)] + [Term(FinInstruccion)] + [NonTerm(E)] + [Term(FinInstruccion)] + [NonTerm(E)] + [Term(Asignacion)] + [Term(Identificador)], 2, fuel')
  {
    ForStatementTokens();
    TableRows10To19();
    ExpandStep(input, [Term(Eof)] + [NonTerm(INST)] + [Term(RParen)] + [NonTerm(INST0)] + [Term(FinInstruccion)] + [NonTerm(E)], 2, Identificador, fuel, 15, INST, [Term(Identificador), Term(Asignacion), NonTerm(E), Term(FinInstruccion)]);
    Push4([Term(Eof)] + [NonTerm(INST)] + [Term(RParen)] + [NonTerm(INST0)] + [Term(FinInstruccion)] + [NonTerm(E)], Term(Identificador), Term(Asignacion), NonTerm(E), Term(FinInstruccion));
  }

  lemma ForStatementStep6(input: seq<Kind>, fuel: nat, fuel': nat)
    requires input == Input(ForStatement) && fuel == 37 && fuel' == 36
    requires WellFormedStack([Term(Eof)] + [NonTerm(INST)] + [Term(RParen)] + [NonTerm(INST0)] + [Term(FinInstruccion)] + [NonTerm(E)] + [Term(FinInstruccion)] + [NonTerm(E)] + [Term(Asignacion)] + [Term(Identificador)])
    ensures WellFormedStack([Term(Eof)] + [NonTerm(INST)] + [Term(RParen)] + [NonTerm(INST0)] + [Term(FinInstruccion)] + [NonTerm(E)] + [Term(FinInstruccion)] + [NonTerm(E)] + [Term(Asignacion)])
    ensures Run(input, [Term(Eof)] + [NonTerm(INST)] + [Term(RParen)] + [NonTerm(INST0)] + [Term(FinInstruccion)] + [NonTerm(E)] + [Term(FinInstruccion)] + [NonTerm(E)] + [Term(Asignacion)] + [Term(Identificador)], 2, fuel) == Run(input, [Term(Eof)] + [NonTerm(INST)] + [Term(RParen)] + [NonTerm(INST0)] + [Term(FinInstruccion)] + [NonTerm(E)] + [Term(FinInstruccion)] + [NonTerm(E)] + [Term(Asignacion)], 3, fuel')
  {
    ForStatementTokens();
    MatchStep(input, [Term(Eof)] + [NonTerm(INST)] + [Term(RParen)] + [NonTerm(INST0)] + [Term(FinInstruccion)] + [NonTerm(E)] + [Term(FinInstruccion)] + [NonTerm(E)] + [Term(Asignacion)], 2, Identificador, fuel);
  }

  lemma ForStatementStep7(input: seq<Kind>, fuel: nat, fuel': nat)
    requires input == Input(ForStatement) && fuel == 36 && fuel' == 35
    requires WellFormedStack([Term(Eof)] + [NonTerm(INST)] + [Term(RParen)] + [NonTerm(INST0)] + [Term(FinInstruccion)] + [NonTerm(E)] + [Term(FinInstruccion)] + [NonTerm(E)] + [Term(Asignacion)])
    ensures WellFormedStack([Term(Eof)] + [NonTerm(INST)] + [Term(RParen)] + [NonTerm(INST0)] + [Term(FinInstruccion)] + [NonTerm(E)] + [Term(FinInstruccion)] + [NonTerm(E)])
    ensures Run(input, [Term(Eof)] + [NonTerm(INST)] + [Term(RParen)] + [NonTerm(INST0)] + [Term(FinInstruccion)] + [NonTerm(E)] + [Term(FinInstruccion)] + [NonTerm(E)] + [Term(Asignacion)], 3, fuel) == Run(input, [Term(Eof)] + [NonTerm(INST)] + [Term(RParen)] + [NonTerm(INST0)] + [Term(FinInstruccion)] + [NonTerm(E)] + [Term(FinInstruccion)] + [NonTerm(E)], 4, fuel')
  {
    ForStatementTokens();
    MatchStep(input, [Term(Eof)] + [NonTerm(INST)] + [Term(RParen)] + [NonTerm(INST0)] + [Term(FinInstruccion)] + [NonTerm(E)] + [Term(FinInstruccion)] + [NonTerm(E)], 3, Asignacion, fuel);
  }

  lemma ForStatementStep8(input: seq<Kind>, fuel: nat, fuel': nat)
    requires input == Input(ForStatement) && fuel == 35 && fuel' == 34
    requires WellFormedStack([Term(Eof)] + [NonTerm(INST)] + [Term(RParen)] + [NonTerm(INST0)] + [Term(FinInstruccion)] + [NonTerm(E)] + [Term(FinInstruccion)] + [NonTerm(E)])
    ensures WellFormedStack([Term(Eof)] + [NonTerm(INST)] + [Term(RParen)] + [NonTerm(INST0)] + [Term(FinInstruccion)] + [NonTerm(E)] + [Term(FinInstruccion)] + [NonTerm(E')] + [NonTerm(T)])
    ensures Run(input, [Term(Eof)] + [NonTerm(INST)] + [Term(RParen)] + [NonTerm(INST0)] + [Term(FinInstruccion)] + [NonTerm(E)] + [Term(FinInstruccion)] + [NonTerm(E)], 4, fuel) == Run(input, [Term(Eof)] + [NonTerm(INST)] + [Term(RParen)] + [NonTerm(INST0)] + [Term(FinInstruccion)] + [NonTerm(E)] + [Term(FinInstruccion)] + [NonTerm(E')] + [NonTerm(T)], 4, fuel')
  {
    ForStatementTokens();
    TableRows20To24();
    TableRows25To29();
    ExpandStep(input, [Term(Eof)] + [NonTerm(INST)] + [Term(RParen)] + [NonTerm(INST0)] + [Term(FinInstruccion)] + [NonTerm(E)] + [Term(FinInstruccion)], 4, Number, fuel, 20, E, [NonTerm(T), NonTerm(E')]);
    Push2([Term(Eof)] + [NonTerm(INST)] + [Term(RParen)] + [NonTerm(INST0)] + [Term(FinInstruccion)] + [NonTerm(E)] + [Term(FinInstruccion)], NonTerm(T), NonTerm(E'));
  }

  lemma ForStatementStep9(input: seq<Kind>, fuel: nat, fuel': nat)
    requires input == Input(ForStatement) && fuel == 34 && fuel' == 33
    requires WellFormedStack([Term(Eof)] + [NonTerm(INST)] + [Term(RParen)] + [NonTerm(INST0)] + [Term(FinInstruccion)] + [NonTerm(E)] + [Term(FinInstruccion)] + [NonTerm(E')] + [NonTerm(T)])
    ensures WellFormedStack([Term(Eof)] + [NonTerm(INST)] + [Term(RParen)] + [NonTerm(INST0)] + [Term(FinInstruccion)] + [NonTerm(E)] + [Term(FinInstruccion)] + [NonTerm(E')] + [NonTerm(T')] + [NonTerm(F)])
    ensures Run(input, [Term(Eof)] + [NonTerm(INST)] + [Term(RParen)] + [NonTerm(INST0)] + [Term(FinInstruccion)] + [NonTerm(E)] + [Term(FinInstruccion)] + [NonTerm(E')] + [NonTerm(T)], 4, fuel) == Run(input, [Term(Eof)] + [NonTerm(INST)] + [Term(RParen)] + [NonTerm(INST0)] + [Term(FinInstruccion)] + [NonTerm(E)] + [Term(FinInstruccion)] + [NonTerm(E')] + [NonTerm(T')] + [NonTerm(F)], 4, fuel')
  {
    ForStatementTokens();
    TableRows20To24();
    TableRows25To29();
    ExpandStep(input, [Term(Eof)] + [NonTerm(INST)] + [Term(RParen)] + [NonTerm(INST0)] + [Term(FinInstruccion)] + [NonTerm(E)] + [Term(FinInstruccion)] + [NonTerm(E')], 4, Number, fuel, 27, T, [NonTerm(F), NonTerm(T')]);
    Push2([Term(Eof)] + [NonTerm(INST)] + [Term(RParen)] + [NonTerm(INST0)] + [Term(FinInstruccion)] + [NonTerm(E)] + [Term(FinInstruccion)] + [NonTerm(E')], NonTerm(F), NonTerm(T'));
  }

  lemma ForStatementStep10(input: seq<Kind>, fuel: nat, fuel': nat)
    requires input == Input(ForStatement) && fuel == 33 && fuel' == 32
    requires WellFormedStack([Term(Eof)] + [NonTerm(INST)] + [Term(RParen)] + [NonTerm(INST0)] + [Term(FinInstruccion)] + [NonTerm(E)] + [Term(FinInstruccion)] + [NonTerm(E')] + [NonTerm(T')] + [NonTerm(F)])
    ensures WellFormedStack([Term(Eof)] + [NonTerm(INST)] + [Term(RParen)] + [NonTerm(INST0)] + [Term(FinInstruccion)] + [NonTerm(E)] + [Term(FinInstruccion)] + [NonTerm(E')] + [NonTerm(T')] + [Term(Number)])
    ensures Run(input, [Term(Eof)] + [NonTerm(INST)] + [Term(RParen)] + [NonTerm(INST0)] + [Term(FinInstruccion)] + [NonTerm(E)] + [Term(FinInstruccion)] + [NonTerm(E')] + [NonTerm(T')] + [NonTerm(F)], 4, fuel) == Run(input, [Term(Eof)] + [NonTerm(INST)] + [Term(RParen)] + [NonTerm(INST0)] + [Term(FinInstruccion)] + [NonTerm(E)] + [Term(FinInstruccion)] + [NonTerm(E')] + [NonTerm(T')] + [Term(Number)], 4, fuel')
  {
    ForStatementTokens();
    TableRows30To33();
    TableRows34To37();
    ExpandStep(input, [Term(Eof)] + [NonTerm(INST)] + [Term(RParen)] + [NonTerm(INST0)] + [Term(FinInstruccion)] + [NonTerm(E)] + [Term(FinInstruccion)] + [NonTerm(E')] + [NonTerm(T')], 4, Number, fuel, 36, F, [Term(Number)]);
    Push1([Term(Eof)] + [NonTerm(INST)] + [Term(RParen)] + [NonTerm(INST0)] + [Term(FinInstruccion)] + [NonTerm(E)] + [Term(FinInstruccion)] + [NonTerm(E')] + [NonTerm(T')], Term(Number));
  }

  lemma ForStatementStep11(input: seq<Kind>, fuel: nat, fuel': nat)
    requires input == Input(ForStatement) && fuel == 32 && fuel' == 31
    requires WellFormedStack([Term(Eof)] + [NonTerm(INST)] + [Term(RParen)] + [NonTerm(INST0)] + [Term(FinInstruccion)] + [NonTerm(E)] + [Term(FinInstruccion)] + [NonTerm(E')] + [NonTerm(T')] + [Term(Number)])
    ensures WellFormedStack([Term(Eof)] + [NonTerm(INST)] + [Term(RParen)] + [NonTerm(INST0)] + [Term(FinInstruccion)] + [NonTerm(E)] + [Term(FinInstruccion)] + [NonTerm(E')] + [NonTerm(T')])
    ensures Run(input, [Term(Eof)] + [NonTerm(INST)] + [Term(RParen)] + [NonTerm(INST0)] + [Term(FinInstruccion)] + [NonTerm(E)] + [Term(FinInstruccion)] + [NonTerm(E')] + [NonTerm(T')] + [Term(Number)], 4, fuel) == Run(input, [Term(Eof)] + [NonTerm(INST)] + [Term(RParen)] + [NonTerm(INST0)] + [Term(FinInstruccion)] + [NonTerm(E)] + [Term(FinInstruccion)] + [NonTerm(E')] + [NonTerm(T')], 5, fuel')
  {
    ForStatementTokens();
    MatchStep(input, [Term(Eof)] + [NonTerm(INST)] + [Term(RParen)] + [NonTerm(INST0)] + [Term(FinInstruccion)] + [NonTerm(E)] + [Term(FinInstruccion)] + [NonTerm(E')] + [NonTerm(T')], 4, Number, fuel);
  }

  lemma ForStatementStep12(input: seq<Kind>, fuel: nat, fuel': nat)
    requires input == Input(ForStatement) && fuel == 31 && fuel' == 30
    requires WellFormedStack([Term(Eof)] + [NonTerm(INST)] + [Term(RParen)] + [NonTerm(INST0)] + [Term(FinInstruccion)] + [NonTerm(E)] + [Term(FinInstruccion)] + [NonTerm(E')] + [NonTerm(T')])
    ensures WellFormedStack([Term(Eof)] + [NonTerm(INST)] + [Term(RParen)] + [NonTerm(INST0)] + [Term(FinInstruccion)] + [NonTerm(E)] + [Term(FinInstruccion)] + [NonTerm(E')])
    ensures Run(input, [Term(Eof)] + [NonTerm(INST)] + [Term(RParen)] + [NonTerm(INST0)] + [Term(FinInstruccion)] + [NonTerm(E)] + [Term(FinInstruccion)] + [NonTerm(E')] + [NonTerm(T')], 5, fuel) == Run(input, [Term(Eof)] + [NonTerm(INST)] + [Term(RParen)] + [NonTerm(INST0)] + [Term(FinInstruccion)] + [NonTerm(E)] + [Term(FinInstruccion)] + [NonTerm(E')], 5, fuel')
  {
    ForStatementTokens();
    TableRows30To33();
    TableRows34To37();
    ExpandStep(input, [Term(Eof)] + [NonTerm(INST)] + [Term(RParen)] + [NonTerm(INST0)] + [Term(FinInstruccion)] + [NonTerm(E)] + [Term(FinInstruccion)] + [NonTerm(E')], 5, FinInstruccion, fuel, 34, T', [Vacia]);
    PushVacia([Term(Eof)] + [NonTerm(INST)] + [Term(RParen)] + [NonTerm(INST0)] + [Term(FinInstruccion)] + [NonTerm(E)] + [Term(FinInstruccion)] + [NonTerm(E')]);
  }

  lemma ForStatementStep13(input: seq<Kind>, fuel: nat, fuel': nat)
    requires input == Input(ForStatement) && fuel == 30 && fuel' == 29
    requires WellFormedStack([Term(Eof)] + [NonTerm(INST)] + [Term(RParen)] + [NonTerm(INST0)] + [Term(FinInstruccion)] + [NonTerm(E)] + [Term(FinInstruccion)] + [NonTerm(E')])
    ensures WellFormedStack([Term(Eof)] + [NonTerm(INST)] + [Term(RParen)] + [NonTerm(INST0)] + [Term(FinInstruccion)] + [NonTerm(E)] + [Term(FinInstruccion)])
    ensures Run(input, [Term(Eof)] + [NonTerm(INST)] + [Term(RParen)] + [NonTerm(INST0)] + [Term(FinInstruccion)] + [NonTerm(E)] + [Term(FinInstruccion)] + [NonTerm(E')], 5, fuel) == Run(input, [Term(Eof)] + [NonTerm(INST)] + [Term(RParen)] + [NonTerm(INST0)] + [Term(FinInstruccion)] + [NonTerm(E)] + [Term(FinInstruccion)], 5, fuel')
  {
    ForStatementTokens();
    TableRows20To24();
    TableRows25To29();
    ExpandStep(input, [Term(Eof)] + [NonTerm(INST)] + [Term(RParen)] + [NonTerm(INST0)] + [Term(FinInstruccion)] + [NonTerm(E)] + [Term(FinInstruccion)], 5, FinInstruccion, fuel, 25, E', [Vacia]);
    PushVacia([Term(Eof)] + [NonTerm(INST)] + [Term(RParen)] + [NonTerm(INST0)] + [Term(FinInstruccion)] + [NonTerm(E)] + [Term(FinInstruccion)]);
  }

  lemma ForStatementStep14(input: seq<Kind>, fuel: nat, fuel': nat)
    requires input == Input(ForStatement) && fuel == 29 && fuel' == 28
    requires WellFormedStack([Term(Eof)] + [NonTerm(INST)] + [Term(RParen)] + [NonTerm(INST0)] + [Term(FinInstruccion)] + [NonTerm(E)] + [Term(FinInstruccion)])
    ensures WellFormedStack([Term(Eof)] + [NonTerm(INST)] + [Term(RParen)] + [NonTerm(INST0)] + [Term(FinInstruccion)] + [NonTerm(E)])
    ensures Run(input, [Term(Eof)] + [NonTerm(INST)] + [Term(RParen)] + [NonTerm(INST0)] + [Term(FinInstruccion)] + [NonTerm(E)] + [Term(FinInstruccion)], 5, fuel) == Run(input, [Term(Eof)] + [NonTerm(INST)] + [Term(RParen)] + [NonTerm(INST0)] + [Term(FinInstruccion)] + [NonTerm(E)], 6, fuel')
  {
    ForStatementTokens();
    MatchStep(input, [Term(Eof)] + [NonTerm(INST)] + [Term(RParen)] + [NonTerm(INST0)] + [Term(FinInstruccion)] + [NonTerm(E)], 5, FinInstruccion, fuel);
  }

  lemma ForStatementStep15(input: seq<Kind>, fuel: nat, fuel': nat)
    requires input == Input(ForStatement) && fuel == 28 && fuel' == 27
    requires WellFormedStack([Term(Eof)] + [NonTerm(INST)] + [Term(RParen)] + [NonTerm(INST0)] + [Term(FinInstruccion)] + [NonTerm(E)])
    ensures WellFormedStack([Term(Eof)] + [NonTerm(INST)] + [Term(RParen)] + [NonTerm(INST0)] + [Term(FinInstruccion)] + [NonTerm(E')] + [NonTerm(T)])
    ensures Run(input, [Term(Eof)] + [NonTerm(INST)] + [Term(RParen)] + [NonTerm(INST0)] + [Term(FinInstruccion)] + [NonTerm(E)], 6, fuel) == Run(input, [Term(Eof)] + [NonTerm(INST)] + [Term(RParen)] + [NonTerm(INST0)] + [Term(FinInstruccion)] + [NonTerm(E')] + [NonTerm(T)], 6, fuel')
  {
    ForStatementTokens();
    TableRows10To19();
    ExpandStep(input, [Term(Eof)] + [NonTerm(INST)] + [Term(RParen)] + [NonTerm(INST0)] + [Term(FinInstruccion)], 6, Identificador, fuel, 19, E, [NonTerm(T), NonTerm(E')]);
    Push2([Term(Eof)] + [NonTerm(INST)] + [Term(RParen)] + [NonTerm(INST0)] + [Term(FinInstruccion)], NonTerm(T), NonTerm(E'));
  }

  lemma ForStatementStep16(input: seq<Kind>, fuel: nat, fuel': nat)
    requires input == Input(ForStatement) && fuel == 27 && fuel' == 26
    requires WellFormedStack([Term(Eof)] + [NonTerm(INST)] + [Term(RParen)] + [NonTerm(INST0)] + [Term(FinInstruccion)] + [NonTerm(E')] + [NonTerm(T)])
    ensures WellFormedStack([Term(Eof)] + [NonTerm(INST)] + [Term(RParen)] + [NonTerm(INST0)] + [Term(FinInstruccion)] + [NonTerm(E')] + [NonTerm(T')] + [NonTerm(F)])
    ensures Run(input, [Term(Eof)] + [NonTerm(INST)] + [Term(RParen)] + [NonTerm(INST0)] + [Term(FinInstruccion)] + [NonTerm(E')] + [NonTerm(T)], 6, fuel) == Run(input, [Term(Eof)] + [NonTerm(INST)] + [Term(RParen)] + [NonTerm(INST0)] + [Term(FinInstruccion)] + [NonTerm(E')] + [NonTerm(T')] + [NonTerm(F)], 6, fuel')
  {
    ForStatementTokens();
    TableRows20To24();
    TableRows25To29();
    ExpandStep(input, [Term(Eof)] + [NonTerm(INST)] + [Term(RParen)] + [NonTerm(INST0)] + [Term(FinInstruccion)] + [NonTerm(E')], 6, Identificador, fuel, 26, T, [NonTerm(F), NonTerm(T')]);
    Push2([Term(Eof)] + [NonTerm(INST)] + [Term(RParen)] + [NonTerm(INST0)] + [Term(FinInstruccion)] + [NonTerm(E')], NonTerm(F), NonTerm(T'));
  }

  lemma ForStatementStep17(input: seq<Kind>, fuel: nat, fuel': nat)
    requires input == Input(ForStatement) && fuel == 26 && fuel' == 25
    requires WellFormedStack([Term(Eof)] + [NonTerm(INST)] + [Term(RParen)] + [NonTerm(INST0)] + [Term(FinInstruccion)] + [NonTerm(E')] + [NonTerm(T')] + [NonTerm(F)])
    ensures WellFormedStack([Term(Eof)] + [NonTerm(INST)] + [Term(RParen)] + [NonTerm(INST0)] + [Term(FinInstruccion)] + [NonTerm(E')] + [NonTerm(T')] + [Term(Identificador)])
    ensures Run(input, [Term(Eof)] + [NonTerm(INST)] + [Term(RParen)] + [NonTerm(INST0)] + [Term(FinInstruccion)] + [NonTerm(E')] + [NonTerm(T')] + [NonTerm(F)], 6, fuel) == Run(input, [Term(Eof)] + [NonTerm(INST)] + [Term(RParen)] + [NonTerm(INST0)] + [Term(FinInstruccion)] + [NonTerm(E')] + [NonTerm(T')] + [Term(Identificador)], 6, fuel')
  {
    ForStatementTokens();
    TableRows30To33();
    TableRows34To37();
    ExpandStep(input, [Term(Eof)] + [NonTerm(INST)] + [Term(RParen)] + [NonTerm(INST0)] + [Term(FinInstruccion)] + [NonTerm(E')] + [NonTerm(T')], 6, Identificador, fuel, 35, F, [Term(Identificador)]);
    Push1([Term(Eof)] + [NonTerm(INST)] + [Term(RParen)] + [NonTerm(INST0)] + [Term(FinInstruccion)] + [NonTerm(E')] + [NonTerm(T')], Term(Identificador));
  }

  lemma ForStatementStep18(input: seq<Kind>, fuel: nat, fuel': nat)
    requires input == Input(ForStatement) && fuel == 25 && fuel' == 24
    requires WellFormedStack([Term(Eof)] + [NonTerm(INST)] + [Term(RParen)] + [NonTerm(INST0)] + [Term(FinInstruccion)] + [NonTerm(E')] + [NonTerm(T')] + [Term(Identificador)])
    ensures WellFormedStack([Term(Eof)] + [NonTerm(INST)] + [Term(RParen)] + [NonTerm(INST0)] + [Term(FinInstruccion)] + [NonTerm(E')] + [NonTerm(T')])
    ensures Run(input, [Term(Eof)] + [NonTerm(INST)] + [Term(RParen)] + [NonTerm(INST0)] + [Term(FinInstruccion)] + [NonTerm(E')] + [NonTerm(T')] + [Term(Identificador)], 6, fuel) == Run(input, [Term(Eof)] + [NonTerm(INST)] + [Term(RParen)] + [NonTerm(INST0)] + [Term(FinInstruccion)] + [NonTerm(E')] + [NonTerm(T')], 7, fuel')
  {
    ForStatementTokens();
    MatchStep(input, [Term(Eof)] + [NonTerm(INST)] + [Term(RParen)] + [NonTerm(INST0)] + [Term(FinInstruccion)] + [NonTerm(E')] + [NonTerm(T')], 6, Identificador, fuel);
  }

  lemma ForStatementStep19(input: seq<Kind>, fuel: nat, fuel': nat)
    requires input == Input(ForStatement) && fuel == 24 && fuel' == 23
    requires WellFormedStack([Term(Eof)] + [NonTerm(INST)] + [Term(RParen)] + [NonTerm(INST0)] + [Term(FinInstruccion)] + [NonTerm(E')] + [NonTerm(T')])
    ensures WellFormedStack([Term(Eof)] + [NonTerm(INST)] + [Term(RParen)] + [NonTerm(INST0)] + [Term(FinInstruccion)] + [NonTerm(E')])
    ensures Run(input, [Term(Eof)] + [NonTerm(INST)] + [Term(RParen)] + [NonTerm(INST0)] + [Term(FinInstruccion)] + [NonTerm(E')] + [NonTerm(T')], 7, fuel) == Run(input, [Term(Eof)] + [NonTerm(INST)] + [Term(RParen)] + [NonTerm(INST0)] + [Term(FinInstruccion)] + [NonTerm(E')], 7, fuel')
  {
    ForStatementTokens();
    TableRows30To33();
    TableRows34To37();
    ExpandStep(input, [Term(Eof)] + [NonTerm(INST)] + [Term(RParen)] + [NonTerm(INST0)] + [Term(FinInstruccion)] + [NonTerm(E')], 7, FinInstruccion, fuel, 34, T', [Vacia]);
    PushVacia([Term(Eof)] + [NonTerm(INST)] + [Term(RParen)] + [NonTerm(INST0)] + [Term(FinInstruccion)] + [NonTerm(E')]);
  }

  lemma ForStatementStep20(input: seq<Kind>, fuel: nat, fuel': nat)
    requires input == Input(ForStatement) && fuel == 23 && fuel' == 22
    requires WellFormedStack([Term(Eof)] + [NonTerm(INST)] + [Term(RParen)] + [NonTerm(INST0)] + [Term(FinInstruccion)] + [NonTerm(E')])
    ensures WellFormedStack([Term(Eof)] + [NonTerm(INST)] + [Term(RParen)] + [NonTerm(INST0)] + [Term(FinInstruccion)])
    ensures Run(input, [Term(Eof)] + [NonTerm(INST)] + [Term(RParen)] + [NonTerm(INST0)] + [Term(FinInstruccion)] + [NonTerm(E')], 7, fuel) == Run(input, [Term(Eof)] + [NonTerm(INST)] + [Term(RParen)] + [NonTerm(INST0)] + [Term(FinInstruccion)], 7, fuel')
  {
    ForStatementTokens();
    TableRows20To24();
    TableRows25To29();
    ExpandStep(input, [Term(Eof)] + [NonTerm(INST)] + [Term(RParen)] + [NonTerm(INST0)] + [Term(FinInstruccion)], 7, FinInstruccion, fuel, 25, E', [Vacia]);
    PushVacia([Term(Eof)] + [NonTerm(INST)] + [Term(RParen)] + [NonTerm(INST0)] + [Term(FinInstruccion)]);
  }

  lemma ForStatementStep21(input: seq<Kind>, fuel: nat, fuel': nat)
    requires input == Input(ForStatement) && fuel == 22 && fuel' == 21
    requires WellFormedStack([Term(Eof)] + [NonTerm(INST)] + [Term(RParen)] + [NonTerm(INST0)] + [Term(FinInstruccion)])
    ensures WellFormedStack([Term(Eof)] + [NonTerm(INST)] + [Term(RParen)] + [NonTerm(INST0)])
    ensures Run(input, [Term(Eof)] + [NonTerm(INST)] + [Term(RParen)] + [NonTerm(INST0)] + [Term(FinInstruccion)], 7, fuel) == Run(input, [Term(Eof)] + [NonTerm(INST)] + [Term(RParen)] + [NonTerm(INST0)], 8, fuel')
  {
    ForStatementTokens();
    MatchStep(input, [Term(Eof)] + [NonTerm(INST)] + [Term(RParen)] + [NonTerm(INST0)], 7, FinInstruccion, fuel);
  }

  lemma ForStatementStep22(input: seq<Kind>, fuel: nat, fuel': nat)
    requires input == Input(ForStatement) && fuel == 21 && fuel' == 20
    requires WellFormedStack([Term(Eof)] + [NonTerm(INST)] + [Term(RParen)] + [NonTerm(INST0)])
    ensures WellFormedStack([Term(Eof)] + [NonTerm(INST)] + [Term(RParen)] + [NonTerm(E)] + [Term(Asignacion)] + [Term(Identificador)])
    ensures Run(input, [Term(Eof)] + [NonTerm(INST)] + [Term(RParen)] + [NonTerm(INST0)], 8, fuel) == Run(input, [Term(Eof)] + [NonTerm(INST)] + [Term(RParen)] + [NonTerm(E)] + [Term(Asignacion)] + [Term(Identificador)], 8, fuel')
  {
    ForStatementTokens();
    TableRows10To19();
    ExpandStep(input, [Term(Eof)] + [NonTerm(INST)] + [Term(RParen)], 8, Identificador, fuel, 16, INST0, [Term(Identificador), Term(Asignacion), NonTerm(E)]);
    Push3([Term(Eof)] + [NonTerm(INST)] + [Term(RParen)], Term(Identificador), Term(Asignacion), NonTerm(E));
  }

  lemma ForStatementStep23(input: seq<Kind>, fuel: nat, fuel': nat)
    requires input == Input(ForStatement) && fuel == 20 && fuel' == 19
    requires WellFormedStack([Term(Eof)] + [NonTerm(INST)] + [Term(RParen)] + [NonTerm(E)] + [Term(Asignacion)] + [Term(Identificador)])
    ensures WellFormedStack([Term(Eof)] + [NonTerm(INST)] + [Term(RParen)] + [NonTerm(E)] + [Term(Asignacion)])
    ensures Run(input, [Term(Eof)] + [NonTerm(INST)] + [Term(RParen)] + [NonTerm(E)] + [Term(Asignacion)] + [Term(Identificador)], 8, fuel) == Run(input, [Term(Eof)] + [NonTerm(INST)] + [Term(RParen)] + [NonTerm(E)] + [Term(Asignacion)], 9, fuel')
  {
    ForStatementTokens();
    MatchStep(input, [Term(Eof)] + [NonTerm(INST)] + [Term(RParen)] + [NonTerm(E)] + [Term(Asignacion)], 8, Identificador, fuel);
  }

  lemma ForStatementStep24(input: seq<Kind>, fuel: nat, fuel': nat)
    requires input == Input(ForStatement) && fuel == 19 && fuel' == 18
    requires WellFormedStack([Term(Eof)] + [NonTerm(INST)] + [Term(RParen)] + [NonTerm(E)] + [Term(Asignacion)])
    ensures WellFormedStack([Term(Eof)] + [NonTerm(INST)] + [Term(RParen)] + [NonTerm(E)])
    ensures Run(input, [Term(Eof)] + [NonTerm(INST)] + [Term(RParen)] + [NonTerm(E)] + [Term(Asignacion)], 9, fuel) == Run(input, [Term(Eof)] + [NonTerm(INST)] + [Term(RParen)] + [NonTerm(E)], 10, fuel')
  {
    ForStatementTokens();
    MatchStep(input, [Term(Eof)] + [NonTerm(INST)] + [Term(RParen)] + [NonTerm(E)], 9, Asignacion, fuel);
  }

  lemma ForStatementStep25(input: seq<Kind>, fuel: nat, fuel': nat)
    requires input == Input(ForStatement) && fuel == 18 && fuel' == 17
    requires WellFormedStack([Term(Eof)] + [NonTerm(INST)] + [Term(RParen)] + [NonTerm(E)])
    ensures WellFormedStack([Term(Eof)] + [NonTerm(INST)] + [Term(RParen)] + [NonTerm(E')] + [NonTerm(T)])
    ensures Run(input, [Term(Eof)] + [NonTerm(INST)] + [Term(RParen)] + [NonTerm(E)], 10, fuel) == Run(input, [Term(Eof)] + [NonTerm(INST)] + [Term(RParen)] + [NonTerm(E')] + [NonTerm(T)], 10, fuel')
  {
    ForStatementTokens();
    TableRows20To24();
    TableRows25To29();
    ExpandStep(input, [Term(Eof)] + [NonTerm(INST)] + [Term(RParen)], 10, Number, fuel, 20, E, [NonTerm(T), NonTerm(E')]);
    Push2([Term(Eof)] + [NonTerm(INST)] + [Term(RParen)], NonTerm(T), NonTerm(E'));
  }

  lemma ForStatementStep26(input: seq<Kind>, fuel: nat, fuel': nat)
    requires input == Input(ForStatement) && fuel == 17 && fuel' == 16
    requires WellFormedStack([Term(Eof)] + [NonTerm(INST)] + [Term(RParen)] + [NonTerm(E')] + [NonTerm(T)])
    ensures WellFormedStack([Term(Eof)] + [NonTerm(INST)] + [Term(RParen)] + [NonTerm(E')] + [NonTerm(T')] + [NonTerm(F)])
    ensures Run(input, [Term(Eof)] + [NonTerm(INST)] + [Term(RParen)] + [NonTerm(E')] + [NonTerm(T)], 10, fuel) == Run(input, [Term(Eof)] + [NonTerm(INST)] + [Term(RParen)] + [NonTerm(E')] + [NonTerm(T')] + [NonTerm(F)], 10, fuel')
  {
    ForStatementTokens();
    TableRows20To24();
    TableRows25To29();
    ExpandStep(input, [Term(Eof)] + [NonTerm(INST)] + [Term(RParen)] + [NonTerm(E')], 10, Number, fuel, 27, T, [NonTerm(F), NonTerm(T')]);
    Push2([Term(Eof)] + [NonTerm(INST)] + [Term(RParen)] + [NonTerm(E')], NonTerm(F), NonTerm(T'));
  }

  lemma ForStatementStep27(input: seq<Kind>, fuel: nat, fuel': nat)
    requires input == Input(ForStatement) && fuel == 16 && fuel' == 15
    requires WellFormedStack([Term(Eof)] + [NonTerm(INST)] + [Term(RParen)] + [NonTerm(E')] + [NonTerm(T')] + [NonTerm(F)])
    ensures WellFormedStack([Term(Eof)] + [NonTerm(INST)] + [Term(RParen)] + [NonTerm(E')] + [NonTerm(T')] + [Term(Number)])
    ensures Run(input, [Term(Eof)] + [NonTerm(INST)] + [Term(RParen)] + [NonTerm(E')] + [NonTerm(T')] + [NonTerm(F)], 10, fuel) == Run(input, [Term(Eof)] + [NonTerm(INST)] + [Term(RParen)] + [NonTerm(E')] + [NonTerm(T')] + [Term(Number)], 10, fuel')
  {
    ForStatementTokens();
    TableRows30To33();
    TableRows34To37();
    ExpandStep(input, [Term(Eof)] + [NonTerm(INST)] + [Term(RParen)] + [NonTerm(E')] + [NonTerm(T')], 10, Number, fuel, 36, F, [Term(Number)]);
    Push1([Term(Eof)] + [NonTerm(INST)] + [Term(RParen)] + [NonTerm(E')] + [NonTerm(T')], Term(Number));
  }

  lemma ForStatementStep28(input: seq<Kind>, fuel: nat, fuel': nat)
    requires input == Input(ForStatement) && fuel == 15 && fuel' == 14
    requires WellFormedStack([Term(Eof)] + [NonTerm(INST)] + [Term(RParen)] + [NonTerm(E')] + [NonTerm(T')] + [Term(Number)])
    ensures WellFormedStack([Term(Eof)] + [NonTerm(INST)] + [Term(RParen)] + [NonTerm(E')] + [NonTerm(T')])
    ensures Run(input, [Term(Eof)] + [NonTerm(INST)] + [Term(RParen)] + [NonTerm(E')] + [NonTerm(T')] + [Term(Number)], 10, fuel) == Run(input, [Term(Eof)] + [NonTerm(INST)] + [Term(RParen)] + [NonTerm(E')] + [NonTerm(T')], 11, fuel')
  {
    ForStatementTokens();
    MatchStep(input, [Term(Eof)] + [NonTerm(INST)] + [Term(RParen)] + [NonTerm(E')] + [NonTerm(T')], 10, Number, fuel);
  }

  lemma ForStatementStep29(input: seq<Kind>, fuel: nat, fuel': nat)
    requires input == Input(ForStatement) && fuel == 14 && fuel' == 13
    requires WellFormedStack([Term(Eof)] + [NonTerm(INST)] + [Term(RParen)] + [NonTerm(E')] + [NonTerm(T')])
    ensures WellFormedStack([Term(Eof)] + [NonTerm(INST)] + [Term(RParen)] + [NonTerm(E')])
    ensures Run(input, [Term(Eof)] + [NonTerm(INST)] + [Term(RParen)] + [NonTerm(E')] + [NonTerm(T')], 11, fuel) == Run(input, [Term(Eof)] + [NonTerm(INST)] + [Term(RParen)] + [NonTerm(E')], 11, fuel')
  {
    ForStatementTokens();
    TableRows30To33();
    TableRows34To37();
    ExpandStep(input, [Term(Eof)] + [NonTerm(INST)] + [Term(RParen)] + [NonTerm(E')], 11, RParen, fuel, 33, T', [Vacia]);
    PushVacia([Term(Eof)] + [NonTerm(INST)] + [Term(RParen)] + [NonTerm(E')]);
  }

  lemma ForStatementStep30(input: seq<Kind>, fuel: nat, fuel': nat)
    requires input == Input(ForStatement) && fuel == 13 && fuel' == 12
    requires WellFormedStack([Term(Eof)] + [NonTerm(INST)] + [Term(RParen)] + [NonTerm(E')])
    ensures WellFormedStack([Term(Eof)] + [NonTerm(INST)] + [Term(RParen)])
    ensures Run(input, [Term(Eof)] + [NonTerm(INST)] + [Term(RParen)] + [NonTerm(E')], 11, fuel) == Run(input, [Term(Eof)] + [NonTerm(INST)] + [Term(RParen)], 11, fuel')
  {
    ForStatementTokens();
    TableRows20To24();
    TableRows25To29();
    ExpandStep(input, [Term(Eof)] + [NonTerm(INST)] + [Term(RParen)], 11, RParen, fuel, 24, E', [Vacia]);
    PushVacia([Term(Eof)] + [NonTerm(INST)] + [Term(RParen)]);
  }

  lemma ForStatementStep31(input: seq<Kind>, fuel: nat, fuel': nat)
    requires input == Input(ForStatement) && fuel == 12 && fuel' == 11
    requires WellFormedStack([Term(Eof)] + [NonTerm(INST)] + [Term(RParen)])
    ensures WellFormedStack([Term(Eof)] + [NonTerm(INST)])
    ensures Run(input, [Term(Eof)] + [NonTerm(INST)] + [Term(RParen)], 11, fuel) == Run(input, [Term(Eof)] + [NonTerm(INST)], 12, fuel')
  {
    ForStatementTokens();
    MatchStep(input, [Term(Eof)] + [NonTerm(INST)], 11, RParen, fuel);
  }

  lemma ForStatementStep32(input: seq<Kind>, fuel: nat, fuel': nat)
    requires input == Input(ForStatement) && fuel == 11 && fuel' == 10
    requires WellFormedStack([Term(Eof)] + [NonTerm(INST)])
    ensures WellFormedStack([Term(Eof)] + [Term(FinInstruccion)] + [NonTerm(E)] + [Term(Asignacion)] + [Term(Identificador)])
    ensures Run(input, [Term(Eof)] + [NonTerm(INST)], 12, fuel) == Run(input, [Term(Eof)] + [Term(FinInstruccion)] + [NonTerm(E)] + [Term(Asignacion)] + [Term(Identificador)], 12, fuel')
  {
    ForStatementTokens();
    TableRows10To19();
    ExpandStep(input, [Term(Eof)], 12, Identificador, fuel, 15, INST, [Term(Identificador), Term(Asignacion), NonTerm(E), Term(FinInstruccion)]);
    Push4([Term(Eof)], Term(Identificador), Term(Asignacion), NonTerm(E), Term(FinInstruccion));
  }

  lemma ForStatementStep33(input: seq<Kind>, fuel: nat, fuel': nat)
    requires input == Input(ForStatement) && fuel == 10 && fuel' == 9
    requires WellFormedStack([Term(Eof)] + [Term(FinInstruccion)] + [NonTerm(E)] + [Term(Asignacion)] + [Term(Identificador)])
    ensures WellFormedStack([Term(Eof)] + [Term(FinInstruccion)] + [NonTerm(E)] + [Term(Asignacion)])
    ensures Run(input, [Term(Eof)] + [Term(FinInstruccion)] + [NonTerm(E)] + [Term(Asignacion)] + [Term(Identificador)], 12, fuel) == Run(input, [Term(Eof)] + [Term(FinInstruccion)] + [NonTerm(E)] + [Term(Asignacion)], 13, fuel')
  {
    ForStatementTokens();
    MatchStep(input, [Term(Eof)] + [Term(FinInstruccion)] + [NonTerm(E)] + [Term(Asignacion)], 12, Identificador, fuel);
  }

  lemma ForStatementStep34(input: seq<Kind>, fuel: nat, fuel': nat)
    requires input == Input(ForStatement) && fuel == 9 && fuel' == 8
    requires WellFormedStack([Term(Eof)] + [Term(FinInstruccion)] + [NonTerm(E)] + [Term(Asignacion)])
    ensures WellFormedStack([Term(Eof)] + [Term(FinInstruccion)] + [NonTerm(E)])
    ensures Run(input, [Term(Eof)] + [Term(FinInstruccion)] + [NonTerm(E)] + [Term(Asignacion)], 13, fuel) == Run(input, [Term(Eof)] + [Term(FinInstruccion)] + [NonTerm(E)], 14, fuel')
  {
    ForStatementTokens();
    MatchStep(input, [Term(Eof)] + [Term(FinInstruccion)] + [NonTerm(E)], 13, Asignacion, fuel);
  }

  lemma ForStatementStep35(input: seq<Kind>, fuel: nat, fuel': nat)
    requires input == Input(ForStatement) && fuel == 8 && fuel' == 7
    requires WellFormedStack([Term(Eof)] + [Term(FinInstruccion)] + [NonTerm(E)])
    ensures WellFormedStack([Term(Eof)] + [Term(FinInstruccion)] + [NonTerm(E')] + [NonTerm(T)])
    ensures Run(input, [Term(Eof)] + [Term(FinInstruccion)] + [NonTerm(E)], 14, fuel) == Run(input, [Term(Eof)] + [Term(FinInstruccion)] + [NonTerm(E')] + [NonTerm(T)], 14, fuel')
  {
    ForStatementTokens();
    TableRows20To24();
    TableRows25To29();
    ExpandStep(input, [Term(Eof)] + [Term(FinInstruccion)], 14, Number, fuel, 20, E, [NonTerm(T), NonTerm(E')]);
    Push2([Term(Eof)] + [Term(FinInstruccion)], NonTerm(T), NonTerm(E'));
  }

  lemma ForStatementStep36(input: seq<Kind>, fuel: nat, fuel': nat)
    requires input == Input(ForStatement) && fuel == 7 && fuel' == 6
    requires WellFormedStack([Term(Eof)] + [Term(FinInstruccion)] + [NonTerm(E')] + [NonTerm(T)])
    ensures WellFormedStack([Term(Eof)] + [Term(FinInstruccion)] + [NonTerm(E')] + [NonTerm(T')] + [NonTerm(F)])
    ensures Run(input, [Term(Eof)] + [Term(FinInstruccion)] + [NonTerm(E')] + [NonTerm(T)], 14, fuel) == Run(input, [Term(Eof)] + [Term(FinInstruccion)] + [NonTerm(E')] + [NonTerm(T')] + [NonTerm(F)], 14, fuel')
  {
    ForStatementTokens();
    TableRows20To24();
    TableRows25To29();
    ExpandStep(input, [Term(Eof)] + [Term(FinInstruccion)] + [NonTerm(E')], 14, Number, fuel, 27, T, [NonTerm(F), NonTerm(T')]);
    Push2([Term(Eof)] + [Term(FinInstruccion)] + [NonTerm(E')], NonTerm(F), NonTerm(T'));
  }

  lemma ForStatementStep37(input: seq<Kind>, fuel: nat, fuel': nat)
    requires input == Input(ForStatement) && fuel == 6 && fuel' == 5
    requires WellFormedStack([Term(Eof)] + [Term(FinInstruccion)] + [NonTerm(E')] + [NonTerm(T')] + [NonTerm(F)])
    ensures WellFormedStack([Term(Eof)] + [Term(FinInstruccion)] + [NonTerm(E')] + [NonTerm(T')] + [Term(Number)])
    ensures Run(input, [Term(Eof)] + [Term(FinInstruccion)] + [NonTerm(E')] + [NonTerm(T')] + [NonTerm(F)], 14, fuel) == Run(input, [Term(Eof)] + [Term(FinInstruccion)] + [NonTerm(E')] + [NonTerm(T')] + [Term(Number)], 14, fuel')
  {
    ForStatementTokens();
    TableRows30To33();
    TableRows34To37();
    ExpandStep(input, [Term(Eof)] + [Term(FinInstruccion)] + [NonTerm(E')] + [NonTerm(T')], 14, Number, fuel, 36, F, [Term(Number)]);
    Push1([Term(Eof)] + [Term(FinInstruccion)] + [NonTerm(E')] + [NonTerm(T')], Term(Number));
  }

  lemma ForStatementStep38(input: seq<Kind>, fuel: nat, fuel': nat)
    requires input == Input(ForStatement) && fuel == 5 && fuel' == 4
    requires WellFormedStack([Term(Eof)] + [Term(FinInstruccion)] + [NonTerm(E')] + [NonTerm(T')] + [Term(Number)])
    ensures WellFormedStack([Term(Eof)] + [Term(FinInstruccion)] + [NonTerm(E')] + [NonTerm(T')])
    ensures Run(input, [Term(Eof)] + [Term(FinInstruccion)] + [NonTerm(E')] + [NonTerm(T')] + [Term(Number)], 14, fuel) == Run(input, [Term(Eof)] + [Term(FinInstruccion)] + [NonTerm(E')] + [NonTerm(T')], 15, fuel')
  {
    ForStatementTokens();
    MatchStep(input, [Term(Eof)] + [Term(FinInstruccion)] + [NonTerm(E')] + [NonTerm(T')], 14, Number, fuel);
  }

  lemma ForStatementStep39(input: seq<Kind>, fuel: nat, fuel': nat)
    requires input == Input(ForStatement) && fuel == 4 && fuel' == 3
    requires WellFormedStack([Term(Eof)] + [Term(FinInstruccion)] + [NonTerm(E')] + [NonTerm(T')])
    ensures WellFormedStack([Term(Eof)] + [Term(FinInstruccion)] + [NonTerm(E')])
    ensures Run(input, [Term(Eof)] + [Term(FinInstruccion)] + [NonTerm(E')] + [NonTerm(T')], 15, fuel) == Run(input, [Term(Eof)] + [Term(FinInstruccion)] + [NonTerm(E')], 15, fuel')
  {
    ForStatementTokens();
    TableRows30To33();
    TableRows34To37();
    ExpandStep(input, [Term(Eof)] + [Term(FinInstruccion)] + [NonTerm(E')], 15, FinInstruccion, fuel, 34, T', [Vacia]);
    PushVacia([Term(Eof)] + [Term(FinInstruccion)] + [NonTerm(E')]);
  }

  lemma ForStatementStep40(input: seq<Kind>, fuel: nat, fuel': nat)
    requires input == Input(ForStatement) && fuel == 3 && fuel' == 2
    requires WellFormedStack([Term(Eof)] + [Term(FinInstruccion)] + [NonTerm(E')])
    ensures WellFormedStack([Term(Eof)] + [Term(FinInstruccion)])
    ensures Run(input, [Term(Eof)] + [Term(FinInstruccion)] + [NonTerm(E')], 15, fuel) == Run(input, [Term(Eof)] + [Term(FinInstruccion)], 15, fuel')
  {
    ForStatementTokens();
    TableRows20To24();
    TableRows25To29();
    ExpandStep(input, [Term(Eof)] + [Term(FinInstruccion)], 15, FinInstruccion, fuel, 25, E', [Vacia]);
    PushVacia([Term(Eof)] + [Term(FinInstruccion)]);
  }

  lemma ForStatementStep41(input: seq<Kind>, fuel: nat, fuel': nat)
    requires input == Input(ForStatement) && fuel == 2 && fuel' == 1
    requires WellFormedStack([Term(Eof)] + [Term(FinInstruccion)])
    ensures WellFormedStack([Term(Eof)])
    ensures Run(input, [Term(Eof)] + [Term(FinInstruccion)], 15, fuel) == Run(input, [Term(Eof)], 16, fuel')
  {
    ForStatementTokens();
    MatchStep(input, [Term(Eof)], 15, FinInstruccion, fuel);
  }

  lemma ForStatementStage1_1(input: seq<Kind>, fuel: nat, fuel': nat)
    requires input == Input(ForStatement) && fuel == 42 && fuel' == 38
    requires WellFormedStack([Term(Eof)] + [NonTerm(S)])
    ensures WellFormedStack([Term(Eof)] + [NonTerm(INST)] + [Term(RParen)] + [NonTerm(INST0)] + [Term(FinInstruccion)] + [NonTerm(E)] + [NonTerm(INST)])
    ensures Run(input, [Term(Eof)] + [NonTerm(S)], 0, fuel) == Run(input, [Term(Eof)] + [NonTerm(INST)] + [Term(RParen)] + [NonTerm(INST0)] + [Term(FinInstruccion)] + [NonTerm(E)] + [NonTerm(INST)], 2, fuel')
  {
    ForStatementStep1(input, fuel, fuel - 1);
    ForStatementStep2(input, fuel - 1, fuel - 2);
    ForStatementStep3(input, fuel - 2, fuel - 3);
    ForStatementStep4(input, fuel - 3, fuel');
  }

  lemma ForStatementStage1_2(input: seq<Kind>, fuel: nat, fuel': nat)
    requires input == Input(ForStatement) && fuel == 38 && fuel' == 34
    requires WellFormedStack([Term(Eof)] + [NonTerm(INST)] + [Term(RParen)] + [NonTerm(INST0)] + [Term(FinInstruccion)] + [NonTerm(E)] + [NonTerm(INST)])
    ensures WellFormedStack([Term(Eof)] + [NonTerm(INST)] + [Term(RParen)] + [NonTerm(INST0)] + [Term(FinInstruccion)] + [NonTerm(E)] + [Term(FinInstruccion)] + [NonTerm(E')] + [NonTerm(T)])
    ensures Run(input, [Term(Eof)] + [NonTerm(INST)] + [Term(RParen)] + [NonTerm(INST0)] + [Term(FinInstruccion)] + [NonTerm(E)] + [NonTerm(INST)], 2, fuel) == Run(input, [Term(Eof)] + [NonTerm(INST)] + [Term(RParen)] + [NonTerm(INST0)] + [Term(FinInstruccion)] + [NonTerm(E)] + [Term(FinInstruccion)] + [NonTerm(E')] + [NonTerm(T)], 4, fuel')
  {
    ForStatementStep5(input, fuel, fuel - 1);
    ForStatementStep6(input, fuel - 1, fuel - 2);
    ForStatementStep7(input, fuel - 2, fuel - 3);
    ForStatementStep8(input, fuel - 3, fuel');
  }

  lemma ForStatementStage1_3(input: seq<Kind>, fuel: nat, fuel': nat)
    requires input == Input(ForStatement) && fuel == 34 && fuel' == 30
    requires WellFormedStack([Term(Eof)] + [NonTerm(INST)] + [Term(RParen)] + [NonTerm(INST0)] + [Term(FinInstruccion)] + [NonTerm(E)] + [Term(FinInstruccion)] + [NonTerm(E')] + [NonTerm(T)])
    ensures WellFormedStack([Term(Eof)] + [NonTerm(INST)] + [Term(RParen)] + [NonTerm(INST0)] + [Term(FinInstruccion)] + [NonTerm(E)] + [Term(FinInstruccion)] + [NonTerm(E')])
    ensures Run(input, [Term(Eof)] + [NonTerm(INST)] + [Term(RParen)] + [NonTerm(INST0)] + [Term(FinInstruccion)] + [NonTerm(E)] + [Term(FinInstruccion)] + [NonTerm(E')] + [NonTerm(T)], 4, fuel) == Run(input, [Term(Eof)] + [NonTerm(INST)] + [Term(RParen)] + [NonTerm(INST0)] + [Term(FinInstruccion)] + [NonTerm(E)] + [Term(FinInstruccion)] + [NonTerm(E')], 5, fuel')
  {
    ForStatementStep9(input, fuel, fuel - 1);
    ForStatementStep10(input, fuel - 1, fuel - 2);
    ForStatementStep11(input, fuel - 2, fuel - 3);
    ForStatementStep12(input, fuel - 3, fuel');
  }

  lemma ForStatementStage1_4(input: seq<Kind>, fuel: nat, fuel': nat)
    requires input == Input(ForStatement) && fuel == 30 && fuel' == 26
    requires WellFormedStack([Term(Eof)] + [NonTerm(INST)] + [Term(RParen)] + [NonTerm(INST0)] + [Term(FinInstruccion)] + [NonTerm(E)] + [Term(FinInstruccion)] + [NonTerm(E')])
    ensures WellFormedStack([Term(Eof)] + [NonTerm(INST)] + [Term(RParen)] + [NonTerm(INST0)] + [Term(FinInstruccion)] + [NonTerm(E')] + [NonTerm(T')] + [NonTerm(F)])
    ensures Run(input, [Term(Eof)] + [NonTerm(INST)] + [Term(RParen)] + [NonTerm(INST0)] + [Term(FinInstruccion)] + [NonTerm(E)] + [Term(FinInstruccion)] + [NonTerm(E')], 5, fuel) == Run(input, [Term(Eof)] + [NonTerm(INST)] + [Term(RParen)] + [NonTerm(INST0)] + [Term(FinInstruccion)] + [NonTerm(E')] + [NonTerm(T')] + [NonTerm(F)], 6, fuel')
  {
    ForStatementStep13(input, fuel, fuel - 1);
    ForStatementStep14(input, fuel - 1, fuel - 2);
    ForStatementStep15(input, fuel - 2, fuel - 3);
    ForStatementStep16(input, fuel - 3, fuel');
  }

  lemma ForStatementStage1_5(input: seq<Kind>, fuel: nat, fuel': nat)
    requires input == Input(ForStatement) && fuel == 26 && fuel' == 22
    requires WellFormedStack([Term(Eof)] + [NonTerm(INST)] + [Term(RParen)] + [NonTerm(INST0)] + [Term(FinInstruccion)] + [NonTerm(E')] + [NonTerm(T')] + [NonTerm(F)])
    ensures WellFormedStack([Term(Eof)] + [NonTerm(INST)] + [Term(RParen)] + [NonTerm(INST0)] + [Term(FinInstruccion)])
    ensures Run(input, [Term(Eof)] + [NonTerm(INST)] + [Term(RParen)] + [NonTerm(INST0)] + [Term(FinInstruccion)] + [NonTerm(E')] + [NonTerm(T')] + [NonTerm(F)], 6, fuel) == Run(input, [Term(Eof)] + [NonTerm(INST)] + [Term(RParen)] + [NonTerm(INST0)] + [Term(FinInstruccion)], 7, fuel')
  {
    ForStatementStep17(input, fuel, fuel - 1);
    ForStatementStep18(input, fuel - 1, fuel - 2);
    ForStatementStep19(input, fuel - 2, fuel - 3);
    ForStatementStep20(input, fuel - 3, fuel');
  }

  lemma ForStatementStage1_6(input: seq<Kind>, fuel: nat, fuel': nat)
    requires input == Input(ForStatement) && fuel == 22 && fuel' == 18
    requires WellFormedStack([Term(Eof)] + [NonTerm(INST)] + [Term(RParen)] + [NonTerm(INST0)] + [Term(FinInstruccion)])
    ensures WellFormedStack([Term(Eof)] + [NonTerm(INST)] + [Term(RParen)] + [NonTerm(E)])
    ensures Run(input, [Term(Eof)] + [NonTerm(INST)] + [Term(RParen)] + [NonTerm(INST0)] + [Term(FinInstruccion)], 7, fuel) == Run(input, [Term(Eof)] + [NonTerm(INST)] + [Term(RParen)] + [NonTerm(E)], 10, fuel')
  {
    ForStatementStep21(input, fuel, fuel - 1);
    ForStatementStep22(input, fuel - 1, fuel - 2);
    ForStatementStep23(input, fuel - 2, fuel - 3);
    ForStatementStep24(input, fuel - 3, fuel');
  }

  lemma ForStatementStage1_7(input: seq<Kind>, fuel: nat, fuel': nat)
    requires input == Input(ForStatement) && fuel == 18 && fuel' == 14
    requires WellFormedStack([Term(Eof)] + [NonTerm(INST)] + [Term(RParen)] + [NonTerm(E)])
    ensures WellFormedStack([Term(Eof)] + [NonTerm(INST)] + [Term(RParen)] + [NonTerm(E')] + [NonTerm(T')])
    ensures Run(input, [Term(Eof)] + [NonTerm(INST)] + [Term(RParen)] + [NonTerm(E)], 10, fuel) == Run(input, [Term(Eof)] + [NonTerm(INST)] + [Term(RParen)] + [NonTerm(E')] + [NonTerm(T')], 11, fuel')
  {
    ForStatementStep25(input, fuel, fuel - 1);
    ForStatementStep26(input, fuel - 1, fuel - 2);
    ForStatementStep27(input, fuel - 2, fuel - 3);
    ForStatementStep28(input, fuel - 3, fuel');
  }

  lemma ForStatementStage1_8(input: seq<Kind>, fuel: nat, fuel': nat)
    requires input == Input(ForStatement) && fuel == 14 && fuel' == 10
    requires WellFormedStack([Term(Eof)] + [NonTerm(INST)] + [Term(RParen)] + [NonTerm(E')] + [NonTerm(T')])
    ensures WellFormedStack([Term(Eof)] + [Term(FinInstruccion)] + [NonTerm(E)] + [Term(Asignacion)] + [Term(Identificador)])
    ensures Run(input, [Term(Eof)] + [NonTerm(INST)] + [Term(RParen)] + [NonTerm(E')] + [NonTerm(T')], 11, fuel) == Run(input, [Term(Eof)] + [Term(FinInstruccion)] + [NonTerm(E)] + [Term(Asignacion)] + [Term(Identificador)], 12, fuel')
  {
    ForStatementStep29(input, fuel, fuel - 1);
    ForStatementStep30(input, fuel - 1, fuel - 2);
    ForStatementStep31(input, fuel - 2, fuel - 3);
    ForStatementStep32(input, fuel - 3, fuel');
  }

  lemma ForStatementStage1_9(input: seq<Kind>, fuel: nat, fuel': nat)
    requires input == Input(ForStatement) && fuel == 10 && fuel' == 6
    requires WellFormedStack([Term(Eof)] + [Term(FinInstruccion)] + [NonTerm(E)] + [Term(Asignacion)] + [Term(Identificador)])
    ensures WellFormedStack([Term(Eof)] + [Term(FinInstruccion)] + [NonTerm(E')] + [NonTerm(T')] + [NonTerm(F)])
    ensures Run(input, [Term(Eof)] + [Term(FinInstruccion)] + [NonTerm(E)] + [Term(Asignacion)] + [Term(Identificador)], 12, fuel) == Run(input, [Term(Eof)] + [Term(FinInstruccion)] + [NonTerm(E')] + [NonTerm(T')] + [NonTerm(F)], 14, fuel')
  {
    ForStatementStep33(input, fuel, fuel - 1);
    ForStatementStep34(input, fuel - 1, fuel - 2);
    ForStatementStep35(input, fuel - 2, fuel - 3);
    ForStatementStep36(input, fuel - 3, fuel');
  }

  lemma ForStatementStage1_10(input: seq<Kind>, fuel: nat, fuel': nat)
    requires input == Input(ForStatement) && fuel == 6 && fuel' == 2
    requires WellFormedStack([Term(Eof)] + [Term(FinInstruccion)] + [NonTerm(E')] + [NonTerm(T')] + [NonTerm(F)])
    ensures WellFormedStack([Term(Eof)] + [Term(FinInstruccion)])
    ensures Run(input, [Term(Eof)] + [Term(FinInstruccion)] + [NonTerm(E')] + [NonTerm(T')] + [NonTerm(F)], 14, fuel) == Run(input, [Term(Eof)] + [Term(FinInstruccion)], 15, fuel')
  {
    ForStatementStep37(input, fuel, fuel - 1);
    ForStatementStep38(input, fuel - 1, fuel - 2);
    ForStatementStep39(input, fuel - 2, fuel - 3);
    ForStatementStep40(input, fuel - 3, fuel');
  }

  lemma ForStatementStage2_1(input: seq<Kind>, fuel: nat, fuel': nat)
    requires input == Input(ForStatement) && fuel == 42 && fuel' == 26
    requires WellFormedStack([Term(Eof)] + [NonTerm(S)])
    ensures WellFormedStack([Term(Eof)] + [NonTerm(INST)] + [Term(RParen)] + [NonTerm(INST0)] + [Term(FinInstruccion)] + [NonTerm(E')] + [NonTerm(T')] + [NonTerm(F)])
    ensures Run(input, [Term(Eof)] + [NonTerm(S)], 0, fuel) == Run(input, [Term(Eof)] + [NonTerm(INST)] + [Term(RParen)] + [NonTerm(INST0)] + [Term(FinInstruccion)] + [NonTerm(E')] + [NonTerm(T')] + [NonTerm(F)], 6, fuel')
  {
    ForStatementStage1_1(input, fuel, fuel - 4);
    ForStatementStage1_2(input, fuel - 4, fuel - 8);
    ForStatementStage1_3(input, fuel - 8, fuel - 12);
    ForStatementStage1_4(input, fuel - 12, fuel');
  }

  lemma ForStatementStage2_2(input: seq<Kind>, fuel: nat, fuel': nat)
    requires input == Input(ForStatement) && fuel == 26 && fuel' == 10
    requires WellFormedStack([Term(Eof)] + [NonTerm(INST)] + [Term(RParen)] + [NonTerm(INST0)] + [Term(FinInstruccion)] + [NonTerm(E')] + [NonTerm(T')] + [NonTerm(F)])
    ensures WellFormedStack([Term(Eof)] + [Term(FinInstruccion)] + [NonTerm(E)] + [Term(Asignacion)] + [Term(Identificador)])
    ensures Run(input, [Term(Eof)] + [NonTerm(INST)] + [Term(RParen)] + [NonTerm(INST0)] + [Term(FinInstruccion)] + [NonTerm(E')] + [NonTerm(T')] + [NonTerm(F)], 6, fuel) == Run(input, [Term(Eof)] + [Term(FinInstruccion)] + [NonTerm(E)] + [Term(Asignacion)] + [Term(Identificador)], 12, fuel')
  {
    ForStatementStage1_5(input, fuel, fuel - 4);
    ForStatementStage1_6(input, fuel - 4, fuel - 8);
    ForStatementStage1_7(input, fuel - 8, fuel - 12);
    ForStatementStage1_8(input, fuel - 12, fuel');
  }

  lemma ForStatementStage2_3(input: seq<Kind>, fuel: nat, fuel': nat)
    requires input == Input(ForStatement) && fuel == 10 && fuel' == 1
    requires WellFormedStack([Term(Eof)] + [Term(FinInstruccion)] + [NonTerm(E)] + [Term(Asignacion)] + [Term(Identificador)])
    ensures WellFormedStack([Term(Eof)])
    ensures Run(input, [Term(Eof)] + [Term(FinInstruccion)] + [NonTerm(E)] + [Term(Asignacion)] + [Term(Identificador)], 12, fuel) == Run(input, [Term(Eof)], 16, fuel')
  {
    ForStatementStage1_9(input, fuel, fuel - 4);
    ForStatementStage1_10(input, fuel - 4, fuel - 8);
    ForStatementStep41(input, fuel - 8, fuel');
  }

  /** A loop with initialiser, condition, step and an assignment body is accepted. */
  lemma ForStatementAccepted(fuel: nat)
    requires fuel >= 42
    ensures Parse(Input(ForStatement), fuel) == Accept
  {
    ForStatementTokens();
    var n: nat := 42;
    assert InitialStack() == [Term(Eof)] + [NonTerm(S)];
    ForStatementStage2_1(Input(ForStatement), n, n - 16);
    ForStatementStage2_2(Input(ForStatement), n - 16, n - 32);
    ForStatementStage2_3(Input(ForStatement), n - 32, n - 41);
    AcceptStep(Input(ForStatement), 16, n - 41);
    ParseFuelMonotone(Input(ForStatement), n, fuel);
  }

  lemma IfMissingValueTokens()
    ensures |Input(IfMissingValue)| == 10
    ensures Input(IfMissingValue)[0] == If && Input(IfMissingValue)[1] == LParen && Input(IfMissingValue)[2] == Number && Input(IfMissingValue)[3] == Plus && Input(IfMissingValue)[4] == Number && Input(IfMissingValue)[5] == RParen && Input(IfMissingValue)[6] == Identificador && Input(IfMissingValue)[7] == Asignacion && Input(IfMissingValue)[8] == FinInstruccion && Input(IfMissingValue)[9] == Eof
  {
  }

  lemma IfMissingValueStep1(input: seq<Kind>, fuel: nat, fuel': nat)
    requires input == Input(IfMissingValue) && fuel == 21 && fuel' == 20
    requires WellFormedStack([Term(Eof)] + [NonTerm(S)])
    ensures WellFormedStack([Term(Eof)] + [NonTerm(IF)])
    ensures Run(input, [Term(Eof)] + [NonTerm(S)], 0, fuel) == Run(input, [Term(Eof)] + [NonTerm(IF)], 0, fuel')
  {
    IfMissingValueTokens();
    TableRows0To9();
    ExpandStep(input, [Term(Eof)], 0, If, fuel, 4, S, [NonTerm(IF)]);
    Push1([Term(Eof)], NonTerm(IF));
  }

  lemma IfMissingValueStep2(input: seq<Kind>, fuel: nat, fuel': nat)
    requires input == Input(IfMissingValue) && fuel == 20 && fuel' == 19
    requires WellFormedStack([Term(Eof)] + [NonTerm(IF)])
    ensures WellFormedStack([Term(Eof)] + [NonTerm(INST)] + [Term(RParen)] + [NonTerm(E)] + [Term(LParen)] + [Term(If)])
    ensures Run(input, [Term(Eof)] + [NonTerm(IF)], 0, fuel) == Run(input, [Term(Eof)] + [NonTerm(INST)] + [Term(RParen)] + [NonTerm(E)] + [Term(LParen)] + [Term(If)], 0, fuel')
  {
    IfMissingValueTokens();
    TableRows10To19();
    ExpandStep(input, [Term(Eof)], 0, If, fuel, 17, IF, [Term(If), Term(LParen), NonTerm(E), Term(RParen), NonTerm(INST)]);
    Push5([Term(Eof)], Term(If), Term(LParen), NonTerm(E), Term(RParen), NonTerm(INST));
  }

  lemma IfMissingValueStep3(input: seq<Kind>, fuel: nat, fuel': nat)
    requires input == Input(IfMissingValue) && fuel == 19 && fuel' == 18
    requires WellFormedStack([Term(Eof)] + [NonTerm(INST)] + [Term(RParen)] + [NonTerm(E)] + [Term(LParen)] + [Term(If)])
    ensures WellFormedStack([Term(Eof)] + [NonTerm(INST)] + [Term(RParen)] + [NonTerm(E)] + [Term(LParen)])
    ensures Run(input, [Term(Eof)] + [NonTerm(INST)] + [Term(RParen)] + [NonTerm(E)] + [Term(LParen)] + [Term(If)], 0, fuel) == Run(input, [Term(Eof)] + [NonTerm(INST)] + [Term(RParen)] + [NonTerm(E)] + [Term(LParen)], 1, fuel')
  {
    IfMissingValueTokens();
    MatchStep(input, [Term(Eof)] + [NonTerm(INST)] + [Term(RParen)] + [NonTerm(E)] + [Term(LParen)], 0, If, fuel);
  }

  lemma IfMissingValueStep4(input: seq<Kind>, fuel: nat, fuel': nat)
    requires input == Input(IfMissingValue) && fuel == 18 && fuel' == 17
    requires WellFormedStack([Term(Eof)] + [NonTerm(INST)] + [Term(RParen)] + [NonTerm(E)] + [Term(LParen)])
    ensures WellFormedStack([Term(Eof)] + [NonTerm(INST)] + [Term(RParen)] + [NonTerm(E)])
    ensures Run(input, [Term(Eof)] + [NonTerm(INST)] + [Term(RParen)] + [NonTerm(E)] + [Term(LParen)], 1, fuel) == Run(input, [Term(Eof)] + [NonTerm(INST)] + [Term(RParen)] + [NonTerm(E)], 2, fuel')
  {
    IfMissingValueTokens();
    MatchStep(input, [Term(Eof)] + [NonTerm(INST)] + [Term(RParen)] + [NonTerm(E)], 1, LParen, fuel);
  }

  lemma IfMissingValueStep5(input: seq<Kind>, fuel: nat, fuel': nat)
    requires input == Input(IfMissingValue) && fuel == 17 && fuel' == 16
    requires WellFormedStack([Term(Eof)] + [NonTerm(INST)] + [Term(RParen)] + [NonTerm(E)])
    ensures WellFormedStack([Term(Eof)] + [NonTerm(INST)] + [Term(RParen)] + [NonTerm(E')] + [NonTerm(T)])
    ensures Run(input, [Term(Eof)] + [NonTerm(INST)] + [Term(RParen)] + [NonTerm(E)], 2, fuel) == Run(input, [Term(Eof)] + [NonTerm(INST)] + [Term(RParen)] + [NonTerm(E')] + [NonTerm(T)], 2, fuel')
  {
    IfMissingValueTokens();
    TableRows20To24();
    TableRows25To29();
    ExpandStep(input, [Term(Eof)] + [NonTerm(INST)] + [Term(RParen)], 2, Number, fuel, 20, E, [NonTerm(T), NonTerm(E')]);
    Push2([Term(Eof)] + [NonTerm(INST)] + [Term(RParen)], NonTerm(T), NonTerm(E'));
  }

  lemma IfMissingValueStep6(input: seq<Kind>, fuel: nat, fuel': nat)
    requires input == Input(IfMissingValue) && fuel == 16 && fuel' == 15
    requires WellFormedStack([Term(Eof)] + [NonTerm(INST)] + [Term(RParen)] + [NonTerm(E')] + [NonTerm(T)])
    ensures WellFormedStack([Term(Eof)] + [NonTerm(INST)] + [Term(RParen)] + [NonTerm(E')] + [NonTerm(T')] + [NonTerm(F)])
    ensures Run(input, [Term(Eof)] + [NonTerm(INST)] + [Term(RParen)] + [NonTerm(E')] + [NonTerm(T)], 2, fuel) == Run(input, [Term(Eof)] + [NonTerm(INST)] + [Term(RParen)] + [NonTerm(E')] + [NonTerm(T')] + [NonTerm(F)], 2, fuel')
  {
    IfMissingValueTokens();
    TableRows20To24();
    TableRows25To29();
    ExpandStep(input, [Term(Eof)] + [NonTerm(INST)] + [Term(RParen)] + [NonTerm(E')], 2, Number, fuel, 27, T, [NonTerm(F), NonTerm(T')]);
    Push2([Term(Eof)] + [NonTerm(INST)] + [Term(RParen)] + [NonTerm(E')], NonTerm(F), NonTerm(T'));
  }

  lemma IfMissingValueStep7(input: seq<Kind>, fuel: nat, fuel': nat)
    requires input == Input(IfMissingValue) && fuel == 15 && fuel' == 14
    requires WellFormedStack([Term(Eof)] + [NonTerm(INST)] + [Term(RParen)] + [NonTerm(E')] + [NonTerm(T')] + [NonTerm(F)])
    ensures WellFormedStack([Term(Eof)] + [NonTerm(INST)] + [Term(RParen)] + [NonTerm(E')] + [NonTerm(T')] + [Term(Number)])
    ensures Run(input, [Term(Eof)] + [NonTerm(INST)] + [Term(RParen)] + [NonTerm(E')] + [NonTerm(T')] + [NonTerm(F)], 2, fuel) == Run(input, [Term(Eof)] + [NonTerm(INST)] + [Term(RParen)] + [NonTerm(E')] + [NonTerm(T')] + [Term(Number)], 2, fuel')
  {
    IfMissingValueTokens();
    TableRows30To33();
    TableRows34To37();
    ExpandStep(input, [Term(Eof)] + [NonTerm(INST)] + [Term(RParen)] + [NonTerm(E')] + [NonTerm(T')], 2, Number, fuel, 36, F, [Term(Number)]);
    Push1([Term(Eof)] + [NonTerm(INST)] + [Term(RParen)] + [NonTerm(E')] + [NonTerm(T')], Term(Number));
  }

  lemma IfMissingValueStep8(input: seq<Kind>, fuel: nat, fuel': nat)
    requires input == Input(IfMissingValue) && fuel == 14 && fuel' == 13
    requires WellFormedStack([Term(Eof)] + [NonTerm(INST)] + [Term(RParen)] + [NonTerm(E')] + [NonTerm(T')] + [Term(Number)])
    ensures WellFormedStack([Term(Eof)] + [NonTerm(INST)] + [Term(RParen)] + [NonTerm(E')] + [NonTerm(T')])
    ensures Run(input, [Term(Eof)] + [NonTerm(INST)] + [Term(RParen)] + [NonTerm(E')] + [NonTerm(T')] + [Term(Number)], 2, fuel) == Run(input, [Term(Eof)] + [NonTerm(INST)] + [Term(RParen)] + [NonTerm(E')] + [NonTerm(T')], 3, fuel')
  {
    IfMissingValueTokens();
    MatchStep(input, [Term(Eof)] + [NonTerm(INST)] + [Term(RParen)] + [NonTerm(E')] + [NonTerm(T')], 2, Number, fuel);
  }

  lemma IfMissingValueStep9(input: seq<Kind>, fuel: nat, fuel': nat)
    requires input == Input(IfMissingValue) && fuel == 13 && fuel' == 12
    requires WellFormedStack([Term(Eof)] + [NonTerm(INST)] + [Term(RParen)] + [NonTerm(E')] + [NonTerm(T')])
    ensures WellFormedStack([Term(Eof)] + [NonTerm(INST)] + [Term(RParen)] + [NonTerm(E')])
    ensures Run(input, [Term(Eof)] + [NonTerm(INST)] + [Term(RParen)] + [NonTerm(E')] + [NonTerm(T')], 3, fuel) == Run(input, [Term(Eof)] + [NonTerm(INST)] + [Term(RParen)] + [NonTerm(E')], 3, fuel')
  {
    IfMissingValueTokens();
    TableRows30To33();
    TableRows34To37();
    ExpandStep(input, [Term(Eof)] + [NonTerm(INST)] + [Term(RParen)] + [NonTerm(E')], 3, Plus, fuel, 31, T', [Vacia]);
    PushVacia([Term(Eof)] + [NonTerm(INST)] + [Term(RParen)] + [NonTerm(E')]);
  }

  lemma IfMissingValueStep10(input: seq<Kind>, fuel: nat, fuel': nat)
    requires input == Input(IfMissingValue) && fuel == 12 && fuel' == 11
    requires WellFormedStack([Term(Eof)] + [NonTerm(INST)] + [Term(RParen)] + [NonTerm(E')])
    ensures WellFormedStack([Term(Eof)] + [NonTerm(INST)] + [Term(RParen)] + [NonTerm(E')] + [NonTerm(T)] + [Term(Plus)])
    ensures Run(input, [Term(Eof)] + [NonTerm(INST)] + [Term(RParen)] + [NonTerm(E')], 3, fuel) == Run(input, [Term(Eof)] + [NonTerm(INST)] + [Term(RParen)] + [NonTerm(E')] + [NonTerm(T)] + [Term(Plus)], 3, fuel')
  {
    IfMissingValueTokens();
    TableRows20To24();
    TableRows25To29();
    ExpandStep(input, [Term(Eof)] + [NonTerm(INST)] + [Term(RParen)], 3, Plus, fuel, 22, E', [Term(Plus), NonTerm(T), NonTerm(E')]);
    Push3([Term(Eof)] + [NonTerm(INST)] + [Term(RParen)], Term(Plus), NonTerm(T), NonTerm(E'));
  }

  lemma IfMissingValueStep11(input: seq<Kind>, fuel: nat, fuel': nat)
    requires input == Input(IfMissingValue) && fuel == 11 && fuel' == 10
    requires WellFormedStack([Term(Eof)] + [NonTerm(INST)] + [Term(RParen)] + [NonTerm(E')] + [NonTerm(T)] + [Term(Plus)])
    ensures WellFormedStack([Term(Eof)] + [NonTerm(INST)] + [Term(RParen)] + [NonTerm(E')] + [NonTerm(T)])
    ensures Run(input, [Term(Eof)] + [NonTerm(INST)] + [Term(RParen)] + [NonTerm(E')] + [NonTerm(T)] + [Term(Plus)], 3, fuel) == Run(input, [Term(Eof)] + [NonTerm(INST)] + [Term(RParen)] + [NonTerm(E')] + [NonTerm(T)], 4, fuel')
  {
    IfMissingValueTokens();
    MatchStep(input, [Term(Eof)] + [NonTerm(INST)] + [Term(RParen)] + [NonTerm(E')] + [NonTerm(T)], 3, Plus, fuel);
  }

  lemma IfMissingValueStep12(input: seq<Kind>, fuel: nat, fuel': nat)
    requires input == Input(IfMissingValue) && fuel == 10 && fuel' == 9
    requires WellFormedStack([Term(Eof)] + [NonTerm(INST)] + [Term(RParen)] + [NonTerm(E')] + [NonTerm(T)])
    ensures WellFormedStack([Term(Eof)] + [NonTerm(INST)] + [Term(RParen)] + [NonTerm(E')] + [NonTerm(T')] + [NonTerm(F)])
    ensures Run(input, [Term(Eof)] + [NonTerm(INST)] + [Term(RParen)] + [NonTerm(E')] + [NonTerm(T)], 4, fuel) == Run(input, [Term(Eof)] + [NonTerm(INST)] + [Term(RParen)] + [NonTerm(E')] + [NonTerm(T')] + [NonTerm(F)], 4, fuel')
  {
    IfMissingValueTokens();
    TableRows20To24();
    TableRows25To29();
    ExpandStep(input, [Term(Eof)] + [NonTerm(INST)] + [Term(RParen)] + [NonTerm(E')], 4, Number, fuel, 27, T, [NonTerm(F), NonTerm(T')]);
    Push2([Term(Eof)] + [NonTerm(INST)] + [Term(RParen)] + [NonTerm(E')], NonTerm(F), NonTerm(T'));
  }

  lemma IfMissingValueStep13(input: seq<Kind>, fuel: nat, fuel': nat)
    requires input == Input(IfMissingValue) && fuel == 9 && fuel' == 8
    requires WellFormedStack([Term(Eof)] + [NonTerm(INST)] + [Term(RParen)] + [NonTerm(E')] + [NonTerm(T')] + [NonTerm(F)])
    ensures WellFormedStack([Term(Eof)] + [NonTerm(INST)] + [Term(RParen)] + [NonTerm(E')] + [NonTerm(T')] + [Term(Number)])
    ensures Run(input, [Term(Eof)] + [NonTerm(INST)] + [Term(RParen)] + [NonTerm(E')] + [NonTerm(T')] + [NonTerm(F)], 4, fuel) == Run(input, [Term(Eof)] + [NonTerm(INST)] + [Term(RParen)] + [NonTerm(E')] + [NonTerm(T')] + [Term(Number)], 4, fuel')
  {
    IfMissingValueTokens();
    TableRows30To33();
    TableRows34To37();
    ExpandStep(input, [Term(Eof)] + [NonTerm(INST)] + [Term(RParen)] + [NonTerm(E')] + [NonTerm(T')], 4, Number, fuel, 36, F, [Term(Number)]);
    Push1([Term(Eof)] + [NonTerm(INST)] + [Term(RParen)] + [NonTerm(E')] + [NonTerm(T')], Term(Number));
  }

  lemma IfMissingValueStep14(input: seq<Kind>, fuel: nat, fuel': nat)
    requires input == Input(IfMissingValue) && fuel == 8 && fuel' == 7
    requires WellFormedStack([Term(Eof)] + [NonTerm(INST)] + [Term(RParen)] + [NonTerm(E')] + [NonTerm(T')] + [Term(Number)])
    ensures WellFormedStack([Term(Eof)] + [NonTerm(INST)] + [Term(RParen)] + [NonTerm(E')] + [NonTerm(T')])
    ensures Run(input, [Term(Eof)] + [NonTerm(INST)] + [Term(RParen)] + [NonTerm(E')] + [NonTerm(T')] + [Term(Number)], 4, fuel) == Run(input, [Term(Eof)] + [NonTerm(INST)] + [Term(RParen)] + [NonTerm(E')] + [NonTerm(T')], 5, fuel')
  {
    IfMissingValueTokens();
    MatchStep(input, [Term(Eof)] + [NonTerm(INST)] + [Term(RParen)] + [NonTerm(E')] + [NonTerm(T')], 4, Number, fuel);
  }

  lemma IfMissingValueStep15(input: seq<Kind>, fuel: nat, fuel': nat)
    requires input == Input(IfMissingValue) && fuel == 7 && fuel' == 6
    requires WellFormedStack([Term(Eof)] + [NonTerm(INST)] + [Term(RParen)] + [NonTerm(E')] + [NonTerm(T')])
    ensures WellFormedStack([Term(Eof)] + [NonTerm(INST)] + [Term(RParen)] + [NonTerm(E')])
    ensures Run(input, [Term(Eof)] + [NonTerm(INST)] + [Term(RParen)] + [NonTerm(E')] + [NonTerm(T')], 5, fuel) == Run(input, [Term(Eof)] + [NonTerm(INST)] + [Term(RParen)] + [NonTerm(E')], 5, fuel')
  {
    IfMissingValueTokens();
    TableRows30To33();
    TableRows34To37();
    ExpandStep(input, [Term(Eof)] + [NonTerm(INST)] + [Term(RParen)] + [NonTerm(E')], 5, RParen, fuel, 33, T', [Vacia]);
    PushVacia([Term(Eof)] + [NonTerm(INST)] + [Term(RParen)] + [NonTerm(E')]);
  }

  lemma IfMissingValueStep16(input: seq<Kind>, fuel: nat, fuel': nat)
    requires input == Input(IfMissingValue) && fuel == 6 && fuel' == 5
    requires WellFormedStack([Term(Eof)] + [NonTerm(INST)] + [Term(RParen)] + [NonTerm(E')])
    ensures WellFormedStack([Term(Eof)] + [NonTerm(INST)] + [Term(RParen)])
    ensures Run(input, [Term(Eof)] + [NonTerm(INST)] + [Term(RParen)] + [NonTerm(E')], 5, fuel) == Run(input, [Term(Eof)] + [NonTerm(INST)] + [Term(RParen)], 5, fuel')
  {
    IfMissingValueTokens();
    TableRows20To24();
    TableRows25To29();
    ExpandStep(input, [Term(Eof)] + [NonTerm(INST)] + [Term(RParen)], 5, RParen, fuel, 24, E', [Vacia]);
    PushVacia([Term(Eof)] + [NonTerm(INST)] + [Term(RParen)]);
  }

  lemma IfMissingValueStep17(input: seq<Kind>, fuel: nat, fuel': nat)
    requires input == Input(IfMissingValue) && fuel == 5 && fuel' == 4
    requires WellFormedStack([Term(Eof)] + [NonTerm(INST)] + [Term(RParen)])
    ensures WellFormedStack([Term(Eof)] + [NonTerm(INST)])
    ensures Run(input, [Term(Eof)] + [NonTerm(INST)] + [Term(RParen)], 5, fuel) == Run(input, [Term(Eof)] + [NonTerm(INST)], 6, fuel')
  {
    IfMissingValueTokens();
    MatchStep(input, [Term(Eof)] + [NonTerm(INST)], 5, RParen, fuel);
  }

  lemma IfMissingValueStep18(input: seq<Kind>, fuel: nat, fuel': nat)
    requires input == Input(IfMissingValue) && fuel == 4 && fuel' == 3
    requires WellFormedStack([Term(Eof)] + [NonTerm(INST)])
    ensures WellFormedStack([Term(Eof)] + [Term(FinInstruccion)] + [NonTerm(E)] + [Term(Asignacion)] + [Term(Identificador)])
    ensures Run(input, [Term(Eof)] + [NonTerm(INST)], 6, fuel) == Run(input, [Term(Eof)] + [Term(FinInstruccion)] + [NonTerm(E)] + [Term(Asignacion)] + [Term(Identificador)], 6, fuel')
  {
    IfMissingValueTokens();
    TableRows10To19();
    ExpandStep(input, [Term(Eof)], 6, Identificador, fuel, 15, INST, [Term(Identificador), Term(Asignacion), NonTerm(E), Term(FinInstruccion)]);
    Push4([Term(Eof)], Term(Identificador), Term(Asignacion), NonTerm(E), Term(FinInstruccion));
  }

  lemma IfMissingValueStep19(input: seq<Kind>, fuel: nat, fuel': nat)
    requires input == Input(IfMissingValue) && fuel == 3 && fuel' == 2
    requires WellFormedStack([Term(Eof)] + [Term(FinInstruccion)] + [NonTerm(E)] + [Term(Asignacion)] + [Term(Identificador)])
    ensures WellFormedStack([Term(Eof)] + [Term(FinInstruccion)] + [NonTerm(E)] + [Term(Asignacion)])
    ensures Run(input, [Term(Eof)] + [Term(FinInstruccion)] + [NonTerm(E)] + [Term(Asignacion)] + [Term(Identificador)], 6, fuel) == Run(input, [Term(Eof)] + [Term(FinInstruccion)] + [NonTerm(E)] + [Term(Asignacion)], 7, fuel')
  {
    IfMissingValueTokens();
    MatchStep(input, [Term(Eof)] + [Term(FinInstruccion)] + [NonTerm(E)] + [Term(Asignacion)], 6, Identificador, fuel);
  }

  lemma IfMissingValueStep20(input: seq<Kind>, fuel: nat, fuel': nat)
    requires input == Input(IfMissingValue) && fuel == 2 && fuel' == 1
    requires WellFormedStack([Term(Eof)] + [Term(FinInstruccion)] + [NonTerm(E)] + [Term(Asignacion)])
    ensures WellFormedStack([Term(Eof)] + [Term(FinInstruccion)] + [NonTerm(E)])
    ensures Run(input, [Term(Eof)] + [Term(FinInstruccion)] + [NonTerm(E)] + [Term(Asignacion)], 7, fuel) == Run(input, [Term(Eof)] + [Term(FinInstruccion)] + [NonTerm(E)], 8, fuel')
  {
    IfMissingValueTokens();
    MatchStep(input, [Term(Eof)] + [Term(FinInstruccion)] + [NonTerm(E)], 7, Asignacion, fuel);
  }

  lemma IfMissingValueStage1_1(input: seq<Kind>, fuel: nat, fuel': nat)
    requires input == Input(IfMissingValue) && fuel == 21 && fuel' == 17
    requires WellFormedStack([Term(Eof)] + [NonTerm(S)])
    ensures WellFormedStack([Term(Eof)] + [NonTerm(INST)] + [Term(RParen)] + [NonTerm(E)])
    ensures Run(input, [Term(Eof)] + [NonTerm(S)], 0, fuel) == Run(input, [Term(Eof)] + [NonTerm(INST)] + [Term(RParen)] + [NonTerm(E)], 2, fuel')
  {
    IfMissingValueStep1(input, fuel, fuel - 1);
    IfMissingValueStep2(input, fuel - 1, fuel - 2);
    IfMissingValueStep3(input, fuel - 2, fuel - 3);
    IfMissingValueStep4(input, fuel - 3, fuel');
  }

  lemma IfMissingValueStage1_2(input: seq<Kind>, fuel: nat, fuel': nat)
    requires input == Input(IfMissingValue) && fuel == 17 && fuel' == 13
    requires WellFormedStack([Term(Eof)] + [NonTerm(INST)] + [Term(RParen)] + [NonTerm(E)])
    ensures WellFormedStack([Term(Eof)] + [NonTerm(INST)] + [Term(RParen)] + [NonTerm(E')] + [NonTerm(T')])
    ensures Run(input, [Term(Eof)] + [NonTerm(INST)] + [Term(RParen)] + [NonTerm(E)], 2, fuel) == Run(input, [Term(Eof)] + [NonTerm(INST)] + [Term(RParen)] + [NonTerm(E')] + [NonTerm(T')], 3, fuel')
  {
    IfMissingValueStep5(input, fuel, fuel - 1);
    IfMissingValueStep6(input, fuel - 1, fuel - 2);
    IfMissingValueStep7(input, fuel - 2, fuel - 3);
    IfMissingValueStep8(input, fuel - 3, fuel');
  }

  lemma IfMissingValueStage1_3(input: seq<Kind>, fuel: nat, fuel': nat)
    requires input == Input(IfMissingValue) && fuel == 13 && fuel' == 9
    requires WellFormedStack([Term(Eof)] + [NonTerm(INST)] + [Term(RParen)] + [NonTerm(E')] + [NonTerm(T')])
    ensures WellFormedStack([Term(Eof)] + [NonTerm(INST)] + [Term(RParen)] + [NonTerm(E')] + [NonTerm(T')] + [NonTerm(F)])
    ensures Run(input, [Term(Eof)] + [NonTerm(INST)] + [Term(RParen)] + [NonTerm(E')] + [NonTerm(T')], 3, fuel) == Run(input, [Term(Eof)] + [NonTerm(INST)] + [Term(RParen)] + [NonTerm(E')] + [NonTerm(T')] + [NonTerm(F)], 4, fuel')
  {
    IfMissingValueStep9(input, fuel, fuel - 1);
    IfMissingValueStep10(input, fuel - 1, fuel - 2);
    IfMissingValueStep11(input, fuel - 2, fuel - 3);
    IfMissingValueStep12(input, fuel - 3, fuel');
  }

  lemma IfMissingValueStage1_4(input: seq<Kind>, fuel: nat, fuel': nat)
    requires input == Input(IfMissingValue) && fuel == 9 && fuel' == 5
    requires WellFormedStack([Term(Eof)] + [NonTerm(INST)] + [Term(RParen)] + [NonTerm(E')] + [NonTerm(T')] + [NonTerm(F)])
    ensures WellFormedStack([Term(Eof)] + [NonTerm(INST)] + [Term(RParen)])
    ensures Run(input, [Term(Eof)] + [NonTerm(INST)] + [Term(RParen)] + [NonTerm(E')] + [NonTerm(T')] + [NonTerm(F)], 4, fuel) == Run(input, [Term(Eof)] + [NonTerm(INST)] + [Term(RParen)], 5, fuel')
  {
    IfMissingValueStep13(input, fuel, fuel - 1);
    IfMissingValueStep14(input, fuel - 1, fuel - 2);
    IfMissingValueStep15(input, fuel - 2, fuel - 3);
    IfMissingValueStep16(input, fuel - 3, fuel');
  }

  lemma IfMissingValueStage1_5(input: seq<Kind>, fuel: nat, fuel': nat)
    requires input == Input(IfMissingValue) && fuel == 5 && fuel' == 1
    requires WellFormedStack([Term(Eof)] + [NonTerm(INST)] + [Term(RParen)])
    ensures WellFormedStack([Term(Eof)] + [Term(FinInstruccion)] + [NonTerm(E)])
    ensures Run(input, [Term(Eof)] + [NonTerm(INST)] + [Term(RParen)], 5, fuel) == Run(input, [Term(Eof)] + [Term(FinInstruccion)] + [NonTerm(E)], 8, fuel')
  {
    IfMissingValueStep17(input, fuel, fuel - 1);
    IfMissingValueStep18(input, fuel - 1, fuel - 2);
    IfMissingValueStep19(input, fuel - 2, fuel - 3);
    IfMissingValueStep20(input, fuel - 3, fuel');
  }

  lemma IfMissingValueStage2_1(input: seq<Kind>, fuel: nat, fuel': nat)
    requires input == Input(IfMissingValue) && fuel == 21 && fuel' == 5
    requires WellFormedStack([Term(Eof)] + [NonTerm(S)])
    ensures WellFormedStack([Term(Eof)] + [NonTerm(INST)] + [Term(RParen)])
    ensures Run(input, [Term(Eof)] + [NonTerm(S)], 0, fuel) == Run(input, [Term(Eof)] + [NonTerm(INST)] + [Term(RParen)], 5, fuel')
  {
    IfMissingValueStage1_1(input, fuel, fuel - 4);
    IfMissingValueStage1_2(input, fuel - 4, fuel - 8);
    IfMissingValueStage1_3(input, fuel - 8, fuel - 12);
    IfMissingValueStage1_4(input, fuel - 12, fuel');
  }

  /** An assignment with nothing after `=` is rejected because `E` has no row for `finInstruccion`. */
  lemma IfMissingValueRejected(fuel: nat)
    requires fuel >= 21
    ensures Parse(Input(IfMissingValue), fuel) == NoRule(NonTerm(E), FinInstruccion, 8)
  {
    IfMissingValueTokens();
    var n: nat := 21;
    assert InitialStack() == [Term(Eof)] + [NonTerm(S)];
    IfMissingValueStage2_1(Input(IfMissingValue), n, n - 16);
    IfMissingValueStage1_5(Input(IfMissingValue), n - 16, n - 20);
    NoRuleForExpressionOnEnd();
    NoRuleStep(Input(IfMissingValue), [Term(Eof)] + [Term(FinInstruccion)], 8, FinInstruccion, n - 20, E);
    ParseFuelMonotone(Input(IfMissingValue), n, fuel);
  }

  lemma ForMissingValueTokens()
    ensures |Input(ForMissingValue)| == 16
    ensures Input(ForMissingValue)[0] == For && Input(ForMissingValue)[1] == LParen && Input(ForMissingValue)[2] == Identificador && Input(ForMissingValue)[3] == Asignacion && Input(ForMissingValue)[4] == Number && Input(ForMissingValue)[5] == FinInstruccion && Input(ForMissingValue)[6] == Identificador && Input(ForMissingValue)[7] == FinInstruccion && Input(ForMissingValue)[8] == Identificador && Input(ForMissingValue)[9] == Asignacion && Input(ForMissingValue)[10] == Number && Input(ForMissingValue)[11] == RParen && Input(ForMissingValue)[12] == Identificador && Input(ForMissingValue)[13] == Asignacion && Input(ForMissingValue)[14] == FinInstruccion && Input(ForMissingValue)[15] == Eof
  {
  }

  lemma ForMissingValueStep1(input: seq<Kind>, fuel: nat, fuel': nat)
    requires input == Input(ForMissingValue) && fuel == 35 && fuel' == 34
    requires WellFormedStack([Term(Eof)] + [NonTerm(S)])
    ensures WellFormedStack([Term(Eof)] + [NonTerm(FOR)])
    ensures Run(input, [Term(Eof)] + [NonTerm(S)], 0, fuel) == Run(input, [Term(Eof)] + [NonTerm(FOR)], 0, fuel')
  {
    ForMissingValueTokens();
    TableRows0To9();
    ExpandStep(input, [Term(Eof)], 0, For, fuel, 5, S, [NonTerm(FOR)]);
    Push1([Term(Eof)], NonTerm(FOR));
  }

  lemma ForMissingValueStep2(input: seq<Kind>, fuel: nat, fuel': nat)
    requires input == Input(ForMissingValue) && fuel == 34 && fuel' == 33
    requires WellFormedStack([Term(Eof)] + [NonTerm(FOR)])
    ensures WellFormedStack([Term(Eof)] + [NonTerm(INST)] + [Term(RParen)] + [NonTerm(INST0)] + [Term(FinInstruccion)] + [NonTerm(E)] + [NonTerm(INST)] + [Term(LParen)] + [Term(For)])
    ensures Run(input, [Term(Eof)] + [NonTerm(FOR)], 0, fuel) == Run(input, [Term(Eof)] + [NonTerm(INST)] + [Term(RParen)] + [NonTerm(INST0)] + [Term(FinInstruccion)] + [NonTerm(E)] + [NonTerm(INST)] + [Term(LParen)] + [Term(For)], 0, fuel')
  {
    ForMissingValueTokens();
    TableRows10To19();
    ExpandStep(input, [Term(Eof)], 0, For, fuel, 18, FOR, [Term(For), Term(LParen), NonTerm(INST), NonTerm(E), Term(FinInstruccion), NonTerm(INST0), Term(RParen), NonTerm(INST)]);
    Push8([Term(Eof)], Term(For), Term(LParen), NonTerm(INST), NonTerm(E), Term(FinInstruccion), NonTerm(INST0), Term(RParen), NonTerm(INST));
  }

  lemma ForMissingValueStep3(input: seq<Kind>, fuel: nat, fuel': nat)
    requires input == Input(ForMissingValue) && fuel == 33 && fuel' == 32
    requires WellFormedStack([Term(Eof)] + [NonTerm(INST)] + [Term(RParen)] + [NonTerm(INST0)] + [Term(FinInstruccion)] + [NonTerm(E)] + [NonTerm(INST)] + [Term(LParen)] + [Term(For)])
    ensures WellFormedStack([Term(Eof)] + [NonTerm(INST)] + [Term(RParen)] + [NonTerm(INST0)] + [Term(FinInstruccion)] + [NonTerm(E)] + [NonTerm(INST)] + [Term(LParen)])
    ensures Run(input, [Term(Eof)] + [NonTerm(INST)] + [Term(RParen)] + [NonTerm(INST0)] + [Term(FinInstruccion)] + [NonTerm(E)] + [NonTerm(INST)] + [Term(LParen)] + [Term(For)], 0, fuel) == Run(input, [Term(Eof)] + [NonTerm(INST)] + [Term(RParen)] + [NonTerm(INST0)] + [Term(FinInstruccion)] + [NonTerm(E)] + [NonTerm(INST)] + [Term(LParen)], 1, fuel')
  {
    ForMissingValueTokens();
    MatchStep(input, [Term(Eof)] + [NonTerm(INST)] + [Term(RParen)] + [NonTerm(INST0)] + [Term(FinInstruccion)] + [NonTerm(E)] + [NonTerm(INST)] + [Term(LParen)], 0, For, fuel);
  }

  lemma ForMissingValueStep4(input: seq<Kind>, fuel: nat, fuel': nat)
    requires input == Input(ForMissingValue) && fuel == 32 && fuel' == 31
    requires WellFormedStack([Term(Eof)] + [NonTerm(INST)] + [Term(RParen)] + [NonTerm(INST0)] + [Term(FinInstruccion)] + [NonTerm(E)] + [NonTerm(INST)] + [Term(LParen)])
    ensures WellFormedStack([Term(Eof)] + [NonTerm(INST)] + [Term(RParen)] + [NonTerm(INST0)] + [Term(FinInstruccion)] + [NonTerm(E)] + [NonTerm(INST)])
    ensures Run(input, [Term(Eof)] + [NonTerm(INST)] + [Term(RParen)] + [NonTerm(INST0)] + [Term(FinInstruccion)] + [NonTerm(E)] + [NonTerm(INST)] + [Term(LParen)], 1, fuel) == Run(input, [Term(Eof)] + [NonTerm(INST)] + [Term(RParen)] + [NonTerm(INST0)] + [Term(FinInstruccion)] + [NonTerm(E)] + [NonTerm(INST)], 2, fuel')
  {
    ForMissingValueTokens();
    MatchStep(input, [Term(Eof)] + [NonTerm(INST)] + [Term(RParen)] + [NonTerm(INST0)] + [Term(FinInstruccion)] + [NonTerm(E)] + [NonTerm(INST)], 1, LParen, fuel);
  }

  lemma ForMissingValueStep5(input: seq<Kind>, fuel: nat, fuel': nat)
    requires input == Input(ForMissingValue) && fuel == 31 && fuel' == 30
    requires WellFormedStack([Term(Eof)] + [NonTerm(INST)] + [Term(RParen)] + [NonTerm(INST0)] + [Term(FinInstruccion)] + [NonTerm(E)] + [NonTerm(INST)])
    ensures WellFormedStack([Term(Eof)] + [NonTerm(INST)] + [Term(RParen)] + [NonTerm(INST0)] + [Term(FinInstruccion)] + [NonTerm(E)] + [Term(FinInstruccion)] + [NonTerm(E)] + [Term(Asignacion)] + [Term(Identificador)])
    ensures Run(input, [Term(Eof)] + [NonTerm(INST)] + [Term(RParen)] + [NonTerm(INST0)] + [Term(FinInstruccion)] + [NonTerm(E)] + [NonTerm(INST)], 2, fuel) == Run(input, [Term(Eof)] + [NonTerm(INST)] + [Term(RParen)] + [NonTerm(INST0)] + [Term(FinInstruccion)] + [NonTerm(E)] + [Term(FinInstruccion)] + [NonTerm(E)] + [Term(Asignacion)] + [Term(Identificador)], 2, fuel')
  {
    ForMissingValueTokens();
    TableRows10To19();
    ExpandStep(input, [Term(Eof)] + [NonTerm(INST)] + [Term(RParen)] + [NonTerm(INST0)] + [Term(FinInstruccion)] + [NonTerm(E)], 2, Identificador, fuel, 15, INST, [Term(Identificador), Term(Asignacion), NonTerm(E), Term(FinInstruccion)]);
    Push4([Term(Eof)] + [NonTerm(INST)] + [Term(RParen)] + [NonTerm(INST0)] + [Term(FinInstruccion)] + [NonTerm(E)], Term(Identificador), Term(Asignacion), NonTerm(E), Term(FinInstruccion));
  }

  lemma ForMissingValueStep6(input: seq<Kind>, fuel: nat, fuel': nat)
    requires input == Input(ForMissingValue) && fuel == 30 && fuel' == 29
    requires WellFormedStack([Term(Eof)] + [NonTerm(INST)] + [Term(RParen)] + [NonTerm(INST0)] + [Term(FinInstruccion)] + [NonTerm(E)] + [Term(FinInstruccion)] + [NonTerm(E)] + [Term(Asignacion)] + [Term(Identificador)])
    ensures WellFormedStack([Term(Eof)] + [NonTerm(INST)] + [Term(RParen)] + [NonTerm(INST0)] + [Term(FinInstruccion)] + [NonTerm(E)] + [Term(FinInstruccion)] + [NonTerm(E)] + [Term(Asignacion)])
    ensures Run(input, [Term(Eof)] + [NonTerm(INST)] + [Term(RParen)] + [NonTerm(INST0)] + [Term(FinInstruccion)] + [NonTerm(E)] + [Term(FinInstruccion)] + [NonTerm(E)] + [Term(Asignacion)] + [Term(Identificador)], 2, fuel) == Run(input, [Term(Eof)] + [NonTerm(INST)] + [Term(RParen)] + [NonTerm(INST0)] + [Term(FinInstruccion)] + [NonTerm(E)] + [Term(FinInstruccion)] + [NonTerm(E)] + [Term(Asignacion)], 3, fuel')
  {
    ForMissingValueTokens();
    MatchStep(input, [Term(Eof)] + [NonTerm(INST)] + [Term(RParen)] + [NonTerm(INST0)] + [Term(FinInstruccion)] + [NonTerm(E)] + [Term(FinInstruccion)] + [NonTerm(E)] + [Term(Asignacion)], 2, Identificador, fuel);
  }

  lemma ForMissingValueStep7(input: seq<Kind>, fuel: nat, fuel': nat)
    requires input == Input(ForMissingValue) && fuel == 29 && fuel' == 28
    requires WellFormedStack([Term(Eof)] + [NonTerm(INST)] + [Term(RParen)] + [NonTerm(INST0)] + [Term(FinInstruccion)] + [NonTerm(E)] + [Term(FinInstruccion)] + [NonTerm(E)] + [Term(Asignacion)])
    ensures WellFormedStack([Term(Eof)] + [NonTerm(INST)] + [Term(RParen)] + [NonTerm(INST0)] + [Term(FinInstruccion)] + [NonTerm(E)] + [Term(FinInstruccion)] + [NonTerm(E)])
    ensures Run(input, [Term(Eof)] + [NonTerm(INST)] + [Term(RParen)] + [NonTerm(INST0)] + [Term(FinInstruccion)] + [NonTerm(E)] + [Term(FinInstruccion)] + [NonTerm(E)] + [Term(Asignacion)], 3, fuel) == Run(input, [Term(Eof)] + [NonTerm(INST)] + [Term(RParen)] + [NonTerm(INST0)] + [Term(FinInstruccion)] + [NonTerm(E)] + [Term(FinInstruccion)] + [NonTerm(E)], 4, fuel')
  {
    ForMissingValueTokens();
    MatchStep(input, [Term(Eof)] + [NonTerm(INST)] + [Term(RParen)] + [NonTerm(INST0)] + [Term(FinInstruccion)] + [NonTerm(E)] + [Term(FinInstruccion)] + [NonTerm(E)], 3, Asignacion, fuel);
  }

  lemma ForMissingValueStep8(input: seq<Kind>, fuel: nat, fuel': nat)
    requires input == Input(ForMissingValue) && fuel == 28 && fuel' == 27
    requires WellFormedStack([Term(Eof)] + [NonTerm(INST)] + [Term(RParen)] + [NonTerm(INST0)] + [Term(FinInstruccion)] + [NonTerm(E)] + [Term(FinInstruccion)] + [NonTerm(E)])
    ensures WellFormedStack([Term(Eof)] + [NonTerm(INST)] + [Term(RParen)] + [NonTerm(INST0)] + [Term(FinInstruccion)] + [NonTerm(E)] + [Term(FinInstruccion)] + [NonTerm(E')] + [NonTerm(T)])
    ensures Run(input, [Term(Eof)] + [NonTerm(INST)] + [Term(RParen)] + [NonTerm(INST0)] + [Term(FinInstruccion)] + [NonTerm(E)] + [Term(FinInstruccion)] + [NonTerm(E)], 4, fuel) == Run(input, [Term(Eof)] + [NonTerm(INST)] + [Term(RParen)] + [NonTerm(INST0)] + [Term(FinInstruccion)] + [NonTerm(E)] + [Term(FinInstruccion)] + [NonTerm(E')] + [NonTerm(T)], 4, fuel')
  {
    ForMissingValueTokens();
    TableRows20To24();
    TableRows25To29();
    ExpandStep(input, [Term(Eof)] + [NonTerm(INST)] + [Term(RParen)] + [NonTerm(INST0)] + [Term(FinInstruccion)] + [NonTerm(E)] + [Term(FinInstruccion)], 4, Number, fuel, 20, E, [NonTerm(T), NonTerm(E')]);
    Push2([Term(Eof)] + [NonTerm(INST)] + [Term(RParen)] + [NonTerm(INST0)] + [Term(FinInstruccion)] + [NonTerm(E)] + [Term(FinInstruccion)], NonTerm(T), NonTerm(E'));
  }

  lemma ForMissingValueStep9(input: seq<Kind>, fuel: nat, fuel': nat)
    requires input == Input(ForMissingValue) && fuel == 27 && fuel' == 26
    requires WellFormedStack([Term(Eof)] + [NonTerm(INST)] + [Term(RParen)] + [NonTerm(INST0)] + [Term(FinInstruccion)] + [NonTerm(E)] + [Term(FinInstruccion)] + [NonTerm(E')] + [NonTerm(T)])
    ensures WellFormedStack([Term(Eof)] + [NonTerm(INST)] + [Term(RParen)] + [NonTerm(INST0)] + [Term(FinInstruccion)] + [NonTerm(E)] + [Term(FinInstruccion)] + [NonTerm(E')] + [NonTerm(T')] + [NonTerm(F)])
    ensures Run(input, [Term(Eof)] + [NonTerm(INST)] + [Term(RParen)] + [NonTerm(INST0)] + [Term(FinInstruccion)] + [NonTerm(E)] + [Term(FinInstruccion)] + [NonTerm(E')] + [NonTerm(T)], 4, fuel) == Run(input, [Term(Eof)] + [NonTerm(INST)] + [Term(RParen)] + [NonTerm(INST0)] + [Term(FinInstruccion)] + [NonTerm(E)] + [Term(FinInstruccion)] + [NonTerm(E')] + [NonTerm(T')] + [NonTerm(F)], 4, fuel')
  {
    ForMissingValueTokens();
    TableRows20To24();
    TableRows25To29();
    ExpandStep(input, [Term(Eof)] + [NonTerm(INST)] + [Term(RParen)] + [NonTerm(INST0)] + [Term(FinInstruccion)] + [NonTerm(E)] + [Term(FinInstruccion)] + [NonTerm(E')], 4, Number, fuel, 27, T, [NonTerm(F), NonTerm(T')]);
    Push2([Term(Eof)] + [NonTerm(INST)] + [Term(RParen)] + [NonTerm(INST0)] + [Term(FinInstruccion)] + [NonTerm(E)] + [Term(FinInstruccion)] + [NonTerm(E')], NonTerm(F), NonTerm(T'));
  }

  lemma ForMissingValueStep10(input: seq<Kind>, fuel: nat, fuel': nat)
    requires input == Input(ForMissingValue) && fuel == 26 && fuel' == 25
    requires WellFormedStack([Term(Eof)] + [NonTerm(INST)] + [Term(RParen)] + [NonTerm(INST0)] + [Term(FinInstruccion)] + [NonTerm(E)] + [Term(FinInstruccion)] + [NonTerm(E')] + [NonTerm(T')] + [NonTerm(F)])
    ensures WellFormedStack([Term(Eof)] + [NonTerm(INST)] + [Term(RParen)] + [NonTerm(INST0)] + [Term(FinInstruccion)] + [NonTerm(E)] + [Term(FinInstruccion)] + [NonTerm(E')] + [NonTerm(T')] + [Term(Number)])
    ensures Run(input, [Term(Eof)] + [NonTerm(INST)] + [Term(RParen)] + [NonTerm(INST0)] + [Term(FinInstruccion)] + [NonTerm(E)] + [Term(FinInstruccion)] + [NonTerm(E')] + [NonTerm(T')] + [NonTerm(F)], 4, fuel) == Run(input, [Term(Eof)] + [NonTerm(INST)] + [Term(RParen)] + [NonTerm(INST0)] + [Term(FinInstruccion)] + [NonTerm(E)] + [Term(FinInstruccion)] + [NonTerm(E')] + [NonTerm(T')] + [Term(Number)], 4, fuel')
  {
    ForMissingValueTokens();
    TableRows30To33();
    TableRows34To37();
    ExpandStep(input, [Term(Eof)] + [NonTerm(INST)] + [Term(RParen)] + [NonTerm(INST0)] + [Term(FinInstruccion)] + [NonTerm(E)] + [Term(FinInstruccion)] + [NonTerm(E')] + [NonTerm(T')], 4, Number, fuel, 36, F, [Term(Number)]);
    Push1([Term(Eof)] + [NonTerm(INST)] + [Term(RParen)] + [NonTerm(INST0)] + [Term(FinInstruccion)] + [NonTerm(E)] + [Term(FinInstruccion)] + [NonTerm(E')] + [NonTerm(T')], Term(Number));
  }

  lemma ForMissingValueStep11(input: seq<Kind>, fuel: nat, fuel': nat)
    requires input == Input(ForMissingValue) && fuel == 25 && fuel' == 24
    requires WellFormedStack([Term(Eof)] + [NonTerm(INST)] + [Term(RParen)] + [NonTerm(INST0)] + [Term(FinInstruccion)] + [NonTerm(E)] + [Term(FinInstruccion)] + [NonTerm(E')] + [NonTerm(T')] + [Term(Number)])
    ensures WellFormedStack([Term(Eof)] + [NonTerm(INST)] + [Term(RParen)] + [NonTerm(INST0)] + [Term(FinInstruccion)] + [NonTerm(E)] + [Term(FinInstruccion)] + [NonTerm(E')] + [NonTerm(T')])
    ensures Run(input, [Term(Eof)] + [NonTerm(INST)] + [Term(RParen)] + [NonTerm(INST0)] + [Term(FinInstruccion)] + [NonTerm(E)] + [Term(FinInstruccion)] + [NonTerm(E')] + [NonTerm(T')] + [Term(Number)], 4, fuel) == Run(input, [Term(Eof)] + [NonTerm(INST)] + [Term(RParen)] + [NonTerm(INST0)] + [Term(FinInstruccion)] + [NonTerm(E)] + [Term(FinInstruccion)] + [NonTerm(E')] + [NonTerm(T')], 5, fuel')
  {
    ForMissingValueTokens();
    MatchStep(input, [Term(Eof)] + [NonTerm(INST)] + [Term(RParen)] + [NonTerm(INST0)] + [Term(FinInstruccion)] + [NonTerm(E)] + [Term(FinInstruccion)] + [NonTerm(E')] + [NonTerm(T')], 4, Number, fuel);
  }

  lemma ForMissingValueStep12(input: seq<Kind>, fuel: nat, fuel': nat)
    requires input == Input(ForMissingValue) && fuel == 24 && fuel' == 23
    requires WellFormedStack([Term(Eof)] + [NonTerm(INST)] + [Term(RParen)] + [NonTerm(INST0)] + [Term(FinInstruccion)] + [NonTerm(E)] + [Term(FinInstruccion)] + [NonTerm(E')] + [NonTerm(T')])
    ensures WellFormedStack([Term(Eof)] + [NonTerm(INST)] + [Term(RParen)] + [NonTerm(INST0)] + [Term(FinInstruccion)] + [NonTerm(E)] + [Term(FinInstruccion)] + [NonTerm(E')])
    ensures Run(input, [Term(Eof)] + [NonTerm(INST)] + [Term(RParen)] + [NonTerm(INST0)] + [Term(FinInstruccion)] + [NonTerm(E)] + [Term(FinInstruccion)] + [NonTerm(E')] + [NonTerm(T')], 5, fuel) == Run(input, [Term(Eof)] + [NonTerm(INST)] + [Term(RParen)] + [NonTerm(INST0)] + [Term(FinInstruccion)] + [NonTerm(E)] + [Term(FinInstruccion)] + [NonTerm(E')], 5, fuel')
  {
    ForMissingValueTokens();
    TableRows30To33();
    TableRows34To37();
    ExpandStep(input, [Term(Eof)] + [NonTerm(INST)] + [Term(RParen)] + [NonTerm(INST0)] + [Term(FinInstruccion)] + [NonTerm(E)] + [Term(FinInstruccion)] + [NonTerm(E')], 5, FinInstruccion, fuel, 34, T', [Vacia]);
    PushVacia([Term(Eof)] + [NonTerm(INST)] + [Term(RParen)] + [NonTerm(INST0)] + [Term(FinInstruccion)] + [NonTerm(E)] + [Term(FinInstruccion)] + [NonTerm(E')]);
  }

  lemma ForMissingValueStep13(input: seq<Kind>, fuel: nat, fuel': nat)
    requires input == Input(ForMissingValue) && fuel == 23 && fuel' == 22
    requires WellFormedStack([Term(Eof)] + [NonTerm(INST)] + [Term(RParen)] + [NonTerm(INST0)] + [Term(FinInstruccion)] + [NonTerm(E)] + [Term(FinInstruccion)] + [NonTerm(E')])
    ensures WellFormedStack([Term(Eof)] + [NonTerm(INST)] + [Term(RParen)] + [NonTerm(INST0)] + [Term(FinInstruccion)] + [NonTerm(E)] + [Term(FinInstruccion)])
    ensures Run(input, [Term(Eof)] + [NonTerm(INST)] + [Term(RParen)] + [NonTerm(INST0)] + [Term(FinInstruccion)] + [NonTerm(E)] + [Term(FinInstruccion)] + [NonTerm(E')], 5, fuel) == Run(input, [Term(Eof)] + [NonTerm(INST)] + [Term(RParen)] + [NonTerm(INST0)] + [Term(FinInstruccion)] + [NonTerm(E)] + [Term(FinInstruccion)], 5, fuel')
  {
    ForMissingValueTokens();
    TableRows20To24();
    TableRows25To29();
    ExpandStep(input, [Term(Eof)] + [NonTerm(INST)] + [Term(RParen)] + [NonTerm(INST0)] + [Term(FinInstruccion)] + [NonTerm(E)] + [Term(FinInstruccion)], 5, FinInstruccion, fuel, 25, E', [Vacia]);
    PushVacia([Term(Eof)] + [NonTerm(INST)] + [Term(RParen)] + [NonTerm(INST0)] + [Term(FinInstruccion)] + [NonTerm(E)] + [Term(FinInstruccion)]);
  }

  lemma ForMissingValueStep14(input: seq<Kind>, fuel: nat, fuel': nat)
    requires input == Input(ForMissingValue) && fuel == 22 && fuel' == 21
    requires WellFormedStack([Term(Eof)] + [NonTerm(INST)] + [Term(RParen)] + [NonTerm(INST0)] + [Term(FinInstruccion)] + [NonTerm(E)] + [Term(FinInstruccion)])
    ensures WellFormedStack([Term(Eof)] + [NonTerm(INST)] + [Term(RParen)] + [NonTerm(INST0)] + [Term(FinInstruccion)] + [NonTerm(E)])
    ensures Run(input, [Term(Eof)] + [NonTerm(INST)] + [Term(RParen)] + [NonTerm(INST0)] + [Term(FinInstruccion)] + [NonTerm(E)] + [Term(FinInstruccion)], 5, fuel) == Run(input, [Term(Eof)] + [NonTerm(INST)] + [Term(RParen)] + [NonTerm(INST0)] + [Term(FinInstruccion)] + [NonTerm(E)], 6, fuel')
  {
    ForMissingValueTokens();
    MatchStep(input, [Term(Eof)] + [NonTerm(INST)] + [Term(RParen)] + [NonTerm(INST0)] + [Term(FinInstruccion)] + [NonTerm(E)], 5, FinInstruccion, fuel);
  }

  lemma ForMissingValueStep15(input: seq<Kind>, fuel: nat, fuel': nat)
    requires input == Input(ForMissingValue) && fuel == 21 && fuel' == 20
    requires WellFormedStack([Term(Eof)] + [NonTerm(INST)] + [Term(RParen)] + [NonTerm(INST0)] + [Term(FinInstruccion)] + [NonTerm(E)])
    ensures WellFormedStack([Term(Eof)] + [NonTerm(INST)] + [Term(RParen)] + [NonTerm(INST0)] + [Term(FinInstruccion)] + [NonTerm(E')] + [NonTerm(T)])
    ensures Run(input, [Term(Eof)] + [NonTerm(INST)] + [Term(RParen)] + [NonTerm(INST0)] + [Term(FinInstruccion)] + [NonTerm(E)], 6, fuel) == Run(input, [Term(Eof)] + [NonTerm(INST)] + [Term(RParen)] + [NonTerm(INST0)] + [Term(FinInstruccion)] + [NonTerm(E')] + [NonTerm(T)], 6, fuel')
  {
    ForMissingValueTokens();
    TableRows10To19();
    ExpandStep(input, [Term(Eof)] + [NonTerm(INST)] + [Term(RParen)] + [NonTerm(INST0)] + [Term(FinInstruccion)], 6, Identificador, fuel, 19, E, [NonTerm(T), NonTerm(E')]);
    Push2([Term(Eof)] + [NonTerm(INST)] + [Term(RParen)] + [NonTerm(INST0)] + [Term(FinInstruccion)], NonTerm(T), NonTerm(E'));
  }

  lemma ForMissingValueStep16(input: seq<Kind>, fuel: nat, fuel': nat)
    requires input == Input(ForMissingValue) && fuel == 20 && fuel' == 19
    requires WellFormedStack([Term(Eof)] + [NonTerm(INST)] + [Term(RParen)] + [NonTerm(INST0)] + [Term(FinInstruccion)] + [NonTerm(E')] + [NonTerm(T)])
    ensures WellFormedStack([Term(Eof)] + [NonTerm(INST)] + [Term(RParen)] + [NonTerm(INST0)] + [Term(FinInstruccion)] + [NonTerm(E')] + [NonTerm(T')] + [NonTerm(F)])
    ensures Run(input, [Term(Eof)] + [NonTerm(INST)] + [Term(RParen)] + [NonTerm(INST0)] + [Term(FinInstruccion)] + [NonTerm(E')] + [NonTerm(T)], 6, fuel) == Run(input, [Term(Eof)] + [NonTerm(INST)] + [Term(RParen)] + [NonTerm(INST0)] + [Term(FinInstruccion)] + [NonTerm(E')] + [NonTerm(T')] + [NonTerm(F)], 6, fuel')
  {
    ForMissingValueTokens();
    TableRows20To24();
    TableRows25To29();
    ExpandStep(input, [Term(Eof)] + [NonTerm(INST)] + [Term(RParen)] + [NonTerm(INST0)] + [Term(FinInstruccion)] + [NonTerm(E')], 6, Identificador, fuel, 26, T, [NonTerm(F), NonTerm(T')]);
    Push2([Term(Eof)] + [NonTerm(INST)] + [Term(RParen)] + [NonTerm(INST0)] + [Term(FinInstruccion)] + [NonTerm(E')], NonTerm(F), NonTerm(T'));
  }

  lemma ForMissingValueStep17(input: seq<Kind>, fuel: nat, fuel': nat)
    requires input == Input(ForMissingValue) && fuel == 19 && fuel' == 18
    requires WellFormedStack([Term(Eof)] + [NonTerm(INST)] + [Term(RParen)] + [NonTerm(INST0)] + [Term(FinInstruccion)] + [NonTerm(E')] + [NonTerm(T')] + [NonTerm(F)])
    ensures WellFormedStack([Term(Eof)] + [NonTerm(INST)] + [Term(RParen)] + [NonTerm(INST0)] + [Term(FinInstruccion)] + [NonTerm(E')] + [NonTerm(T')] + [Term(Identificador)])
    ensures Run(input, [Term(Eof)] + [NonTerm(INST)] + [Term(RParen)] + [NonTerm(INST0)] + [Term(FinInstruccion)] + [NonTerm(E')] + [NonTerm(T')] + [NonTerm(F)], 6, fuel) == Run(input, [Term(Eof)] + [NonTerm(INST)] + [Term(RParen)] + [NonTerm(INST0)] + [Term(FinInstruccion)] + [NonTerm(E')] + [NonTerm(T')] + [Term(Identificador)], 6, fuel')
  {
    ForMissingValueTokens();
    TableRows30To33();
    TableRows34To37();
    ExpandStep(input, [Term(Eof)] + [NonTerm(INST)] + [Term(RParen)] + [NonTerm(INST0)] + [Term(FinInstruccion)] + [NonTerm(E')] + [NonTerm(T')], 6, Identificador, fuel, 35, F, [Term(Identificador)]);
    Push1([Term(Eof)] + [NonTerm(INST)] + [Term(RParen)] + [NonTerm(INST0)] + [Term(FinInstruccion)] + [NonTerm(E')] + [NonTerm(T')], Term(Identificador));
  }

  lemma ForMissingValueStep18(input: seq<Kind>, fuel: nat, fuel': nat)
    requires input == Input(ForMissingValue) && fuel == 18 && fuel' == 17
    requires WellFormedStack([Term(Eof)] + [NonTerm(INST)] + [Term(RParen)] + [NonTerm(INST0)] + [Term(FinInstruccion)] + [NonTerm(E')] + [NonTerm(T')] + [Term(Identificador)])
    ensures WellFormedStack([Term(Eof)] + [NonTerm(INST)] + [Term(RParen)] + [NonTerm(INST0)] + [Term(FinInstruccion)] + [NonTerm(E')] + [NonTerm(T')])
    ensures Run(input, [Term(Eof)] + [NonTerm(INST)] + [Term(RParen)] + [NonTerm(INST0)] + [Term(FinInstruccion)] + [NonTerm(E')] + [NonTerm(T')] + [Term(Identificador)], 6, fuel) == Run(input, [Term(Eof)] + [NonTerm(INST)] + [Term(RParen)] + [NonTerm(INST0)] + [Term(FinInstruccion)] + [NonTerm(E')] + [NonTerm(T')], 7, fuel')
  {
    ForMissingValueTokens();
    MatchStep(input, [Term(Eof)] + [NonTerm(INST)] + [Term(RParen)] + [NonTerm(INST0)] + [Term(FinInstruccion)] + [NonTerm(E')] + [NonTerm(T')], 6, Identificador, fuel);
  }

  lemma ForMissingValueStep19(input: seq<Kind>, fuel: nat, fuel': nat)
    requires input == Input(ForMissingValue) && fuel == 17 && fuel' == 16
    requires WellFormedStack([Term(Eof)] + [NonTerm(INST)] + [Term(RParen)] + [NonTerm(INST0)] + [Term(FinInstruccion)] + [NonTerm(E')] + [NonTerm(T')])
    ensures WellFormedStack([Term(Eof)] + [NonTerm(INST)] + [Term(RParen)] + [NonTerm(INST0)] + [Term(FinInstruccion)] + [NonTerm(E')])
    ensures Run(input, [Term(Eof)] + [NonTerm(INST)] + [Term(RParen)] + [NonTerm(INST0)] + [Term(FinInstruccion)] + [NonTerm(E')] + [NonTerm(T')], 7, fuel) == Run(input, [Term(Eof)] + [NonTerm(INST)] + [Term(RParen)] + [NonTerm(INST0)] + [Term(FinInstruccion)] + [NonTerm(E')], 7, fuel')
  {
    ForMissingValueTokens();
    TableRows30To33();
    TableRows34To37();
    ExpandStep(input, [Term(Eof)] + [NonTerm(INST)] + [Term(RParen)] + [NonTerm(INST0)] + [Term(FinInstruccion)] + [NonTerm(E')], 7, FinInstruccion, fuel, 34, T', [Vacia]);
    PushVacia([Term(Eof)] + [NonTerm(INST)] + [Term(RParen)] + [NonTerm(INST0)] + [Term(FinInstruccion)] + [NonTerm(E')]);
  }

  lemma ForMissingValueStep20(input: seq<Kind>, fuel: nat, fuel': nat)
    requires input == Input(ForMissingValue) && fuel == 16 && fuel' == 15
    requires WellFormedStack([Term(Eof)] + [NonTerm(INST)] + [Term(RParen)] + [NonTerm(INST0)] + [Term(FinInstruccion)] + [NonTerm(E')])
    ensures WellFormedStack([Term(Eof)] + [NonTerm(INST)] + [Term(RParen)] + [NonTerm(INST0)] + [Term(FinInstruccion)])
    ensures Run(input, [Term(Eof)] + [NonTerm(INST)] + [Term(RParen)] + [NonTerm(INST0)] + [Term(FinInstruccion)] + [NonTerm(E')], 7, fuel) == Run(input, [Term(Eof)] + [NonTerm(INST)] + [Term(RParen)] + [NonTerm(INST0)] + [Term(FinInstruccion)], 7, fuel')
  {
    ForMissingValueTokens();
    TableRows20To24();
    TableRows25To29();
    ExpandStep(input, [Term(Eof)] + [NonTerm(INST)] + [Term(RParen)] + [NonTerm(INST0)] + [Term(FinInstruccion)], 7, FinInstruccion, fuel, 25, E', [Vacia]);
    PushVacia([Term(Eof)] + [NonTerm(INST)] + [Term(RParen)] + [NonTerm(INST0)] + [Term(FinInstruccion)]);
  }

  lemma ForMissingValueStep21(input: seq<Kind>, fuel: nat, fuel': nat)
    requires input == Input(ForMissingValue) && fuel == 15 && fuel' == 14
    requires WellFormedStack([Term(Eof)] + [NonTerm(INST)] + [Term(RParen)] + [NonTerm(INST0)] + [Term(FinInstruccion)])
    ensures WellFormedStack([Term(Eof)] + [NonTerm(INST)] + [Term(RParen)] + [NonTerm(INST0)])
    ensures Run(input, [Term(Eof)] + [NonTerm(INST)] + [Term(RParen)] + [NonTerm(INST0)] + [Term(FinInstruccion)], 7, fuel) == Run(input, [Term(Eof)] + [NonTerm(INST)] + [Term(RParen)] + [NonTerm(INST0)], 8, fuel')
  {
    ForMissingValueTokens();
    MatchStep(input, [Term(Eof)] + [NonTerm(INST)] + [Term(RParen)] + [NonTerm(INST0)], 7, FinInstruccion, fuel);
  }

  lemma ForMissingValueStep22(input: seq<Kind>, fuel: nat, fuel': nat)
    requires input == Input(ForMissingValue) && fuel == 14 && fuel' == 13
    requires WellFormedStack([Term(Eof)] + [NonTerm(INST)] + [Term(RParen)] + [NonTerm(INST0)])
    ensures WellFormedStack([Term(Eof)] + [NonTerm(INST)] + [Term(RParen)] + [NonTerm(E)] + [Term(Asignacion)] + [Term(Identificador)])
    ensures Run(input, [Term(Eof)] + [NonTerm(INST)] + [Term(RParen)] + [NonTerm(INST0)], 8, fuel) == Run(input, [Term(Eof)] + [NonTerm(INST)] + [Term(RParen)] + [NonTerm(E)] + [Term(Asignacion)] + [Term(Identificador)], 8, fuel')
  {
    ForMissingValueTokens();
    TableRows10To19();
    ExpandStep(input, [Term(Eof)] + [NonTerm(INST)] + [Term(RParen)], 8, Identificador, fuel, 16, INST0, [Term(Identificador), Term(Asignacion), NonTerm(E)]);
    Push3([Term(Eof)] + [NonTerm(INST)] + [Term(RParen)], Term(Identificador), Term(Asignacion), NonTerm(E));
  }

  lemma ForMissingValueStep23(input: seq<Kind>, fuel: nat, fuel': nat)
    requires input == Input(ForMissingValue) && fuel == 13 && fuel' == 12
    requires WellFormedStack([Term(Eof)] + [NonTerm(INST)] + [Term(RParen)] + [NonTerm(E)] + [Term(Asignacion)] + [Term(Identificador)])
    ensures WellFormedStack([Term(Eof)] + [NonTerm(INST)] + [Term(RParen)] + [NonTerm(E)] + [Term(Asignacion)])
    ensures Run(input, [Term(Eof)] + [NonTerm(INST)] + [Term(RParen)] + [NonTerm(E)] + [Term(Asignacion)] + [Term(Identificador)], 8, fuel) == Run(input, [Term(Eof)] + [NonTerm(INST)] + [Term(RParen)] + [NonTerm(E)] + [Term(Asignacion)], 9, fuel')
  {
    ForMissingValueTokens();
    MatchStep(input, [Term(Eof)] + [NonTerm(INST)] + [Term(RParen)] + [NonTerm(E)] + [Term(Asignacion)], 8, Identificador, fuel);
  }

  lemma ForMissingValueStep24(input: seq<Kind>, fuel: nat, fuel': nat)
    requires input == Input(ForMissingValue) && fuel == 12 && fuel' == 11
    requires WellFormedStack([Term(Eof)] + [NonTerm(INST)] + [Term(RParen)] + [NonTerm(E)] + [Term(Asignacion)])
    ensures WellFormedStack([Term(Eof)] + [NonTerm(INST)] + [Term(RParen)] + [NonTerm(E)])
    ensures Run(input, [Term(Eof)] + [NonTerm(INST)] + [Term(RParen)] + [NonTerm(E)] + [Term(Asignacion)], 9, fuel) == Run(input, [Term(Eof)] + [NonTerm(INST)] + [Term(RParen)] + [NonTerm(E)], 10, fuel')
  {
    ForMissingValueTokens();
    MatchStep(input, [Term(Eof)] + [NonTerm(INST)] + [Term(RParen)] + [NonTerm(E)], 9, Asignacion, fuel);
  }

  lemma ForMissingValueStep25(input: seq<Kind>, fuel: nat, fuel': nat)
    requires input == Input(ForMissingValue) && fuel == 11 && fuel' == 10
    requires WellFormedStack([Term(Eof)] + [NonTerm(INST)] + [Term(RParen)] + [NonTerm(E)])
    ensures WellFormedStack([Term(Eof)] + [NonTerm(INST)] + [Term(RParen)] + [NonTerm(E')] + [NonTerm(T)])
    ensures Run(input, [Term(Eof)] + [NonTerm(INST)] + [Term(RParen)] + [NonTerm(E)], 10, fuel) == Run(input, [Term(Eof)] + [NonTerm(INST)] + [Term(RParen)] + [NonTerm(E')] + [NonTerm(T)], 10, fuel')
  {
    ForMissingValueTokens();
    TableRows20To24();
    TableRows25To29();
    ExpandStep(input, [Term(Eof)] + [NonTerm(INST)] + [Term(RParen)], 10, Number, fuel, 20, E, [NonTerm(T), NonTerm(E')]);
    Push2([Term(Eof)] + [NonTerm(INST)] + [Term(RParen)], NonTerm(T), NonTerm(E'));
  }

  lemma ForMissingValueStep26(input: seq<Kind>, fuel: nat, fuel': nat)
    requires input == Input(ForMissingValue) && fuel == 10 && fuel' == 9
    requires WellFormedStack([Term(Eof)] + [NonTerm(INST)] + [Term(RParen)] + [NonTerm(E')] + [NonTerm(T)])
    ensures WellFormedStack([Term(Eof)] + [NonTerm(INST)] + [Term(RParen)] + [NonTerm(E')] + [NonTerm(T')] + [NonTerm(F)])
    ensures Run(input, [Term(Eof)] + [NonTerm(INST)] + [Term(RParen)] + [NonTerm(E')] + [NonTerm(T)], 10, fuel) == Run(input, [Term(Eof)] + [NonTerm(INST)] + [Term(RParen)] + [NonTerm(E')] + [NonTerm(T')] + [NonTerm(F)], 10, fuel')
  {
    ForMissingValueTokens();
    TableRows20To24();
    TableRows25To29();
    ExpandStep(input, [Term(Eof)] + [NonTerm(INST)] + [Term(RParen)] + [NonTerm(E')], 10, Number, fuel, 27, T, [NonTerm(F), NonTerm(T')]);
    Push2([Term(Eof)] + [NonTerm(INST)] + [Term(RParen)] + [NonTerm(E')], NonTerm(F), NonTerm(T'));
  }

  lemma ForMissingValueStep27(input: seq<Kind>, fuel: nat, fuel': nat)
    requires input == Input(ForMissingValue) && fuel == 9 && fuel' == 8
    requires WellFormedStack([Term(Eof)] + [NonTerm(INST)] + [Term(RParen)] + [NonTerm(E')] + [NonTerm(T')] + [NonTerm(F)])
    ensures WellFormedStack([Term(Eof)] + [NonTerm(INST)] + [Term(RParen)] + [NonTerm(E')] + [NonTerm(T')] + [Term(Number)])
    ensures Run(input, [Term(Eof)] + [NonTerm(INST)] + [Term(RParen)] + [NonTerm(E')] + [NonTerm(T')] + [NonTerm(F)], 10, fuel) == Run(input, [Term(Eof)] + [NonTerm(INST)] + [Term(RParen)] + [NonTerm(E')] + [NonTerm(T')] + [Term(Number)], 10, fuel')
  {
    ForMissingValueTokens();
    TableRows30To33();
    TableRows34To37();
    ExpandStep(input, [Term(Eof)] + [NonTerm(INST)] + [Term(RParen)] + [NonTerm(E')] + [NonTerm(T')], 10, Number, fuel, 36, F, [Term(Number)]);
    Push1([Term(Eof)] + [NonTerm(INST)] + [Term(RParen)] + [NonTerm(E')] + [NonTerm(T')], Term(Number));
  }

  lemma ForMissingValueStep28(input: seq<Kind>, fuel: nat, fuel': nat)
    requires input == Input(ForMissingValue) && fuel == 8 && fuel' == 7
    requires WellFormedStack([Term(Eof)] + [NonTerm(INST)] + [Term(RParen)] + [NonTerm(E')] + [NonTerm(T')] + [Term(Number)])
    ensures WellFormedStack([Term(Eof)] + [NonTerm(INST)] + [Term(RParen)] + [NonTerm(E')] + [NonTerm(T')])
    ensures Run(input, [Term(Eof)] + [NonTerm(INST)] + [Term(RParen)] + [NonTerm(E')] + [NonTerm(T')] + [Term(Number)], 10, fuel) == Run(input, [Term(Eof)] + [NonTerm(INST)] + [Term(RParen)] + [NonTerm(E')] + [NonTerm(T')], 11, fuel')
  {
    ForMissingValueTokens();
    MatchStep(input, [Term(Eof)] + [NonTerm(INST)] + [Term(RParen)] + [NonTerm(E')] + [NonTerm(T')], 10, Number, fuel);
  }

  lemma ForMissingValueStep29(input: seq<Kind>, fuel: nat, fuel': nat)
    requires input == Input(ForMissingValue) && fuel == 7 && fuel' == 6
    requires WellFormedStack([Term(Eof)] + [NonTerm(INST)] + [Term(RParen)] + [NonTerm(E')] + [NonTerm(T')])
    ensures WellFormedStack([Term(Eof)] + [NonTerm(INST)] + [Term(RParen)] + [NonTerm(E')])
    ensures Run(input, [Term(Eof)] + [NonTerm(INST)] + [Term(RParen)] + [NonTerm(E')] + [NonTerm(T')], 11, fuel) == Run(input, [Term(Eof)] + [NonTerm(INST)] + [Term(RParen)] + [NonTerm(E')], 11, fuel')
  {
    ForMissingValueTokens();
    TableRows30To33();
    TableRows34To37();
    ExpandStep(input, [Term(Eof)] + [NonTerm(INST)] + [Term(RParen)] + [NonTerm(E')], 11, RParen, fuel, 33, T', [Vacia]);
    PushVacia([Term(Eof)] + [NonTerm(INST)] + [Term(RParen)] + [NonTerm(E')]);
  }

  lemma ForMissingValueStep30(input: seq<Kind>, fuel: nat, fuel': nat)
    requires input == Input(ForMissingValue) && fuel == 6 && fuel' == 5
    requires WellFormedStack([Term(Eof)] + [NonTerm(INST)] + [Term(RParen)] + [NonTerm(E')])
    ensures WellFormedStack([Term(Eof)] + [NonTerm(INST)] + [Term(RParen)])
    ensures Run(input, [Term(Eof)] + [NonTerm(INST)] + [Term(RParen)] + [NonTerm(E')], 11, fuel) == Run(input, [Term(Eof)] + [NonTerm(INST)] + [Term(RParen)], 11, fuel')
  {
    ForMissingValueTokens();
    TableRows20To24();
    TableRows25To29();
    ExpandStep(input, [Term(Eof)] + [NonTerm(INST)] + [Term(RParen)], 11, RParen, fuel, 24, E', [Vacia]);
    PushVacia([Term(Eof)] + [NonTerm(INST)] + [Term(RParen)]);
  }

  lemma ForMissingValueStep31(input: seq<Kind>, fuel: nat, fuel': nat)
    requires input == Input(ForMissingValue) && fuel == 5 && fuel' == 4
    requires WellFormedStack([Term(Eof)] + [NonTerm(INST)] + [Term(RParen)])
    ensures WellFormedStack([Term(Eof)] + [NonTerm(INST)])
    ensures Run(input, [Term(Eof)] + [NonTerm(INST)] + [Term(RParen)], 11, fuel) == Run(input, [Term(Eof)] + [NonTerm(INST)], 12, fuel')
  {
    ForMissingValueTokens();
    MatchStep(input, [Term(Eof)] + [NonTerm(INST)], 11, RParen, fuel);
  }

  lemma ForMissingValueStep32(input: seq<Kind>, fuel: nat, fuel': nat)
    requires input == Input(ForMissingValue) && fuel == 4 && fuel' == 3
    requires WellFormedStack([Term(Eof)] + [NonTerm(INST)])
    ensures WellFormedStack([Term(Eof)] + [Term(FinInstruccion)] + [NonTerm(E)] + [Term(Asignacion)] + [Term(Identificador)])
    ensures Run(input, [Term(Eof)] + [NonTerm(INST)], 12, fuel) == Run(input, [Term(Eof)] + [Term(FinInstruccion)] + [NonTerm(E)] + [Term(Asignacion)] + [Term(Identificador)], 12, fuel')
  {
    ForMissingValueTokens();
    TableRows10To19();
    ExpandStep(input, [Term(Eof)], 12, Identificador, fuel, 15, INST, [Term(Identificador), Term(Asignacion), NonTerm(E), Term(FinInstruccion)]);
    Push4([Term(Eof)], Term(Identificador), Term(Asignacion), NonTerm(E), Term(FinInstruccion));
  }

  lemma ForMissingValueStep33(input: seq<Kind>, fuel: nat, fuel': nat)
    requires input == Input(ForMissingValue) && fuel == 3 && fuel' == 2
    requires WellFormedStack([Term(Eof)] + [Term(FinInstruccion)] + [NonTerm(E)] + [Term(Asignacion)] + [Term(Identificador)])
    ensures WellFormedStack([Term(Eof)] + [Term(FinInstruccion)] + [NonTerm(E)] + [Term(Asignacion)])
    ensures Run(input, [Term(Eof)] + [Term(FinInstruccion)] + [NonTerm(E)] + [Term(Asignacion)] + [Term(Identificador)], 12, fuel) == Run(input, [Term(Eof)] + [Term(FinInstruccion)] + [NonTerm(E)] + [Term(Asignacion)], 13, fuel')
  {
    ForMissingValueTokens();
    MatchStep(input, [Term(Eof)] + [Term(FinInstruccion)] + [NonTerm(E)] + [Term(Asignacion)], 12, Identificador, fuel);
  }

  lemma ForMissingValueStep34(input: seq<Kind>, fuel: nat, fuel': nat)
    requires input == Input(ForMissingValue) && fuel == 2 && fuel' == 1
    requires WellFormedStack([Term(Eof)] + [Term(FinInstruccion)] + [NonTerm(E)] + [Term(Asignacion)])
    ensures WellFormedStack([Term(Eof)] + [Term(FinInstruccion)] + [NonTerm(E)])
    ensures Run(input, [Term(Eof)] + [Term(FinInstruccion)] + [NonTerm(E)] + [Term(Asignacion)], 13, fuel) == Run(input, [Term(Eof)] + [Term(FinInstruccion)] + [NonTerm(E)], 14, fuel')
  {
    ForMissingValueTokens();
    MatchStep(input, [Term(Eof)] + [Term(FinInstruccion)] + [NonTerm(E)], 13, Asignacion, fuel);
  }

  lemma ForMissingValueStage1_1(input: seq<Kind>, fuel: nat, fuel': nat)
    requires input == Input(ForMissingValue) && fuel == 35 && fuel' == 31
    requires WellFormedStack([Term(Eof)] + [NonTerm(S)])
    ensures WellFormedStack([Term(Eof)] + [NonTerm(INST)] + [Term(RParen)] + [NonTerm(INST0)] + [Term(FinInstruccion)] + [NonTerm(E)] + [NonTerm(INST)])
    ensures Run(input, [Term(Eof)] + [NonTerm(S)], 0, fuel) == Run(input, [Term(Eof)] + [NonTerm(INST)] + [Term(RParen)] + [NonTerm(INST0)] + [Term(FinInstruccion)] + [NonTerm(E)] + [NonTerm(INST)], 2, fuel')
  {
    ForMissingValueStep1(input, fuel, fuel - 1);
    ForMissingValueStep2(input, fuel - 1, fuel - 2);
    ForMissingValueStep3(input, fuel - 2, fuel - 3);
    ForMissingValueStep4(input, fuel - 3, fuel');
  }

  lemma ForMissingValueStage1_2(input: seq<Kind>, fuel: nat, fuel': nat)
    requires input == Input(ForMissingValue) && fuel == 31 && fuel' == 27
    requires WellFormedStack([Term(Eof)] + [NonTerm(INST)] + [Term(RParen)] + [NonTerm(INST0)] + [Term(FinInstruccion)] + [NonTerm(E)] + [NonTerm(INST)])
    ensures WellFormedStack([Term(Eof)] + [NonTerm(INST)] + [Term(RParen)] + [NonTerm(INST0)] + [Term(FinInstruccion)] + [NonTerm(E)] + [Term(FinInstruccion)] + [NonTerm(E')] + [NonTerm(T)])
    ensures Run(input, [Term(Eof)] + [NonTerm(INST)] + [Term(RParen)] + [NonTerm(INST0)] + [Term(FinInstruccion)] + [NonTerm(E)] + [NonTerm(INST)], 2, fuel) == Run(input, [Term(Eof)] + [NonTerm(INST)] + [Term(RParen)] + [NonTerm(INST0)] + [Term(FinInstruccion)] + [NonTerm(E)] + [Term(FinInstruccion)] + [NonTerm(E')] + [NonTerm(T)], 4, fuel')
  {
    ForMissingValueStep5(input, fuel, fuel - 1);
    ForMissingValueStep6(input, fuel - 1, fuel - 2);
    ForMissingValueStep7(input, fuel - 2, fuel - 3);
    ForMissingValueStep8(input, fuel - 3, fuel');
  }

  lemma ForMissingValueStage1_3(input: seq<Kind>, fuel: nat, fuel': nat)
    requires input == Input(ForMissingValue) && fuel == 27 && fuel' == 23
    requires WellFormedStack([Term(Eof)] + [NonTerm(INST)] + [Term(RParen)] + [NonTerm(INST0)] + [Term(FinInstruccion)] + [NonTerm(E)] + [Term(FinInstruccion)] + [NonTerm(E')] + [NonTerm(T)])
    ensures WellFormedStack([Term(Eof)] + [NonTerm(INST)] + [Term(RParen)] + [NonTerm(INST0)] + [Term(FinInstruccion)] + [NonTerm(E)] + [Term(FinInstruccion)] + [NonTerm(E')])
    ensures Run(input, [Term(Eof)] + [NonTerm(INST)] + [Term(RParen)] + [NonTerm(INST0)] + [Term(FinInstruccion)] + [NonTerm(E)] + [Term(FinInstruccion)] + [NonTerm(E')] + [NonTerm(T)], 4, fuel) == Run(input, [Term(Eof)] + [NonTerm(INST)] + [Term(RParen)] + [NonTerm(INST0)] + [Term(FinInstruccion)] + [NonTerm(E)] + [Term(FinInstruccion)] + [NonTerm(E')], 5, fuel')
  {
    ForMissingValueStep9(input, fuel, fuel - 1);
    ForMissingValueStep10(input, fuel - 1, fuel - 2);
    ForMissingValueStep11(input, fuel - 2, fuel - 3);
    ForMissingValueStep12(input, fuel - 3, fuel');
  }

  lemma ForMissingValueStage1_4(input: seq<Kind>, fuel: nat, fuel': nat)
    requires input == Input(ForMissingValue) && fuel == 23 && fuel' == 19
    requires WellFormedStack([Term(Eof)] + [NonTerm(INST)] + [Term(RParen)] + [NonTerm(INST0)] + [Term(FinInstruccion)] + [NonTerm(E)] + [Term(FinInstruccion)] + [NonTerm(E')])
    ensures WellFormedStack([Term(Eof)] + [NonTerm(INST)] + [Term(RParen)] + [NonTerm(INST0)] + [Term(FinInstruccion)] + [NonTerm(E')] + [NonTerm(T')] + [NonTerm(F)])
    ensures Run(input, [Term(Eof)] + [NonTerm(INST)] + [Term(RParen)] + [NonTerm(INST0)] + [Term(FinInstruccion)] + [NonTerm(E)] + [Term(FinInstruccion)] + [NonTerm(E')], 5, fuel) == Run(input, [Term(Eof)] + [NonTerm(INST)] + [Term(RParen)] + [NonTerm(INST0)] + [Term(FinInstruccion)] + [NonTerm(E')] + [NonTerm(T')] + [NonTerm(F)], 6, fuel')
  {
    ForMissingValueStep13(input, fuel, fuel - 1);
    ForMissingValueStep14(input, fuel - 1, fuel - 2);
    ForMissingValueStep15(input, fuel - 2, fuel - 3);
    ForMissingValueStep16(input, fuel - 3, fuel');
  }

  lemma ForMissingValueStage1_5(input: seq<Kind>, fuel: nat, fuel': nat)
    requires input == Input(ForMissingValue) && fuel == 19 && fuel' == 15
    requires WellFormedStack([Term(Eof)] + [NonTerm(INST)] + [Term(RParen)] + [NonTerm(INST0)] + [Term(FinInstruccion)] + [NonTerm(E')] + [NonTerm(T')] + [NonTerm(F)])
    ensures WellFormedStack([Term(Eof)] + [NonTerm(INST)] + [Term(RParen)] + [NonTerm(INST0)] + [Term(FinInstruccion)])
    ensures Run(input, [Term(Eof)] + [NonTerm(INST)] + [Term(RParen)] + [NonTerm(INST0)] + [Term(FinInstruccion)] + [NonTerm(E')] + [NonTerm(T')] + [NonTerm(F)], 6, fuel) == Run(input, [Term(Eof)] + [NonTerm(INST)] + [Term(RParen)] + [NonTerm(INST0)] + [Term(FinInstruccion)], 7, fuel')
  {
    ForMissingValueStep17(input, fuel, fuel - 1);
    ForMissingValueStep18(input, fuel - 1, fuel - 2);
    ForMissingValueStep19(input, fuel - 2, fuel - 3);
    ForMissingValueStep20(input, fuel - 3, fuel');
  }

  lemma ForMissingValueStage1_6(input: seq<Kind>, fuel: nat, fuel': nat)
    requires input == Input(ForMissingValue) && fuel == 15 && fuel' == 11
    requires WellFormedStack([Term(Eof)] + [NonTerm(INST)] + [Term(RParen)] + [NonTerm(INST0)] + [Term(FinInstruccion)])
    ensures WellFormedStack([Term(Eof)] + [NonTerm(INST)] + [Term(RParen)] + [NonTerm(E)])
    ensures Run(input, [Term(Eof)] + [NonTerm(INST)] + [Term(RParen)] + [NonTerm(INST0)] + [Term(FinInstruccion)], 7, fuel) == Run(input, [Term(Eof)] + [NonTerm(INST)] + [Term(RParen)] + [NonTerm(E)], 10, fuel')
  {
    ForMissingValueStep21(input, fuel, fuel - 1);
    ForMissingValueStep22(input, fuel - 1, fuel - 2);
    ForMissingValueStep23(input, fuel - 2, fuel - 3);
    ForMissingValueStep24(input, fuel - 3, fuel');
  }

  lemma ForMissingValueStage1_7(input: seq<Kind>, fuel: nat, fuel': nat)
    requires input == Input(ForMissingValue) && fuel == 11 && fuel' == 7
    requires WellFormedStack([Term(Eof)] + [NonTerm(INST)] + [Term(RParen)] + [NonTerm(E)])
    ensures WellFormedStack([Term(Eof)] + [NonTerm(INST)] + [Term(RParen)] + [NonTerm(E')] + [NonTerm(T')])
    ensures Run(input, [Term(Eof)] + [NonTerm(INST)] + [Term(RParen)] + [NonTerm(E)], 10, fuel) == Run(input, [Term(Eof)] + [NonTerm(INST)] + [Term(RParen)] + [NonTerm(E')] + [NonTerm(T')], 11, fuel')
  {
    ForMissingValueStep25(input, fuel, fuel - 1);
    ForMissingValueStep26(input, fuel - 1, fuel - 2);
    ForMissingValueStep27(input, fuel - 2, fuel - 3);
    ForMissingValueStep28(input, fuel - 3, fuel');
  }

  lemma ForMissingValueStage1_8(input: seq<Kind>, fuel: nat, fuel': nat)
    requires input == Input(ForMissingValue) && fuel == 7 && fuel' == 3
    requires WellFormedStack([Term(Eof)] + [NonTerm(INST)] + [Term(RParen)] + [NonTerm(E')] + [NonTerm(T')])
    ensures WellFormedStack([Term(Eof)] + [Term(FinInstruccion)] + [NonTerm(E)] + [Term(Asignacion)] + [Term(Identificador)])
    ensures Run(input, [Term(Eof)] + [NonTerm(INST)] + [Term(RParen)] + [NonTerm(E')] + [NonTerm(T')], 11, fuel) == Run(input, [Term(Eof)] + [Term(FinInstruccion)] + [NonTerm(E)] + [Term(Asignacion)] + [Term(Identificador)], 12, fuel')
  {
    ForMissingValueStep29(input, fuel, fuel - 1);
    ForMissingValueStep30(input, fuel - 1, fuel - 2);
    ForMissingValueStep31(input, fuel - 2, fuel - 3);
    ForMissingValueStep32(input, fuel - 3, fuel');
  }

  lemma ForMissingValueStage1_9(input: seq<Kind>, fuel: nat, fuel': nat)
    requires input == Input(ForMissingValue) && fuel == 3 && fuel' == 1
    requires WellFormedStack([Term(Eof)] + [Term(FinInstruccion)] + [NonTerm(E)] + [Term(Asignacion)] + [Term(Identificador)])
    ensures WellFormedStack([Term(Eof)] + [Term(FinInstruccion)] + [NonTerm(E)])
    ensures Run(input, [Term(Eof)] + [Term(FinInstruccion)] + [NonTerm(E)] + [Term(Asignacion)] + [Term(Identificador)], 12, fuel) == Run(input, [Term(Eof)] + [Term(FinInstruccion)] + [NonTerm(E)], 14, fuel')
  {
    ForMissingValueStep33(input, fuel, fuel - 1);
    ForMissingValueStep34(input, fuel - 1, fuel');
  }

  lemma ForMissingValueStage2_1(input: seq<Kind>, fuel: nat, fuel': nat)
    requires input == Input(ForMissingValue) && fuel == 35 && fuel' == 19
    requires WellFormedStack([Term(Eof)] + [NonTerm(S)])
    ensures WellFormedStack([Term(Eof)] + [NonTerm(INST)] + [Term(RParen)] + [NonTerm(INST0)] + [Term(FinInstruccion)] + [NonTerm(E')] + [NonTerm(T')] + [NonTerm(F)])
    ensures Run(input, [Term(Eof)] + [NonTerm(S)], 0, fuel) == Run(input, [Term(Eof)] + [NonTerm(INST)] + [Term(RParen)] + [NonTerm(INST0)] + [Term(FinInstruccion)] + [NonTerm(E')] + [NonTerm(T')] + [NonTerm(F)], 6, fuel')
  {
    ForMissingValueStage1_1(input, fuel, fuel - 4);
    ForMissingValueStage1_2(input, fuel - 4, fuel - 8);
    ForMissingValueStage1_3(input, fuel - 8, fuel - 12);
    ForMissingValueStage1_4(input, fuel - 12, fuel');
  }

  lemma ForMissingValueStage2_2(input: seq<Kind>, fuel: nat, fuel': nat)
    requires input == Input(ForMissingValue) && fuel == 19 && fuel' == 3
    requires WellFormedStack([Term(Eof)] + [NonTerm(INST)] + [Term(RParen)] + [NonTerm(INST0)] + [Term(FinInstruccion)] + [NonTerm(E')] + [NonTerm(T')] + [NonTerm(F)])
    ensures WellFormedStack([Term(Eof)] + [Term(FinInstruccion)] + [NonTerm(E)] + [Term(Asignacion)] + [Term(Identificador)])
    ensures Run(input, [Term(Eof)] + [NonTerm(INST)] + [Term(RParen)] + [NonTerm(INST0)] + [Term(FinInstruccion)] + [NonTerm(E')] + [NonTerm(T')] + [NonTerm(F)], 6, fuel) == Run(input, [Term(Eof)] + [Term(FinInstruccion)] + [NonTerm(E)] + [Term(Asignacion)] + [Term(Identificador)], 12, fuel')
  {
    ForMissingValueStage1_5(input, fuel, fuel - 4);
    ForMissingValueStage1_6(input, fuel - 4, fuel - 8);
    ForMissingValueStage1_7(input, fuel - 8, fuel - 12);
    ForMissingValueStage1_8(input, fuel - 12, fuel');
  }

  /** The same missing value in the body of a loop is rejected the same way. */
  lemma ForMissingValueRejected(fuel: nat)
    requires fuel >= 35
    ensures Parse(Input(ForMissingValue), fuel) == NoRule(NonTerm(E), FinInstruccion, 14)
  {
    ForMissingValueTokens();
    var n: nat := 35;
    assert InitialStack() == [Term(Eof)] + [NonTerm(S)];
    ForMissingValueStage2_1(Input(ForMissingValue), n, n - 16);
    ForMissingValueStage2_2(Input(ForMissingValue), n - 16, n - 32);
    ForMissingValueStage1_9(Input(ForMissingValue), n - 32, n - 34);
    NoRuleForExpressionOnEnd();
    NoRuleStep(Input(ForMissingValue), [Term(Eof)] + [Term(FinInstruccion)], 14, FinInstruccion, n - 34, E);
    ParseFuelMonotone(Input(ForMissingValue), n, fuel);
  }

  lemma NaturalSentenceTokens()
    ensures |Input(NaturalSentence)| == 5
    ensures Input(NaturalSentence)[0] == Identificador && Input(NaturalSentence)[1] == Identificador && Input(NaturalSentence)[2] == Identificador && Input(NaturalSentence)[3] == FinInstruccion && Input(NaturalSentence)[4] == Eof
  {
  }

  lemma NaturalSentenceStep1(input: seq<Kind>, fuel: nat, fuel': nat)
    requires input == Input(NaturalSentence) && fuel == 4 && fuel' == 3
    requires WellFormedStack([Term(Eof)] + [NonTerm(S)])
    ensures WellFormedStack([Term(Eof)] + [NonTerm(INST)])
    ensures Run(input, [Term(Eof)] + [NonTerm(S)], 0, fuel) == Run(input, [Term(Eof)] + [NonTerm(INST)], 0, fuel')
  {
    NaturalSentenceTokens();
    TableRows0To9();
    ExpandStep(input, [Term(Eof)], 0, Identificador, fuel, 3, S, [NonTerm(INST)]);
    Push1([Term(Eof)], NonTerm(INST));
  }

  lemma NaturalSentenceStep2(input: seq<Kind>, fuel: nat, fuel': nat)
    requires input == Input(NaturalSentence) && fuel == 3 && fuel' == 2
    requires WellFormedStack([Term(Eof)] + [NonTerm(INST)])
    ensures WellFormedStack([Term(Eof)] + [Term(FinInstruccion)] + [NonTerm(E)] + [Term(Asignacion)] + [Term(Identificador)])
    ensures Run(input, [Term(Eof)] + [NonTerm(INST)], 0, fuel) == Run(input, [Term(Eof)] + [Term(FinInstruccion)] + [NonTerm(E)] + [Term(Asignacion)] + [Term(Identificador)], 0, fuel')
  {
    NaturalSentenceTokens();
    TableRows10To19();
    ExpandStep(input, [Term(Eof)], 0, Identificador, fuel, 15, INST, [Term(Identificador), Term(Asignacion), NonTerm(E), Term(FinInstruccion)]);
    Push4([Term(Eof)], Term(Identificador), Term(Asignacion), NonTerm(E), Term(FinInstruccion));
  }

  lemma NaturalSentenceStep3(input: seq<Kind>, fuel: nat, fuel': nat)
    requires input == Input(NaturalSentence) && fuel == 2 && fuel' == 1
    requires WellFormedStack([Term(Eof)] + [Term(FinInstruccion)] + [NonTerm(E)] + [Term(Asignacion)] + [Term(Identificador)])
    ensures WellFormedStack([Term(Eof)] + [Term(FinInstruccion)] + [NonTerm(E)] + [Term(Asignacion)])
    ensures Run(input, [Term(Eof)] + [Term(FinInstruccion)] + [NonTerm(E)] + [Term(Asignacion)] + [Term(Identificador)], 0, fuel) == Run(input, [Term(Eof)] + [Term(FinInstruccion)] + [NonTerm(E)] + [Term(Asignacion)], 1, fuel')
  {
    NaturalSentenceTokens();
    MatchStep(input, [Term(Eof)] + [Term(FinInstruccion)] + [NonTerm(E)] + [Term(Asignacion)], 0, Identificador, fuel);
  }

  /** A sentence of plain words reads as an assignment and is rejected where `=` was expected. */
  lemma NaturalSentenceRejected(fuel: nat)
    requires fuel >= 4
    ensures Parse(Input(NaturalSentence), fuel) == Mismatch(Asignacion, Identificador, 1)
  {
    NaturalSentenceTokens();
    var n: nat := 4;
    assert InitialStack() == [Term(Eof)] + [NonTerm(S)];
    NaturalSentenceStep1(Input(NaturalSentence), n, n - 1);
    NaturalSentenceStep2(Input(NaturalSentence), n - 1, n - 2);
    NaturalSentenceStep3(Input(NaturalSentence), n - 2, n - 3);
    MismatchStep(Input(NaturalSentence), [Term(Eof)] + [Term(FinInstruccion)] + [NonTerm(E)], 1, Identificador, n - 3, Asignacion);
    ParseFuelMonotone(Input(NaturalSentence), n, fuel);
  }
}

=== FILE: ll1_table.dfy ===
/**
 * The production table of the stack-driven predictive parser (`tabla` in
 * parser.py) together with its token kinds and its first-match lookup.
 */
module LL1Table {
  import opened Wrappers

  /** The token kinds of the `tokens` tuple, plus the `error` kind that the
      lexer's error rule returns. */
  datatype Kind =
    | Number | Plus | Minus | Times | Divide | LParen | RParen
    | If | For | Keyword | Identificador | InicioBloque | FinBloque
    | FinInstruccion | Asignacion | Comentario | ComentarioBloque | Cadena
    | Coma | Eof | Int | Float | String
    | Error

  /** Membership in the `tokens` tuple: every kind except `error`. */
  predicate InTokens(k: Kind) {
    k != Error
  }

  datatype NonTerminal = S | DCL | TIPO | D | INST | INST0 | IF | FOR | E | E' | T | T' | F

  /** A grammar symbol; `Vacia` is the table's epsilon marker `'vacia'`. */
  datatype Symbol = Term(k: Kind) | NonTerm(n: NonTerminal) | Vacia

  datatype Row = Row(lhs: NonTerminal, lookahead: Kind, rhs: seq<Symbol>)

  /** The rows of `tabla`, numbered from 0 in source order. */
  function RowAt(i: int): Row {
    match i
    case 0 => Row(S, Int, [NonTerm(DCL)])
    case 1 => Row(S, Float, [NonTerm(DCL)])
    case 2 => Row(S, String, [NonTerm(DCL)])
    case 3 => Row(S, Identificador, [NonTerm(INST)])
    case 4 => Row(S, If, [NonTerm(IF)])
    case 5 => Row(S, For, [NonTerm(FOR)])
    case 6 => Row(DCL, Int, [NonTerm(TIPO), Term(Identificador), NonTerm(D)])
    case 7 => Row(DCL, Float, [NonTerm(TIPO), Term(Identificador), NonTerm(D)])
    case 8 => Row(DCL, String, [NonTerm(TIPO), Term(Identificador), NonTerm(D)])
    case 9 => Row(TIPO, Int, [Term(Int)])
    case 10 => Row(TIPO, Float, [Term(Float)])
    case 11 => Row(TIPO, String, [Term(String)])
    case 12 => Row(D, Coma, [Term(Coma), Term(Identificador), NonTerm(D)])
    case 13 => Row(D, Asignacion, [Term(Asignacion), NonTerm(E), Term(FinInstruccion)])
    case 14 => Row(D, FinInstruccion, [Term(FinInstruccion)])
    case 15 => Row(INST, Identificador, [Term(Identificador), Term(Asignacion), NonTerm(E), Term(FinInstruccion)])
    case 16 => Row(INST0, Identificador, [Term(Identificador), Term(Asignacion), NonTerm(E)])
    case 17 => Row(IF, If, [Term(If), Term(LParen), NonTerm(E), Term(RParen), NonTerm(INST)])
    case 18 => Row(FOR, For, [Term(For), Term(LParen), NonTerm(INST), NonTerm(E), Term(FinInstruccion), NonTerm(INST0), Term(RParen), NonTerm(INST)])
    case 19 => Row(E, Identificador, [NonTerm(T), NonTerm(E')])
    case 20 => Row(E, Number, [NonTerm(T), NonTerm(E')])
    case 21 => Row(E, LParen, [NonTerm(T), NonTerm(E')])
    case 22 => Row(E', Plus, [Term(Plus), NonTerm(T), NonTerm(E')])
    case 23 => Row(E', Minus, [Term(Minus), NonTerm(T), NonTerm(E')])
    case 24 => Row(E', RParen, [Vacia])
    case 25 => Row(E', FinInstruccion, [Vacia])
    case 26 => Row(T, Identificador, [NonTerm(F), NonTerm(T')])
    case 27 => Row(T, Number, [NonTerm(F), NonTerm(T')])
    case 28 => Row(T, LParen, [NonTerm(F), NonTerm(T')])
    case 29 => Row(T', Times, [Term(Times), NonTerm(F), NonTerm(T')])
    case 30 => Row(T', Divide, [Term(Divide), NonTerm(F), NonTerm(T')])
    case 31 => Row(T', Plus, [Vacia])
    case 32 => Row(T', Minus, [Vacia])
    case 33 => Row(T', RParen, [Vacia])
    case 34 => Row(T', FinInstruccion, [Vacia])
    case 35 => Row(F, Identificador, [Term(Identificador)])
    case 36 => Row(F, Number, [Term(Number)])
    case _ => Row(F, LParen, [Term(LParen), NonTerm(E), Term(RParen)])
  }

  const TableSize: nat := 38

  /** `tabla`: the ordered list of rows that the lookup scans. */
  function Table(): seq<Row> {
    seq(TableSize, i => RowAt(i))
  }

  /** A numbering of the kinds that puts every nonterminal's lookaheads in
      table order; it is injective, so it identifies a kind. */
  function KindRank(k: Kind): nat {
    match k
    case Int => 0 case Float => 1 case String => 2 case Identificador => 3
    case Number => 4 case LParen => 5 case If => 6 case For => 7
    case Coma => 8 case Asignacion => 9 case Times => 10 case Divide => 11
    case Plus => 12 case Minus => 13 case RParen => 14 case FinInstruccion => 15
    case Keyword => 16 case InicioBloque => 17 case FinBloque => 18
    case Comentario => 19 case ComentarioBloque => 20 case Cadena => 21
    case Eof => 22 case Error => 23
  }

  /** The nonterminals numbered in the order their rows appear in the table. */
  function NonTerminalRank(n: NonTerminal): nat {
    match n
    case S => 0 case DCL => 1 case TIPO => 2 case D => 3 case INST => 4
    case INST0 => 5 case IF => 6 case FOR => 7 case E => 8 case E' => 9
    case T => 10 case T' => 11 case F => 12
  }

  /** The (nonterminal, lookahead) key of a row as a single number. */
  function KeyRank(row: Row): nat {
    NonTerminalRank(row.lhs) * 32 + KindRank(row.lookahead)
  }

  lemma KeyRankInjective(a: Row, b: Row)
    requires KeyRank(a) == KeyRank(b)
    ensures a.lhs == b.lhs && a.lookahead == b.lookahead
  {
    assert NonTerminalRank(a.lhs) == NonTerminalRank(b.lhs);
    assert KindRank(a.lookahead) == KindRank(b.lookahead);
  }

  /** The row answers the lookup of nonterminal `n` on lookahead `k`. */
  predicate Keyed(row: Row, n: NonTerminal, k: Kind) {
    row.lhs == n && row.lookahead == k
  }

  /** Consecutive rows have ascending keys: the rows are grouped by
      nonterminal, and within a group no lookahead repeats. */
  lemma TableKeysAscend()
    ensures forall i | 0 <= i < |Table()| - 1 :: KeyRank(Table()[i]) < KeyRank(Table()[i + 1])
  {
    KeysAscend0To10();
    KeysAscend10To15();
    KeysAscend15To19();
    KeysAscend19To28();
    KeysAscend28To33();
    KeysAscend33To37();
  }

  // The ascent proof is split into stretches of rows so that each proof stays small.

  lemma KeysAscend0To10()
    ensures forall i | 0 <= i < 10 :: KeyRank(Table()[i]) < KeyRank(Table()[i + 1])
  {
  }

  lemma KeysAscend10To15()
    ensures forall i | 10 <= i < 15 :: KeyRank(Table()[i]) < KeyRank(Table()[i + 1])
  {
  }

  lemma KeysAscend15To19()
    ensures forall i | 15 <= i < 19 :: KeyRank(Table()[i]) < KeyRank(Table()[i + 1])
  {
  }

  lemma KeysAscend19To28()
    ensures forall i | 19 <= i < 28 :: KeyRank(Table()[i]) < KeyRank(Table()[i + 1])
  {
  }

  lemma KeysAscend28To33()
    ensures forall i | 28 <= i < 33 :: KeyRank(Table()[i]) < KeyRank(Table()[i + 1])
  {
  }

  lemma KeysAscend33To37()
    ensures forall i | 33 <= i < 37 :: KeyRank(Table()[i]) < KeyRank(Table()[i + 1])
  {
  }

  lemma {:induction false} KeysStrictlyAscend(i: nat, j: nat)
    requires i < j < |Table()|
    ensures KeyRank(Table()[i]) < KeyRank(Table()[j])
    decreases j - i
  {
    TableKeysAscend();
    if i + 1 < j {
      KeysStrictlyAscend(i + 1, j);
    }
  }

  /** No two rows share a (nonterminal, lookahead) pair. */
  predicate Deterministic(rows: seq<Row>) {
    forall i, j | 0 <= i < j < |rows| :: !Keyed(rows[j], rows[i].lhs, rows[i].lookahead)
  }

  /** LL(1) determinism of `tabla`. */
  lemma TableDeterministic()
    ensures Deterministic(Table())
  {
    forall i, j | 0 <= i < j < |Table()|
      ensures !Keyed(Table()[j], Table()[i].lhs, Table()[i].lookahead)
    {
      KeysStrictlyAscend(i, j);
    }
  }

  /** `buscar_en_tabla` as a scan of the rows `rows` from index `from`: the
      index of the first row keyed by (`n`, `k`) at or after `from`, if any. */
  function FindRow(rows: seq<Row>, n: NonTerminal, k: Kind, from: nat): (r: Option<nat>)
    requires from <= |rows|
    ensures r.Some? ==> from <= r.value < |rows|
    decreases |rows| - from
  {
    if from == |rows| then None
    else if Keyed(rows[from], n, k) then Some(from)
    else FindRow(rows, n, k, from + 1)
  }

  /** The scan stops at the first keyed row ... */
  lemma {:induction false} FindRowFirst(rows: seq<Row>, n: NonTerminal, k: Kind, from: nat)
    requires from <= |rows| && FindRow(rows, n, k, from).Some?
    ensures Keyed(rows[FindRow(rows, n, k, from).value], n, k)
    ensures forall l | from <= l < FindRow(rows, n, k, from).value :: !Keyed(rows[l], n, k)
    decreases |rows| - from
  {
    if !Keyed(rows[from], n, k) {
      FindRowFirst(rows, n, k, from + 1);
    }
  }

  /** ... and reports none only when no row from `from` on is keyed. */
  lemma {:induction false} FindRowNone(rows: seq<Row>, n: NonTerminal, k: Kind, from: nat)
    requires from <= |rows| && FindRow(rows, n, k, from).None?
    ensures forall l | from <= l < |rows| :: !Keyed(rows[l], n, k)
    decreases |rows| - from
  {
    if from < |rows| {
      FindRowNone(rows, n, k, from + 1);
    }
  }

  /** The scan from the start fails exactly when no row is keyed. */
  lemma FindRowNoneIff(rows: seq<Row>, n: NonTerminal, k: Kind)
    ensures FindRow(rows, n, k, 0).None? <==> forall i | 0 <= i < |rows| :: !Keyed(rows[i], n, k)
  {
    if FindRow(rows, n, k, 0).None? {
      FindRowNone(rows, n, k, 0);
    } else {
      FindRowFirst(rows, n, k, 0);
    }
  }

  /** In a deterministic list of rows the scan finds the one keyed row. */
  lemma FindRowUnique(rows: seq<Row>, n: NonTerminal, k: Kind)
    requires Deterministic(rows)
    ensures forall i | 0 <= i < |rows| && Keyed(rows[i], n, k) :: FindRow(rows, n, k, 0) == Some(i)
  {
    forall i | 0 <= i < |rows| && Keyed(rows[i], n, k)
      ensures FindRow(rows, n, k, 0) == Some(i)
    {
      if FindRow(rows, n, k, 0).None? {
        FindRowNone(rows, n, k, 0);
      } else {
        FindRowFirst(rows, n, k, 0);
        var f := FindRow(rows, n, k, 0).value;
        assert !(f < i) && !(i < f);
      }
    }
  }

  /** `buscar_en_tabla(n, k)`: the right-hand side of the first matching row. */
  function Lookup(n: NonTerminal, k: Kind): Option<seq<Symbol>> {
    match FindRow(Table(), n, k, 0)
    case Some(i) => Some(Table()[i].rhs)
    case None => None
  }

  // The two directions of the failure case are proved apart: together in one
  // lemma they cost the solver far more than separately.

  lemma LookupNoneUnkeyed(n: NonTerminal, k: Kind)
    ensures Lookup(n, k).None? ==> forall i | 0 <= i < |Table()| :: !Keyed(Table()[i], n, k)
  {
    FindRowNoneIff(Table(), n, k);
  }

  lemma UnkeyedLookupNone(n: NonTerminal, k: Kind)
    ensures (forall i | 0 <= i < |Table()| :: !Keyed(Table()[i], n, k)) ==> Lookup(n, k).None?
  {
    FindRowNoneIff(Table(), n, k);
  }

  lemma LookupKeyed(n: NonTerminal, k: Kind)
    ensures forall i | 0 <= i < |Table()| && Keyed(Table()[i], n, k) :: Lookup(n, k) == Some(Table()[i].rhs)
  {
    TableDeterministic();
    FindRowUnique(Table(), n, k);
  }

  lemma LookupWellFormed(n: NonTerminal, k: Kind)
    ensures Lookup(n, k).Some? ==> WellFormedRhs(Lookup(n, k).value)
  {
    TableClosed();
  }

  /** The lookup fails exactly when no row is keyed by (`n`, `k`); because the
      table is deterministic, a successful lookup returns the right-hand side
      of every matching row, and that right-hand side is well formed. */
  lemma LookupSpec(n: NonTerminal, k: Kind)
    ensures Lookup(n, k).None? <==> forall i | 0 <= i < |Table()| :: !Keyed(Table()[i], n, k)
    ensures forall i | 0 <= i < |Table()| && Keyed(Table()[i], n, k) :: Lookup(n, k) == Some(Table()[i].rhs)
    ensures Lookup(n, k).Some? ==> WellFormedRhs(Lookup(n, k).value)
  {
    LookupNoneUnkeyed(n, k);
    UnkeyedLookupNone(n, k);
    LookupKeyed(n, k);
    LookupWellFormed(n, k);
  }

  /** Kinds that some right-hand side pushes as a terminal. */
  predicate Pushable(k: Kind) {
    k in {Number, Plus, Minus, Times, Divide, LParen, RParen, If, For,
          Identificador, FinInstruccion, Asignacion, Coma, Int, Float, String}
  }

  /** Kinds the table never mentions and that are not the end marker: no
      stack symbol can ever match them. */
  predicate Unmatchable(k: Kind) {
    k != Eof && !Pushable(k)
  }

  /** A right-hand side as the table writes them: non-empty, the marker only
      on its own, and every terminal a member of `tokens` that a row pushes. */
  predicate WellFormedRhs(rhs: seq<Symbol>) {
    && |rhs| > 0
    && (Vacia in rhs ==> rhs == [Vacia])
    && forall s | s in rhs && s.Term? :: Pushable(s.k) && InTokens(s.k)
  }

  predicate HasRows(n: NonTerminal) {
    exists i | 0 <= i < |Table()| :: Table()[i].lhs == n
  }

  /** The first row of each nonterminal's group. */
  function FirstRowOf(n: NonTerminal): (i: nat)
    ensures i < |Table()| && Table()[i].lhs == n
  {
    match n
    case S => 0 case DCL => 6 case TIPO => 9 case D => 12 case INST => 15
    case INST0 => 16 case IF => 17 case FOR => 18 case E => 19 case E' => 22
    case T => 26 case T' => 29 case F => 35
  }

  /** Closure of `tabla`: every right-hand side is well formed, every
      nonterminal it mentions has rows of its own, and every lookahead is a
      kind some row pushes (so the end marker and the unmatchable kinds are
      never a lookahead). */
  lemma TableClosed()
    ensures forall i | 0 <= i < |Table()| :: WellFormedRhs(Table()[i].rhs)
    ensures forall i, s | 0 <= i < |Table()| && s in Table()[i].rhs && s.NonTerm? :: HasRows(s.n)
    ensures forall i | 0 <= i < |Table()| :: Pushable(Table()[i].lookahead)
  {
    RhsWellFormed0To10();
    RhsWellFormed10To15();
    RhsWellFormed15To17();
    RhsWellFormed17To19();
    RhsWellFormed19To29();
    RhsWellFormed29To38();
    forall n: NonTerminal
      ensures HasRows(n)
    {
      var i := FirstRowOf(n);
    }
  }

  lemma RhsWellFormed0To10()
    ensures forall i | 0 <= i < 10 :: WellFormedRhs(Table()[i].rhs) && Pushable(Table()[i].lookahead)
  {
  }

  lemma RhsWellFormed10To15()
    ensures forall i | 10 <= i < 15 :: WellFormedRhs(Table()[i].rhs) && Pushable(Table()[i].lookahead)
  {
  }

  lemma RhsWellFormed15To17()
    ensures forall i | 15 <= i < 17 :: WellFormedRhs(Table()[i].rhs) && Pushable(Table()[i].lookahead)
  {
  }

  lemma RhsWellFormed17To19()
    ensures forall i | 17 <= i < 19 :: WellFormedRhs(Table()[i].rhs) && Pushable(Table()[i].lookahead)
  {
  }

  lemma RhsWellFormed19To29()
    ensures forall i | 19 <= i < 29 :: WellFormedRhs(Table()[i].rhs) && Pushable(Table()[i].lookahead)
  {
  }

  lemma RhsWellFormed29To38()
    ensures forall i | 29 <= i < 38 :: WellFormedRhs(Table()[i].rhs) && Pushable(Table()[i].lookahead)
  {
  }

  /** A row whose right-hand side pushes terminal `k`, for each pushable kind. */
  function PushWitness(k: Kind): (ij: (nat, nat))
    requires Pushable(k)
    ensures ij.0 < |Table()| && ij.1 < |Table()[ij.0].rhs| && Table()[ij.0].rhs[ij.1] == Term(k)
  {
    match k
    case Int => (9, 0) case Float => (10, 0) case String => (11, 0)
    case Identificador => (6, 1) case Coma => (12, 0) case Asignacion => (13, 0)
    case FinInstruccion => (13, 2) case If => (17, 0) case LParen => (17, 1)
    case RParen => (17, 3) case For => (18, 0) case Plus => (22, 0)
    case Minus => (23, 0) case Times => (29, 0) case Divide => (30, 0)
    case Number => (36, 0)
  }

  /** `Pushable` is exactly the set of terminals occurring on some
      right-hand side; the complement, apart from the end marker, is
      keyword, inicioBloque, finBloque, comentario, comentario_bloque,
      cadena and error. */
  lemma PushableExact(k: Kind)
    ensures Pushable(k) <==> exists i, j | 0 <= i < |Table()| && 0 <= j < |Table()[i].rhs| :: Table()[i].rhs[j] == Term(k)
    ensures Unmatchable(k) <==> k in {Keyword, InicioBloque, FinBloque, Comentario, ComentarioBloque, Cadena, Error}
  {
    TableClosed();
    if Pushable(k) {
      var ij := PushWitness(k);
    }
  }
}

=== FILE: natural_language.dfy ===
/**
 * The language `ParserNatural` accepts, stated on category sequences:
 *
 *   Subj VERBO Obj? Punct?
 *
 * where Subj and Obj are each DET SUST [ADJ], ADJ SUST or SUST [ADJ], and
 * Punct is PUNTO, INTERROGACION or EXCLAMACION. The parser commits to the
 * longest phrase it sees; the lemmas here show that this greedy reading
 * accepts exactly the sentences of the language.
 */
module NaturalLanguage {
  import opened Wrappers
  import opened NaturalTokenizer
  import opened NaturalParser

  /** The category sequences of a subject or object. */
  predicate PhraseShape(c: seq<Category>) {
    || c == [Determinante, Sustantivo]
    || c == [Determinante, Sustantivo, Adjetivo]
    || c == [Adjetivo, Sustantivo]
    || c == [Sustantivo]
    || c == [Sustantivo, Adjetivo]
  }

  /** The sentence splits into a subject `c[..i]`, the verb `c[i]`, an
      object `c[i + 1..j]` (empty when `j == i + 1`) and at most one
      sentence mark. */
  predicate SentenceSplit(c: seq<Category>, i: nat, j: nat)
    requires 0 < i < j <= |c|
  {
    && PhraseShape(c[..i])
    && c[i] == Verbo
    && (j == i + 1 || PhraseShape(c[i + 1..j]))
    && (j == |c| || (j + 1 == |c| && IsPunct(c[j])))
  }

  predicate InLanguage(c: seq<Category>) {
    exists i: nat, j: nat | 0 < i < j <= |c| :: SentenceSplit(c, i, j)
  }

  lemma DetNounShape(c: seq<Category>, pos: nat)
    requires pos + 1 < |c| && c[pos] == Determinante && c[pos + 1] == Sustantivo
    ensures var q := if pos + 2 < |c| && c[pos + 2] == Adjetivo then pos + 3 else pos + 2;
      PhraseShape(c[pos..q]) && (q == |c| || !PhraseShape(c[pos..q + 1]))
  {
    if pos + 2 < |c| && c[pos + 2] == Adjetivo {
      assert c[pos..pos + 3] == [Determinante, Sustantivo, Adjetivo];
      if pos + 3 < |c| {
        assert |c[pos..pos + 4]| == 4;
      }
    } else {
      assert c[pos..pos + 2] == [Determinante, Sustantivo];
      if pos + 2 < |c| {
        assert c[pos..pos + 3][2] == c[pos + 2];
      }
    }
  }

  lemma AdjNounShape(c: seq<Category>, pos: nat)
    requires pos + 1 < |c| && c[pos] == Adjetivo && c[pos + 1] == Sustantivo
    ensures PhraseShape(c[pos..pos + 2]) && (pos + 2 == |c| || !PhraseShape(c[pos..pos + 3]))
  {
    assert c[pos..pos + 2] == [Adjetivo, Sustantivo];
    if pos + 2 < |c| {
      assert c[pos..pos + 3][0] == Adjetivo && |c[pos..pos + 3]| == 3;
    }
  }

  lemma NounShape(c: seq<Category>, pos: nat)
    requires pos < |c| && c[pos] == Sustantivo
    ensures var q := if pos + 1 < |c| && c[pos + 1] == Adjetivo then pos + 2 else pos + 1;
      PhraseShape(c[pos..q]) && (q == |c| || !PhraseShape(c[pos..q + 1]))
  {
    if pos + 1 < |c| && c[pos + 1] == Adjetivo {
      assert c[pos..pos + 2] == [Sustantivo, Adjetivo];
      if pos + 2 < |c| {
        assert c[pos..pos + 3][0] == Sustantivo && |c[pos..pos + 3]| == 3;
      }
    } else {
      assert c[pos..pos + 1] == [Sustantivo];
      if pos + 1 < |c| {
        assert c[pos..pos + 2][1] == c[pos + 1];
      }
    }
  }

  /** Every phrase shape has a noun first or second. */
  lemma NoShapeWithoutNoun(c: seq<Category>, pos: nat)
    requires pos < |c| && c[pos] != Sustantivo
    requires pos + 1 == |c| || c[pos + 1] != Sustantivo
    ensures forall q | pos <= q <= |c| :: !PhraseShape(c[pos..q])
  {
    forall q | pos <= q <= |c|
      ensures !PhraseShape(c[pos..q])
    {
      if q >= pos + 2 {
        assert c[pos..q][1] == c[pos + 1];
      } else if q == pos + 1 {
        assert c[pos..q] == [c[pos]];
      }
    }
  }

  /** Where the phrase the parser reads from `pos` ends, on categories alone:
      the longest shape starting there, or none. */
  function PhraseEnd(c: seq<Category>, pos: nat): (q: Option<nat>)
    requires pos < |c| && StartsPhrase(c[pos])
    ensures q.Some? ==>
      && pos < q.value <= |c|
      && PhraseShape(c[pos..q.value])
      && (q.value == |c| || !PhraseShape(c[pos..q.value + 1]))
    ensures q.None? ==> forall k | pos <= k <= |c| :: !PhraseShape(c[pos..k])
  {
    if c[pos] == Sustantivo then
      NounShape(c, pos);
      Some(if pos + 1 < |c| && c[pos + 1] == Adjetivo then pos + 2 else pos + 1)
    else if pos + 1 < |c| && c[pos + 1] == Sustantivo then
      if c[pos] == Determinante then
        DetNounShape(c, pos);
        Some(if pos + 2 < |c| && c[pos + 2] == Adjetivo then pos + 3 else pos + 2)
      else
        AdjNounShape(c, pos);
        Some(pos + 2)
    else
      NoShapeWithoutNoun(c, pos);
      None
  }

  /** A shape that is not followed by an adjective is exactly what the
      greedy reading takes. */
  lemma PhraseEndUnique(c: seq<Category>, pos: nat, q: nat)
    requires pos < q <= |c| && PhraseShape(c[pos..q])
    requires q == |c| || c[q] != Adjetivo
    ensures StartsPhrase(c[pos])
    ensures PhraseEnd(c, pos) == Some(q)
  {
    var p := c[pos..q];
    assert p[0] == c[pos];
    assert q - pos >= 2 ==> p[1] == c[pos + 1];
    assert q - pos == 3 ==> p[2] == c[pos + 2];
  }

  /** Where an optional object starting at `k` ends: a phrase when the
      category there can start one, otherwise nothing is read. */
  function ObjectEnd(c: seq<Category>, k: nat): (r: Option<nat>)
    requires k <= |c|
    ensures r.Some? ==> k <= r.value <= |c|
    ensures r == Some(k) <==> !(k < |c| && StartsPhrase(c[k]))
  {
    if k < |c| && StartsPhrase(c[k]) then PhraseEnd(c, k) else Some(k)
  }

  /** Past an optional sentence mark at `j`. */
  function MarkEnd(c: seq<Category>, j: nat): nat
    requires j <= |c|
  {
    if j < |c| && IsPunct(c[j]) then j + 1 else j
  }

  /** What `parse_oracion` consumes, on categories alone. */
  function SentenceEnd(c: seq<Category>): (r: Option<nat>)
    ensures r.Some? ==> r.value <= |c|
  {
    if c == [] || !StartsPhrase(c[0]) || PhraseEnd(c, 0).None? then None
    else
      var i := PhraseEnd(c, 0).value;
      if i < |c| && c[i] == Verbo && ObjectEnd(c, i + 1).Some? then
        Some(MarkEnd(c, ObjectEnd(c, i + 1).value))
      else None
  }

  /** The greedy reading never rejects a sentence of the language, and
      accepts nothing else. */
  lemma {:induction false} SentenceEndLanguage(c: seq<Category>)
    ensures SentenceEnd(c) == Some(|c|) <==> InLanguage(c)
  {
    if SentenceEnd(c) == Some(|c|) {
      var i := PhraseEnd(c, 0).value;
      assert c[0..i] == c[..i];
      var j := ObjectEnd(c, i + 1).value;
      assert SentenceSplit(c, i, j);
    }
    if InLanguage(c) {
      var i: nat, j: nat :| 0 < i < j <= |c| && SentenceSplit(c, i, j);
      assert c[0..i] == c[..i];
      PhraseEndUnique(c, 0, i);
      if j == i + 1 {
        assert !(i + 1 < |c| && StartsPhrase(c[i + 1]));
      } else {
        PhraseEndUnique(c, i + 1, j);
      }
    }
  }

  lemma NounPhraseReads(ts: seq<Token>, pos: nat, role: Role)
    requires pos < |ts| && StartsPhrase(ts[pos].cat)
    ensures StartsPhrase(Cats(ts)[pos])
    ensures NounPhrase(ts, pos, role).Ok? ==> PhraseEnd(Cats(ts), pos) == Some(NounPhrase(ts, pos, role).next)
  {
  }

  lemma NounPhraseFails(ts: seq<Token>, pos: nat, role: Role)
    requires pos < |ts| && StartsPhrase(ts[pos].cat)
    ensures StartsPhrase(Cats(ts)[pos])
    ensures NounPhrase(ts, pos, role).Fail? ==> PhraseEnd(Cats(ts), pos).None?
  {
  }

  lemma SujetoReads(ts: seq<Token>)
    ensures ParseSujeto(ts, 0).Ok? ==>
      && ts != [] && StartsPhrase(Cats(ts)[0])
      && PhraseEnd(Cats(ts), 0) == Some(ParseSujeto(ts, 0).next)
  {
    if ParseSujeto(ts, 0).Ok? {
      NounPhraseReads(ts, 0, Sujeto);
    }
  }

  lemma SujetoFails(ts: seq<Token>)
    requires ts != []
    ensures !ParseSujeto(ts, 0).Ok? ==> !StartsPhrase(Cats(ts)[0]) || PhraseEnd(Cats(ts), 0).None?
  {
    if StartsPhrase(ts[0].cat) {
      NounPhraseFails(ts, 0, Sujeto);
    }
  }

  lemma ObjetoReads(ts: seq<Token>, k: nat)
    requires k <= |ts|
    ensures ParseObjeto(ts, k).Ok? ==> ObjectEnd(Cats(ts), k) == Some(ParseObjeto(ts, k).next)
  {
    if k < |ts| && StartsPhrase(ts[k].cat) {
      NounPhraseReads(ts, k, Objeto);
    }
  }

  lemma ObjetoFails(ts: seq<Token>, k: nat)
    requires k <= |ts|
    ensures !ParseObjeto(ts, k).Ok? ==> ObjectEnd(Cats(ts), k).None?
  {
    if k < |ts| && StartsPhrase(ts[k].cat) {
      NounPhraseFails(ts, k, Objeto);
    }
  }

  /** `parse_oracion` reads what `SentenceEnd` predicts on the categories. */
  lemma OracionReads(ts: seq<Token>)
    ensures ParseOracion(ts).Ok? ==> SentenceEnd(Cats(ts)) == Some(ParseOracion(ts).next)
  {
    if ParseOracion(ts).Ok? {
      SujetoReads(ts);
      var i := ParseSujeto(ts, 0).next;
      assert IsCat(ts, i, Verbo);
      ObjetoReads(ts, i + 1);
      var j := ParseObjeto(ts, i + 1).next;
      assert ObjectEnd(Cats(ts), i + 1) == Some(j);
      assert ParseOracion(ts).next == MarkEnd(Cats(ts), j);
    }
  }

  lemma OracionFails(ts: seq<Token>)
    requires ts != []
    ensures !ParseOracion(ts).Ok? ==> SentenceEnd(Cats(ts)).None?
  {
    SujetoReads(ts);
    SujetoFails(ts);
    var s := ParseSujeto(ts, 0);
    if s.Ok? && IsCat(ts, s.next, Verbo) {
      ObjetoFails(ts, s.next + 1);
    }
  }

  /** The language characterisation: `parse` accepts a token list exactly
      when its categories form Subj VERBO Obj? Punct?. */
  lemma ParseAcceptsLanguage(ts: seq<Token>)
    ensures Parse(ts).verdict.Parsed? <==> InLanguage(Cats(ts))
  {
    OracionReads(ts);
    if ts != [] {
      OracionFails(ts);
    }
    SentenceEndLanguage(Cats(ts));
  }

  lemma ShapeCategories(p: seq<Category>)
    requires PhraseShape(p)
    ensures forall k | 0 <= k < |p| :: StartsPhrase(p[k])
  {
  }

  /** A sentence of the language holds no out-of-vocabulary category. */
  lemma LanguageKnownWords(c: seq<Category>)
    requires InLanguage(c)
    ensures Desconocido !in c
  {
    var i: nat, j: nat :| 0 < i < j <= |c| && SentenceSplit(c, i, j);
    ShapeCategories(c[..i]);
    if j > i + 1 {
      ShapeCategories(c[i + 1..j]);
    }
    forall k | 0 <= k < |c|
      ensures c[k] != Desconocido
    {
      if k < i {
        assert c[k] == c[..i][k];
      } else if i < k < j {
        assert c[k] == c[i + 1..j][k - i - 1];
      }
    }
  }

  /** A `DESCONOCIDO` token is never consumed, so a token list holding one
      is never parsed. */
  lemma UnknownTokenRejected(ts: seq<Token>, k: nat)
    requires k < |ts| && ts[k].cat == Desconocido
    ensures !Parse(ts).verdict.Parsed?
  {
    ParseAcceptsLanguage(ts);
    assert Cats(ts)[k] == Desconocido;
    if InLanguage(Cats(ts)) {
      LanguageKnownWords(Cats(ts));
    }
  }

  /** `parsear_oracion` never accepts a sentence with a word outside the
      vocabulary. */
  lemma UnknownWordRejected(text: string, i: nat)
    requires i < |Words(Lower(text))|
    requires Lookup(StripTrailing(Words(Lower(text))[i])).None?
    ensures !ParsearOracion(text).verdict.Parsed?
  {
    UnknownWordToken(text, i);
    var ts := Tokenize(text);
    var k :| 0 <= k < |ts| && ts[k] == Token(Desconocido, StripTrailing(Words(Lower(text))[i]), i);
    UnknownTokenRejected(ts, k);
  }
}

=== FILE: natural_parser.dfy ===
/**
 * The recursive-descent parser `ParserNatural` of parser_natural.py over the
 * tokens of `tokenizar`:
 *
 *   ORACION -> SUJETO VERBO OBJETO [PUNTO]
 *   SUJETO  -> DETERMINANTE SUSTANTIVO [ADJETIVO] | ADJETIVO SUSTANTIVO | SUSTANTIVO [ADJETIVO]
 *   OBJETO  -> the same alternatives, or nothing
 *
 * The cursor is an index into the token list. Each procedure returns the
 * node it built with the cursor after it, or the `ParseError` the source
 * raises; the one exception that is not a `ParseError` (reading `.tipo` of
 * `None`) is its own outcome.
 */
module NaturalParser {
  import opened Wrappers
  import opened NaturalTokenizer

  datatype Role = Sujeto | Objeto

  /** A subject or object node. The source keeps one `adjetivo` key, so an
      adjective before the noun and one after it land in the same field. */
  datatype Phrase = Phrase(role: Role, det: Option<string>, noun: string, adj: Option<string>)

  datatype Sentence = Sentence(sujeto: Phrase, verbo: string, objeto: Option<Phrase>, puntuacion: Option<string>)

  /** The kinds of `ParseError` the source raises, with what each message names. */
  datatype ParseError =
    | EndOfInput(awaited: Option<Category>)
    | Unexpected(expected: Category, found: Category, value: string, pos: nat)
    | NoSubject(found: Category, pos: nat)
    | ExtraTokens(value: string, found: Category, pos: nat)

  /** The `posicion` a `ParseError` carries: the word index of the offending
      token, or none when the input ran out. */
  function Position(e: ParseError): Option<nat> {
    match e
    case EndOfInput(_) => None
    case Unexpected(_, _, _, pos) => Some(pos)
    case NoSubject(_, pos) => Some(pos)
    case ExtraTokens(_, _, pos) => Some(pos)
  }

  /** What a parsing procedure returns: a value and the cursor after it, a
      `ParseError`, or the crash of reading an attribute of `None`. */
  datatype Result<T> = Ok(value: T, next: nat) | Fail(error: ParseError) | NoneAttributeCrash

  /** Passes a failure or a crash on unchanged. */
  function Propagate<T, U>(r: Result<T>): (s: Result<U>)
    requires !r.Ok?
    ensures s.Fail? <==> r.Fail?
    ensures s.Fail? ==> s.error == r.error
  {
    if r.Fail? then Fail(r.error) else NoneAttributeCrash
  }

  predicate IsPunct(c: Category) {
    c == Punto || c == Interrogacion || c == Exclamacion
  }

  /** The categories that can start a subject or an object. */
  predicate StartsPhrase(c: Category) {
    c == Determinante || c == Adjetivo || c == Sustantivo
  }

  /** `es_tipo`: the current token exists and has category `c`. */
  predicate IsCat(ts: seq<Token>, pos: nat, c: Category) {
    pos < |ts| && ts[pos].cat == c
  }

  /** `consumir`: takes the current token if there is one and, when a
      category is expected, it has that category. */
  function Consume(ts: seq<Token>, pos: nat, expected: Option<Category>): (r: Result<Token>)
    requires pos <= |ts|
    ensures !r.NoneAttributeCrash?
    ensures r.Ok? <==> pos < |ts| && (expected.None? || ts[pos].cat == expected.value)
    ensures r.Ok? ==> r.value == ts[pos] && r.next == pos + 1
    ensures pos == |ts| ==> r == Fail(EndOfInput(expected)) && Position(r.error).None?
    ensures pos < |ts| && r.Fail? ==>
      && expected.Some?
      && r.error == Unexpected(expected.value, ts[pos].cat, ts[pos].value, ts[pos].pos)
      && Position(r.error) == Some(ts[pos].pos)
  {
    if pos >= |ts| then Fail(EndOfInput(expected))
    else if expected.Some? && ts[pos].cat != expected.value then
      Fail(Unexpected(expected.value, ts[pos].cat, ts[pos].value, ts[pos].pos))
    else Ok(ts[pos], pos + 1)
  }

  /** The adjective a noun may take after it, taken whenever present. An
      adjective whose text is empty is consumed but not kept, as the source
      tests the value's truth. */
  function AdjectiveAfter(ts: seq<Token>, pos: nat): (Option<string>, nat)
    requires pos <= |ts|
  {
    if IsCat(ts, pos, Adjetivo) then
      (if ts[pos].value != [] then Some(ts[pos].value) else None, pos + 1)
    else (None, pos)
  }

  /** The category of each token. */
  function Cats(ts: seq<Token>): (c: seq<Category>)
    ensures |c| == |ts|
    ensures forall k | 0 <= k < |ts| :: c[k] == ts[k].cat
  {
    if ts == [] then [] else [ts[0].cat] + Cats(ts[1..])
  }

  /** The body shared by `parse_sujeto` and `parse_objeto` once the current
      token has been seen to be a determiner, an adjective or a noun. */
  function NounPhrase(ts: seq<Token>, pos: nat, role: Role): (r: Result<Phrase>)
    requires pos < |ts| && StartsPhrase(ts[pos].cat)
    ensures !r.NoneAttributeCrash?
    // what the node holds
    ensures r.Ok? ==>
      && pos < r.next <= |ts|
      && r.value.role == role
      && r.value.det == (if ts[pos].cat == Determinante then Some(ts[pos].value) else None)
      && (var n := if ts[pos].cat == Sustantivo then pos else pos + 1;
          n < r.next && ts[n].cat == Sustantivo && r.value.noun == ts[n].value
          // the cursor passes the noun, and the adjective after it unless
          // the phrase opened with an adjective
          && r.next == (if ts[pos].cat != Adjetivo && IsCat(ts, n + 1, Adjetivo) then n + 2 else n + 1))
      && r.value.adj ==
           (if ts[pos].cat == Adjetivo then Some(ts[pos].value)
            else if ts[r.next - 1].cat == Adjetivo && ts[r.next - 1].value != [] then Some(ts[r.next - 1].value)
            else None)
    // failure: a determiner or adjective not followed by a noun
    ensures r.Fail? ==>
      && ts[pos].cat != Sustantivo
      && (pos + 1 < |ts| ==> ts[pos + 1].cat != Sustantivo)
      && r.error == (if pos + 1 == |ts| then EndOfInput(Some(Sustantivo))
                     else Unexpected(Sustantivo, ts[pos + 1].cat, ts[pos + 1].value, ts[pos + 1].pos))
  {
    var first := ts[pos];
    if first.cat == Determinante then
      var noun := Consume(ts, pos + 1, Some(Sustantivo));
      if !noun.Ok? then Propagate(noun)
      else
        var (adj, next) := AdjectiveAfter(ts, noun.next);
        Ok(Phrase(role, Some(first.value), noun.value.value, adj), next)
    else if first.cat == Adjetivo then
      var noun := Consume(ts, pos + 1, Some(Sustantivo));
      if !noun.Ok? then Propagate(noun)
      else Ok(Phrase(role, None, noun.value.value, Some(first.value)), noun.next)
    else
      var (adj, next) := AdjectiveAfter(ts, pos + 1);
      Ok(Phrase(role, None, first.value, adj), next)
  }

  /** `parse_sujeto`. With no current token the error message reads the
      category of `None`, which crashes instead of raising `ParseError`. */
  function ParseSujeto(ts: seq<Token>, pos: nat): (r: Result<Phrase>)
    requires pos <= |ts|
    ensures r.NoneAttributeCrash? <==> pos == |ts|
    ensures pos < |ts| && StartsPhrase(ts[pos].cat) ==> r == NounPhrase(ts, pos, Sujeto)
    ensures pos < |ts| && !StartsPhrase(ts[pos].cat) ==>
      r == Fail(NoSubject(ts[pos].cat, ts[pos].pos)) && Position(r.error) == Some(ts[pos].pos)
  {
    if IsCat(ts, pos, Determinante) || IsCat(ts, pos, Adjetivo) || IsCat(ts, pos, Sustantivo) then
      NounPhrase(ts, pos, Sujeto)
    else if pos == |ts| then NoneAttributeCrash
    else Fail(NoSubject(ts[pos].cat, ts[pos].pos))
  }

  /** `parse_verbo`. */
  function ParseVerbo(ts: seq<Token>, pos: nat): (r: Result<string>)
    requires pos <= |ts|
    ensures !r.NoneAttributeCrash?
    ensures r.Ok? <==> IsCat(ts, pos, Verbo)
    ensures r.Ok? ==> r.value == ts[pos].value && r.next == pos + 1
    ensures r.Fail? ==> r.error == Consume(ts, pos, Some(Verbo)).error
  {
    var v := Consume(ts, pos, Some(Verbo));
    if v.Ok? then Ok(v.value.value, v.next) else Propagate(v)
  }

  /** `parse_objeto`: an object is tried only when the current token can
      start one; at the end, on a sentence mark, or on any other category
      the object is absent and nothing is consumed. */
  function ParseObjeto(ts: seq<Token>, pos: nat): (r: Result<Option<Phrase>>)
    requires pos <= |ts|
    ensures !r.NoneAttributeCrash?
    ensures !(pos < |ts| && StartsPhrase(ts[pos].cat)) ==> r == Ok(None, pos)
    ensures pos < |ts| && StartsPhrase(ts[pos].cat) ==>
      var p := NounPhrase(ts, pos, Objeto);
      && (r.Ok? <==> p.Ok?)
      && (r.Ok? ==> r == Ok(Some(p.value), p.next))
      && (r.Fail? ==> r.error == p.error)
  {
    if pos >= |ts| then Ok(None, pos)
    else if IsCat(ts, pos, Punto) || IsCat(ts, pos, Interrogacion) || IsCat(ts, pos, Exclamacion) then Ok(None, pos)
    else if IsCat(ts, pos, Determinante) || IsCat(ts, pos, Adjetivo) || IsCat(ts, pos, Sustantivo) then
      var p := NounPhrase(ts, pos, Objeto);
      if p.Ok? then Ok(Some(p.value), p.next) else Propagate(p)
    else Ok(None, pos)
  }

  /** `parse_oracion`: subject, verb, optional object, then an optional
      sentence mark, which `consumir()` takes without a category check. */
  function ParseOracion(ts: seq<Token>): (r: Result<Sentence>)
    ensures r.NoneAttributeCrash? <==> ts == []
    ensures r.Ok? ==> r.next <= |ts|
    // the tree holds what the three procedures read, one after the other,
    // and the token after the object when it is a sentence mark
    ensures r.Ok? ==>
      var s := ParseSujeto(ts, 0);
      && s.Ok? && r.value.sujeto == s.value
      && var v := ParseVerbo(ts, s.next);
      && v.Ok? && r.value.verbo == v.value
      && var o := ParseObjeto(ts, v.next);
      && o.Ok? && r.value.objeto == o.value
      && (r.value.puntuacion.Some? <==> o.next < |ts| && IsPunct(ts[o.next].cat))
      && (r.value.puntuacion.Some? ==> r.value.puntuacion.value == ts[o.next].value && r.next == o.next + 1)
      && (r.value.puntuacion.None? ==> r.next == o.next)
    // the error is the one raised by the first procedure that fails
    ensures r.Fail? ==>
      var s := ParseSujeto(ts, 0);
      if !s.Ok? then r.error == s.error
      else
        var v := ParseVerbo(ts, s.next);
        if !v.Ok? then r.error == v.error
        else !ParseObjeto(ts, v.next).Ok? && r.error == ParseObjeto(ts, v.next).error
  {
    var s := ParseSujeto(ts, 0);
    if !s.Ok? then Propagate(s)
    else
      var v := ParseVerbo(ts, s.next);
      if !v.Ok? then Propagate(v)
      else
        var o := ParseObjeto(ts, v.next);
        if !o.Ok? then Propagate(o)
        else if o.next < |ts| && IsPunct(ts[o.next].cat) then
          Ok(Sentence(s.value, v.value, o.value, Some(ts[o.next].value)), o.next + 1)
        else
          Ok(Sentence(s.value, v.value, o.value, None), o.next)
  }

  /** How `parse` ends: a sentence, a `ParseError`, or the crash. */
  datatype Verdict = Parsed(sentence: Sentence) | Rejected(error: ParseError) | Crashed

  /** The verdict and the parser's `errores` list afterwards. */
  datatype Outcome = Outcome(verdict: Verdict, errores: seq<ParseError>)

  /** `parse`: the sentence must use up every token; a `ParseError` is
      recorded in `errores` before it propagates. */
  function Parse(ts: seq<Token>): (o: Outcome)
    ensures o.verdict.Crashed? <==> ts == []
    ensures o.errores == (if o.verdict.Rejected? then [o.verdict.error] else [])
    ensures o.verdict.Parsed? <==> ParseOracion(ts).Ok? && ParseOracion(ts).next == |ts|
    ensures ParseOracion(ts).Ok? && ParseOracion(ts).next < |ts| ==>
      var t := ts[ParseOracion(ts).next];
      o.verdict == Rejected(ExtraTokens(t.value, t.cat, t.pos))
    ensures ParseOracion(ts).Fail? ==> o.verdict == Rejected(ParseOracion(ts).error)
    ensures o.verdict.Parsed? ==> o.verdict.sentence == ParseOracion(ts).value
  {
    var verdict :=
      match ParseOracion(ts)
      case Ok(sentence, next) =>
        if next < |ts| then Rejected(ExtraTokens(ts[next].value, ts[next].cat, ts[next].pos))
        else Parsed(sentence)
      case Fail(e) => Rejected(e)
      case NoneAttributeCrash => Crashed;
    Outcome(verdict, if verdict.Rejected? then [verdict.error] else [])
  }

  /** The token an error message describes: its category, and its text and
      position where the message carries them. */
  predicate Describes(e: ParseError, t: Token) {
    match e
    case EndOfInput(_) => false
    case Unexpected(_, found, value, pos) => t == Token(found, value, pos)
    case NoSubject(found, pos) => t.cat == found && t.pos == pos
    case ExtraTokens(value, found, pos) => t == Token(found, value, pos)
  }

  /** A rejection either reports that the input ran out, with no position,
      or points at a token of the input that its message describes. */
  lemma RejectionPosition(ts: seq<Token>)
    ensures Parse(ts).verdict.Rejected? ==>
      var e := Parse(ts).verdict.error;
      match Position(e)
      case None => e.EndOfInput?
      case Some(p) => exists k | 0 <= k < |ts| :: ts[k].pos == p && Describes(e, ts[k])
  {
    if Parse(ts).verdict.Rejected? && !Parse(ts).verdict.error.EndOfInput? {
      var e := Parse(ts).verdict.error;
      var k: nat;
      var s := ParseSujeto(ts, 0);
      if !s.Ok? {
        k := if StartsPhrase(ts[0].cat) then 1 else 0;
      } else {
        var v := ParseVerbo(ts, s.next);
        if !v.Ok? {
          k := s.next;
        } else {
          var o := ParseObjeto(ts, v.next);
          if !o.Ok? {
            k := v.next + 1;
          } else {
            k := ParseOracion(ts).next;
          }
        }
      }
      assert k < |ts| && Describes(e, ts[k]) && Position(e) == Some(ts[k].pos);
    }
  }

  /** `parsear_oracion`: tokenize, then parse with a fresh parser. */
  function ParsearOracion(text: string): Outcome {
    Parse(Tokenize(text))
  }
}

=== FILE: natural_scenarios.dfy ===
/**
 * The sentences of the natural-language test suite, taken from raw text to
 * the parser's verdict. Each step is proved on its own literal facts:
 * lower-casing, splitting into words, the tokens of every word, and the
 * parse of the token list.
 */
module NaturalScenarios {
  import opened Wrappers
  import opened NaturalTokenizer
  import opened NaturalParser

  lemma LowerOf(s: string, t: string)
    requires |s| == |t| && forall i | 0 <= i < |s| :: t[i] == LowerChar(s[i])
    ensures Lower(s) == t
  {
  }

  /** No ASCII capital letter, so lower-casing changes nothing. */
  predicate NoCaps(s: string) {
    forall i | 0 <= i < |s| :: !('A' <= s[i] <= 'Z')
  }

  lemma {:induction false} LowerAppend(a: string, b: string)
    ensures Lower(a + b) == Lower(a) + Lower(b)
  {
  }

  lemma {:induction false} NoCapsUnwords(ws: seq<string>)
    requires forall k | 0 <= k < |ws| :: NoCaps(ws[k])
    ensures Lower(Unwords(ws)) == Unwords(ws)
  {
    if |ws| >= 2 {
      NoCapsUnwords(ws[1..]);
      LowerAppend(ws[0] + " ", Unwords(ws[1..]));
      LowerAppend(ws[0], " ");
    }
    if |ws| == 1 {
      assert Unwords(ws) == ws[0];
    }
  }

  /** Lower-casing a text whose words after the first have no capitals
      lower-cases the first word only. */
  lemma TextLower(ws: seq<string>, low: seq<string>)
    requires |ws| == |low| && ws != [] && Lower(ws[0]) == low[0]
    requires forall k | 1 <= k < |ws| :: ws[k] == low[k] && NoCaps(ws[k])
    ensures Lower(Unwords(ws)) == Unwords(low)
  {
    if |ws| >= 2 {
      var rest := Unwords(ws[1..]);
      assert Unwords(ws) == ws[0] + " " + rest;
      NoCapsUnwords(ws[1..]);
      LowerAppend(ws[0] + " ", rest);
      LowerAppend(ws[0], " ");
      assert Lower(" ") == " ";
      assert low[1..] == ws[1..];
      assert Unwords(low) == low[0] + " " + rest;
    }
  }

  /** The words `tokenizar` reads from such a text. */
  lemma TextWords(ws: seq<string>, low: seq<string>)
    requires |ws| == |low| && ws != [] && Lower(ws[0]) == low[0] && IsWord(low[0])
    requires forall k | 1 <= k < |ws| :: ws[k] == low[k] && IsWord(ws[k]) && NoCaps(ws[k])
    ensures Words(Lower(Unwords(ws))) == low
  {
    TextLower(ws, low);
    assert forall k | 0 <= k < |low| :: IsWord(low[k]);
    WordsUnwords(low);
  }

  /** A word with no trailing mark yields one token. */
  lemma PlainWord(w: string, c: Category, i: nat)
    requires w != [] && !Trailing(w[|w| - 1])
    requires Classify(w) == c
    ensures WordTokens(w, i) == [Token(c, w, i)]
  {
    assert Suffix(w) == [];
  }

  /** A word followed by one sentence mark yields the word token and the
      mark token. */
  lemma MarkedWord(w: string, c: Category, m: char, mc: Category, i: nat)
    requires w != [] && !Trailing(w[|w| - 1])
    requires Classify(w) == c
    requires m == '.' || m == '?' || m == '!'
    requires Lookup([m]) == Some(mc)
    ensures WordTokens(w + [m], i) == [Token(c, w, i), Token(mc, [m], i)]
  {
    assert (w + [m])[..|w|] == w;
    assert StripTrailing(w + [m]) == w;
    assert Suffix(w + [m]) == [m];
  }

  /** Every key has at most seven characters and starts with one of a few
      characters; `h` is not among them. */
  lemma KeyBounds()
    ensures forall j | 0 <= j < |Vocabulario| ::
      1 <= |Vocabulario[j].0| <= 7 && Vocabulario[j].0[0] != 'h'
  {
  }

  /** A word longer than every key, or starting with `h`, is not in the
      vocabulary. */
  lemma Absent(w: string)
    requires |w| > 7 || (w != [] && w[0] == 'h')
    ensures Lookup(w) == None
  {
    KeyBounds();
    LookupSpec(w);
  }

  lemma FromStep(ws: seq<string>, start: nat, first: seq<Token>, rest: seq<Token>)
    requires ws != [] && WordTokens(ws[0], start) == first
    requires TokensFrom(ws[1..], start + 1) == rest
    ensures TokensFrom(ws, start) == first + rest
  {
  }

  datatype Example =
    | Basic
    | NoDeterminer
    | SubjectAdjective
    | ObjectAdjective
    | NoObject
    | ObjectDeterminer
    | Question
    | VerbFirst
    | MissingVerb
    | UnknownWord
    | Incomplete

  /** The words of each test sentence, as written. */
  function Spelling(e: Example): seq<string> {
    match e
    case Basic => ["El", "perro", "come", "carne."]
    case NoDeterminer => ["Perro", "come", "carne."]
    case SubjectAdjective => ["El", "perro", "grande", "come", "carne."]
    case ObjectAdjective => ["El", "niño", "lee", "libro", "nuevo."]
    case NoObject => ["El", "niño", "corre."]
    case ObjectDeterminer => ["La", "niña", "bebe", "el", "agua."]
    case Question => ["El", "gato", "duerme?"]
    case VerbFirst => ["Come", "el", "perro", "carne."]
    case MissingVerb => ["El", "perro", "carne."]
    case UnknownWord => ["El", "elefante", "come", "hierba."]
    case Incomplete => ["El", "perro."]
  }

  /** The test sentence: its words separated by single spaces. */
  function Text(e: Example): string {
    Unwords(Spelling(e))
  }

  // The tokens of every word the test sentences use, at any word index.

  lemma WordEl(w: string, i: nat)
    requires w == "el"
    ensures WordTokens(w, i) == [Token(Determinante, "el", i)]
  {
    LookupAt("el", 0);
    PlainWord(w, Determinante, i);
  }

  lemma WordPerro(w: string, i: nat)
    requires w == "perro"
    ensures WordTokens(w, i) == [Token(Sustantivo, "perro", i)]
  {
    LookupAt("perro", 6);
    PlainWord(w, Sustantivo, i);
  }

  lemma WordCome(w: string, i: nat)
    requires w == "come"
    ensures WordTokens(w, i) == [Token(Verbo, "come", i)]
  {
    LookupAt("come", 16);
    PlainWord(w, Verbo, i);
  }

  lemma WordCarneDot(w: string, i: nat)
    requires w == "carne."
    ensures WordTokens(w, i) == [Token(Sustantivo, "carne", i), Token(Punto, ".", i)]
  {
    LookupAt("carne", 9);
    MarkLookups();
    assert w == "carne" + ['.'];
    MarkedWord("carne", Sustantivo, '.', Punto, i);
  }

  lemma WordGrande(w: string, i: nat)
    requires w == "grande"
    ensures WordTokens(w, i) == [Token(Adjetivo, "grande", i)]
  {
    LookupAt("grande", 24);
    PlainWord(w, Adjetivo, i);
  }

  lemma WordNino(w: string, i: nat)
    requires w == "niño"
    ensures WordTokens(w, i) == [Token(Sustantivo, "niño", i)]
  {
    LookupAt("niño", 11);
    PlainWord(w, Sustantivo, i);
  }

  lemma WordLee(w: string, i: nat)
    requires w == "lee"
    ensures WordTokens(w, i) == [Token(Verbo, "lee", i)]
  {
    LookupAt("lee", 18);
    PlainWord(w, Verbo, i);
  }

  lemma WordLibro(w: string, i: nat)
    requires w == "libro"
    ensures WordTokens(w, i) == [Token(Sustantivo, "libro", i)]
  {
    LookupAt("libro", 13);
    PlainWord(w, Sustantivo, i);
  }

  lemma WordNuevoDot(w: string, i: nat)
    requires w == "nuevo."
    ensures WordTokens(w, i) == [Token(Adjetivo, "nuevo", i), Token(Punto, ".", i)]
  {
    LookupAt("nuevo", 31);
    MarkLookups();
    assert w == "nuevo" + ['.'];
    MarkedWord("nuevo", Adjetivo, '.', Punto, i);
  }

  lemma WordCorreDot(w: string, i: nat)
    requires w == "corre."
    ensures WordTokens(w, i) == [Token(Verbo, "corre", i), Token(Punto, ".", i)]
  {
    LookupAt("corre", 19);
    MarkLookups();
    assert w == "corre" + ['.'];
    MarkedWord("corre", Verbo, '.', Punto, i);
  }

  lemma WordLa(w: string, i: nat)
    requires w == "la"
    ensures WordTokens(w, i) == [Token(Determinante, "la", i)]
  {
    LookupAt("la", 1);
    PlainWord(w, Determinante, i);
  }

  lemma WordNina(w: string, i: nat)
    requires w == "niña"
    ensures WordTokens(w, i) == [Token(Sustantivo, "niña", i)]
  {
    LookupAt("niña", 12);
    PlainWord(w, Sustantivo, i);
  }

  lemma WordBebe(w: string, i: nat)
    requires w == "bebe"
    ensures WordTokens(w, i) == [Token(Verbo, "bebe", i)]
  {
    LookupAt("bebe", 17);
    PlainWord(w, Verbo, i);
  }

  lemma WordAguaDot(w: string, i: nat)
    requires w == "agua."
    ensures WordTokens(w, i) == [Token(Sustantivo, "agua", i), Token(Punto, ".", i)]
  {
    LookupAt("agua", 10);
    MarkLookups();
    assert w == "agua" + ['.'];
    MarkedWord("agua", Sustantivo, '.', Punto, i);
  }

  lemma WordGato(w: string, i: nat)
    requires w == "gato"
    ensures WordTokens(w, i) == [Token(Sustantivo, "gato", i)]
  {
    LookupAt("gato", 7);
    PlainWord(w, Sustantivo, i);
  }

  lemma WordDuermeQuestion(w: string, i: nat)
    requires w == "duerme?"
    ensures WordTokens(w, i) == [Token(Verbo, "duerme", i), Token(Interrogacion, "?", i)]
  {
    LookupAt("duerme", 21);
    MarkLookups();
    assert w == "duerme" + ['?'];
    MarkedWord("duerme", Verbo, '?', Interrogacion, i);
  }

  lemma WordElefante(w: string, i: nat)
    requires w == "elefante"
    ensures WordTokens(w, i) == [Token(Desconocido, "elefante", i)]
  {
    Absent("elefante");
    PlainWord(w, Desconocido, i);
  }

  lemma WordHierbaDot(w: string, i: nat)
    requires w == "hierba."
    ensures WordTokens(w, i) == [Token(Desconocido, "hierba", i), Token(Punto, ".", i)]
  {
    Absent("hierba");
    MarkLookups();
    assert w == "hierba" + ['.'];
    MarkedWord("hierba", Desconocido, '.', Punto, i);
  }

  lemma WordPerroDot(w: string, i: nat)
    requires w == "perro."
    ensures WordTokens(w, i) == [Token(Sustantivo, "perro", i), Token(Punto, ".", i)]
  {
    LookupAt("perro", 6);
    MarkLookups();
    assert w == "perro" + ['.'];
    MarkedWord("perro", Sustantivo, '.', Punto, i);
  }

  // "El perro come carne.": the basic subject-verb-object sentence

  lemma BasicFirst(w: string)
    requires w == "El"
    ensures Lower(w) == "el" && IsWord("el")
  {
    LowerOf(w, "el");
  }

  lemma BasicPlain()
    ensures var ws := ["El", "perro", "come", "carne."];
      var low := ["el", "perro", "come", "carne."];
      forall k | 1 <= k < |ws| :: ws[k] == low[k] && IsWord(ws[k]) && NoCaps(ws[k])
  {
  }

  lemma BasicWords()
    ensures Words(Lower(Text(Basic))) == ["el", "perro", "come", "carne."]
  {
    BasicFirst("El");
    BasicPlain();
    TextWords(["El", "perro", "come", "carne."], ["el", "perro", "come", "carne."]);
  }

  lemma BasicFrom3(ws: seq<string>, start: nat)
    requires ws == ["carne."] && start == 3
    ensures TokensFrom(ws, start) == [Token(Sustantivo, "carne", 3), Token(Punto, ".", 3)]
  {
    WordCarneDot(ws[0], start);
    FromStep(ws, start, [Token(Sustantivo, "carne", 3), Token(Punto, ".", 3)], []);
  }

  lemma BasicFrom2(ws: seq<string>, start: nat)
    requires ws == ["come", "carne."] && start == 2
    ensures TokensFrom(ws, start) == [Token(Verbo, "come", 2), Token(Sustantivo, "carne", 3), Token(Punto, ".", 3)]
  {
    WordCome(ws[0], start);
    BasicFrom3(ws[1..], start + 1);
    FromStep(ws, start, [Token(Verbo, "come", 2)], [Token(Sustantivo, "carne", 3), Token(Punto, ".", 3)]);
  }

  lemma BasicFrom1(ws: seq<string>, start: nat)
    requires ws == ["perro", "come", "carne."] && start == 1
    ensures TokensFrom(ws, start) == [Token(Sustantivo, "perro", 1), Token(Verbo, "come", 2), Token(Sustantivo, "carne", 3), Token(Punto, ".", 3)]
  {
    WordPerro(ws[0], start);
    BasicFrom2(ws[1..], start + 1);
    FromStep(ws, start, [Token(Sustantivo, "perro", 1)], [Token(Verbo, "come", 2), Token(Sustantivo, "carne", 3), Token(Punto, ".", 3)]);
  }

  lemma BasicFrom0(ws: seq<string>, start: nat)
    requires ws == ["el", "perro", "come", "carne."] && start == 0
    ensures TokensFrom(ws, start) == [Token(Determinante, "el", 0), Token(Sustantivo, "perro", 1), Token(Verbo, "come", 2), Token(Sustantivo, "carne", 3), Token(Punto, ".", 3)]
  {
    WordEl(ws[0], start);
    BasicFrom1(ws[1..], start + 1);
    FromStep(ws, start, [Token(Determinante, "el", 0)], [Token(Sustantivo, "perro", 1), Token(Verbo, "come", 2), Token(Sustantivo, "carne", 3), Token(Punto, ".", 3)]);
  }

  lemma BasicTokens()
    ensures Tokenize(Text(Basic)) == [Token(Determinante, "el", 0), Token(Sustantivo, "perro", 1), Token(Verbo, "come", 2), Token(Sustantivo, "carne", 3), Token(Punto, ".", 3)]
  {
    BasicWords();
    BasicFrom0(Words(Lower(Text(Basic))), 0);
  }

  lemma BasicParse()
    ensures Parse([Token(Determinante, "el", 0), Token(Sustantivo, "perro", 1), Token(Verbo, "come", 2), Token(Sustantivo, "carne", 3), Token(Punto, ".", 3)]) == Outcome(Parsed(Sentence(Phrase(Sujeto, Some("el"), "perro", None), "come", Some(Phrase(Objeto, None, "carne", None)), Some("."))), [])
  {
  }

  lemma BasicAccepted()
    ensures ParsearOracion(Text(Basic)) == Outcome(Parsed(Sentence(Phrase(Sujeto, Some("el"), "perro", None), "come", Some(Phrase(Objeto, None, "carne", None)), Some("."))), [])
  {
    BasicTokens();
    BasicParse();
  }

  // "Perro come carne.": a subject without a determiner

  lemma NoDeterminerFirst(w: string)
    requires w == "Perro"
    ensures Lower(w) == "perro" && IsWord("perro")
  {
    LowerOf(w, "perro");
  }

  lemma NoDeterminerPlain()
    ensures var ws := ["Perro", "come", "carne."];
      var low := ["perro", "come", "carne."];
      forall k | 1 <= k < |ws| :: ws[k] == low[k] && IsWord(ws[k]) && NoCaps(ws[k])
  {
  }

  lemma NoDeterminerWords()
    ensures Words(Lower(Text(NoDeterminer))) == ["perro", "come", "carne."]
  {
    NoDeterminerFirst("Perro");
    NoDeterminerPlain();
    TextWords(["Perro", "come", "carne."], ["perro", "come", "carne."]);
  }

  lemma NoDeterminerFrom2(ws: seq<string>, start: nat)
    requires ws == ["carne."] && start == 2
    ensures TokensFrom(ws, start) == [Token(Sustantivo, "carne", 2), Token(Punto, ".", 2)]
  {
    WordCarneDot(ws[0], start);
    FromStep(ws, start, [Token(Sustantivo, "carne", 2), Token(Punto, ".", 2)], []);
  }

  lemma NoDeterminerFrom1(ws: seq<string>, start: nat)
    requires ws == ["come", "carne."] && start == 1
    ensures TokensFrom(ws, start) == [Token(Verbo, "come", 1), Token(Sustantivo, "carne", 2), Token(Punto, ".", 2)]
  {
    WordCome(ws[0], start);
    NoDeterminerFrom2(ws[1..], start + 1);
    FromStep(ws, start, [Token(Verbo, "come", 1)], [Token(Sustantivo, "carne", 2), Token(Punto, ".", 2)]);
  }

  lemma NoDeterminerFrom0(ws: seq<string>, start: nat)
    requires ws == ["perro", "come", "carne."] && start == 0
    ensures TokensFrom(ws, start) == [Token(Sustantivo, "perro", 0), Token(Verbo, "come", 1), Token(Sustantivo, "carne", 2), Token(Punto, ".", 2)]
  {
    WordPerro(ws[0], start);
    NoDeterminerFrom1(ws[1..], start + 1);
    FromStep(ws, start, [Token(Sustantivo, "perro", 0)], [Token(Verbo, "come", 1), Token(Sustantivo, "carne", 2), Token(Punto, ".", 2)]);
  }

  lemma NoDeterminerTokens()
    ensures Tokenize(Text(NoDeterminer)) == [Token(Sustantivo, "perro", 0), Token(Verbo, "come", 1), Token(Sustantivo, "carne", 2), Token(Punto, ".", 2)]
  {
    NoDeterminerWords();
    NoDeterminerFrom0(Words(Lower(Text(NoDeterminer))), 0);
  }

  lemma NoDeterminerParse()
    ensures Parse([Token(Sustantivo, "perro", 0), Token(Verbo, "come", 1), Token(Sustantivo, "carne", 2), Token(Punto, ".", 2)]) == Outcome(Parsed(Sentence(Phrase(Sujeto, None, "perro", None), "come", Some(Phrase(Objeto, None, "carne", None)), Some("."))), [])
  {
  }

  lemma NoDeterminerAccepted()
    ensures ParsearOracion(Text(NoDeterminer)) == Outcome(Parsed(Sentence(Phrase(Sujeto, None, "perro", None), "come", Some(Phrase(Objeto, None, "carne", None)), Some("."))), [])
  {
    NoDeterminerTokens();
    NoDeterminerParse();
  }

  // "El perro grande come carne.": an adjective after the subject noun

  lemma SubjectAdjectiveFirst(w: string)
    requires w == "El"
    ensures Lower(w) == "el" && IsWord("el")
  {
    LowerOf(w, "el");
  }

  lemma SubjectAdjectivePlain()
    ensures var ws := ["El", "perro", "grande", "come", "carne."];
      var low := ["el", "perro", "grande", "come", "carne."];
      forall k | 1 <= k < |ws| :: ws[k] == low[k] && IsWord(ws[k]) && NoCaps(ws[k])
  {
  }

  lemma SubjectAdjectiveWords()
    ensures Words(Lower(Text(SubjectAdjective))) == ["el", "perro", "grande", "come", "carne."]
  {
    SubjectAdjectiveFirst("El");
    SubjectAdjectivePlain();
    TextWords(["El", "perro", "grande", "come", "carne."], ["el", "perro", "grande", "come", "carne."]);
  }

  lemma SubjectAdjectiveFrom4(ws: seq<string>, start: nat)
    requires ws == ["carne."] && start == 4
    ensures TokensFrom(ws, start) == [Token(Sustantivo, "carne", 4), Token(Punto, ".", 4)]
  {
    WordCarneDot(ws[0], start);
    FromStep(ws, start, [Token(Sustantivo, "carne", 4), Token(Punto, ".", 4)], []);
  }

  lemma SubjectAdjectiveFrom3(ws: seq<string>, start: nat)
    requires ws == ["come", "carne."] && start == 3
    ensures TokensFrom(ws, start) == [Token(Verbo, "come", 3), Token(Sustantivo, "carne", 4), Token(Punto, ".", 4)]
  {
    WordCome(ws[0], start);
    SubjectAdjectiveFrom4(ws[1..], start + 1);
    FromStep(ws, start, [Token(Verbo, "come", 3)], [Token(Sustantivo, "carne", 4), Token(Punto, ".", 4)]);
  }

  lemma SubjectAdjectiveFrom2(ws: seq<string>, start: nat)
    requires ws == ["grande", "come", "carne."] && start == 2
    ensures TokensFrom(ws, start) == [Token(Adjetivo, "grande", 2), Token(Verbo, "come", 3), Token(Sustantivo, "carne", 4), Token(Punto, ".", 4)]
  {
    WordGrande(ws[0], start);
    SubjectAdjectiveFrom3(ws[1..], start + 1);
    FromStep(ws, start, [Token(Adjetivo, "grande", 2)], [Token(Verbo, "come", 3), Token(Sustantivo, "carne", 4), Token(Punto, ".", 4)]);
  }

  lemma SubjectAdjectiveFrom1(ws: seq<string>, start: nat)
    requires ws == ["perro", "grande", "come", "carne."] && start == 1
    ensures TokensFrom(ws, start) == [Token(Sustantivo, "perro", 1), Token(Adjetivo, "grande", 2), Token(Verbo, "come", 3), Token(Sustantivo, "carne", 4), Token(Punto, ".", 4)]
  {
    WordPerro(ws[0], start);
    SubjectAdjectiveFrom2(ws[1..], start + 1);
    FromStep(ws, start, [Token(Sustantivo, "perro", 1)], [Token(Adjetivo, "grande", 2), Token(Verbo, "come", 3), Token(Sustantivo, "carne", 4), Token(Punto, ".", 4)]);
  }

  lemma SubjectAdjectiveFrom0(ws: seq<string>, start: nat)
    requires ws == ["el", "perro", "grande", "come", "carne."] && start == 0
    ensures TokensFrom(ws, start) == [Token(Determinante, "el", 0), Token(Sustantivo, "perro", 1), Token(Adjetivo, "grande", 2), Token(Verbo, "come", 3), Token(Sustantivo, "carne", 4), Token(Punto, ".", 4)]
  {
    WordEl(ws[0], start);
    SubjectAdjectiveFrom1(ws[1..], start + 1);
    FromStep(ws, start, [Token(Determinante, "el", 0)], [Token(Sustantivo, "perro", 1), Token(Adjetivo, "grande", 2), Token(Verbo, "come", 3), Token(Sustantivo, "carne", 4), Token(Punto, ".", 4)]);
  }

  lemma SubjectAdjectiveTokens()
    ensures Tokenize(Text(SubjectAdjective)) == [Token(Determinante, "el", 0), Token(Sustantivo, "perro", 1), Token(Adjetivo, "grande", 2), Token(Verbo, "come", 3), Token(Sustantivo, "carne", 4), Token(Punto, ".", 4)]
  {
    SubjectAdjectiveWords();
    SubjectAdjectiveFrom0(Words(Lower(Text(SubjectAdjective))), 0);
  }

  lemma SubjectAdjectiveParse()
    ensures Parse([Token(Determinante, "el", 0), Token(Sustantivo, "perro", 1), Token(Adjetivo, "grande", 2), Token(Verbo, "come", 3), Token(Sustantivo, "carne", 4), Token(Punto, ".", 4)]) == Outcome(Parsed(Sentence(Phrase(Sujeto, Some("el"), "perro", Some("grande")), "come", Some(Phrase(Objeto, None, "carne", None)), Some("."))), [])
  {
  }

  lemma SubjectAdjectiveAccepted()
    ensures ParsearOracion(Text(SubjectAdjective)) == Outcome(Parsed(Sentence(Phrase(Sujeto, Some("el"), "perro", Some("grande")), "come", Some(Phrase(Objeto, None, "carne", None)), Some("."))), [])
  {
    SubjectAdjectiveTokens();
    SubjectAdjectiveParse();
  }

  // "El niño lee libro nuevo.": an adjective after the object noun

  lemma ObjectAdjectiveFirst(w: string)
    requires w == "El"
    ensures Lower(w) == "el" && IsWord("el")
  {
    LowerOf(w, "el");
  }

  lemma ObjectAdjectivePlain()
    ensures var ws := ["El", "niño", "lee", "libro", "nuevo."];
      var low := ["el", "niño", "lee", "libro", "nuevo."];
      forall k | 1 <= k < |ws| :: ws[k] == low[k] && IsWord(ws[k]) && NoCaps(ws[k])
  {
  }

  lemma ObjectAdjectiveWords()
    ensures Words(Lower(Text(ObjectAdjective))) == ["el", "niño", "lee", "libro", "nuevo."]
  {
    ObjectAdjectiveFirst("El");
    ObjectAdjectivePlain();
    TextWords(["El", "niño", "lee", "libro", "nuevo."], ["el", "niño", "lee", "libro", "nuevo."]);
  }

  lemma ObjectAdjectiveFrom4(ws: seq<string>, start: nat)
    requires ws == ["nuevo."] && start == 4
    ensures TokensFrom(ws, start) == [Token(Adjetivo, "nuevo", 4), Token(Punto, ".", 4)]
  {
    WordNuevoDot(ws[0], start);
    FromStep(ws, start, [Token(Adjetivo, "nuevo", 4), Token(Punto, ".", 4)], []);
  }

  lemma ObjectAdjectiveFrom3(ws: seq<string>, start: nat)
    requires ws == ["libro", "nuevo."] && start == 3
    ensures TokensFrom(ws, start) == [Token(Sustantivo, "libro", 3), Token(Adjetivo, "nuevo", 4), Token(Punto, ".", 4)]
  {
    WordLibro(ws[0], start);
    ObjectAdjectiveFrom4(ws[1..], start + 1);
    FromStep(ws, start, [Token(Sustantivo, "libro", 3)], [Token(Adjetivo, "nuevo", 4), Token(Punto, ".", 4)]);
  }

  lemma ObjectAdjectiveFrom2(ws: seq<string>, start: nat)
    requires ws == ["lee", "libro", "nuevo."] && start == 2
    ensures TokensFrom(ws, start) == [Token(Verbo, "lee", 2), Token(Sustantivo, "libro", 3), Token(Adjetivo, "nuevo", 4), Token(Punto, ".", 4)]
  {
    WordLee(ws[0], start);
    ObjectAdjectiveFrom3(ws[1..], start + 1);
    FromStep(ws, start, [Token(Verbo, "lee", 2)], [Token(Sustantivo, "libro", 3), Token(Adjetivo, "nuevo", 4), Token(Punto, ".", 4)]);
  }

  lemma ObjectAdjectiveFrom1(ws: seq<string>, start: nat)
    requires ws == ["niño", "lee", "libro", "nuevo."] && start == 1
    ensures TokensFrom(ws, start) == [Token(Sustantivo, "niño", 1), Token(Verbo, "lee", 2), Token(Sustantivo, "libro", 3), Token(Adjetivo, "nuevo", 4), Token(Punto, ".", 4)]
  {
    WordNino(ws[0], start);
    ObjectAdjectiveFrom2(ws[1..], start + 1);
    FromStep(ws, start, [Token(Sustantivo, "niño", 1)], [Token(Verbo, "lee", 2), Token(Sustantivo, "libro", 3), Token(Adjetivo, "nuevo", 4), Token(Punto, ".", 4)]);
  }

  lemma ObjectAdjectiveFrom0(ws: seq<string>, start: nat)
    requires ws == ["el", "niño", "lee", "libro", "nuevo."] && start == 0
    ensures TokensFrom(ws, start) == [Token(Determinante, "el", 0), Token(Sustantivo, "niño", 1), Token(Verbo, "lee", 2), Token(Sustantivo, "libro", 3), Token(Adjetivo, "nuevo", 4), Token(Punto, ".", 4)]
  {
    WordEl(ws[0], start);
    ObjectAdjectiveFrom1(ws[1..], start + 1);
    FromStep(ws, start, [Token(Determinante, "el", 0)], [Token(Sustantivo, "niño", 1), Token(Verbo, "lee", 2), Token(Sustantivo, "libro", 3), Token(Adjetivo, "nuevo", 4), Token(Punto, ".", 4)]);
  }

  lemma ObjectAdjectiveTokens()
    ensures Tokenize(Text(ObjectAdjective)) == [Token(Determinante, "el", 0), Token(Sustantivo, "niño", 1), Token(Verbo, "lee", 2), Token(Sustantivo, "libro", 3), Token(Adjetivo, "nuevo", 4), Token(Punto, ".", 4)]
  {
    ObjectAdjectiveWords();
    ObjectAdjectiveFrom0(Words(Lower(Text(ObjectAdjective))), 0);
  }

  lemma ObjectAdjectiveParse()
    ensures Parse([Token(Determinante, "el", 0), Token(Sustantivo, "niño", 1), Token(Verbo, "lee", 2), Token(Sustantivo, "libro", 3), Token(Adjetivo, "nuevo", 4), Token(Punto, ".", 4)]) == Outcome(Parsed(Sentence(Phrase(Sujeto, Some("el"), "niño", None), "lee", Some(Phrase(Objeto, None, "libro", Some("nuevo"))), Some("."))), [])
  {
  }

  lemma ObjectAdjectiveAccepted()
    ensures ParsearOracion(Text(ObjectAdjective)) == Outcome(Parsed(Sentence(Phrase(Sujeto, Some("el"), "niño", None), "lee", Some(Phrase(Objeto, None, "libro", Some("nuevo"))), Some("."))), [])
  {
    ObjectAdjectiveTokens();
    ObjectAdjectiveParse();
  }

  // "El niño corre.": an intransitive verb

  lemma NoObjectFirst(w: string)
    requires w == "El"
    ensures Lower(w) == "el" && IsWord("el")
  {
    LowerOf(w, "el");
  }

  lemma NoObjectPlain()
    ensures var ws := ["El", "niño", "corre."];
      var low := ["el", "niño", "corre."];
      forall k | 1 <= k < |ws| :: ws[k] == low[k] && IsWord(ws[k]) && NoCaps(ws[k])
  {
  }

  lemma NoObjectWords()
    ensures Words(Lower(Text(NoObject))) == ["el", "niño", "corre."]
  {
    NoObjectFirst("El");
    NoObjectPlain();
    TextWords(["El", "niño", "corre."], ["el", "niño", "corre."]);
  }

  lemma NoObjectFrom2(ws: seq<string>, start: nat)
    requires ws == ["corre."] && start == 2
    ensures TokensFrom(ws, start) == [Token(Verbo, "corre", 2), Token(Punto, ".", 2)]
  {
    WordCorreDot(ws[0], start);
    FromStep(ws, start, [Token(Verbo, "corre", 2), Token(Punto, ".", 2)], []);
  }

  lemma NoObjectFrom1(ws: seq<string>, start: nat)
    requires ws == ["niño", "corre."] && start == 1
    ensures TokensFrom(ws, start) == [Token(Sustantivo, "niño", 1), Token(Verbo, "corre", 2), Token(Punto, ".", 2)]
  {
    WordNino(ws[0], start);
    NoObjectFrom2(ws[1..], start + 1);
    FromStep(ws, start, [Token(Sustantivo, "niño", 1)], [Token(Verbo, "corre", 2), Token(Punto, ".", 2)]);
  }

  lemma NoObjectFrom0(ws: seq<string>, start: nat)
    requires ws == ["el", "niño", "corre."] && start == 0
    ensures TokensFrom(ws, start) == [Token(Determinante, "el", 0), Token(Sustantivo, "niño", 1), Token(Verbo, "corre", 2), Token(Punto, ".", 2)]
  {
    WordEl(ws[0], start);
    NoObjectFrom1(ws[1..], start + 1);
    FromStep(ws, start, [Token(Determinante, "el", 0)], [Token(Sustantivo, "niño", 1), Token(Verbo, "corre", 2), Token(Punto, ".", 2)]);
  }

  lemma NoObjectTokens()
    ensures Tokenize(Text(NoObject)) == [Token(Determinante, "el", 0), Token(Sustantivo, "niño", 1), Token(Verbo, "corre", 2), Token(Punto, ".", 2)]
  {
    NoObjectWords();
    NoObjectFrom0(Words(Lower(Text(NoObject))), 0);
  }

  lemma NoObjectParse()
    ensures Parse([Token(Determinante, "el", 0), Token(Sustantivo, "niño", 1), Token(Verbo, "corre", 2), Token(Punto, ".", 2)]) == Outcome(Parsed(Sentence(Phrase(Sujeto, Some("el"), "niño", None), "corre", None, Some("."))), [])
  {
  }

  lemma NoObjectAccepted()
    ensures ParsearOracion(Text(NoObject)) == Outcome(Parsed(Sentence(Phrase(Sujeto, Some("el"), "niño", None), "corre", None, Some("."))), [])
  {
    NoObjectTokens();
    NoObjectParse();
  }

  // "La niña bebe el agua.": a determiner in the object

  lemma ObjectDeterminerFirst(w: string)
    requires w == "La"
    ensures Lower(w) == "la" && IsWord("la")
  {
    LowerOf(w, "la");
  }

  lemma ObjectDeterminerPlain()
    ensures var ws := ["La", "niña", "bebe", "el", "agua."];
      var low := ["la", "niña", "bebe", "el", "agua."];
      forall k | 1 <= k < |ws| :: ws[k] == low[k] && IsWord(ws[k]) && NoCaps(ws[k])
  {
  }

  lemma ObjectDeterminerWords()
    ensures Words(Lower(Text(ObjectDeterminer))) == ["la", "niña", "bebe", "el", "agua."]
  {
    ObjectDeterminerFirst("La");
    ObjectDeterminerPlain();
    TextWords(["La", "niña", "bebe", "el", "agua."], ["la", "niña", "bebe", "el", "agua."]);
  }

  lemma ObjectDeterminerFrom4(ws: seq<string>, start: nat)
    requires ws == ["agua."] && start == 4
    ensures TokensFrom(ws, start) == [Token(Sustantivo, "agua", 4), Token(Punto, ".", 4)]
  {
    WordAguaDot(ws[0], start);
    FromStep(ws, start, [Token(Sustantivo, "agua", 4), Token(Punto, ".", 4)], []);
  }

  lemma ObjectDeterminerFrom3(ws: seq<string>, start: nat)
    requires ws == ["el", "agua."] && start == 3
    ensures TokensFrom(ws, start) == [Token(Determinante, "el", 3), Token(Sustantivo, "agua", 4), Token(Punto, ".", 4)]
  {
    WordEl(ws[0], start);
    ObjectDeterminerFrom4(ws[1..], start + 1);
    FromStep(ws, start, [Token(Determinante, "el", 3)], [Token(Sustantivo, "agua", 4), Token(Punto, ".", 4)]);
  }

  lemma ObjectDeterminerFrom2(ws: seq<string>, start: nat)
    requires ws == ["bebe", "el", "agua."] && start == 2
    ensures TokensFrom(ws, start) == [Token(Verbo, "bebe", 2), Token(Determinante, "el", 3), Token(Sustantivo, "agua", 4), Token(Punto, ".", 4)]
  {
    WordBebe(ws[0], start);
    ObjectDeterminerFrom3(ws[1..], start + 1);
    FromStep(ws, start, [Token(Verbo, "bebe", 2)], [Token(Determinante, "el", 3), Token(Sustantivo, "agua", 4), Token(Punto, ".", 4)]);
  }

  lemma ObjectDeterminerFrom1(ws: seq<string>, start: nat)
    requires ws == ["niña", "bebe", "el", "agua."] && start == 1
    ensures TokensFrom(ws, start) == [Token(Sustantivo, "niña", 1), Token(Verbo, "bebe", 2), Token(Determinante, "el", 3), Token(Sustantivo, "agua", 4), Token(Punto, ".", 4)]
  {
    WordNina(ws[0], start);
    ObjectDeterminerFrom2(ws[1..], start + 1);
    FromStep(ws, start, [Token(Sustantivo, "niña", 1)], [Token(Verbo, "bebe", 2), Token(Determinante, "el", 3), Token(Sustantivo, "agua", 4), Token(Punto, ".", 4)]);
  }

  lemma ObjectDeterminerFrom0(ws: seq<string>, start: nat)
    requires ws == ["la", "niña", "bebe", "el", "agua."] && start == 0
    ensures TokensFrom(ws, start) == [Token(Determinante, "la", 0), Token(Sustantivo, "niña", 1), Token(Verbo, "bebe", 2), Token(Determinante, "el", 3), Token(Sustantivo, "agua", 4), Token(Punto, ".", 4)]
  {
    WordLa(ws[0], start);
    ObjectDeterminerFrom1(ws[1..], start + 1);
    FromStep(ws, start, [Token(Determinante, "la", 0)], [Token(Sustantivo, "niña", 1), Token(Verbo, "bebe", 2), Token(Determinante, "el", 3), Token(Sustantivo, "agua", 4), Token(Punto, ".", 4)]);
  }

  lemma ObjectDeterminerTokens()
    ensures Tokenize(Text(ObjectDeterminer)) == [Token(Determinante, "la", 0), Token(Sustantivo, "niña", 1), Token(Verbo, "bebe", 2), Token(Determinante, "el", 3), Token(Sustantivo, "agua", 4), Token(Punto, ".", 4)]
  {
    ObjectDeterminerWords();
    ObjectDeterminerFrom0(Words(Lower(Text(ObjectDeterminer))), 0);
  }

  lemma ObjectDeterminerParse()
    ensures Parse([Token(Determinante, "la", 0), Token(Sustantivo, "niña", 1), Token(Verbo, "bebe", 2), Token(Determinante, "el", 3), Token(Sustantivo, "agua", 4), Token(Punto, ".", 4)]) == Outcome(Parsed(Sentence(Phrase(Sujeto, Some("la"), "niña", None), "bebe", Some(Phrase(Objeto, Some("el"), "agua", None)), Some("."))), [])
  {
  }

  lemma ObjectDeterminerAccepted()
    ensures ParsearOracion(Text(ObjectDeterminer)) == Outcome(Parsed(Sentence(Phrase(Sujeto, Some("la"), "niña", None), "bebe", Some(Phrase(Objeto, Some("el"), "agua", None)), Some("."))), [])
  {
    ObjectDeterminerTokens();
    ObjectDeterminerParse();
  }

  // "El gato duerme?": a question mark

  lemma QuestionFirst(w: string)
    requires w == "El"
    ensures Lower(w) == "el" && IsWord("el")
  {
    LowerOf(w, "el");
  }

  lemma QuestionPlain()
    ensures var ws := ["El", "gato", "duerme?"];
      var low := ["el", "gato", "duerme?"];
      forall k | 1 <= k < |ws| :: ws[k] == low[k] && IsWord(ws[k]) && NoCaps(ws[k])
  {
  }

  lemma QuestionWords()
    ensures Words(Lower(Text(Question))) == ["el", "gato", "duerme?"]
  {
    QuestionFirst("El");
    QuestionPlain();
    TextWords(["El", "gato", "duerme?"], ["el", "gato", "duerme?"]);
  }

  lemma QuestionFrom2(ws: seq<string>, start: nat)
    requires ws == ["duerme?"] && start == 2
    ensures TokensFrom(ws, start) == [Token(Verbo, "duerme", 2), Token(Interrogacion, "?", 2)]
  {
    WordDuermeQuestion(ws[0], start);
    FromStep(ws, start, [Token(Verbo, "duerme", 2), Token(Interrogacion, "?", 2)], []);
  }

  lemma QuestionFrom1(ws: seq<string>, start: nat)
    requires ws == ["gato", "duerme?"] && start == 1
    ensures TokensFrom(ws, start) == [Token(Sustantivo, "gato", 1), Token(Verbo, "duerme", 2), Token(Interrogacion, "?", 2)]
  {
    WordGato(ws[0], start);
    QuestionFrom2(ws[1..], start + 1);
    FromStep(ws, start, [Token(Sustantivo, "gato", 1)], [Token(Verbo, "duerme", 2), Token(Interrogacion, "?", 2)]);
  }

  lemma QuestionFrom0(ws: seq<string>, start: nat)
    requires ws == ["el", "gato", "duerme?"] && start == 0
    ensures TokensFrom(ws, start) == [Token(Determinante, "el", 0), Token(Sustantivo, "gato", 1), Token(Verbo, "duerme", 2), Token(Interrogacion, "?", 2)]
  {
    WordEl(ws[0], start);
    QuestionFrom1(ws[1..], start + 1);
    FromStep(ws, start, [Token(Determinante, "el", 0)], [Token(Sustantivo, "gato", 1), Token(Verbo, "duerme", 2), Token(Interrogacion, "?", 2)]);
  }

  lemma QuestionTokens()
    ensures Tokenize(Text(Question)) == [Token(Determinante, "el", 0), Token(Sustantivo, "gato", 1), Token(Verbo, "duerme", 2), Token(Interrogacion, "?", 2)]
  {
    QuestionWords();
    QuestionFrom0(Words(Lower(Text(Question))), 0);
  }

  lemma QuestionParse()
    ensures Parse([Token(Determinante, "el", 0), Token(Sustantivo, "gato", 1), Token(Verbo, "duerme", 2), Token(Interrogacion, "?", 2)]) == Outcome(Parsed(Sentence(Phrase(Sujeto, Some("el"), "gato", None), "duerme", None, Some("?"))), [])
  {
  }

  lemma QuestionAccepted()
    ensures ParsearOracion(Text(Question)) == Outcome(Parsed(Sentence(Phrase(Sujeto, Some("el"), "gato", None), "duerme", None, Some("?"))), [])
  {
    QuestionTokens();
    QuestionParse();
  }

  // "Come el perro carne.": verb-subject-object order

  lemma VerbFirstFirst(w: string)
    requires w == "Come"
    ensures Lower(w) == "come" && IsWord("come")
  {
    LowerOf(w, "come");
  }

  lemma VerbFirstPlain()
    ensures var ws := ["Come", "el", "perro", "carne."];
      var low := ["come", "el", "perro", "carne."];
      forall k | 1 <= k < |ws| :: ws[k] == low[k] && IsWord(ws[k]) && NoCaps(ws[k])
  {
  }

  lemma VerbFirstWords()
    ensures Words(Lower(Text(VerbFirst))) == ["come", "el", "perro", "carne."]
  {
    VerbFirstFirst("Come");
    VerbFirstPlain();
    TextWords(["Come", "el", "perro", "carne."], ["come", "el", "perro", "carne."]);
  }

  lemma VerbFirstFrom2(ws: seq<string>, start: nat)
    requires ws == ["perro", "carne."] && start == 2
    ensures TokensFrom(ws, start) == [Token(Sustantivo, "perro", 2), Token(Sustantivo, "carne", 3), Token(Punto, ".", 3)]
  {
    WordPerro(ws[0], start);
    BasicFrom3(ws[1..], start + 1);
    FromStep(ws, start, [Token(Sustantivo, "perro", 2)], [Token(Sustantivo, "carne", 3), Token(Punto, ".", 3)]);
  }

  lemma VerbFirstFrom1(ws: seq<string>, start: nat)
    requires ws == ["el", "perro", "carne."] && start == 1
    ensures TokensFrom(ws, start) == [Token(Determinante, "el", 1), Token(Sustantivo, "perro", 2), Token(Sustantivo, "carne", 3), Token(Punto, ".", 3)]
  {
    WordEl(ws[0], start);
    VerbFirstFrom2(ws[1..], start + 1);
    FromStep(ws, start, [Token(Determinante, "el", 1)], [Token(Sustantivo, "perro", 2), Token(Sustantivo, "carne", 3), Token(Punto, ".", 3)]);
  }

  lemma VerbFirstFrom0(ws: seq<string>, start: nat)
    requires ws == ["come", "el", "perro", "carne."] && start == 0
    ensures TokensFrom(ws, start) == [Token(Verbo, "come", 0), Token(Determinante, "el", 1), Token(Sustantivo, "perro", 2), Token(Sustantivo, "carne", 3), Token(Punto, ".", 3)]
  {
    WordCome(ws[0], start);
    VerbFirstFrom1(ws[1..], start + 1);
    FromStep(ws, start, [Token(Verbo, "come", 0)], [Token(Determinante, "el", 1), Token(Sustantivo, "perro", 2), Token(Sustantivo, "carne", 3), Token(Punto, ".", 3)]);
  }

  lemma VerbFirstTokens()
    ensures Tokenize(Text(VerbFirst)) == [Token(Verbo, "come", 0), Token(Determinante, "el", 1), Token(Sustantivo, "perro", 2), Token(Sustantivo, "carne", 3), Token(Punto, ".", 3)]
  {
    VerbFirstWords();
    VerbFirstFrom0(Words(Lower(Text(VerbFirst))), 0);
  }

  lemma VerbFirstParse()
    ensures Parse([Token(Verbo, "come", 0), Token(Determinante, "el", 1), Token(Sustantivo, "perro", 2), Token(Sustantivo, "carne", 3), Token(Punto, ".", 3)]) == Outcome(Rejected(NoSubject(Verbo, 0)), [NoSubject(Verbo, 0)])
  {
  }

  lemma VerbFirstRejected()
    ensures ParsearOracion(Text(VerbFirst)) == Outcome(Rejected(NoSubject(Verbo, 0)), [NoSubject(Verbo, 0)])
  {
    VerbFirstTokens();
    VerbFirstParse();
  }

  // "El perro carne.": no verb

  lemma MissingVerbFirst(w: string)
    requires w == "El"
    ensures Lower(w) == "el" && IsWord("el")
  {
    LowerOf(w, "el");
  }

  lemma MissingVerbPlain()
    ensures var ws := ["El", "perro", "carne."];
      var low := ["el", "perro", "carne."];
      forall k | 1 <= k < |ws| :: ws[k] == low[k] && IsWord(ws[k]) && NoCaps(ws[k])
  {
  }

  lemma MissingVerbWords()
    ensures Words(Lower(Text(MissingVerb))) == ["el", "perro", "carne."]
  {
    MissingVerbFirst("El");
    MissingVerbPlain();
    TextWords(["El", "perro", "carne."], ["el", "perro", "carne."]);
  }

  lemma MissingVerbFrom1(ws: seq<string>, start: nat)
    requires ws == ["perro", "carne."] && start == 1
    ensures TokensFrom(ws, start) == [Token(Sustantivo, "perro", 1), Token(Sustantivo, "carne", 2), Token(Punto, ".", 2)]
  {
    WordPerro(ws[0], start);
    NoDeterminerFrom2(ws[1..], start + 1);
    FromStep(ws, start, [Token(Sustantivo, "perro", 1)], [Token(Sustantivo, "carne", 2), Token(Punto, ".", 2)]);
  }

  lemma MissingVerbFrom0(ws: seq<string>, start: nat)
    requires ws == ["el", "perro", "carne."] && start == 0
    ensures TokensFrom(ws, start) == [Token(Determinante, "el", 0), Token(Sustantivo, "perro", 1), Token(Sustantivo, "carne", 2), Token(Punto, ".", 2)]
  {
    WordEl(ws[0], start);
    MissingVerbFrom1(ws[1..], start + 1);
    FromStep(ws, start, [Token(Determinante, "el", 0)], [Token(Sustantivo, "perro", 1), Token(Sustantivo, "carne", 2), Token(Punto, ".", 2)]);
  }

  lemma MissingVerbTokens()
    ensures Tokenize(Text(MissingVerb)) == [Token(Determinante, "el", 0), Token(Sustantivo, "perro", 1), Token(Sustantivo, "carne", 2), Token(Punto, ".", 2)]
  {
    MissingVerbWords();
    MissingVerbFrom0(Words(Lower(Text(MissingVerb))), 0);
  }

  lemma MissingVerbParse()
    ensures Parse([Token(Determinante, "el", 0), Token(Sustantivo, "perro", 1), Token(Sustantivo, "carne", 2), Token(Punto, ".", 2)]) == Outcome(Rejected(Unexpected(Verbo, Sustantivo, "carne", 2)), [Unexpected(Verbo, Sustantivo, "carne", 2)])
  {
  }

  lemma MissingVerbRejected()
    ensures ParsearOracion(Text(MissingVerb)) == Outcome(Rejected(Unexpected(Verbo, Sustantivo, "carne", 2)), [Unexpected(Verbo, Sustantivo, "carne", 2)])
  {
    MissingVerbTokens();
    MissingVerbParse();
  }

  // "El elefante come hierba.": a word outside the vocabulary

  lemma UnknownWordFirst(w: string)
    requires w == "El"
    ensures Lower(w) == "el" && IsWord("el")
  {
    LowerOf(w, "el");
  }

  lemma UnknownWordPlain()
    ensures var ws := ["El", "elefante", "come", "hierba."];
      var low := ["el", "elefante", "come", "hierba."];
      forall k | 1 <= k < |ws| :: ws[k] == low[k] && IsWord(ws[k]) && NoCaps(ws[k])
  {
  }

  lemma UnknownWordWords()
    ensures Words(Lower(Text(UnknownWord))) == ["el", "elefante", "come", "hierba."]
  {
    UnknownWordFirst("El");
    UnknownWordPlain();
    TextWords(["El", "elefante", "come", "hierba."], ["el", "elefante", "come", "hierba."]);
  }

  lemma UnknownWordFrom3(ws: seq<string>, start: nat)
    requires ws == ["hierba."] && start == 3
    ensures TokensFrom(ws, start) == [Token(Desconocido, "hierba", 3), Token(Punto, ".", 3)]
  {
    WordHierbaDot(ws[0], start);
    FromStep(ws, start, [Token(Desconocido, "hierba", 3), Token(Punto, ".", 3)], []);
  }

  lemma UnknownWordFrom2(ws: seq<string>, start: nat)
    requires ws == ["come", "hierba."] && start == 2
    ensures TokensFrom(ws, start) == [Token(Verbo, "come", 2), Token(Desconocido, "hierba", 3), Token(Punto, ".", 3)]
  {
    WordCome(ws[0], start);
    UnknownWordFrom3(ws[1..], start + 1);
    FromStep(ws, start, [Token(Verbo, "come", 2)], [Token(Desconocido, "hierba", 3), Token(Punto, ".", 3)]);
  }

  lemma UnknownWordFrom1(ws: seq<string>, start: nat)
    requires ws == ["elefante", "come", "hierba."] && start == 1
    ensures TokensFrom(ws, start) == [Token(Desconocido, "elefante", 1), Token(Verbo, "come", 2), Token(Desconocido, "hierba", 3), Token(Punto, ".", 3)]
  {
    WordElefante(ws[0], start);
    UnknownWordFrom2(ws[1..], start + 1);
    FromStep(ws, start, [Token(Desconocido, "elefante", 1)], [Token(Verbo, "come", 2), Token(Desconocido, "hierba", 3), Token(Punto, ".", 3)]);
  }

  lemma UnknownWordFrom0(ws: seq<string>, start: nat)
    requires ws == ["el", "elefante", "come", "hierba."] && start == 0
    ensures TokensFrom(ws, start) == [Token(Determinante, "el", 0), Token(Desconocido, "elefante", 1), Token(Verbo, "come", 2), Token(Desconocido, "hierba", 3), Token(Punto, ".", 3)]
  {
    WordEl(ws[0], start);
    UnknownWordFrom1(ws[1..], start + 1);
    FromStep(ws, start, [Token(Determinante, "el", 0)], [Token(Desconocido, "elefante", 1), Token(Verbo, "come", 2), Token(Desconocido, "hierba", 3), Token(Punto, ".", 3)]);
  }

  lemma UnknownWordTokens()
    ensures Tokenize(Text(UnknownWord)) == [Token(Determinante, "el", 0), Token(Desconocido, "elefante", 1), Token(Verbo, "come", 2), Token(Desconocido, "hierba", 3), Token(Punto, ".", 3)]
  {
    UnknownWordWords();
    UnknownWordFrom0(Words(Lower(Text(UnknownWord))), 0);
  }

  lemma UnknownWordParse()
    ensures Parse([Token(Determinante, "el", 0), Token(Desconocido, "elefante", 1), Token(Verbo, "come", 2), Token(Desconocido, "hierba", 3), Token(Punto, ".", 3)]) == Outcome(Rejected(Unexpected(Sustantivo, Desconocido, "elefante", 1)), [Unexpected(Sustantivo, Desconocido, "elefante", 1)])
  {
  }

  lemma UnknownWordRejected()
    ensures ParsearOracion(Text(UnknownWord)) == Outcome(Rejected(Unexpected(Sustantivo, Desconocido, "elefante", 1)), [Unexpected(Sustantivo, Desconocido, "elefante", 1)])
  {
    UnknownWordTokens();
    UnknownWordParse();
  }

  // "El perro.": a subject alone

  lemma IncompleteFirst(w: string)
    requires w == "El"
    ensures Lower(w) == "el" && IsWord("el")
  {
    LowerOf(w, "el");
  }

  lemma IncompletePlain()
    ensures var ws := ["El", "perro."];
      var low := ["el", "perro."];
      forall k | 1 <= k < |ws| :: ws[k] == low[k] && IsWord(ws[k]) && NoCaps(ws[k])
  {
  }

  lemma IncompleteWords()
    ensures Words(Lower(Text(Incomplete))) == ["el", "perro."]
  {
    IncompleteFirst("El");
    IncompletePlain();
    TextWords(["El", "perro."], ["el", "perro."]);
  }

  lemma IncompleteFrom1(ws: seq<string>, start: nat)
    requires ws == ["perro."] && start == 1
    ensures TokensFrom(ws, start) == [Token(Sustantivo, "perro", 1), Token(Punto, ".", 1)]
  {
    WordPerroDot(ws[0], start);
    FromStep(ws, start, [Token(Sustantivo, "perro", 1), Token(Punto, ".", 1)], []);
  }

  lemma IncompleteFrom0(ws: seq<string>, start: nat)
    requires ws == ["el", "perro."] && start == 0
    ensures TokensFrom(ws, start) == [Token(Determinante, "el", 0), Token(Sustantivo, "perro", 1), Token(Punto, ".", 1)]
  {
    WordEl(ws[0], start);
    IncompleteFrom1(ws[1..], start + 1);
    FromStep(ws, start, [Token(Determinante, "el", 0)], [Token(Sustantivo, "perro", 1), Token(Punto, ".", 1)]);
  }

  lemma IncompleteTokens()
    ensures Tokenize(Text(Incomplete)) == [Token(Determinante, "el", 0), Token(Sustantivo, "perro", 1), Token(Punto, ".", 1)]
  {
    IncompleteWords();
    IncompleteFrom0(Words(Lower(Text(Incomplete))), 0);
  }

  lemma IncompleteParse()
    ensures Parse([Token(Determinante, "el", 0), Token(Sustantivo, "perro", 1), Token(Punto, ".", 1)]) == Outcome(Rejected(Unexpected(Verbo, Punto, ".", 1)), [Unexpected(Verbo, Punto, ".", 1)])
  {
  }

  lemma IncompleteRejected()
    ensures ParsearOracion(Text(Incomplete)) == Outcome(Rejected(Unexpected(Verbo, Punto, ".", 1)), [Unexpected(Verbo, Punto, ".", 1)])
  {
    IncompleteTokens();
    IncompleteParse();
  }
}

=== FILE: natural_tokenizer.dfy ===
/**
 * The word-level tokenizer `tokenizar` of parser_natural.py: lower-case the
 * text, split it on whitespace, strip trailing `.,!?` from each word, look
 * the rest up in `VOCABULARIO`, and add a punctuation token when the
 * stripped suffix is itself a vocabulary entry.
 *
 * Lower-casing and whitespace are modelled for ASCII only.
 */
module NaturalTokenizer {
  import opened Wrappers

  /** The categories of `VOCABULARIO`, plus `DESCONOCIDO` for every other word. */
  datatype Category =
    | Determinante
    | Sustantivo
    | Verbo
    | Adjetivo
    | Punto
    | Interrogacion
    | Exclamacion
    | Desconocido

  /** A token: its category, the (lower-cased, stripped) text it stands for,
      and the index of the word it came from. */
  datatype Token = Token(cat: Category, value: string, pos: nat)

  /** `VOCABULARIO`, as its entries in insertion order. The keys are
      distinct (`KeysDistinct`), so the first entry with a key is the only one. */
  const Vocabulario: seq<(string, Category)> := [
    ("el", Determinante), ("la", Determinante), ("los", Determinante),
    ("las", Determinante), ("un", Determinante), ("una", Determinante),
    ("perro", Sustantivo), ("gato", Sustantivo), ("casa", Sustantivo),
    ("carne", Sustantivo), ("agua", Sustantivo), ("niño", Sustantivo),
    ("niña", Sustantivo), ("libro", Sustantivo), ("mesa", Sustantivo),
    ("coche", Sustantivo),
    ("come", Verbo), ("bebe", Verbo), ("lee", Verbo), ("corre", Verbo),
    ("juega", Verbo), ("duerme", Verbo), ("camina", Verbo), ("escribe", Verbo),
    ("grande", Adjetivo), ("pequeño", Adjetivo), ("rojo", Adjetivo),
    ("azul", Adjetivo), ("bonito", Adjetivo), ("rápido", Adjetivo),
    ("lento", Adjetivo), ("nuevo", Adjetivo), ("viejo", Adjetivo),
    (".", Punto), ("?", Interrogacion), ("!", Exclamacion)
  ]

  /** The category of the first of `entries` at index `k` or later whose key is `w`. */
  function LookupFrom(entries: seq<(string, Category)>, w: string, k: nat): Option<Category>
    decreases |entries| - k
  {
    if k >= |entries| then None
    else if entries[k].0 == w then Some(entries[k].1)
    else LookupFrom(entries, w, k + 1)
  }

  /** `VOCABULARIO.get(w)`: `Some` exactly when `w in VOCABULARIO`. */
  function Lookup(w: string): Option<Category> {
    LookupFrom(Vocabulario, w, 0)
  }

  /** No entry maps to `DESCONOCIDO`; the first 33 keys are words that
      start with a letter and the last three are the sentence marks. */
  lemma EntryShapes()
    ensures |Vocabulario| == 36
    ensures forall j | 0 <= j < |Vocabulario| :: Vocabulario[j].1 != Desconocido
    ensures forall j | 0 <= j < 33 :: Vocabulario[j].0 != [] && 'a' <= Vocabulario[j].0[0] <= 'z'
    ensures Vocabulario[33] == (".", Punto)
    ensures Vocabulario[34] == ("?", Interrogacion)
    ensures Vocabulario[35] == ("!", Exclamacion)
  {
  }

  /** No two entries share a key, so the first entry with a key is the one
      a dictionary keeps. */
  lemma KeysDistinct()
    ensures forall i, j | 0 <= i < j < |Vocabulario| :: Vocabulario[i].0 != Vocabulario[j].0
  {
    KeysDistinct0To6();
    KeysDistinct6To14();
    KeysDistinct14To24();
    KeysDistinct24To35();
  }

  // The proof is split into stretches of first indices so that each stays small.

  lemma KeysDistinct0To6()
    ensures forall i, j | 0 <= i < 6 && i < j < |Vocabulario| :: Vocabulario[i].0 != Vocabulario[j].0
  {
  }

  lemma KeysDistinct6To14()
    ensures forall i, j | 6 <= i < 14 && i < j < |Vocabulario| :: Vocabulario[i].0 != Vocabulario[j].0
  {
  }

  lemma KeysDistinct14To24()
    ensures forall i, j | 14 <= i < 24 && i < j < |Vocabulario| :: Vocabulario[i].0 != Vocabulario[j].0
  {
  }

  lemma KeysDistinct24To35()
    ensures forall i, j | 24 <= i < 35 && i < j < |Vocabulario| :: Vocabulario[i].0 != Vocabulario[j].0
  {
  }

  lemma {:induction false} LookupFromSpec(entries: seq<(string, Category)>, w: string, k: nat)
    ensures LookupFrom(entries, w, k).None? <==> forall j | k <= j < |entries| :: entries[j].0 != w
    ensures LookupFrom(entries, w, k).Some? ==>
      exists j | k <= j < |entries| :: entries[j] == (w, LookupFrom(entries, w, k).value)
    decreases |entries| - k
  {
    if k < |entries| && entries[k].0 != w {
      LookupFromSpec(entries, w, k + 1);
    }
  }

  lemma {:induction false} LookupFromAt(entries: seq<(string, Category)>, w: string, k: nat, j: nat)
    requires k <= j < |entries| && entries[j].0 == w
    requires forall i | k <= i < j :: entries[i].0 != w
    ensures LookupFrom(entries, w, k) == Some(entries[j].1)
    decreases j - k
  {
    if k < j {
      assert entries[k].0 != w;
      LookupFromAt(entries, w, k + 1, j);
    }
  }

  /** Looking up an entry's key gives that entry's category. */
  lemma LookupAt(w: string, j: nat)
    requires j < |Vocabulario| && Vocabulario[j].0 == w
    ensures Lookup(w) == Some(Vocabulario[j].1)
  {
    KeysDistinct();
    LookupFromAt(Vocabulario, w, 0, j);
  }

  /** The dictionary view of the entries: a lookup fails exactly when no
      entry has the key, succeeds with the category of an entry that has it,
      and never yields `DESCONOCIDO`. */
  lemma LookupSpec(w: string)
    ensures Lookup(w).None? <==> forall j | 0 <= j < |Vocabulario| :: Vocabulario[j].0 != w
    ensures Lookup(w).Some? ==> (w, Lookup(w).value) in Vocabulario && Lookup(w).value != Desconocido
  {
    LookupFromSpec(Vocabulario, w, 0);
    EntryShapes();
  }

  /** The category a cleaned word gets: its vocabulary entry, or `DESCONOCIDO`. */
  function Classify(word: string): (c: Category)
    ensures c != Desconocido <==> Lookup(word).Some?
    ensures Lookup(word).Some? ==> c == Lookup(word).value
  {
    LookupSpec(word);
    if Lookup(word).Some? then Lookup(word).value else Desconocido
  }

  /** A key that does not start with a letter is not among the first 33. */
  lemma {:induction false} LookupFromLetters(w: string, k: nat)
    requires k <= 33 && (w == [] || !('a' <= w[0] <= 'z'))
    ensures LookupFrom(Vocabulario, w, k) == LookupFrom(Vocabulario, w, 33)
    decreases 33 - k
  {
    if k < 33 {
      EntryShapes();
      assert Vocabulario[k].0 != w;
      LookupFromLetters(w, k + 1);
    }
  }

  /** The sentence mark stored at index `j`, found by its own lookup. */
  lemma MarkLookup(m: string, j: nat)
    requires 33 <= j < |Vocabulario| && m == Vocabulario[j].0
    ensures Lookup(m) == Some(Vocabulario[j].1)
  {
    EntryShapes();
    LookupFromLetters(m, 0);
    LookupFromAt(Vocabulario, m, 33, j);
  }

  /** The three sentence marks and their categories. */
  lemma MarkLookups()
    ensures Lookup(".") == Some(Punto)
    ensures Lookup("?") == Some(Interrogacion)
    ensures Lookup("!") == Some(Exclamacion)
  {
    MarkLookup(".", 33);
    MarkLookup("?", 34);
    MarkLookup("!", 35);
  }

  lemma {:induction false} MarksOnlyFrom(s: string, k: nat)
    requires forall i | 0 <= i < |s| :: Trailing(s[i])
    requires s != "." && s != "?" && s != "!"
    ensures LookupFrom(Vocabulario, s, k).None?
    decreases |Vocabulario| - k
  {
    if k < |Vocabulario| {
      EntryShapes();
      if k < 33 {
        assert Vocabulario[k].0 != s;
      }
      MarksOnlyFrom(s, k + 1);
    }
  }

  /** The vocabulary words made only of characters that are stripped from the
      end of a word are exactly the three sentence-final marks. */
  lemma PunctuationEntries(s: string)
    requires forall i | 0 <= i < |s| :: Trailing(s[i])
    ensures Lookup(s).Some? <==> s == "." || s == "?" || s == "!"
    ensures Lookup(s).Some? ==>
      Lookup(s).value == (if s == "." then Punto else if s == "?" then Interrogacion else Exclamacion)
  {
    if s != "." && s != "?" && s != "!" {
      MarksOnlyFrom(s, 0);
    } else {
      MarkLookups();
    }
  }

  // ---------------------------------------------------------------------
  // Lower-casing
  // ---------------------------------------------------------------------

  function LowerChar(c: char): (d: char)
    ensures 'A' <= c <= 'Z' ==> d as int == c as int + 32
    ensures !('A' <= c <= 'Z') ==> d == c
  {
    if 'A' <= c <= 'Z' then (c as int + 32) as char else c
  }

  /** `str.lower` restricted to ASCII letters. */
  function Lower(s: string): (r: string)
    ensures |r| == |s|
    ensures forall i | 0 <= i < |s| :: r[i] == LowerChar(s[i])
  {
    if s == [] then [] else [LowerChar(s[0])] + Lower(s[1..])
  }

  // ---------------------------------------------------------------------
  // Splitting on whitespace
  // ---------------------------------------------------------------------

  /** The ASCII characters `str.split()` treats as separators. */
  predicate IsSpace(c: char) {
    c == ' ' || c == '\t' || c == '\n' || c == '\r' || c == '\U{B}' || c == '\U{C}'
    || c == '\U{1C}' || c == '\U{1D}' || c == '\U{1E}' || c == '\U{1F}'
  }

  /** A word `str.split()` can return: non-empty, with no separator in it. */
  predicate IsWord(w: string) {
    w != [] && forall i | 0 <= i < |w| :: !IsSpace(w[i])
  }

  /** Splits `s`, where `partial` is the part of the current word already read. */
  function SplitFrom(s: string, partial: string): (ws: seq<string>)
    requires forall i | 0 <= i < |partial| :: !IsSpace(partial[i])
    ensures forall k | 0 <= k < |ws| :: IsWord(ws[k])
    decreases |s|
  {
    if s == [] then
      (if partial == [] then [] else [partial])
    else if IsSpace(s[0]) then
      (if partial == [] then [] else [partial]) + SplitFrom(s[1..], [])
    else
      SplitFrom(s[1..], partial + [s[0]])
  }

  /** The characters of `s` that are not separators, in order. */
  function NonSpace(s: string): string {
    if s == [] then [] else (if IsSpace(s[0]) then [] else [s[0]]) + NonSpace(s[1..])
  }

  /** The words of a list, written one after the other. */
  function Flatten(ws: seq<string>): string {
    if ws == [] then [] else ws[0] + Flatten(ws[1..])
  }

  lemma {:induction false} SplitFlatten(s: string, partial: string)
    requires forall i | 0 <= i < |partial| :: !IsSpace(partial[i])
    ensures Flatten(SplitFrom(s, partial)) == partial + NonSpace(s)
    decreases |s|
  {
    if s == [] {
      assert partial + [] == partial;
      if partial != [] {
        assert Flatten([partial]) == partial + Flatten([]);
      }
    } else if IsSpace(s[0]) {
      SplitFlatten(s[1..], []);
      var rest := SplitFrom(s[1..], []);
      if partial != [] {
        assert ([partial] + rest)[1..] == rest;
      } else {
        assert [] + rest == rest;
      }
    } else {
      SplitFlatten(s[1..], partial + [s[0]]);
      assert partial + [s[0]] + NonSpace(s[1..]) == partial + ([s[0]] + NonSpace(s[1..]));
    }
  }

  /** `str.split()` with no argument: the maximal runs of non-separators.
      Written together, the words are `s` without its separators; lemmas
      `WordsLayout` and `LayoutWords` show they are its runs, in order. */
  function Words(s: string): (ws: seq<string>)
    ensures forall k | 0 <= k < |ws| :: IsWord(ws[k])
    ensures Flatten(ws) == NonSpace(s)
  {
    SplitFlatten(s, []);
    assert [] + NonSpace(s) == NonSpace(s);
    SplitFrom(s, [])
  }

  predicate AllSpace(g: string) {
    forall i | 0 <= i < |g| :: IsSpace(g[i])
  }

  /** `gaps[0] + ws[0] + gaps[1] + ... + ws[n - 1] + gaps[n]`. */
  function Interleave(gaps: seq<string>, ws: seq<string>): string
    requires |gaps| == |ws| + 1
    decreases |ws|
  {
    if ws == [] then gaps[0] else gaps[0] + ws[0] + Interleave(gaps[1..], ws[1..])
  }

  /** Words separated by runs of separators: every gap is made of separators
      and those between two words are non-empty. */
  predicate Layout(gaps: seq<string>, ws: seq<string>) {
    && |gaps| == |ws| + 1
    && (forall k | 0 <= k < |gaps| :: AllSpace(gaps[k]))
    && (forall k | 0 < k < |ws| :: gaps[k] != [])
    && (forall k | 0 <= k < |ws| :: IsWord(ws[k]))
  }

  lemma {:induction false} SplitSkipsSpaces(g: string, rest: string)
    requires AllSpace(g)
    ensures SplitFrom(g + rest, []) == SplitFrom(rest, [])
    decreases |g|
  {
    if g != [] {
      assert (g + rest)[0] == g[0];
      assert (g + rest)[1..] == g[1..] + rest;
      SplitSkipsSpaces(g[1..], rest);
    } else {
      assert g + rest == rest;
    }
  }

  lemma SplitEndsWord(g: string, rest: string, partial: string)
    requires forall i | 0 <= i < |partial| :: !IsSpace(partial[i])
    requires AllSpace(g) && g != [] && partial != []
    ensures SplitFrom(g + rest, partial) == [partial] + SplitFrom(rest, [])
  {
    assert (g + rest)[0] == g[0];
    assert (g + rest)[1..] == g[1..] + rest;
    SplitSkipsSpaces(g[1..], rest);
  }

  /** Only the words of a layout come back from splitting it. */
  lemma {:induction false} LayoutWords(gaps: seq<string>, ws: seq<string>)
    requires Layout(gaps, ws)
    ensures Words(Interleave(gaps, ws)) == ws
    decreases |ws|
  {
    if ws == [] {
      SplitSkipsSpaces(gaps[0], []);
      assert gaps[0] + [] == gaps[0];
    } else {
      var r := Interleave(gaps[1..], ws[1..]);
      assert Interleave(gaps, ws) == gaps[0] + (ws[0] + r);
      SplitSkipsSpaces(gaps[0], ws[0] + r);
      SplitReadsWord(ws[0], r, []);
      assert [] + ws[0] == ws[0];
      assert AllSpace(gaps[1]);
      if |ws| == 1 {
        assert r == gaps[1];
        if gaps[1] == [] {
          assert SplitFrom(r, ws[0]) == [ws[0]];
        } else {
          SplitEndsWord(gaps[1], [], ws[0]);
          assert gaps[1] + [] == gaps[1];
        }
        assert ws == [ws[0]];
      } else {
        assert Layout(gaps[1..], ws[1..]) by {
          forall k | 0 < k < |ws[1..]|
            ensures gaps[1..][k] != []
          {
            assert gaps[1..][k] == gaps[k + 1];
          }
        }
        LayoutWords(gaps[1..], ws[1..]);
        LayoutWordsNext(gaps, ws);
      }
    }
  }

  /** After the first word of a layout with several words comes a
      non-empty gap, which ends that word. */
  lemma LayoutWordsNext(gaps: seq<string>, ws: seq<string>)
    requires Layout(gaps, ws) && |ws| > 1
    requires SplitFrom(Interleave(gaps[1..], ws[1..]), []) == ws[1..]
    ensures SplitFrom(Interleave(gaps[1..], ws[1..]), ws[0]) == ws
  {
    var t := ws[1] + Interleave(gaps[2..], ws[2..]);
    assert gaps[1..][1..] == gaps[2..] && ws[1..][1..] == ws[2..];
    assert Interleave(gaps[1..], ws[1..]) == gaps[1] + t;
    assert AllSpace(gaps[1]) && gaps[1] != [];
    SplitEndsWord(gaps[1], t, ws[0]);
    SplitSkipsSpaces(gaps[1], t);
    assert ws == [ws[0]] + ws[1..];
  }

  /** Separators put in front of a layout join its first gap. */
  lemma LayoutGapFront(c: string, gaps: seq<string>, ws: seq<string>)
    requires AllSpace(c) && Layout(gaps, ws)
    ensures Layout([c + gaps[0]] + gaps[1..], ws)
    ensures Interleave([c + gaps[0]] + gaps[1..], ws) == c + Interleave(gaps, ws)
  {
    var g := [c + gaps[0]] + gaps[1..];
    assert g[1..] == gaps[1..];
    assert forall k | 0 < k < |g| :: g[k] == gaps[k];
    if ws != [] {
      assert c + gaps[0] + ws[0] + Interleave(gaps[1..], ws[1..])
          == c + (gaps[0] + ws[0] + Interleave(gaps[1..], ws[1..]));
    }
  }

  /** A word put in front of a layout that starts with separators. */
  lemma LayoutWordFront(w: string, gaps: seq<string>, ws: seq<string>)
    requires IsWord(w) && Layout(gaps, ws) && gaps[0] != []
    ensures Layout([[]] + gaps, [w] + ws)
    ensures Interleave([[]] + gaps, [w] + ws) == w + Interleave(gaps, ws)
  {
    var g := [[]] + gaps;
    var v := [w] + ws;
    assert g[1..] == gaps && v[1..] == ws;
    assert forall k | 0 < k < |g| :: g[k] == gaps[k - 1];
    assert forall k | 0 < k < |v| :: v[k] == ws[k - 1];
    assert [] + w == w;
  }

  /** The separator runs around the words `SplitFrom` returns. */
  ghost function SplitGaps(s: string, partial: string): (gaps: seq<string>)
    ensures |gaps| >= 1
    decreases |s|
  {
    if s == [] then (if partial == [] then [[]] else [[], []])
    else if IsSpace(s[0]) then
      var g := SplitGaps(s[1..], []);
      var front := [[s[0]] + g[0]] + g[1..];
      if partial == [] then front else [[]] + front
    else SplitGaps(s[1..], partial + [s[0]])
  }

  /** A separator read after the partial word: it ends that word, if any,
      and joins the gap in front of the rest. */
  lemma SplitLayoutSpace(s: string, partial: string)
    requires forall i | 0 <= i < |partial| :: !IsSpace(partial[i])
    requires s != [] && IsSpace(s[0])
    requires Layout(SplitGaps(s[1..], []), SplitFrom(s[1..], []))
    requires Interleave(SplitGaps(s[1..], []), SplitFrom(s[1..], [])) == s[1..]
    ensures Layout(SplitGaps(s, partial), SplitFrom(s, partial))
    ensures Interleave(SplitGaps(s, partial), SplitFrom(s, partial)) == partial + s
    ensures partial != [] ==> SplitGaps(s, partial)[0] == []
  {
    var rest := SplitFrom(s[1..], []);
    var g := SplitGaps(s[1..], []);
    var front := [[s[0]] + g[0]] + g[1..];
    LayoutGapFront([s[0]], g, rest);
    assert Interleave(front, rest) == s by {
      assert s == [s[0]] + s[1..];
    }
    if partial == [] {
      assert SplitFrom(s, partial) == rest by {
        assert [] + rest == rest;
      }
      assert SplitGaps(s, partial) == front;
    } else {
      assert SplitFrom(s, partial) == [partial] + rest;
      assert SplitGaps(s, partial) == [[]] + front;
      LayoutWordFront(partial, front, rest);
    }
  }

  lemma {:induction false} SplitLayout(s: string, partial: string)
    requires forall i | 0 <= i < |partial| :: !IsSpace(partial[i])
    ensures Layout(SplitGaps(s, partial), SplitFrom(s, partial))
    ensures Interleave(SplitGaps(s, partial), SplitFrom(s, partial)) == partial + s
    ensures partial != [] ==> SplitGaps(s, partial)[0] == []
    decreases |s|
  {
    if s == [] {
      if partial != [] {
        assert Interleave([[], []], [partial]) == [] + partial + Interleave([[]], []);
      }
    } else if IsSpace(s[0]) {
      SplitLayout(s[1..], []);
      assert [] + s[1..] == s[1..];
      SplitLayoutSpace(s, partial);
    } else {
      SplitLayout(s[1..], partial + [s[0]]);
      assert partial + [s[0]] + s[1..] == partial + s;
    }
  }

  /** Every string is its words laid out between runs of separators, so the
      words are its maximal runs of non-separators, in order. */
  lemma WordsLayout(s: string)
    ensures exists gaps :: Layout(gaps, Words(s)) && Interleave(gaps, Words(s)) == s
  {
    SplitLayout(s, []);
    assert [] + s == s;
    var gaps := SplitGaps(s, []);
    assert Layout(gaps, Words(s)) && Interleave(gaps, Words(s)) == s;
  }

  /** Words joined by single spaces, the inverse of `Words` on word lists. */
  function Unwords(ws: seq<string>): string {
    if ws == [] then [] else if |ws| == 1 then ws[0] else ws[0] + " " + Unwords(ws[1..])
  }

  lemma {:induction false} SplitReadsWord(w: string, rest: string, partial: string)
    requires forall i | 0 <= i < |partial| :: !IsSpace(partial[i])
    requires forall i | 0 <= i < |w| :: !IsSpace(w[i])
    ensures forall i | 0 <= i < |partial + w| :: !IsSpace((partial + w)[i])
    ensures SplitFrom(w + rest, partial) == SplitFrom(rest, partial + w)
    decreases |w|
  {
    if w == [] {
      assert w + rest == rest;
      assert partial + w == partial;
    } else {
      assert (w + rest)[0] == w[0];
      assert (w + rest)[1..] == w[1..] + rest;
      assert partial + [w[0]] + w[1..] == partial + w;
      SplitReadsWord(w[1..], rest, partial + [w[0]]);
    }
  }

  /** Splitting undoes joining: a list of words joined by single spaces
      splits back into the same list. */
  lemma {:induction false} WordsUnwords(ws: seq<string>)
    requires forall k | 0 <= k < |ws| :: IsWord(ws[k])
    ensures Words(Unwords(ws)) == ws
  {
    if ws == [] {
    } else if |ws| == 1 {
      SplitReadsWord(ws[0], [], []);
      assert ws[0] + [] == ws[0];
      assert [] + ws[0] == ws[0];
    } else {
      var rest := " " + Unwords(ws[1..]);
      assert Unwords(ws) == ws[0] + rest;
      SplitReadsWord(ws[0], rest, []);
      assert [] + ws[0] == ws[0];
      assert rest[0] == ' ' && rest[1..] == Unwords(ws[1..]);
      WordsUnwords(ws[1..]);
      assert ws == [ws[0]] + ws[1..];
    }
  }

  // ---------------------------------------------------------------------
  // Trailing punctuation
  // ---------------------------------------------------------------------

  /** The characters `rstrip('.,!?')` removes. */
  predicate Trailing(c: char) {
    c == '.' || c == ',' || c == '!' || c == '?'
  }

  /** `rstrip('.,!?')`: the longest prefix that does not end in one of the
      four marks. */
  function StripTrailing(w: string): (r: string)
    ensures |r| <= |w| && r == w[..|r|]
    ensures forall i | |r| <= i < |w| :: Trailing(w[i])
    ensures r == [] || !Trailing(r[|r| - 1])
  {
    if w == [] then []
    else if Trailing(w[|w| - 1]) then StripTrailing(w[..|w| - 1])
    else w
  }

  /** The stripped suffix of a word. */
  function Suffix(w: string): (s: string)
    ensures StripTrailing(w) + s == w
    ensures forall i | 0 <= i < |s| :: Trailing(s[i])
  {
    var r := StripTrailing(w);
    assert w == w[..|r|] + w[|r|..];
    w[|r|..]
  }

  /** The tokens one word yields at word index `i`: the word token, then a
      punctuation token when the stripped suffix is a vocabulary entry. */
  function WordTokens(w: string, i: nat): (ts: seq<Token>)
    ensures 1 <= |ts| <= 2
    ensures ts[0] == Token(Classify(StripTrailing(w)), StripTrailing(w), i)
    ensures |ts| == 2 <==> Suffix(w) == "." || Suffix(w) == "?" || Suffix(w) == "!"
    // the mark token carries the suffix and the category of that mark
    ensures |ts| == 2 ==> ts[1].pos == i && ts[1].value == Suffix(w)
    ensures |ts| == 2 ==>
      ts[1].cat == (if Suffix(w) == "." then Punto else if Suffix(w) == "?" then Interrogacion else Exclamacion)
  {
    var clean := StripTrailing(w);
    var mark := Suffix(w);
    PunctuationEntries(mark);
    [Token(Classify(clean), clean, i)]
      + (if mark != [] && Lookup(mark).Some? then [Token(Lookup(mark).value, mark, i)] else [])
  }

  /** The mark token is the suffix's own vocabulary entry. */
  lemma MarkTokenEntry(w: string, i: nat)
    ensures var ts := WordTokens(w, i);
      |ts| == 2 ==> Lookup(Suffix(w)) == Some(ts[1].cat) && ts[1] == Token(ts[1].cat, Suffix(w), i)
  {
    MarkLookups();
  }

  // ---------------------------------------------------------------------
  // The tokenizer
  // ---------------------------------------------------------------------

  /** `f` applied to each word and its index, numbered from `start`. */
  function MapWords(f: (string, nat) -> seq<Token>, ws: seq<string>, start: nat): (gs: seq<seq<Token>>)
    ensures |gs| == |ws|
  {
    if ws == [] then [] else [f(ws[0], start)] + MapWords(f, ws[1..], start + 1)
  }

  lemma {:induction false} MapWordsAt(f: (string, nat) -> seq<Token>, ws: seq<string>, start: nat)
    ensures forall i | 0 <= i < |ws| :: MapWords(f, ws, start)[i] == f(ws[i], start + i)
  {
    if ws != [] {
      var gs := MapWords(f, ws, start);
      var rest := MapWords(f, ws[1..], start + 1);
      assert gs == [f(ws[0], start)] + rest;
      MapWordsAt(f, ws[1..], start + 1);
      forall i | 1 <= i < |ws|
        ensures gs[i] == f(ws[i], start + i)
      {
        assert gs[i] == rest[i - 1];
        assert ws[1..][i - 1] == ws[i];
      }
    }
  }

  /** The per-word token groups of the words `ws`, numbered from `start`. */
  function WordGroups(ws: seq<string>, start: nat): (gs: seq<seq<Token>>)
    ensures |gs| == |ws|
    ensures forall i | 0 <= i < |ws| :: gs[i] == WordTokens(ws[i], start + i)
  {
    MapWordsAt(WordTokens, ws, start);
    MapWords(WordTokens, ws, start)
  }

  function Concat(gs: seq<seq<Token>>): seq<Token> {
    if gs == [] then [] else gs[0] + Concat(gs[1..])
  }

  /** Group `i` holds only tokens of word `start + i`. */
  predicate Grouped(gs: seq<seq<Token>>, start: nat) {
    forall i, k | 0 <= i < |gs| && 0 <= k < |gs[i]| :: gs[i][k].pos == start + i
  }

  /** Word positions never decrease along the list. */
  predicate Ordered(ts: seq<Token>) {
    forall j, k | 0 <= j <= k < |ts| :: ts[j].pos <= ts[k].pos
  }

  lemma {:induction false} ConcatBounds(gs: seq<seq<Token>>, start: nat)
    requires Grouped(gs, start)
    ensures forall k | 0 <= k < |Concat(gs)| :: start <= Concat(gs)[k].pos < start + |gs|
  {
    if gs != [] {
      ConcatBounds(gs[1..], start + 1);
      var ts := Concat(gs);
      assert ts == gs[0] + Concat(gs[1..]);
      forall k | 0 <= k < |ts|
        ensures start <= ts[k].pos < start + |gs|
      {
        if k < |gs[0]| {
          assert ts[k] == gs[0][k];
        } else {
          assert ts[k] == Concat(gs[1..])[k - |gs[0]|];
        }
      }
    }
  }

  lemma {:induction false} ConcatOrdered(gs: seq<seq<Token>>, start: nat)
    requires Grouped(gs, start)
    ensures Ordered(Concat(gs))
  {
    if gs != [] {
      var head := gs[0];
      var tail := Concat(gs[1..]);
      ConcatOrdered(gs[1..], start + 1);
      ConcatBounds(gs[1..], start + 1);
      var ts := head + tail;
      assert Concat(gs) == ts;
      forall j, k | 0 <= j <= k < |ts|
        ensures ts[j].pos <= ts[k].pos
      {
        if k < |head| {
          assert ts[j] == head[j] && ts[k] == head[k];
        } else if j < |head| {
          assert ts[j] == head[j] && ts[k] == tail[k - |head|];
        } else {
          assert ts[j] == tail[j - |head|] && ts[k] == tail[k - |head|];
        }
      }
    }
  }

  /** The tokens of the words `ws`, numbered from `start`, word after word. */
  function TokensFrom(ws: seq<string>, start: nat): seq<Token> {
    if ws == [] then [] else WordTokens(ws[0], start) + TokensFrom(ws[1..], start + 1)
  }

  lemma {:induction false} TokensFromGroups(ws: seq<string>, start: nat)
    ensures TokensFrom(ws, start) == Concat(WordGroups(ws, start))
  {
    if ws != [] {
      TokensFromGroups(ws[1..], start + 1);
      assert WordGroups(ws, start)[1..] == WordGroups(ws[1..], start + 1);
    }
  }

  /** `tokenizar`: lower-case, split on whitespace, then tokenize word by word. */
  function Tokenize(text: string): (ts: seq<Token>) {
    TokensFrom(Words(Lower(text)), 0)
  }

  /** The tokens carrying word index `p`, in order. */
  function TokensAt(ts: seq<Token>, p: nat): (r: seq<Token>)
    ensures forall k | 0 <= k < |r| :: r[k].pos == p
  {
    if ts == [] then []
    else (if ts[0].pos == p then [ts[0]] else []) + TokensAt(ts[1..], p)
  }

  lemma {:induction false} TokensAtConcat(a: seq<Token>, b: seq<Token>, p: nat)
    ensures TokensAt(a + b, p) == TokensAt(a, p) + TokensAt(b, p)
  {
    if a == [] {
      assert a + b == b;
    } else {
      assert (a + b)[1..] == a[1..] + b;
      TokensAtConcat(a[1..], b, p);
    }
  }

  lemma {:induction false} TokensAtAbsent(ts: seq<Token>, p: nat)
    requires forall k | 0 <= k < |ts| :: ts[k].pos != p
    ensures TokensAt(ts, p) == []
  {
    if ts != [] {
      TokensAtAbsent(ts[1..], p);
    }
  }

  lemma {:induction false} TokensAtAll(ts: seq<Token>, p: nat)
    requires forall k | 0 <= k < |ts| :: ts[k].pos == p
    ensures TokensAt(ts, p) == ts
  {
    if ts != [] {
      TokensAtAll(ts[1..], p);
      assert ts == [ts[0]] + ts[1..];
    }
  }

  lemma GroupedTail(gs: seq<seq<Token>>, start: nat)
    requires Grouped(gs, start) && gs != []
    ensures Grouped(gs[1..], start + 1)
    ensures forall k | 0 <= k < |gs[0]| :: gs[0][k].pos == start
  {
    forall i, k | 0 <= i < |gs[1..]| && 0 <= k < |gs[1..][i]|
      ensures gs[1..][i][k].pos == start + 1 + i
    {
      assert gs[1..][i] == gs[i + 1];
    }
  }

  /** The first group holds exactly the tokens of word `start`. */
  lemma ConcatGroupHead(gs: seq<seq<Token>>, start: nat)
    requires Grouped(gs, start) && gs != []
    ensures TokensAt(Concat(gs), start) == gs[0]
  {
    var head := gs[0];
    var tail := Concat(gs[1..]);
    assert Concat(gs) == head + tail;
    GroupedTail(gs, start);
    TokensAtConcat(head, tail, start);
    ConcatBounds(gs[1..], start + 1);
    TokensAtAbsent(tail, start);
    TokensAtAll(head, start);
    assert head + [] == head;
  }

  /** The first group holds no token of a later word. */
  lemma ConcatGroupSkip(gs: seq<seq<Token>>, start: nat, i: nat)
    requires Grouped(gs, start) && 0 < i < |gs|
    ensures TokensAt(Concat(gs), start + i) == TokensAt(Concat(gs[1..]), start + i)
  {
    var head := gs[0];
    var tail := Concat(gs[1..]);
    assert Concat(gs) == head + tail;
    GroupedTail(gs, start);
    TokensAtConcat(head, tail, start + i);
    TokensAtAbsent(head, start + i);
    assert [] + TokensAt(tail, start + i) == TokensAt(tail, start + i);
  }

  lemma {:induction false} ConcatGroup(gs: seq<seq<Token>>, start: nat, i: nat)
    requires Grouped(gs, start) && i < |gs|
    ensures TokensAt(Concat(gs), start + i) == gs[i]
    decreases i
  {
    if i == 0 {
      ConcatGroupHead(gs, start);
    } else {
      GroupedTail(gs, start);
      ConcatGroup(gs[1..], start + 1, i - 1);
      ConcatGroupSkip(gs, start, i);
      assert gs[1..][i - 1] == gs[i];
    }
  }

  lemma ConcatGroups(gs: seq<seq<Token>>, start: nat)
    requires Grouped(gs, start)
    ensures forall i | 0 <= i < |gs| :: TokensAt(Concat(gs), start + i) == gs[i]
  {
    forall i | 0 <= i < |gs|
      ensures TokensAt(Concat(gs), start + i) == gs[i]
    {
      ConcatGroup(gs, start, i);
    }
  }

  lemma WordGroupsGrouped(ws: seq<string>, start: nat)
    ensures Grouped(WordGroups(ws, start), start)
  {
    var gs: seq<seq<Token>> := WordGroups(ws, start);
    forall i, k | 0 <= i < |gs| && 0 <= k < |gs[i]|
      ensures gs[i][k].pos == start + i
    {
      var g := WordTokens(ws[i], start + i);
      assert gs[i] == g;
      assert k == 0 || k == 1;
    }
  }

  lemma {:induction false} TokensAtIn(ts: seq<Token>, p: nat)
    ensures forall t | t in TokensAt(ts, p) :: t in ts
  {
    if ts != [] {
      TokensAtIn(ts[1..], p);
      assert forall t | t in ts[1..] :: t in ts;
    }
  }

  /** A word outside the vocabulary becomes a `DESCONOCIDO` token. */
  lemma UnknownWordToken(text: string, i: nat)
    requires i < |Words(Lower(text))|
    requires Lookup(StripTrailing(Words(Lower(text))[i])).None?
    ensures Token(Desconocido, StripTrailing(Words(Lower(text))[i]), i) in Tokenize(text)
  {
    TokenizeSpec(text);
    TokensAtIn(Tokenize(text), i);
    assert TokensAt(Tokenize(text), i)[0] in TokensAt(Tokenize(text), i);
  }

  /** The tokens of a word list, word by word. */
  lemma WordListTokens(ws: seq<string>)
    ensures var ts := Concat(WordGroups(ws, 0));
      && Ordered(ts)
      && (forall k | 0 <= k < |ts| :: ts[k].pos < |ws|)
      && (forall i | 0 <= i < |ws| :: TokensAt(ts, i) == WordTokens(ws[i], i))
  {
    var gs := WordGroups(ws, 0);
    WordGroupsGrouped(ws, 0);
    ConcatOrdered(gs, 0);
    ConcatBounds(gs, 0);
    ConcatGroups(gs, 0);
  }

  /** What `tokenizar` produces, word by word: positions never decrease,
      every position names a word, and the tokens at word index `i` are
      exactly the tokens that word yields on its own. Together these fix the
      whole token list. */
  lemma TokenizeSpec(text: string)
    ensures var ws := Words(Lower(text)); var ts := Tokenize(text);
      && Ordered(ts)
      && (forall k | 0 <= k < |ts| :: ts[k].pos < |ws|)
      && (forall i | 0 <= i < |ws| :: TokensAt(ts, i) == WordTokens(ws[i], i))
  {
    TokensFromGroups(Words(Lower(text)), 0);
    WordListTokens(Words(Lower(text)));
  }
}

=== FILE: wrappers.dfy ===
/** Optional values shared by both parsing engines. */
module Wrappers {

  /** An optional value: the source's `None` versus a present value. */
  datatype Option<+T> = None | Some(value: T)
}
